=== FILE: README.md ===
# rel4-linux-kit, modelled in Dafny

This project models the sequential logic of rel4-linux-kit and proves
properties of it. rel4-linux-kit runs Linux programs on the seL4
microkernel. Its root task, kernel thread and file-system services run
as seL4 user-level components.

The primary piece is the build tool `tools/app-parser.py`. It decides
which services become standalone components and which fold into the
service that uses them. The modules `AppConfig`, `AppSelect`,
`AppReach`, `AppRun`, `AppWalk`, `AppOutput` and `AppMain` model it.
- The dependency graph is an arena of tasks indexed by number.
- The per-task counter is a sequence threaded through `select`.
- Root forcing is interleaved with the selection of later roots, as in the loop at the end of the script.
- The proofs characterise the counts: 0 exactly for unreachable tasks, and at least 2 for roots and tasks reached twice.
- They also prove that the standalone set does not depend on the interleaving.
- They state the pre-order resource aggregation (`get_mems`/`get_dmas`) and the emitted cfg flags.

The secondary pieces are the parts of the crates and services that
become pure once seL4 calls, hardware registers and foreign libraries
are parameters.
- **Allocators:** the index, virtual-frame and untyped allocators (`Allocators`); the slot manager (`SlotManager`); the untyped budget (`CapMem`).
- **IPC:** the reply-slot saver (`IpcSaver`), the message-register codec (`IpcCodec`) and bulk-data framing (`BulkData`).
- **Images and pages:** image footprint and page placement (`ImageLayout`), the 4 KiB page writer (`PhysPage`), the `sockaddr` codec and `CloneArgs` (`Uspace`), and the virtual/physical region maps (`VirtMem`).
- **Kernel-thread files:** signal masks (`SignalMask`), the pipe (`Pipe`), the mount table (`MountTable`), the file cursor (`FileCursor`), the console (`StdConsole`) and the device directory (`DevFs`).
- **Task memory:**
  - page-splitting reads and writes over a task's page map, and `brk` (`TaskMem`);
  - task ids, `find_free_area`, region mapping and the older task code (`TaskSpace`);
  - the memory system calls (`MmSyscalls`) and chunked user-buffer access (`ItemList`).
- **User stack:** the initial layout of strings, argv, envp and auxv (`UserStack`). It follows the process stack of section 3.4.1 of the System V AMD64 psABI, which Linux also uses on AArch64.
- **Time:** tick and nanosecond conversions (`Clock`), timer expiry (`Timer`), `wait4` matching (`ChildWait`), and `uname` and `gettimeofday` (`SysInfo`).
- **Storage:** block-cursor arithmetic shared by the lwext4 and FAT services (`BlockCursor`, `Ext4Disk`, `FatCursor`). The ext4 service's open/close/stat decisions and `getdents64` record packing are in `Ext4Fs`.

Shared definitions are in `Base`: `Option`/`Result`, errno values, bytes and
words, page constants, rounding and little-endian words.

A page map is a `map<nat, seq<Byte>>` from page address to its 4096 bytes.
The following are parameters of the functions that need them:
- the counter and frequency registers;
- the current time;
- the block device capacity;
- the allocation callback of the untyped budget;
- the inodes the ext4 library knows;
- wakers, as opaque tokens.

Addresses, sizes and counts are unbounded naturals except where the
64-bit result matters. There the arithmetic follows a release build,
which wraps modulo 2^64: the clock conversions (`Clock`), the FAT cursor
(`FatCursor`), the ext4 cursor advance (`Ext4Disk.Transfer`) and the
item-list length (`ItemList.ProcessItemList`). Three places model the
overflow as a panic outcome instead, as a debug build would:
`SignalMask.Masked` and `ItemList.AlignBits` for a shift of 64 or more,
and `UserStack.StringAddr` for a stack pointer below the string. The
checked arithmetic of `Ext4Disk.Target` is modelled as written.

## Model

| member | source | states |
|---|---|---|
| Allocators.NewIndexAllocator | crates/sel4-oskit/src/allocator.rs:18-25 | the constructor demands `next <= max` and starts at exactly `next` and `max` with nothing recycled, so the first index handed out is `next` (with `IndexAllocAscending`) |
| Allocators.IndexAlloc | crates/sel4-oskit/src/allocator.rs:28-38 | fresh indices come first; only when they are used up is the most recently recycled index popped; `None` exactly when both are exhausted, and then nothing changes |
| Allocators.IndexAllocAscending | crates/sel4-oskit/src/allocator.rs:29-32 | `n` allocations within the fresh range hand out `next, next+1, …`, strictly increasing and all below `max` |
| Allocators.IndexRecycleThenAlloc | crates/sel4-oskit/src/allocator.rs:33-43 | with the fresh range used up, a recycled index is the next one handed out and the allocator returns to its prior state (LIFO) |
| Allocators.IndexDoubleRecycle | crates/sel4-oskit/src/allocator.rs:41-43 | recycling has no duplicate check: an index recycled twice is handed out twice |
| Allocators.NewVirtFrameAllocator | crates/sel4-oskit/src/allocator.rs:54-60 | the frame range is exactly `[vstart / PAGE_SIZE, (vstart + size) / PAGE_SIZE)` with nothing recycled; it lies within the byte range and spans at most one page more than `size` |
| Allocators.VirtAlloc | crates/sel4-oskit/src/allocator.rs:62-73 | fresh frame numbers until `current == end`, then the most recently recycled one popped off the recycled list, then nothing with the state unchanged; a handed-out number is below `end` and no longer in the recycled list |
| Allocators.VirtDealloc | crates/sel4-oskit/src/allocator.rs:76-80 | a frame number is recycled only when it is below `current` and not already recycled; otherwise nothing changes |
| Allocators.VirtDeallocThenAlloc | crates/sel4-oskit/src/allocator.rs:63-80 | a number freed once the fresh range is used up is the next one allocated, restoring the state |
| Allocators.VirtDeallocIdempotent | crates/sel4-oskit/src/allocator.rs:77 | freeing the same number twice has the effect of freeing it once |
| Allocators.NewUntypedAllocator | crates/sel4-oskit/src/allocator.rs:94-100 | one empty recycle list per CPU |
| Allocators.UntypedAlloc | crates/sel4-oskit/src/allocator.rs:103-109 | a CPU gets its own most recently recycled capability, else a freshly retyped one; other CPUs' lists are untouched |
| Allocators.UntypedDealloc | crates/sel4-oskit/src/allocator.rs:112-114 | a freed capability is pushed on that CPU's list only |
| Allocators.UntypedDeallocThenAlloc | crates/sel4-oskit/src/allocator.rs:104-114 | a freed capability is the next one its CPU receives, and the state is restored |
| SlotManager.SlotSplits | crates/slot-manager/src/lib.rs:74-81 | a slot index is its CNode index times the CNode size plus its offset, and the offset is below the CNode size |
| SlotManager.SlotFromParts | crates/slot-manager/src/lib.rs:55-81 | a slot built from a CNode index and an offset splits back into exactly those two parts |
| SlotManager.SlotPartsInjective | crates/slot-manager/src/lib.rs:74-81 | two slots with the same CNode index and offset are the same slot |
| SlotManager.EmptySlots | crates/slot-manager/src/lib.rs:108-110 | the empty manager has an empty range |
| SlotManager.NewSlots | crates/slot-manager/src/lib.rs:113-122 | `new` and `init_empty_slots` take the range exactly as given |
| SlotManager.AllocSlot | crates/slot-manager/src/lib.rs:126-129 | allocation returns the range's start and advances it by one; an exhausted range panics |
| SlotManager.AllocSlotsConsecutive | crates/slot-manager/src/lib.rs:126-129 | `n` allocations succeed iff the range holds `n` slots; they return `start, start+1, …` in order and advance the range by `n` |
| SlotManager.AllocSlotsDistinct | crates/slot-manager/src/lib.rs:126-129 | the slots handed out by one manager are pairwise distinct |
| CapMem.NewCapMemSet | crates/common/src/mem/mod.rs:20-25 | a new set holds no untyped memory and keeps its supplier |
| CapMem.Add | crates/common/src/mem/mod.rs:50-52 | the untyped is appended at the end; earlier entries keep their order |
| CapMem.CheckAvailable | crates/common/src/mem/mod.rs:27-44 | the last entry is kept when it has strictly more than `size` left; otherwise a supplied untyped with at least `size` is appended; otherwise the call panics; on success the last entry can serve `size` |
| CapMem.AllocObject | crates/common/src/mem/mod.rs:54-95 | after the availability check the object's size is taken from the last entry only; the capability and all other entries are unchanged |
| CapMem.AllocConsumesBudget | crates/common/src/mem/mod.rs:27-62 | the total budget after an allocation, plus the object's size, equals the budget before plus whatever untyped was supplied |
| CapMem.AllocKeepsEarlier | crates/common/src/mem/mod.rs:58-62 | entries before the last are never touched and stay in order |
| CapMem.ExactFitRequestsNew | crates/common/src/mem/mod.rs:29-35 | the `>` / `>=` asymmetry: an entry with exactly `size` left is passed over and a new untyped is requested; without a supplier the call panics |
| IpcSaver.NewSaver | crates/common/src/ipc/ipc_saver.rs:23-28 | a new saver has an empty queue and no free slots |
| IpcSaver.SaveCaller | crates/common/src/ipc/ipc_saver.rs:31-39 | the slot is the top of the free stack, else a newly allocated one; it joins the back of the queue when the kernel's save succeeds; on failure the kernel's own error is returned and the queue is unchanged |
| IpcSaver.ReplyOne | crates/common/src/ipc/ipc_saver.rs:44-52 | the front of the queue is answered and its slot pushed on the free stack; an empty queue is left alone |
| IpcSaver.SavePreservesPartition | crates/common/src/ipc/ipc_saver.rs:31-39 | a successful save keeps every owned slot in exactly one of the queue and the free stack |
| IpcSaver.ReplyPreservesPartition | crates/common/src/ipc/ipc_saver.rs:44-52 | a reply keeps that partition: the answered slot moves from the queue to the free stack |
| IpcSaver.FailedSaveDropsSlot | crates/common/src/ipc/ipc_saver.rs:32-36 | when the kernel's save fails with any error, the slot already popped or allocated is in neither list (it leaks) |
| IpcSaver.SaveThenReplyFifo | crates/common/src/ipc/ipc_saver.rs:37-45 | the queue is first-in first-out: a save behind waiting callers does not change who is answered next |
| IpcSaver.SavesReuseFreedLifo | crates/common/src/ipc/ipc_saver.rs:32-37 | successive saves reuse freed slots from the most recently freed down and queue them behind the callers already waiting |
| IpcCodec.SetBytes | crates/common/src/ipcrw.rs:86 | a byte copy into the buffer writes exactly the target range and nothing else |
| IpcCodec.SetReg | crates/common/src/ipcrw.rs:25 | a register store makes that register read back the value and leaves every other byte |
| IpcCodec.IntRoundTrip | crates/common/src/ipcrw.rs:10-42 | each integer type (`u8` … `usize`, signed ones by two's complement) survives the `as` casts into a register and back |
| IpcCodec.Write | crates/common/src/ipcrw.rs:24-88 | an integer takes one register; a string takes a length register and `len.div_ceil(REG_LEN)` more; the write fails exactly when it would pass the end of the buffer |
| IpcCodec.Read | crates/common/src/ipcrw.rs:16-79 | a read yields a value of the requested type and advances by that value's register count |
| IpcCodec.WriteFootprint | crates/common/src/ipcrw.rs:24-88 | a write touches only the registers between its start and end offsets |
| IpcCodec.ReadLocal | crates/common/src/ipcrw.rs:16-54 | a read depends only on the registers between its start and end offsets |
| IpcCodec.WriteReadRoundTrip | crates/common/src/ipcrw.rs:16-88 | reading with a value's own type at the offset it was written to returns the value and the same end offset |
| IpcCodec.WriteAll | crates/common/src/ipcrw.rs:108-116 | `write_values!` writes the values in turn from register 0, never moving the offset back |
| IpcCodec.ReadAll | crates/common/src/ipcrw.rs:92-97 | `read_types!` reads one value per requested type from register 0 |
| IpcCodec.WriteAllFootprint | crates/common/src/ipcrw.rs:112-114 | later writes leave everything below their starting offset alone |
| IpcCodec.WriteAllReadAll | crates/common/src/ipcrw.rs:92-116 | values written by `write_values!` are read back in order by `read_types!` with the same types |
| IpcCodec.WriteValues | crates/common/src/ipcrw.rs:108-116 | as written, the registers are those `WriteAll` fills, and the returned message length is exactly `DivCeil(off, REG_LEN)` for the register offset `off`: the least `n` with `n * REG_LEN >= off` |
| IpcCodec.WriteValuesDropsRegisters | crates/common/src/ipcrw.rs:115 | two `u64` values fill registers 0 and 1, but the reported length is one register |
| IpcCodec.WriteValuesFixed | crates/common/src/ipcrw.rs:108-116 | with the length counted in registers, the result is exactly the registers `WriteAll` fills and their register offset `off`, which never exceeds the message-register count |
| IpcCodec.WriteAllBound | crates/common/src/ipcrw.rs:112-114 | the offset after a successful run of writes never passes the last register |
| IpcCodec.WriteValuesFixedCoversAll | crates/common/src/ipcrw.rs:108-116 | with the corrected length, every byte outside the message is untouched, so every written register is transferred |
| IpcCodec.WriteAllTail | crates/common/src/ipcrw.rs:112-114 | nothing at or above the final offset is written |
| IpcCodec.ServicesReadStr | crates/common/src/services/mod.rs:46-52 | the services `&str` reader advances by one length register plus the string's registers |
| IpcCodec.ServicesWriteStr | crates/common/src/services/mod.rs:55-61 | the services `&str` writer fails exactly when the string would pass the buffer's end, and advances like the reader |
| IpcCodec.CodecsAgree | crates/common/src/services/mod.rs:43-62 | the services codec and the `ipcrw` codec lay strings out identically: each reads what the other writes |
| BulkData.Frame | crates/common/src/utils.rs:163-174 | a message carries the bytes remaining after it in register 0, its chunk size (at most the buffer less two registers) in register 1, the chunk from byte `2 * REG_LEN`, and a length of `chunk.div_ceil(REG_LEN) + 2` registers |
| BulkData.SendFrom | crates/common/src/utils.rs:160-177 | the sender sends `ceil(remaining / chunk size)` messages |
| BulkData.RecvStep | crates/common/src/utils.rs:185-196 | the receiver appends each chunk and stops at the message whose remaining count is 0 |
| BulkData.SendRecvFrom | crates/common/src/utils.rs:160-198 | the receiver reassembles exactly the bytes the sender sent from any starting point |
| BulkData.SendRecvBulk | crates/common/src/utils.rs:160-198 | whole-transfer round trip; an empty transfer sends no message |
| BulkData.SendLengthsCover | crates/common/src/utils.rs:163-174 | every message fits the buffer and declares enough registers to cover its chunk |
| ImageLayout.Coarsen | crates/common/src/utils.rs:140-146 | the coarsened range starts at or below and ends at or above the original, both ends multiples of the granule, each moved by less than one granule |
| ImageLayout.CoarsenWhole | crates/common/src/utils.rs:140-142 | a coarsened range is a whole number of granules long |
| ImageLayout.MinAddress | crates/common/src/utils.rs:20-26 | the minimum is one of the segment addresses and no segment address is below it |
| ImageLayout.MaxEnd | crates/common/src/utils.rs:27-33 | the maximum is one of the segment ends and no segment ends above it |
| ImageLayout.Footprint | crates/common/src/utils.rs:19-35 | the footprint is page-aligned and covers every segment; an image without segments panics |
| ImageLayout.Placed | root-task/src/utils.rs:114-117 | the loaded segments are exactly those whose address is not 0 |
| ImageLayout.RootFootprint | root-task/src/utils.rs:55-72 | the root task's footprint is page-aligned, covers every segment at a nonzero address, and reaches the end of every segment, including those at address 0 |
| ImageLayout.RootFootprintSkipsZero | root-task/src/utils.rs:58-66 | a segment at address 0 raises the footprint's end but not its start, so the two `footprint` versions differ |
| ImageLayout.CopyData | crates/common/src/utils.rs:95-110 | copying a segment's data changes only the pages of its run |
| ImageLayout.CopyDataPlaces | crates/common/src/utils.rs:96-109 | byte `j` of the data lands `offset_into_page + j` bytes into the run: the first page from the segment's offset, later pages from offset 0 |
| ImageLayout.CopyDataFrame | crates/common/src/utils.rs:97-110 | bytes of the run outside the copied data keep their value |
| ImageLayout.CopyDataAt | crates/common/src/utils.rs:96-109 | the page and offset holding byte `j` of the data |
| ImageLayout.Place | crates/common/src/utils.rs:78-89 | a segment's page index and page counts stay within the footprint's pages, and its first data page plus its page offset is its address |
| ImageLayout.LoadAll | root-task/src/utils.rs:114-151 | the segment loop keeps the number of pages; the root task skips segments at address 0 |
| ImageLayout.LoadAllInRange | crates/common/src/utils.rs:77-110 | every loaded segment's data lies within the mapped pages |
| ImageLayout.LoadAllFrame | crates/common/src/utils.rs:71-110 | bytes that no loaded segment covers keep the zero of a fresh frame |
| ImageLayout.LoadAllPlaces | crates/common/src/utils.rs:77-110 | byte `j` of a loaded segment ends up at its address, unless a later segment's data overwrites that address |
| ImageLayout.PageMap | crates/common/src/utils.rs:114-120 | page `i` is inserted at `footprint.start + i * PAGE_SIZE`, and nothing else is |
| ImageLayout.MapImage | crates/common/src/utils.rs:64-121 | the page map produced by `map_image` has exactly the footprint's pages as keys |
| ImageLayout.MapImagePlaces | crates/common/src/utils.rs:64-121 | in the mapped image, each loaded segment's bytes sit on the page containing their address at their offset in it, unless a later segment overwrites them |
| ImageLayout.PageOfAddr | crates/common/src/utils.rs:115 | an address inside the run lies on page `(a - start) / PAGE_SIZE` of it, at its offset within that page |
| PhysPage.ZeroPage | crates/common/src/page.rs:46-52 | a freshly retyped frame is all zero |
| PhysPage.Overwrite | crates/common/src/page.rs:118 | the copy replaces exactly the target bytes |
| PhysPage.WriteBytes | crates/common/src/page.rs:116-119 | the offset is reduced modulo the page size; a write past the page's end panics |
| PhysPage.WriteUsize | crates/common/src/page.rs:103-107 | the word's eight little-endian bytes are stored at the reduced offset and every other byte of the page is unchanged; a word that would cross the page's end panics |
| PhysPage.WriteU8 | crates/common/src/page.rs:126-129 | exactly one byte changes, at the reduced offset, which is always inside the page |
| PhysPage.ReadUsize | crates/common/src/page.rs:134-137 | a read is defined exactly when the word lies inside the page |
| PhysPage.UsizeRoundTrip | crates/common/src/page.rs:103-137 | a word read back from where it was written is the word written |
| PhysPage.OffsetWraps | crates/common/src/page.rs:104-135 | offsets that differ by whole pages address the same bytes |
| PhysPage.UsizeWritesIndependent | crates/common/src/page.rs:103-137 | writing a word leaves a non-overlapping word unchanged |
| Uspace.FromSocketAddr | crates/common/src/uspace.rs:33-57 | the family is always `AF_INET` (2); the port goes big-endian into bytes 0-1; IPv4 octets fill bytes 2-5 and the rest stays zero; an IPv6 address contributes its first 12 octets |
| Uspace.IntoSocketAddr | crates/common/src/uspace.rs:59-70 | the result is always an IPv4 address |
| Uspace.Ipv4RoundTrip | crates/common/src/uspace.rs:33-70 | an IPv4 socket address survives the round trip through `sockaddr` |
| Uspace.Ipv6ComesBackAsIpv4 | crates/common/src/uspace.rs:46-66 | an IPv6 address comes back as the IPv4 address of its first four octets |
| Uspace.DefaultCloneArgs | crates/common/src/uspace.rs:128-140 | every pointer is null and the flags are 0 |
| VirtMem.NewManager | crates/sel4-oskit/src/memory.rs:25-38 | a new manager has empty maps and the frame allocator `VirtFrameAllocator::new(frame_start, frame_size)` |
| VirtMem.FirstIpcBuffer | crates/sel4-oskit/src/memory.rs:25-38 | a fresh manager over a page-aligned window of at least one page hands out the window start as its first IPC buffer when the page maps |
| VirtMem.AddRegion | crates/sel4-oskit/src/memory.rs:178-185 | the region is recorded in both directions, replacing an earlier entry with the same start |
| VirtMem.MapAlloc | crates/sel4-oskit/src/memory.rs:41-94 | a misaligned start or a zero or unaligned size fails with `AlignmentError` and nothing changes; on success page `i` is mapped at `start + i * granule` and the region is recorded |
| VirtMem.VirtToPhys | crates/sel4-oskit/src/memory.rs:97-114 | as written: the large-page key, when present, decides alone; otherwise the small-page entry translates with the offset measured from the large-page key; with neither key the lookup fails |
| VirtMem.VirtToPhysFixed | crates/sel4-oskit/src/memory.rs:97-114 | corrected: the small-page offset is measured from the small-page key; large-page lookups are unchanged; with neither key the lookup fails |
| VirtMem.PhysToVirt | crates/sel4-oskit/src/memory.rs:117-134 | the mirror lookup: the large-page key first, then the small-page key with its own offset, else `FailedLookup` |
| VirtMem.SmallPageRoundTrip | crates/sel4-oskit/src/memory.rs:97-185 | for a page mapped alone, the corrected lookup and `phys_to_virt` translate every byte of the page both ways |
| VirtMem.VirtToPhysMissesSmallPage | crates/sel4-oskit/src/memory.rs:106-107 | a page at `0x1000` mapped to `0x8_1000`: the lookup as written fails at `0x1010`, the corrected one gives `0x8_1010` |
| VirtMem.LargeRegionRoundTrip | crates/sel4-oskit/src/memory.rs:97-134 | a large-page-aligned region translates every address inside it both ways |
| VirtMem.AllocIpcBuffer | crates/sel4-oskit/src/memory.rs:137-169 | the buffer is at the next virtual frame number times the page size; the manager returned is the old one with the frame allocator advanced by that allocation and the maps untouched, whatever the outcome; `NotEnoughMemory` when the frame allocator is exhausted; when a frame number was taken but allocating or mapping the page fails, that error is returned and the frame number stays taken; success exactly when a frame number was taken and the mapping succeeded |
| VirtMem.DeallocIpcBuffer | crates/sel4-oskit/src/memory.rs:172-175 | freeing hands `vaddr / PAGE_SIZE` to the frame allocator's `dealloc`: it is pushed on the recycled list when it was handed out and not yet recycled, and otherwise nothing changes; the address maps are left alone |
| VirtMem.IpcBufferReuse | crates/sel4-oskit/src/memory.rs:141-175 | once fresh frames are used up, a freed IPC-buffer address is the next one handed out when its page maps |
| SignalMask.HowFromWord | services/kernel-thread/src/syscall/types/signal.rs:9-18 | `SigMaskHow::try_from` accepts exactly 0, 1 and 2, as `Block`, `Unblock` and `Setmask` |
| SignalMask.HowRoundTrip | services/kernel-thread/src/syscall/types/signal.rs:9-18 | each `how` survives the trip through its number |
| SignalMask.Handle | services/kernel-thread/src/syscall/types/signal.rs:33-39 | bit by bit: `Block` sets the mask's bits, `Unblock` clears them, `Setmask` replaces the whole word |
| SignalMask.Masked | services/kernel-thread/src/syscall/types/signal.rs:44-46 | as written, the answer is true exactly when the signal's bit is clear; a signal number of 64 or more overflows the shift |
| SignalMask.BlockIdempotent | services/kernel-thread/src/syscall/types/signal.rs:35 | blocking the same mask twice is blocking it once |
| SignalMask.BlockThenUnblock | services/kernel-thread/src/syscall/types/signal.rs:35-36 | block then unblock clears the mask's bits and restores every other bit |
| SignalMask.SetMaskForgets | services/kernel-thread/src/syscall/types/signal.rs:37 | `Setmask` does not depend on the previous mask |
| Pipe.CreatePipe2 | services/kernel-thread/src/fs/pipe.rs:72-86 | the pair is (read end, write end) over one empty queue with one writer |
| Pipe.ReadAt | services/kernel-thread/src/fs/pipe.rs:38-49 | the write end refuses with `EACCES`; an empty queue with a live writer gives `EAGAIN`; otherwise the first `min(buf.len(), queued)` bytes are taken from the front |
| Pipe.WriteAt | services/kernel-thread/src/fs/pipe.rs:51-58 | the read end refuses with `EACCES`; the write end appends all the data and returns its length |
| Pipe.Drop | services/kernel-thread/src/fs/pipe.rs:29-35 | dropping the write end decrements the writer count; the queue is untouched |
| Pipe.Run | services/kernel-thread/src/fs/pipe.rs:38-58 | a sequence of reads and writes leaves the writer count alone |
| Pipe.RunIsFifo | services/kernel-thread/src/fs/pipe.rs:38-58 | over any sequence of reads and writes, the bytes read, followed by what is still queued, are the initial queue followed by the bytes written |
| Pipe.EofAfterLastWriter | services/kernel-thread/src/fs/pipe.rs:29-48 | once the only writer is dropped, a read of an empty pipe returns 0 bytes (end of file) |
| Pipe.EmptyWithWriterRetries | services/kernel-thread/src/fs/pipe.rs:43-45 | a new pipe read before anything is written gives `EAGAIN` |
| MountTable.Best | services/kernel-thread/src/fs/mod.rs:40-57 | the fold keeps the longest non-empty mount path that is a prefix of the path, the earliest among equals (the `>` comparison) |
| MountTable.GetMounted | services/kernel-thread/src/fs/mod.rs:39-63 | the chosen mount's path is a prefix of the path and no matching mount is longer; nothing matches only when every matching path is empty (the `unwrap` panics) |
| MountTable.DoMount | services/kernel-thread/src/fs/mod.rs:70-73 | `mount` appends at the end |
| MountTable.Umount | services/kernel-thread/src/fs/mod.rs:79-82 | `umount` keeps exactly the entries with a different path, each at its rank among the kept entries, so in their original order |
| MountTable.MountShadows | services/kernel-thread/src/fs/mod.rs:40-73 | a mount longer than every earlier match takes over the paths below it |
| MountTable.EarlierWinsTie | services/kernel-thread/src/fs/mod.rs:48-52 | a later mount no longer than the current match does not change the answer |
| MountTable.UmountForgets | services/kernel-thread/src/fs/mod.rs:79-82 | after `umount(p)` no lookup answers with a mount at `p` |
| MountTable.PrefixNotPathAware | services/kernel-thread/src/fs/mod.rs:45 | matching is by string prefix, not path components: `/device` resolves to the mount at `/dev` |
| FileCursor.Open | services/kernel-thread/src/fs/file.rs:32-40 | the lookup of the covering mount panics when no non-empty mounted path is a prefix of the path; otherwise an opened file starts at offset 0 with its path, and the mount's error is passed through |
| FileCursor.FromRaw | services/kernel-thread/src/fs/file.rs:97-103 | a file made from a raw interface starts at offset 0 with an empty path |
| FileCursor.Advance | services/kernel-thread/src/fs/file.rs:46-79 | `read` and `write` advance the offset by the count transferred and leave it alone on error |
| FileCursor.PathOfOpen | services/kernel-thread/src/fs/file.rs:92-94 | a file opened under some mount reports the path it was opened with (`path()`), and a raw one the empty path |
| FileCursor.OpenUnmountedPanics | services/kernel-thread/src/fs/file.rs:32-40 | with only `/dev` mounted, or nothing, opening `/tmp/a` panics in the mount lookup whatever the file system would answer |
| FileCursor.ReadAll | services/kernel-thread/src/fs/file.rs:56-69 | a `metadata` error is returned with the offset untouched; an offset past the size underflows and panics; a failing `readat` call, when it is reached, returns its error with the offset advanced by the chunks read before it; otherwise the bytes from the offset to the end are returned and the offset moves to the end |
| StdConsole.ReadAt | services/kernel-thread/src/fs/stdio.rs:27-38 | consoles 1 and 2 refuse reads with `EPERM`; otherwise one pending character is returned, or 0 bytes when none is waiting; a character into an empty buffer panics |
| StdConsole.WriteAt | services/kernel-thread/src/fs/stdio.rs:40-46 | console 0 refuses writes with `EPERM`; the others emit all the data and return its length |
| StdConsole.Permissions | services/kernel-thread/src/fs/stdio.rs:27-46 | consoles above 2 may both read and write; every console may do at least one; exactly consoles 0-2 refuse one direction |
| DevFs.NewDevDir | services/kernel-thread/src/fs/devfs/mod.rs:62-73 | the device directory holds exactly `stdout`, `stderr`, `stdin`, `ttyv0`, `null` and `zero`, with the console indices 1, 2, 0, 3 |
| DevFs.Add | services/kernel-thread/src/fs/devfs/mod.rs:75-77 | `add` inserts or replaces one name and keeps the rest |
| DevFs.Lookup | services/kernel-thread/src/fs/devfs/mod.rs:87-89 | a present name yields its node; an absent one `ENOENT` |
| DevFs.SortedNames | services/kernel-thread/src/fs/devfs/mod.rs:91-102 | the `BTreeMap` keys come out once each, in strictly ascending byte order |
| DevFs.ReadDir | services/kernel-thread/src/fs/devfs/mod.rs:91-102 | one entry per device, each of length 0 and type `Device`, sorted by name |
| DevFs.SortedUnique | services/kernel-thread/src/fs/devfs/mod.rs:91-102 | the sorted listing of a set of names is unique, so the listing is determined by the names |
| DevFs.DirStat | services/kernel-thread/src/fs/devfs/mod.rs:104-116 | the directory's `stat` is a directory mode, inode 1, one link, 512-byte blocks and zero elsewhere; the times are left as they were |
| DevFs.NewDevDirListing | services/kernel-thread/src/fs/devfs/mod.rs:62-102 | the initial directory lists `null, stderr, stdin, stdout, ttyv0, zero` |
| DevFs.AddThenLookup | services/kernel-thread/src/fs/devfs/mod.rs:75-102 | an added device is found by lookup and listed by `read_dir` |
| TaskMem.DefaultMemInfo | services/kernel-thread/src/task/mem.rs:24-32 | a task starts with no pages mapped and the heap end at `DEF_HEAP_ADDR` |
| TaskMem.ReadBytes | services/kernel-thread/src/task/mem.rs:81-93 | `read_bytes(vaddr, len)` succeeds exactly when every byte of the range is mapped, and then returns those bytes in order, page by page |
| TaskMem.WriteBytes | services/kernel-thread/src/task/mem.rs:151-162 | AS WRITTEN: the page set is unchanged, the call reports success exactly when the whole range is mapped, bytes outside the range are untouched, and on success a byte on the first page gets the data byte at its distance from the start while a byte on any later page gets the data byte at its offset in its page |
| TaskMem.WriteBytesInPage | services/kernel-thread/src/task/mem.rs:151-162 | a write inside one mapped page reads back as the data even as written |
| TaskMem.WriteBytesFixed | services/kernel-thread/src/task/mem.rs:151-162 | as intended: on success every byte of the range holds the matching data byte; the page set and every byte outside are unchanged |
| TaskMem.WriteReadRoundTrip | services/kernel-thread/src/task/mem.rs:81-162 | reading back what the corrected `write_bytes` wrote over a mapped range returns the data |
| TaskMem.WriteBytesRepeatsChunk | services/kernel-thread/src/task/mem.rs:158 | `[1, 2, 3, 4]` written at 0xffe reads back as `[1, 2, 1, 2]`: each page gets the data's first `rsize` bytes, not the next ones |
| TaskMem.ReadIns | services/kernel-thread/src/task/mem.rs:62-72 | an unmapped page gives `None`; a word crossing the page end panics on the slice; otherwise the 4 bytes at the address read little-endian |
| TaskMem.ReadCstr | services/kernel-thread/src/task/mem.rs:101-117 | `read_cstr` returns the bytes up to the first NUL, across pages, or `None` exactly when an unmapped page is reached first |
| TaskMem.ReadVec | services/kernel-thread/src/task/mem.rs:125-141 | AS WRITTEN: the words before a zero word inside the first page, `None` for an unmapped page; a page with no zero word from the offset on never ends the loop |
| TaskMem.ReadVecFixed | services/kernel-thread/src/task/mem.rs:125-141 | as intended: the words up to the first zero word across pages, or a fault exactly when an unmapped page is reached first; it always ends |
| TaskMem.ReadVecAgrees | services/kernel-thread/src/task/mem.rs:125-141 | when a zero word is found in the first page the two agree |
| TaskMem.ReadVecMissesNextPage | services/kernel-thread/src/task/mem.rs:139 | a vector whose terminating zero is on the next page hangs: `vaddr += PAGE_SIZE - offset` adds 0 once `offset` reached `PAGE_SIZE` |
| TaskMem.MapPage | services/kernel-thread/src/task/mod.rs:174-198 | `map_page` asserts alignment and then records a zeroed frame at the address, keeping every other page |
| TaskMem.MapSteps | services/kernel-thread/src/task/mem.rs:49-52 | the `brk` loop maps a zeroed page at the page key of each step `origin + i * PAGE_SIZE` below the new end, and no other |
| TaskMem.Brk | services/kernel-thread/src/task/mem.rs:41-54 | AS WRITTEN: 0 returns the heap end unchanged; any other value is recorded and returned; pages appear exactly at the keys of the steps from the old end, each step key holds a fresh zeroed page (an already mapped one is replaced), and every other key keeps its page |
| TaskMem.BrkCoversFromAligned | services/kernel-thread/src/task/mem.rs:41-54 | from a page-aligned heap end every byte up to the new end is mapped |
| TaskMem.BrkSkipsPage | services/kernel-thread/src/task/mem.rs:49-51 | growing from 0x1_0000_0800 to 0x1_0000_1800 leaves 0x1_0000_1000 unmapped |
| TaskMem.BrkFixed | services/kernel-thread/src/task/mem.rs:41-54 | as intended: every byte from the old heap end to the new one is mapped and pages already mapped keep their contents |
| TaskMem.BrkAgreesWhenAligned | services/kernel-thread/src/task/mem.rs:41-54 | from an aligned end above every mapped page the two map the same pages |
| TaskMem.ClearMapped | services/kernel-thread/src/task/mem.rs:167-174 | `clear_maped` leaves no byte mapped and the heap end unchanged |
| TaskSpace.NewTask | services/kernel-thread/src/task/mod.rs:92-133 | the id counter advances even when the endpoint mint fails; a new task has id = pid = the old counter, parent 1, no exit code and a zero timer |
| TaskSpace.CreateThread | services/kernel-thread/src/task/mod.rs:136-153 | a thread takes a fresh id and otherwise shares the parent's process, parent, capabilities and memory, with no exit code and a zero timer |
| TaskSpace.DoSpawn | services/kernel-thread/src/task/mod.rs:92-153 | each creation consumes one id; existing tasks are kept and at most one task, carrying that id, is added |
| TaskSpace.SpawnKeepsIdsFresh | services/kernel-thread/src/task/mod.rs:92-153 | creation keeps task ids unique and below the counter |
| TaskSpace.SpawnAllIncreasing | services/kernel-thread/src/task/mod.rs:92-153 | over any run of creations ids stay unique and every later task's id is above every earlier one |
| TaskSpace.FindFreeArea | services/kernel-thread/src/task/mod.rs:159-168 | AS WRITTEN: the answer is the starting candidate or the end of a mapped page, and the area overlaps no mapped page |
| TaskSpace.FindFreeAreaFixed | services/kernel-thread/src/task/mod.rs:159-168 | as intended: the area starts at or after `max(task_vm_end, start)` and overlaps no mapped page |
| TaskSpace.FindFromAgrees | services/kernel-thread/src/task/mod.rs:159-168 | when no page ends at or below the starting candidate the two walks agree |
| TaskSpace.FindFreeAreaGoesBelowStart | services/kernel-thread/src/task/mod.rs:165 | with pages at 0x1000 and 0x5000, a one-page request from 0x10000 is given 0x2000, below the requested start |
| TaskSpace.FindFreeAreaOld | services/kernel-thread/src/task.rs:153-163 | the older walk from `max(USPACE_BASE, start)` always answers, with a non-overlapping area that starts at the candidate or a page end |
| TaskSpace.MapRegion | services/kernel-thread/src/task/mod.rs:216-224 | both ends must be aligned; then a zeroed page is mapped at each page address from `start` below `end` and the rest is kept |
| TaskSpace.MapRegionZeroed | services/kernel-thread/src/task/mod.rs:216-224 | a mapped region reads as zeros over its whole extent |
| TaskSpace.UnmapPage | services/kernel-thread/src/task/mod.rs:203-208 | an aligned address loses its page, if any, and every other page is kept; an unaligned one fails the assertion |
| TaskSpace.MapThenUnmap | services/kernel-thread/src/task/mod.rs:174-208 | mapping then unmapping an address that was unmapped restores the page map |
| TaskSpace.UnmapPageOld | services/kernel-thread/src/task.rs:193-202 | the older version removes the key only after a successful frame unmap and panics otherwise |
| TaskSpace.TaskVmEnd | services/kernel-thread/src/task/mod.rs:265-270 | `task_vm_end` is the least page multiple at or above every section's end |
| TaskSpace.BrkOld | services/kernel-thread/src/task.rs:304-313 | the older `brk` maps a fresh zeroed page at each step from the heap end below `value` (each step must be aligned), replacing a page already there, keeps every other page, returns `value` and never records the new end |
| TaskSpace.BrkOldRepeats | services/kernel-thread/src/task.rs:304-313 | because the end is not recorded, repeating a request maps the same pages again |
| MmSyscalls.SysBrk | services/kernel-thread/src/syscall/mm.rs:16-20 | `sys_brk` never fails: 0 reports the heap end, any other value becomes the heap end and is returned |
| MmSyscalls.BrkThenQuery | services/kernel-thread/src/syscall/mm.rs:16-20 | after `brk(v)` with `v != 0`, `brk(0)` reports `v` |
| MmSyscalls.MapFresh | services/kernel-thread/src/syscall/mm.rs:57-64 | the `mmap` loop maps a zeroed page at each page address of the area and keeps the other pages |
| MmSyscalls.MmapArea | services/kernel-thread/src/syscall/mm.rs:43-66 | the area starts at `find_free_area`; an unknown descriptor is `EINVAL`; an unaligned area panics in `map_page`; an anonymous area reads as zeros with earlier pages kept; a file that fits is written by the as-written `write_bytes`, so each byte gets the file byte at its offset in its page, and a file of at most one page reads back at the area |
| MmSyscalls.SysMmap | services/kernel-thread/src/syscall/mm.rs:22-67 | an unaligned `start` panics; a range below the `brk` heap end and above `DEF_HEAP_ADDR` is returned as is; anything else goes to `MmapArea` |
| MmSyscalls.RoundTripIfFits | services/kernel-thread/src/syscall/mm.rs:57-60 | file contents no longer than the freshly mapped area are written whole by the as-written `write_bytes`, and read back when they stay inside the area's first page |
| MmSyscalls.RoundTripIfFitsFixed | services/kernel-thread/src/syscall/mm.rs:57-60 | with the corrected `write_bytes` every file no longer than the mapped area reads back from it |
| MmSyscalls.MmapFileSpillsPastArea | services/kernel-thread/src/syscall/mm.rs:55-60 | a file longer than the requested size is written past the area, over a page that was mapped before |
| MmSyscalls.SysMunmap | services/kernel-thread/src/syscall/mm.rs:69-80 | `munmap` drops exactly the page keys inside `[start, start + len)`, keeps the others, and returns 0 |
| MmSyscalls.MunmapKeepsStraddlingPage | services/kernel-thread/src/syscall/mm.rs:72 | a page whose key lies below `start` stays mapped though part of it is in the range |
| MmSyscalls.ProtToRights | services/kernel-thread/src/syscall/mm/mmap.rs:22-36 | read and write rights follow `PROT_READ` and `PROT_WRITE`; grant rights are always kept |
| MmSyscalls.ExecIgnored | services/kernel-thread/src/syscall/mm/mmap.rs:32-33 | `PROT_EXEC` has no effect on the rights |
| MmSyscalls.SysMmapOld | services/kernel-thread/src/syscall/mm/mmap.rs:59-93 | unknown flag or protection bits are `EINVAL`; `MAP_FIXED` takes the address as given, otherwise the older `find_free_area`; then every page of the rounded range that is missing is mapped |
| MmSyscalls.MapTouched | services/kernel-thread/src/syscall/mm/mmap.rs:79-90 | every byte of the area is mapped afterwards, mapped pages keep their contents, and new pages lie in the page-rounded range and are zeroed |
| MmSyscalls.MmapOldAreaWasFree | services/kernel-thread/src/syscall/mm/mmap.rs:72-77 | without `MAP_FIXED` the area overlapped no page mapped before |
| MmSyscalls.SysUnmapOld | services/kernel-thread/src/syscall/mm/mmap.rs:95-109 | the older unmap drops exactly the pages of the page-rounded range and returns 0 |
| MmSyscalls.MmapThenUnmapOld | services/kernel-thread/src/syscall/mm/mmap.rs:59-109 | unmapping what was just mapped leaves the whole area unmapped |
| MmSyscalls.SysBrkOld | services/kernel-thread/src/syscall/mm/brk.rs:6-18 | an address outside the heap window is `ENOMEM`; a larger one maps pages at the page-aligned keys from the old end below the new one, each a fresh zeroed page, while every other key keeps its page; the end is recorded and 0 returned |
| MmSyscalls.BrkOldUnalignedPanics | services/kernel-thread/src/syscall/mm/brk.rs:13-16 | after a `brk` to a mid-page end, growing again fails the older `map_page` alignment assertion |
| UserStack.StringAddr | services/kernel-thread/src/task/init.rs:45 | a string goes at `align_down(sp - len, 16)`, below `sp` with its reserve and within 15 bytes of it; an underflow panics |
| UserStack.StringAddrsOrder | services/kernel-thread/src/task/init.rs:39-50 | the argument strings' addresses are 16-byte aligned, each string's reserve lies below `sp` and below every earlier string |
| UserStack.WriteString | services/kernel-thread/src/task/init.rs:46-47 | a string is written at its address and then a NUL after it; a write past the page end panics |
| UserStack.PlaceArgs | services/kernel-thread/src/task/init.rs:39-50 | the strings are placed in argument order and one address is returned per argument |
| UserStack.PlaceArgsReadBack | services/kernel-thread/src/task/init.rs:39-50 | every placed string lies at its address afterwards, followed by its NUL when a byte was reserved for it |
| UserStack.PushNums | services/kernel-thread/src/task/init.rs:52-55 | each `push_num` lowers the stack pointer by one word, so `n` pushes lower it by `8 * n` |
| UserStack.PushReadBack | services/kernel-thread/src/task/init.rs:52-55 | words pushed inside a page read back from the final stack pointer up in reverse order of pushing |
| UserStack.AuxvAscendingListsMap | services/kernel-thread/src/task/init.rs:57-71 | the `BTreeMap` yields every auxiliary entry exactly once, in increasing type order |
| UserStack.AuxvKeys | services/kernel-thread/src/task/init.rs:57-65 | the auxiliary vector has exactly the eight types `NULL`, `PAGESZ`, `ENTRY`, `UID`, `EUID`, `GID`, `EGID`, `EXECFN` |
| UserStack.PushList | services/kernel-thread/src/task/init.rs:67-78 | the words pushed are the 16 auxiliary words, two terminators, the argument pointers and the count: the number of arguments plus 19 words |
| UserStack.PushesBuildImage | services/kernel-thread/src/task/init.rs:67-78 | the pushes, read upward from the final stack pointer, are the System V initial stack: count, pointers, NULL, empty environment, the auxiliary vector ending with `AT_NULL` |
| UserStack.StackPage | services/kernel-thread/src/task/init.rs:36-79 | no arguments panic on `args_ptr[0]`; otherwise one pointer per argument |
| UserStack.StackPageLayout | services/kernel-thread/src/task/init.rs:36-79 | a stack that fits in its page holds the initial-stack image from the final stack pointer up, with the strings above it and below the top |
| UserStack.BuildStack | services/kernel-thread/src/task/init.rs:36-79 | the stack is built into one mapped page and the other pages are untouched; a missing page panics |
| UserStack.InitStack | services/kernel-thread/src/task/init.rs:36-79 | AS WRITTEN: the page looked up is keyed `USPACE_STACK_TOP`, and without it or without arguments the call panics |
| UserStack.InitStackFixed | services/kernel-thread/src/task/init.rs:36-79 | as intended: the page below `USPACE_STACK_TOP` is used and a byte is reserved for each NUL |
| UserStack.InitStackFixedLayout | services/kernel-thread/src/task/init.rs:36-79 | when the stack fits in its page the task reads the initial-stack image from the stack pointer up and every argument as a NUL-terminated string at its pointer |
| UserStack.InitStackMissesStackPage | services/kernel-thread/src/task/init.rs:37 | on the stack region `map_region` sets up below `USPACE_STACK_TOP`, the as-written lookup panics and the corrected one succeeds |
| UserStack.ArgStringsOverwriteFirst | services/kernel-thread/src/task/init.rs:45-47 | with two 16-byte arguments the second string's NUL lands on the first byte of the first string |
| UserStack.MapStack | services/kernel-thread/src/task.rs:204-263 | the older `map_stack` asserts alignment, maps a zeroed frame at each page of the range and builds the stack (strings unterminated) in the top one |
| UserStack.MapStackLayout | services/kernel-thread/src/task.rs:204-263 | reading the stack `map_stack` built gives the initial-stack image from the returned pointer up and each argument's bytes at its pointer |
| ItemList.AlignBits | services/kernel-thread/src/utils/mod.rs:25-27 | clearing the low `b` bits rounds down to a multiple of `2^b`; a shift of 64 or more overflows |
| ItemList.ProcessItemList | services/kernel-thread/src/utils/mod.rs:36-92 | one item crossing a page end is `EINVAL` with no calls; otherwise the length `size * number` taken modulo 2^64 is visited, the calls tiling it page by page from offset 0; `Ok(len)` exactly when every page of that length is mapped, else `EFAULT` at the first unmapped page |
| ItemList.ItemBytesWrap | services/kernel-thread/src/utils/mod.rs:50 | 2^60 sixteen-byte items wrap to a length of 0: nothing is visited and the call succeeds |
| ItemList.SingleItemOneCall | services/kernel-thread/src/utils/mod.rs:46-91 | a single item inside one page is handed over in one call |
| AppConfig.Find | tools/app-parser.py:72 | a lookup in `tasks` finds the entry with that name, or reports that none has it |
| AppConfig.LoadKeys | tools/app-parser.py:85-95 | registering the descriptors keeps one entry per name and holds exactly the declared names |
| AppConfig.LoadValues | tools/app-parser.py:86-95 | the entry under a name holds the fields of the LAST descriptor with that name (`tasks[name] = task_obj` overwrites) |
| AppConfig.LoadOrder | tools/app-parser.py:86-95 | entries stay in the order in which their names were FIRST declared (a dictionary keeps a key's first insertion position) |
| AppConfig.InsertEntries | tools/app-parser.py:95 | after `tasks[t.name] = t` the entry named `t.name` is `t` and every other entry is unchanged and in place |
| AppConfig.ResolveNames | tools/app-parser.py:41-43 | `init` resolves every dependency name to the registered task with that name, in order; the first unregistered name is the `KeyError` |
| AppConfig.Resolve | tools/app-parser.py:96-97 | resolving all tasks succeeds exactly when every dependency of every registered task is registered; otherwise the error names an unregistered dependency |
| AppConfig.ParseConfigSucceeds | tools/app-parser.py:85-97 | a configuration whose dependencies are all declared names parses |
| AppConfig.ParseConfigFails | tools/app-parser.py:85-97 | an undeclared dependency in the descriptor that wins its name makes parsing fail with an undeclared name |
| AppSelect.Select | tools/app-parser.py:45-50 | `select` raises the counter of `t` by one plus, for every task, one per mention among the dependencies of the tasks it visits for the first time; a task already visited only counts once more |
| AppSelect.SelectAll | tools/app-parser.py:49-50 | selecting a list of tasks adds, for each task, its occurrences in the list plus the mentions by the tasks newly visited |
| AppSelect.HitsCovers | tools/app-parser.py:47-50 | a task visited for the first time selects every one of its dependencies |
| AppReach.VisitedClosed | tools/app-parser.py:45-50 | after selecting the roots from zero counters, the visited tasks hold every root and every dependency of a visited task |
| AppReach.CountZeroIffUnreachable | tools/app-parser.py:45-50 | a task's counter stays 0 exactly when no root reaches it through dependencies |
| AppRun.Force | tools/app-parser.py:153-156 | the main loop leaves every root with a counter of at least 2 and lowers no counter |
| AppRun.Bump | tools/app-parser.py:155-156 | `if in_degree <= 1: in_degree += 1` lifts a visited root to 2 and touches no other counter |
| AppRun.SelectDelta | tools/app-parser.py:45-50 | what a selection adds depends only on which tasks were visited, not on the counter values |
| AppRun.ForcingOnlyBumpsRoots | tools/app-parser.py:153-156 | the bump after each root changes a counter by at most 1 compared with the plain walk, and only a root's |
| AppRun.StandaloneIffRootOrShared | tools/app-parser.py:75-156 | in any root order, a task ends standalone (counter at least 2) exactly when it is a root or the plain walk selected it at least twice |
| AppRun.ForcedZeroIffUnreachable | tools/app-parser.py:45-156 | after the main loop a counter is 0 exactly when no root reaches the task |
| AppWalk.RunWalkOrder | tools/app-parser.py:45-156 | the first visits of a run list every visited task, and each dependency of a listed task is standalone or listed after it, so the recursive gathering of resources follows an ordering |
| AppOutput.Standalone | tools/app-parser.py:75-82 | `get_all_standalone_tasks` lists exactly the tasks with a counter above 1, in registry order |
| AppOutput.FoldGathers | tools/app-parser.py:52-68 | `get_mems(t)` and `get_dmas(t)` are the regions of `t` followed by those of its non-standalone dependencies, recursively, in pre-order |
| AppOutput.Services | tools/app-parser.py:103-118 | one `service!` entry per standalone task, in registry order, with its name and file and exactly the regions `get_mems(t)` and `get_dmas(t)` gather for it, its own ones first |
| AppOutput.CfgFlagsFromStandaloneOnly | tools/app-parser.py:124-128 | a `--cfg` flag is emitted exactly for a value in the OWN `cfg` list of a standalone task; a folded dependency's values are dropped |
| AppOutput.PrefixedMember | tools/app-parser.py:127 | the prefixed flags hold exactly the prefixed values |
| AppMain.RunScript | tools/app-parser.py:140-158 | an undeclared dependency fails first; then a missing argument, then an empty selection, each with a message; an unregistered root is a `KeyError`; otherwise the table and flags are produced |
| AppMain.ScriptEmitsShared | tools/app-parser.py:75-158 | end to end: the generated table names a task exactly when it was selected by name or the plain walk reached it at least twice |
| AppMain.RootIffSelected | tools/app-parser.py:153-154 | with unique names, a task is a resolved root exactly when its name was selected |
| Clock.TicksToNsWrapping | crates/common/src/arch/mod.rs:18-80 | AS WRITTEN: `cnt * 10^9 / freq` in 64-bit arithmetic equals the exact conversion only while the product fits in 64 bits |
| Clock.TicksToNsWrappingGoesBack | crates/common/src/arch/mod.rs:24 | at 62.5 MHz, counter 18_446_744_073 reads as 295_147_905_168 ns and the next tick as 4 ns: the clock runs backwards after about 295 s |
| Clock.TicksToNs | crates/sel4-kit/src/arch/aarch64/timer.rs:22-29 | the conversion computed as whole seconds plus the scaled remainder is exactly `floor(ticks * 10^9 / freq)` |
| Clock.TicksToNsMonotone | crates/sel4-kit/src/arch/aarch64/timer.rs:22-29 | with the exact conversion a later counter value never reads as an earlier time |
| Clock.CurrUs | crates/common/src/arch/mod.rs:41-43 | AS WRITTEN: the wrapping nanosecond clock divided by 1000; while `cnt * 10^9` fits in 64 bits it is the tick count converted straight to microseconds |
| Clock.CurrMs | crates/common/src/arch/mod.rs:47-49 | AS WRITTEN: the wrapping nanosecond clock divided by 10^6; while `cnt * 10^9` fits in 64 bits it is the tick count converted straight to milliseconds |
| Clock.CurrSec | crates/common/src/arch/mod.rs:53-55 | AS WRITTEN: the wrapping nanosecond clock divided by 10^9; while `cnt * 10^9` fits in 64 bits it is the number of whole counter periods, `cnt / freq` |
| Clock.CurrSecGoesBack | crates/common/src/arch/mod.rs:41-55 | at 62.5 MHz the seconds fall from 295 back to 0, and the microseconds to 0, one tick after 18_446_744_073, where the exact clock reads 295 s |
| Clock.CurrUsExact | crates/common/src/arch/mod.rs:41-43 | corrected: the exact nanosecond clock divided by 1000 is `cnt * 10^6 / freq` |
| Clock.CurrMsExact | crates/common/src/arch/mod.rs:47-49 | corrected: the exact nanosecond clock divided by 10^6 is `cnt * 10^3 / freq` |
| Clock.CurrSecExact | crates/common/src/arch/mod.rs:53-55 | corrected: the exact nanosecond clock divided by 10^9 is `cnt / freq` |
| Clock.CurrAgreesWhileFits | crates/common/src/arch/mod.rs:18-55 | while `cnt * 10^9` fits in 64 bits the three clocks as written agree with the exact ones |
| Clock.SetTimerWrapping | crates/common/src/arch/mod.rs:59-70 | AS WRITTEN: the timer is enabled exactly for a non-zero deadline, and the compare value is `ns * freq / 10^9` only while the product fits in 64 bits |
| Clock.SetTimerWrappingFiresEarly | crates/common/src/arch/mod.rs:60 | at 62.5 MHz a deadline of 295_147_905_179 ns is programmed as compare value 18_446_744_073, and one nanosecond later as 0 instead of 18_446_744_073 ticks |
| Clock.SetTimer | crates/common/src/arch/mod.rs:59-70 | with the split conversion the compare value is the exact `floor(ns * freq / 10^9)` and the enable bit follows `ns != 0` |
| Clock.NsToTicksMonotone | crates/common/src/arch/mod.rs:60 | corrected (`Clock.SetTimer`): with the exact conversion a later deadline never gets an earlier compare value |
| Clock.NsTicksRoundTrip | crates/common/src/arch/mod.rs:60-79 | corrected (`Clock.SetTimer`): with the exact conversions a deadline programmed and read back is never later than the one asked for |
| Clock.SetTimerWrappingMonotone | crates/common/src/arch/mod.rs:60 | AS WRITTEN: while `next_ns * freq` fits in 64 bits, a later deadline never gets an earlier compare value |
| Clock.SetTimerWrappingReadBack | crates/common/src/arch/mod.rs:60-79 | AS WRITTEN: while `next_ns * freq` fits in 64 bits, a deadline programmed by `set_timer` and read back by `get_cval_ns` is never later than the one asked for |
| Clock.SubsecNanosExact | crates/sel4-kit/src/arch/aarch64/timer.rs:28 | for a 32-bit frequency the sub-second product and the narrowing to 32 bits lose nothing, and the result is below one second |
| Clock.TicksToDuration | crates/sel4-kit/src/arch/aarch64/timer.rs:22-67 | `current_time`/`get_cval` give whole seconds `ticks / freq` and nanoseconds below 10^9 that together make the exact nanosecond time |
| Clock.DurationToProgram | crates/sel4-kit/src/arch/aarch64/timer.rs:43-56 | the kit's `set_timer` is enabled unless the duration is zero and, without overflow, programs `secs * freq + nanos * freq / 10^9` |
| Clock.DurationRoundTrip | crates/sel4-kit/src/arch/aarch64/timer.rs:43-67 | a compare value read with `get_cval` and programmed again never fires later |
| Clock.ClockGettime | support/vdso/src/vdso.c:19-30 | the vDSO call returns 0 and fills seconds `cnt / freq` and nanoseconds that together give the kernel's exact nanosecond time |
| Clock.ClockGettimeIgnoresId | support/vdso/src/vdso.c:19 | the clock id has no effect on the reading |
| Timer.NextDeadline | services/kernel-thread/src/timer.rs:53-58 | the next deadline is the least deadline of a live sleeping task, or 0 when none sleeps |
| Timer.HandleTimer | services/kernel-thread/src/timer.rs:42-65 | exactly the live sleeping tasks whose deadline is strictly before now are resumed and have their deadline cleared; nothing else about any task changes; the timer is set to the least remaining deadline |
| Timer.HandleTimerIdempotent | services/kernel-thread/src/timer.rs:42-65 | a second pass at the same time resumes nobody and changes no task |
| Timer.FlushKeepsEarliest | services/kernel-thread/src/timer.rs:70-75 | after `flush_timer` the armed deadline is the earlier of the new one and the one set, or the new one when none was set |
| Timer.Nanosleep | services/kernel-thread/src/syscall/sys.rs:42-65 | the task's deadline becomes `now + sec * 10^9 + nsec` (without overflow), nothing else about it changes, the deadline goes through `flush_timer`, a non-null `rem` is zeroed, and 0 is returned |
| Timer.SleepThenWake | services/kernel-thread/src/syscall/sys.rs:58-59 | a live task that sleeps is resumed by a timer pass exactly when the pass comes strictly after its deadline |
| ChildWait.PollWait | services/kernel-thread/src/child_test.rs:67-128 | a wait finds an exited child of the parent (with the awaited pid for `WaitPid`), the lowest task id first, with its exit code; with none, the once flag answers `None` at once, otherwise a waiter is queued at the back and the wait is pending |
| ChildWait.FirstWaiter | services/kernel-thread/src/child_test.rs:132-134 | `position` finds the first waiter of the exiting task's parent that waits for any child or for its pid |
| ChildWait.WakeHangs | services/kernel-thread/src/child_test.rs:130-138 | the first satisfied waiter is removed and its waker returned; with none the queue is unchanged |
| ChildWait.WakeHangsRemovesOne | services/kernel-thread/src/child_test.rs:135-137 | waking removes exactly the woken waiter and keeps the others |
| ChildWait.WaitThenWake | services/kernel-thread/src/child_test.rs:84-138 | a parent that went pending is woken when a child it waits for exits, unless an earlier waiter claims the exit, and the queue returns to what it was |
| SysInfo.BytesRoundTrip | services/kernel-thread/src/syscall/sys.rs:16-28 | the six 65-byte `utsname` fields laid out as bytes and read back are the same fields |
| SysInfo.Uname | services/kernel-thread/src/syscall/sys.rs:18-27 | the first five fields start with `rel4-linux`, `rel4-beta1`, `vb0.1`, `vb0.1` and `aarch64` and keep the caller's remaining bytes; the domain name is untouched |
| SysInfo.UnameIdempotent | services/kernel-thread/src/syscall/sys.rs:18-27 | stamping twice is stamping once |
| SysInfo.SysUname | services/kernel-thread/src/syscall/sys.rs:15-30 | `uname` succeeds exactly when the structure is readable, keeps the page set, and writes the stamped structure with the as-written `write_bytes`: each byte gets the stamped byte its page position selects |
| SysInfo.SysUnameReadsBack | services/kernel-thread/src/syscall/sys.rs:15-30 | a readable structure is stamped, and when it lies inside one page the caller reads back its structure with the fixed names stamped in |
| SysInfo.SysUnameReadsBackFixed | services/kernel-thread/src/syscall/sys.rs:15-30 | with the corrected `write_bytes` the stamped structure reads back wherever it lies |
| SysInfo.TimeValNow | services/kernel-thread/src/syscall/types/sys.rs:37-43 | `TimeVal::now` splits microseconds into whole seconds and a remainder below 10^6 that recombine to the reading |
| SysInfo.TimeValOfCounter | services/kernel-thread/src/syscall/types/sys.rs:37-43 | the seconds of `gettimeofday` are those of the wrapping `get_curr_sec`, and the whole counter periods `cnt / freq` while `cnt * 10^9` fits in 64 bits |
| SysInfo.TimeValGoesBack | services/kernel-thread/src/syscall/types/sys.rs:37-43 | at 62.5 MHz the seconds of `gettimeofday` fall from 295 back to 0 one tick after 18_446_744_073 |
| SysInfo.TimeValOfCounterExact | services/kernel-thread/src/syscall/types/sys.rs:37-43 | corrected: read from the exact clock the seconds are `cnt / freq` |
| BlockCursor.SetPosition | services/lwext4-thread/src/imp.rs:64-72 | the block is `pos / 0x200` and the offset `pos % 0x200`, so the position reads back as `pos` |
| BlockCursor.PositionRoundTrip | services/lwext4-thread/src/imp.rs:64-72 | setting a cursor's own position gives back the same cursor |
| BlockCursor.NewCursor | services/lwext4-thread/src/imp.rs:56-61 | a new disk's cursor is at position 0 |
| Ext4Disk.AsI64 | services/lwext4-thread/src/imp.rs:28 | `as i64` keeps a value below 2^63 and otherwise agrees with it modulo 2^64 |
| Ext4Disk.AsU64 | services/lwext4-thread/src/imp.rs:38 | `as u64` keeps a non-negative value and agrees with any value modulo 2^64 |
| Ext4Disk.Target | services/lwext4-thread/src/imp.rs:25-36 | `SEEK_CUR` fails exactly when position plus offset leaves `0..2^64`; `SEEK_END` fails exactly when size plus offset leaves the `i64` range; `SEEK_SET` and an unknown `whence` take the offset as given |
| Ext4Disk.Seek | services/lwext4-thread/src/imp.rs:23-44 | an overflowing target fails with -1; a target beyond the capacity as unsigned panics; otherwise the cursor moves there, within the capacity, and the target is returned |
| Ext4Disk.SeekSetLands | services/lwext4-thread/src/imp.rs:26-43 | `SEEK_SET` to any position up to the capacity lands there |
| Ext4Disk.SeekCurZeroTells | services/lwext4-thread/src/imp.rs:27-43 | `SEEK_CUR` by 0 reports the current position and leaves the cursor where it was |
| Ext4Disk.Transfer | services/lwext4-thread/src/imp.rs:75-104 | `read_one`/`write_one` accept exactly whole blocks of at most 16 KiB from a block boundary; the cursor advances by the length and stays on a boundary, and the length is returned |
| Ext4Disk.TransfersAdd | services/lwext4-thread/src/imp.rs:86-102 | two transfers move the cursor by their total length |
| FatCursor.MoveCursor | services/fat-thread/src/cursor.rs:31-33 | moving by `n` sets the position to the old one plus `n`, modulo 2^64 |
| FatCursor.Seek | services/fat-thread/src/cursor.rs:87-100 | `Start(p)` moves to `p`; `Current(d)` moves by `d` modulo 2^64; `End` is `unreachable!`; the new position is returned |
| FatCursor.SeekStartThenCurrent | services/fat-thread/src/cursor.rs:89-98 | a `Start` then an in-range `Current` lands at the sum |
| FatCursor.SeekCurrentZero | services/fat-thread/src/cursor.rs:94-98 | `Current(0)` reports the position without moving |
| FatCursor.SeekCurrentBack | services/fat-thread/src/cursor.rs:94-98 | seeking by `d` and then by `-d` returns to the starting cursor |
| Ext4Fs.SetFlag | services/lwext4-thread/src/lib.rs:84 | or-ing in a flag sets it and adds nothing else |
| Ext4Fs.FreeIndex | services/lwext4-thread/src/lib.rs:100-105 | the store takes the lowest free index below 500, or none when all are used |
| Ext4Fs.OpenDecision | services/lwext4-thread/src/lib.rs:80-99 | `O_CREAT` with `O_DIRECTORY` is refused; `O_CREAT` alone creates with `O_TRUNC` added; otherwise a directory opens as a directory, a regular file with its flags, and anything else is `EACCES` |
| Ext4Fs.Open | services/lwext4-thread/src/lib.rs:80-106 | `EACCES` exactly for a non-directory, non-regular path without `O_CREAT`; a panic for a directory creation or a full store; otherwise the entry goes to the lowest free index with its path, kind and flags, and earlier entries are kept |
| Ext4Fs.Close | services/lwext4-thread/src/lib.rs:118-122 | `close` removes the inode's entry and keeps the others |
| Ext4Fs.OpenThenClose | services/lwext4-thread/src/lib.rs:80-122 | closing what `open` just stored restores the table, and the next `open` reuses that index |
| Ext4Fs.BitOrDisjoint | services/lwext4-thread/src/lib.rs:128-137 | or-ing permission bits below `2^k` with a multiple of `2^k` is their sum |
| Ext4Fs.TypeBits | services/lwext4-thread/src/lib.rs:128-137 | every file type sets bits only in the type nibble above the permission bits |
| Ext4Fs.DoStat | services/lwext4-thread/src/lib.rs:124-149 | an unknown inode panics; otherwise the result carries the inode number, one link, 512-byte blocks and the file size |
| Ext4Fs.StatReportsType | services/lwext4-thread/src/lib.rs:128-140 | the mode is the permission bits plus the type bits, the permission bits read back, and the type decodes back to the inode's kind (an unknown kind reads as a regular file) |
| Ext4Fs.RecLen | services/lwext4-thread/src/lib.rs:158-159 | a record's length is the header plus the name rounded up to a multiple of 8 |
| Ext4Fs.Getdents64 | services/lwext4-thread/src/lib.rs:151-182 | an unknown inode panics; otherwise the records from the given entry on are packed back to back, each offset the end of its record, until the entries run out or the next record would overflow the buffer; the bytes used and the next index are returned |
| Ext4Fs.PackedUnique | services/lwext4-thread/src/lib.rs:151-182 | any two listings that pack the same entries from the same index into the same buffer as far as they fit are equal, so `getdents64`'s answer is determined |

## Left out

- seL4 capability calls (frame mapping, untyped retype, CNode and TCB operations, IRQs and notifications) are not modelled; a mapped page is a fresh zeroed page in the page map, and an allocation callback is a parameter.
- TaskMem.Brk, TaskSpace.BrkOld: a step at an address already in the page map replaces its entry, as `mapped_page.insert` does (services/kernel-thread/src/task/mod.rs:185); an error from the kernel's `frame_map` for that address, which `res.unwrap()` (services/kernel-thread/src/task/mod.rs:195) would turn into a panic, is not modelled.
- Hardware registers (`cntpct_el0`, `cntfrq_el0`, `cntp_cval_el0`) are parameters, with the frequency positive; the IRQ acknowledge and timer initialisation are I/O and are left out.
- The TOML loading, the selection-file read and the text rendering of `tools/app-parser.py` are I/O; the model starts from the parsed descriptors and ends with the computed lists.
- The ext4 library (lwext4) is outside the model: which inodes are directories or files, their sizes and mode bits are parameters, and `read_at`, `write_at`, `mkdir` and `unlink` (services/lwext4-thread/src/lib.rs:62-78, 108-116) only pass through to it.
- `Ext4Disk.flush` is `todo!()` in the Rust code (services/lwext4-thread/src/imp.rs:46-51) and has no model.
- The FAT cursor's `read` is `todo!()` and `write` is `unimplemented!()`; `flush` only returns `Ok` (services/fat-thread/src/cursor.rs:41-83), so only the position arithmetic and `seek` are modelled.
- The data moved by `read_one`/`write_one` goes through the block service's shared buffer, which is not modelled; only the cursor side is.
- The size of the `Dirent64` header is a parameter `hdr` of `Ext4Fs.Getdents64`, since the structure is defined outside the files modelled; the records are modelled as values, not as their byte layout in the buffer.
- The mode type bits and the `O_CREAT`, `O_TRUNC` and `O_DIRECTORY` values are taken as the Linux values, which the library bindings use.
- The fd table's `FlattenObjects::add` is assumed to hand out the lowest free index; that crate is not part of this model.
- The string readers of the IPC codecs return the raw bytes: UTF-8 decoding (lossy in `ipcrw.rs`, panicking in `services/mod.rs`) is not modelled.
- Wakers and futures are opaque tokens; the async runtime is not modelled.
- The recursion of `select`, `get_mems` and `get_dmas` (tools/app-parser.py:45-68) is unbounded in the model; Python raises `RecursionError` once a dependency chain is deeper than the interpreter's recursion limit (1000 frames by default), and that failure is not modelled.
- Timer.Nanosleep: the request is taken as already read; the `unwrap` of `read_bytes` on an unmapped request pointer (services/kernel-thread/src/syscall/sys.rs:52-54) panics, and that panic is not modelled.
- MmSyscalls.SysMmap: the file contents are a parameter; the `unwrap` of `read_all` (services/kernel-thread/src/syscall/mm.rs:55) panics on a read error, and that panic is not modelled.
- `SignalMask.Masked`: the Rust code's shift by a signal number of 64 or more panics; the model returns `None` for it.
- Locks, atomics and the concurrency they guard (the page-map lock, the id counter) are modelled sequentially.
- ELF parsing is not modelled: segments and sections are input sequences.
- Networking, the device drivers, the IPC server loops and clients, and the binary-patching tools are not part of this model.

## Findings

| source | as written | input that shows it | evidently intended | confidence | as-written member | corrected member |
|---|---|---|---|---|---|---|
| crates/common/src/ipcrw.rs:115 | `write_values!` returns `off.div_ceil(REG_LEN)`, but `off` already counts registers | two `u64` values fill registers 0 and 1 and the message length is reported as 1 | the message length is `off`, the registers written | not executed | IpcCodec.WriteValues | IpcCodec.WriteValuesFixed |
| crates/sel4-oskit/src/memory.rs:107 | the small-page branch of `virt_to_phys` takes the offset from the large-page base | a one-page region 0x1000 → 0x8_1000; looking up 0x1010 fails | the offset is taken from the small-page base, giving 0x8_1010 | not executed | VirtMem.VirtToPhys | VirtMem.VirtToPhysFixed |
| services/kernel-thread/src/task/mem.rs:158 | `write_bytes` copies `data[..rsize]` for every page, never advancing into `data` | writing [1, 2, 3, 4] at 0xffe over two pages reads back [1, 2, 1, 2] | each chunk copies the next part of `data` | not executed | TaskMem.WriteBytes | TaskMem.WriteBytesFixed |
| services/kernel-thread/src/task/mem.rs:139 | `read_vec` advances by `PAGE_SIZE - offset` after `offset` has reached `PAGE_SIZE`, so it rereads the same page | a word array at 0xff8 whose zero terminator opens the next page never terminates | the walk continues at the next page | not executed | TaskMem.ReadVec | TaskMem.ReadVecFixed |
| services/kernel-thread/src/task/mem.rs:51 | `brk` steps pages from the old heap end, which need not be page aligned | growing from 0x1_0000_0800 to 0x1_0000_1800 leaves the page at 0x1_0000_1000 unmapped | every page below the new end is mapped | not executed | TaskMem.Brk | TaskMem.BrkFixed |
| services/kernel-thread/src/task/mod.rs:165 | `find_free_area` moves the candidate past mapped pages below its starting point | pages at 0x1000 and 0x5000, start 0x10000, one page: the result is 0x2000 | the result is never below the start | not executed | TaskSpace.FindFreeArea | TaskSpace.FindFreeAreaFixed |
| services/kernel-thread/src/task/init.rs:37 | `init_stack` writes through the page keyed `USPACE_STACK_TOP`, one page above the stack | the stack `map_region` creates below `USPACE_STACK_TOP` with one argument makes the lookup panic | the top stack page `USPACE_STACK_TOP - PAGE_SIZE` is used | not executed | UserStack.InitStack | UserStack.InitStackFixed |
| services/kernel-thread/src/task/init.rs:45-47 | the NUL after each string is written at `sp + len` without reserving room for it | two 16-byte arguments: the second one's NUL overwrites the first byte of the first | each string is placed with room for its NUL | not executed | UserStack.PlaceArgs | UserStack.InitStackFixed |
| crates/common/src/arch/mod.rs:24 | `get_curr_ns` computes `cnt * 1_000_000_000` in 64 bits | at 62.5 MHz, 18_446_744_074 ticks (about 295 s) read as 4 ns | the exact `floor(cnt * 10^9 / freq)` | not executed | Clock.TicksToNsWrapping | Clock.TicksToNs |
| crates/common/src/arch/mod.rs:41-55 | `get_curr_us`, `get_curr_ms` and `get_curr_sec` divide the wrapping `get_curr_ns`, and `gettimeofday` reads `get_curr_us` | at 62.5 MHz, 18_446_744_074 ticks read as 0 s and 0 µs instead of 295 s | the exact `cnt / freq` seconds and `cnt * 10^6 / freq` microseconds | not executed | Clock.CurrSec | Clock.CurrSecExact |
| crates/common/src/arch/mod.rs:60 | `set_timer` computes `next_ns * freq` in 64 bits | at 62.5 MHz a deadline of 295_147_905_180 ns is programmed as compare value 0 and fires at once | the exact `floor(ns * freq / 10^9)` | not executed | Clock.SetTimerWrapping | Clock.SetTimer |

Each row's as-written member has a lemma that exhibits the input:
`IpcCodec.WriteValuesDropsRegisters`, `VirtMem.VirtToPhysMissesSmallPage`,
`TaskMem.WriteBytesRepeatsChunk`, `TaskMem.ReadVecMissesNextPage`,
`TaskMem.BrkSkipsPage`, `TaskSpace.FindFreeAreaGoesBelowStart`,
`UserStack.InitStackMissesStackPage`, `UserStack.ArgStringsOverwriteFirst`,
`Clock.TicksToNsWrappingGoesBack`, `Clock.CurrSecGoesBack` and
`Clock.SetTimerWrappingFiresEarly`. The system calls that reach these
functions use the as-written members. `MmSyscalls.SysMmap` and
`SysInfo.SysUname` write with `TaskMem.WriteBytes`, `MmSyscalls.SysBrk`
grows the heap with `TaskMem.Brk`, `MmapArea` takes its area from
`TaskSpace.FindFreeArea`, and `gettimeofday` reads `Clock.CurrUs`. The
corrected members stand beside them, with the intended properties proved.

=== FILE: allocators.dfy ===
/** The bump-plus-free-list allocators of the capability toolkit: slot
    indices, virtual frame numbers for IPC buffers, and untyped
    capabilities kept per CPU. */
module Allocators {
  import opened Base

  /** Slot-index allocator: fresh indices `next..max`, then recycled ones (LIFO). */
  datatype IndexAllocator = IndexAllocator(next: nat, max: nat, recycled: seq<nat>)
  {
    ghost predicate Valid() { next <= max }
  }

  /** `IndexAllocator::new`; the constructor asserts `next <= max`. */
  function NewIndexAllocator(next: nat, max: nat): (s: IndexAllocator)
    requires next <= max
    ensures s.Valid() && s.next == next && s.max == max && s.recycled == []
  {
    IndexAllocator(next, max, [])
  }

  /** `IndexAllocator::alloc`: fresh indices first, then the most recently
      recycled one, else nothing. */
  function IndexAlloc(s: IndexAllocator): (res: (IndexAllocator, Option<nat>))
    requires s.Valid()
    ensures res.0.Valid() && res.0.max == s.max
    ensures res.1.None? <==> s.next == s.max && s.recycled == []
    ensures res.1.None? ==> res.0 == s
    ensures s.next < s.max ==>
      res.1 == Some(s.next) && res.0 == s.(next := s.next + 1)
    ensures s.next == s.max && s.recycled != [] ==>
      res.1 == Some(s.recycled[|s.recycled| - 1]) &&
      res.0 == s.(recycled := s.recycled[..|s.recycled| - 1])
  {
    if s.next < s.max then (s.(next := s.next + 1), Some(s.next))
    else if s.recycled != [] then
      (s.(recycled := s.recycled[..|s.recycled| - 1]), Some(s.recycled[|s.recycled| - 1]))
    else (s, None)
  }

  /** `IndexAllocator::recycle`: pushed without any duplicate or range check. */
  function IndexRecycle(s: IndexAllocator, index: nat): IndexAllocator
  {
    s.(recycled := s.recycled + [index])
  }

  /** `n` allocations in a row, with their results. */
  function IndexAllocMany(s: IndexAllocator, n: nat): (res: (IndexAllocator, seq<Option<nat>>))
    requires s.Valid()
    ensures res.0.Valid() && |res.1| == n
    decreases n
  {
    if n == 0 then (s, [])
    else
      var (s1, r) := IndexAlloc(s);
      var (s2, rs) := IndexAllocMany(s1, n - 1);
      (s2, [r] + rs)
  }

  /** While fresh indices remain, allocation hands out `next, next + 1, ...`,
      strictly increasing and below `max`. */
  lemma {:induction false} IndexAllocAscending(s: IndexAllocator, n: nat)
    requires s.Valid() && s.next + n <= s.max
    ensures var (s2, rs) := IndexAllocMany(s, n);
      s2 == s.(next := s.next + n) &&
      forall k :: 0 <= k < n ==> rs[k] == Some(s.next + k) && s.next + k < s.max
    decreases n
  {
    if n > 0 {
      var (s1, r) := IndexAlloc(s);
      IndexAllocAscending(s1, n - 1);
    }
  }

  /** Once the fresh range is used up, a recycled index comes straight back
      and the allocator returns to its earlier state. */
  lemma IndexRecycleThenAlloc(s: IndexAllocator, index: nat)
    requires s.Valid() && s.next == s.max
    ensures IndexAlloc(IndexRecycle(s, index)) == (s, Some(index))
  {
    assert (s.recycled + [index])[..|s.recycled|] == s.recycled;
  }

  /** Without a duplicate check, recycling an index twice hands it out twice. */
  lemma IndexDoubleRecycle(s: IndexAllocator, index: nat)
    requires s.Valid() && s.next == s.max
    ensures IndexAllocMany(IndexRecycle(IndexRecycle(s, index), index), 2).1 == [Some(index), Some(index)]
  {
    var s2 := IndexRecycle(IndexRecycle(s, index), index);
    var (s3, r1) := IndexAlloc(s2);
    assert s3 == IndexRecycle(s, index) by {
      assert s2.recycled[..|s2.recycled| - 1] == s.recycled + [index];
    }
    IndexRecycleThenAlloc(s, index);
  }

  /** Virtual frame-number allocator for IPC buffers. */
  datatype VirtFrameAllocator = VirtFrameAllocator(current: nat, end: nat, recycled: seq<nat>)
  {
    /** Recycled numbers are distinct and were handed out before. */
    ghost predicate Valid()
    {
      && current <= end
      && (forall i :: 0 <= i < |recycled| ==> recycled[i] < current)
      && (forall i, j :: 0 <= i < j < |recycled| ==> recycled[i] != recycled[j])
    }
  }

  /** `VirtFrameAllocator::new`: frame numbers of `[vstart, vstart + size)`, rounded down. */
  function NewVirtFrameAllocator(vstart: nat, size: nat): (s: VirtFrameAllocator)
    ensures s.Valid() && s.current * PAGE_SIZE <= vstart && s.end * PAGE_SIZE <= vstart + size
    ensures (s.end - s.current) * PAGE_SIZE <= size + PAGE_SIZE
    ensures s.current == vstart / PAGE_SIZE && s.end == (vstart + size) / PAGE_SIZE && s.recycled == []
  {
    var s := VirtFrameAllocator(vstart / PAGE_SIZE, (vstart + size) / PAGE_SIZE, []);
    DivMonotone(vstart, vstart + size, PAGE_SIZE);
    s
  }

  /** `VirtFrameAllocator::alloc`: the next fresh number until `end`, then
      the most recently recycled one. */
  function VirtAlloc(s: VirtFrameAllocator): (res: (VirtFrameAllocator, Option<nat>))
    requires s.Valid()
    ensures res.0.Valid() && res.0.end == s.end
    ensures res.1.Some? ==> res.1.value < s.end && res.1.value !in res.0.recycled
    ensures res.1.None? <==> s.current == s.end && s.recycled == []
    ensures s.current < s.end ==> res == (s.(current := s.current + 1), Some(s.current))
    ensures s.current == s.end && s.recycled != [] ==>
      res == (s.(recycled := s.recycled[..|s.recycled| - 1]), Some(s.recycled[|s.recycled| - 1]))
    ensures s.current == s.end && s.recycled == [] ==> res == (s, None)
  {
    if s.current == s.end then
      if s.recycled != [] then
        var r := s.recycled;
        assert forall i :: 0 <= i < |r| - 1 ==> r[..|r| - 1][i] == r[i];
        (s.(recycled := r[..|r| - 1]), Some(r[|r| - 1]))
      else (s, None)
    else (s.(current := s.current + 1), Some(s.current))
  }

  /** `VirtFrameAllocator::dealloc`: accepted only for a number already
      handed out and not already recycled. */
  function VirtDealloc(s: VirtFrameAllocator, vpn: nat): (s2: VirtFrameAllocator)
    requires s.Valid()
    ensures s2.Valid() && s2.current == s.current && s2.end == s.end
    ensures vpn < s.current && vpn !in s.recycled ==> s2.recycled == s.recycled + [vpn]
    ensures !(vpn < s.current && vpn !in s.recycled) ==> s2 == s
  {
    if vpn < s.current && vpn !in s.recycled then s.(recycled := s.recycled + [vpn]) else s
  }

  /** A number freed when fresh ones are used up is the next one handed out. */
  lemma VirtDeallocThenAlloc(s: VirtFrameAllocator, vpn: nat)
    requires s.Valid() && s.current == s.end && vpn < s.current && vpn !in s.recycled
    ensures VirtAlloc(VirtDealloc(s, vpn)) == (s, Some(vpn))
  {
    assert (s.recycled + [vpn])[..|s.recycled|] == s.recycled;
  }

  /** Freeing the same number twice has the effect of freeing it once. */
  lemma VirtDeallocIdempotent(s: VirtFrameAllocator, vpn: nat)
    requires s.Valid()
    ensures VirtDealloc(VirtDealloc(s, vpn), vpn) == VirtDealloc(s, vpn)
  {
  }

  /** Untyped-capability allocator with one recycle list per CPU. */
  datatype UntypedAllocator = UntypedAllocator(recycled: seq<seq<nat>>, untypedSize: nat)

  /** `UntypedAllocator::new`: an empty recycle list for each of `cpus` CPUs. */
  function NewUntypedAllocator(untypedSize: nat, cpus: nat): (s: UntypedAllocator)
    ensures |s.recycled| == cpus && forall c :: 0 <= c < cpus ==> s.recycled[c] == []
  {
    UntypedAllocator(seq(cpus, _ => []), untypedSize)
  }

  /** `UntypedAllocator::alloc`: that CPU's most recently recycled capability,
      else `retyped`, the capability the object allocator would retype. */
  function UntypedAlloc(s: UntypedAllocator, cpu: nat, retyped: nat): (res: (UntypedAllocator, nat))
    requires cpu < |s.recycled|
    ensures |res.0.recycled| == |s.recycled| && res.0.untypedSize == s.untypedSize
    ensures forall c :: 0 <= c < |s.recycled| && c != cpu ==> res.0.recycled[c] == s.recycled[c]
    ensures s.recycled[cpu] == [] ==> res == (s, retyped)
    ensures s.recycled[cpu] != [] ==>
      s.recycled[cpu] == res.0.recycled[cpu] + [res.1]
  {
    var l := s.recycled[cpu];
    if l != [] then (s.(recycled := s.recycled[cpu := l[..|l| - 1]]), l[|l| - 1])
    else (s, retyped)
  }

  /** `UntypedAllocator::dealloc`: push onto that CPU's list only. */
  function UntypedDealloc(s: UntypedAllocator, cap: nat, cpu: nat): (s2: UntypedAllocator)
    requires cpu < |s.recycled|
    ensures |s2.recycled| == |s.recycled|
    ensures forall c :: 0 <= c < |s.recycled| && c != cpu ==> s2.recycled[c] == s.recycled[c]
    ensures s2.recycled[cpu] == s.recycled[cpu] + [cap]
  {
    s.(recycled := s.recycled[cpu := s.recycled[cpu] + [cap]])
  }

  /** A freed capability is the next one its CPU gets, and the state is restored. */
  lemma UntypedDeallocThenAlloc(s: UntypedAllocator, cap: nat, cpu: nat, retyped: nat)
    requires cpu < |s.recycled|
    ensures UntypedAlloc(UntypedDealloc(s, cap, cpu), cpu, retyped) == (s, cap)
  {
    var s2 := UntypedDealloc(s, cap, cpu);
    assert s2.recycled[cpu][..|s2.recycled[cpu]| - 1] == s.recycled[cpu];
    assert s2.recycled[cpu := s.recycled[cpu]] == s.recycled;
  }
}

=== FILE: app_config.dfy ===
/** The task registry of the application-graph tool: descriptors as read
    from the `[[tasks]]` tables of the configuration, registration by name
    (a later descriptor with the same name replaces the earlier one but keeps
    its place), and resolution of every dependency name to a registered task. */
module AppConfig {
  import opened Base

  /** A memory-region entry: an opaque triple copied verbatim to the output. */
  datatype MemRegion = MemRegion(first: nat, second: nat, third: nat)

  /** A DMA-region entry: an opaque pair copied verbatim to the output. */
  datatype DmaRegion = DmaRegion(first: nat, second: nat)

  /** One `[[tasks]]` table; an absent optional key is `None`. */
  datatype Descriptor = Descriptor(
    name: string, file: string,
    mem: Option<seq<MemRegion>>, dma: Option<seq<DmaRegion>>,
    deps: Option<seq<string>>, cfg: Option<seq<string>>)

  /** A registered task. `deps` holds the registry positions of the
      dependencies once they are resolved, in `deplist` order. */
  datatype Task = Task(
    name: string, file: string,
    mem: seq<MemRegion>, dma: seq<DmaRegion>,
    deplist: seq<string>, cfglist: seq<string>,
    deps: seq<nat>)

  /** The registry in dictionary iteration order (first insertion order). */
  type Registry = seq<Task>

  function OrEmpty<T>(o: Option<seq<T>>): seq<T>
  {
    if o.Some? then o.value else []
  }

  /** A fresh task object: absent lists default to empty, nothing resolved yet. */
  function FromDescriptor(d: Descriptor): Task
  {
    Task(d.name, d.file, OrEmpty(d.mem), OrEmpty(d.dma), OrEmpty(d.deps), OrEmpty(d.cfg), [])
  }

  /** The position of the task registered under `name`, if any. */
  function Find(r: Registry, name: string): (i: Option<nat>)
    ensures i.Some? ==> i.value < |r| && r[i.value].name == name
    ensures i.None? ==> forall k :: 0 <= k < |r| ==> r[k].name != name
  {
    if r == [] then None
    else if r[0].name == name then Some(0)
    else match Find(r[1..], name)
      case Some(k) => Some(k + 1)
      case None => None
  }

  predicate UniqueNames(r: Registry)
  {
    forall i, j :: 0 <= i < j < |r| ==> r[i].name != r[j].name
  }

  /** Dictionary assignment `tasks[t.name] = t`. */
  function Insert(r: Registry, t: Task): Registry
  {
    match Find(r, t.name)
    case Some(i) => r[i := t]
    case None => r + [t]
  }

  /** The names of the descriptors, in file order. */
  function Names(ds: seq<Descriptor>): (ns: seq<string>)
    ensures |ns| == |ds|
    ensures forall j :: 0 <= j < |ds| ==> ns[j] == ds[j].name
  {
    seq(|ds|, j requires 0 <= j < |ds| => ds[j].name)
  }

  /** Position of the first occurrence of `n` in `s`. */
  function FirstIndex(s: seq<string>, n: string): (j: nat)
    requires n in s
    ensures j < |s| && s[j] == n
    ensures forall k :: 0 <= k < j ==> s[k] != n
  {
    if s[0] == n then 0 else 1 + FirstIndex(s[1..], n)
  }

  /** Position of the last occurrence of `n` in `s`. */
  function LastIndex(s: seq<string>, n: string): (j: nat)
    requires n in s
    ensures j < |s| && s[j] == n
    ensures forall k :: j < k < |s| ==> s[k] != n
  {
    if s[|s| - 1] == n then |s| - 1 else LastIndex(s[..|s| - 1], n)
  }

  /** The first loop of `parse_config`: register every descriptor in order. */
  function Load(ds: seq<Descriptor>): Registry
  {
    if ds == [] then [] else Insert(Load(ds[..|ds| - 1]), FromDescriptor(ds[|ds| - 1]))
  }

  /** Registration keeps one entry per name, and exactly the declared names. */
  lemma {:induction false} LoadKeys(ds: seq<Descriptor>)
    ensures var r := Load(ds);
      && UniqueNames(r)
      && (forall i :: 0 <= i < |r| ==> r[i].name in Names(ds))
      && (forall j :: 0 <= j < |ds| ==> Find(r, ds[j].name).Some?)
  {
    if ds != [] {
      var pre, d := ds[..|ds| - 1], ds[|ds| - 1];
      LoadKeys(pre);
      NamesPrefix(ds);
      var r0, t := Load(pre), FromDescriptor(d);
      var r := Insert(r0, t);
      assert Load(ds) == r;
      InsertKeys(r0, t);
      forall i | 0 <= i < |r|
        ensures r[i].name in Names(ds)
      {
        if r[i].name != t.name {
          var q := Find(r0, r[i].name).value;
          assert r0[q].name in Names(pre);
        }
      }
      forall j | 0 <= j < |ds|
        ensures Find(r, ds[j].name).Some?
      {
        if j < |pre| {
          assert ds[j] == pre[j];
        }
      }
    }
  }

  /** `tasks[t.name] = t` keeps names unique, adds `t.name` and loses no name. */
  lemma InsertKeys(r0: Registry, t: Task)
    requires UniqueNames(r0)
    ensures var r := Insert(r0, t);
      && UniqueNames(r)
      && (forall i :: 0 <= i < |r| ==> r[i].name == t.name || Find(r0, r[i].name).Some?)
      && Find(r, t.name).Some?
      && (forall n :: Find(r0, n).Some? ==> Find(r, n).Some?)
  {
    var r := Insert(r0, t);
    forall i | 0 <= i < |r0|
      ensures Find(r0, r0[i].name).Some?
    {
    }
    match Find(r0, t.name)
    case Some(p) =>
      assert forall i :: 0 <= i < |r0| ==> r[i].name == r0[i].name;
    case None =>
      assert forall i :: 0 <= i < |r0| ==> r[i] == r0[i];
      assert r[|r0|] == t;
  }

  /** Every declared name is registered. */
  lemma LoadFindsNames(ds: seq<Descriptor>)
    ensures forall m :: m in Names(ds) ==> Find(Load(ds), m).Some?
  {
    LoadKeys(ds);
    forall m | m in Names(ds)
      ensures Find(Load(ds), m).Some?
    {
      var p := FirstIndex(Names(ds), m);
      assert Find(Load(ds), ds[p].name).Some?;
    }
  }

  lemma NamesPrefix(ds: seq<Descriptor>)
    requires ds != []
    ensures Names(ds) == Names(ds[..|ds| - 1]) + [ds[|ds| - 1].name]
  {
  }

  /** Each entry holds the contents of the LAST descriptor with its name. */
  lemma {:induction false} LoadValues(ds: seq<Descriptor>)
    ensures LoadValuesHold(ds)
  {
    LoadKeys(ds);
    if ds != [] {
      var pre, d := ds[..|ds| - 1], ds[|ds| - 1];
      LoadValues(pre);
      LoadKeys(pre);
      NamesPrefix(ds);
      var r0, t := Load(pre), FromDescriptor(d);
      var r := Insert(r0, t);
      assert Load(ds) == r;
      InsertEntries(r0, t);
      var ns0, ns := Names(pre), Names(ds);
      forall i | 0 <= i < |r|
        ensures r[i] == FromDescriptor(ds[LastIndex(ns, r[i].name)])
      {
        var n := r[i].name;
        LastIndexAppend(ns0, d.name, n);
        if n != d.name {
          assert r[i] == r0[i] && n in ns0;
          var k := LastIndex(ns0, n);
          assert ds[k] == pre[k];
        }
      }
    }
  }

  /** After `tasks[t.name] = t` the entry named `t.name` is `t`; every
      other entry is the one at the same place before. */
  lemma InsertEntries(r0: Registry, t: Task)
    requires UniqueNames(r0)
    ensures var r := Insert(r0, t);
      forall i :: 0 <= i < |r| ==>
        (r[i].name == t.name ==> r[i] == t) && (r[i].name != t.name ==> i < |r0| && r[i] == r0[i])
  {
  }

  /** The last occurrence in `s + [x]`: `x` is last; any other name keeps its place. */
  lemma LastIndexAppend(s: seq<string>, x: string, n: string)
    requires n in s + [x]
    ensures n == x ==> LastIndex(s + [x], n) == |s|
    ensures n != x ==> n in s && LastIndex(s + [x], n) == LastIndex(s, n)
  {
    if n != x {
      assert (s + [x])[..|s|] == s;
    }
  }

  ghost predicate LoadValuesHold(ds: seq<Descriptor>)
  {
    var r := Load(ds);
    forall i :: 0 <= i < |r| ==>
      r[i].name in Names(ds) && r[i] == FromDescriptor(ds[LastIndex(Names(ds), r[i].name)])
  }

  /** Entries are ordered by the position of the FIRST descriptor with their name. */
  lemma {:induction false} LoadOrder(ds: seq<Descriptor>)
    ensures LoadOrderHolds(ds)
  {
    if ds != [] {
      var pre, d := ds[..|ds| - 1], ds[|ds| - 1];
      LoadOrder(pre);
      LoadKeys(pre);
      LoadKeys(ds);
      NamesPrefix(ds);
      var r0 := Load(pre);
      forall n | n in Names(pre)
        ensures FirstIndex(Names(ds), n) == FirstIndex(Names(pre), n)
      {
        FirstIndexAppend(Names(pre), d.name, n);
      }
      if Find(r0, d.name).Some? {
        LoadOrderReplace(ds, pre, d);
      } else {
        LoadOrderAppend(ds, pre, d);
      }
    }
  }

  lemma LoadOrderReplace(ds: seq<Descriptor>, pre: seq<Descriptor>, d: Descriptor)
    requires ds != [] && pre == ds[..|ds| - 1] && d == ds[|ds| - 1]
    requires LoadOrderHolds(pre)
    requires Find(Load(pre), d.name).Some?
    requires forall i :: 0 <= i < |Load(ds)| ==> Load(ds)[i].name in Names(ds)
    requires forall n :: n in Names(pre) ==> FirstIndex(Names(ds), n) == FirstIndex(Names(pre), n)
    ensures LoadOrderHolds(ds)
  {
    var r0, r := Load(pre), Load(ds);
    var p := Find(r0, d.name).value;
    assert r == r0[p := FromDescriptor(d)];
    forall i, j | 0 <= i < j < |r|
      ensures FirstIndex(Names(ds), r[i].name) < FirstIndex(Names(ds), r[j].name)
    {
      assert r[i].name == r0[i].name && r[j].name == r0[j].name;
    }
  }

  lemma LoadOrderAppend(ds: seq<Descriptor>, pre: seq<Descriptor>, d: Descriptor)
    requires ds != [] && pre == ds[..|ds| - 1] && d == ds[|ds| - 1]
    requires LoadOrderHolds(pre)
    requires Find(Load(pre), d.name).None?
    requires forall i :: 0 <= i < |Load(ds)| ==> Load(ds)[i].name in Names(ds)
    requires Names(ds) == Names(pre) + [d.name]
    requires forall n :: n in Names(pre) ==> FirstIndex(Names(ds), n) == FirstIndex(Names(pre), n)
    ensures LoadOrderHolds(ds)
  {
    var r0, t := Load(pre), FromDescriptor(d);
    var r := r0 + [t];
    assert Load(ds) == r;
    var ns0, ns := Names(pre), Names(ds);
    LoadFindsNames(pre);
    assert d.name !in ns0;
    FirstIndexNew(ns0, d.name);
    OrderAppend(r0, t, ns0, ns);
  }

  /** A task whose name first appears after every registered name can be
      appended without breaking the first-occurrence order. */
  lemma OrderAppend(r0: Registry, t: Task, ns0: seq<string>, ns: seq<string>)
    requires forall i :: 0 <= i < |r0| ==> r0[i].name in ns0
    requires forall i, j {:trigger FirstIndex(ns0, r0[i].name), FirstIndex(ns0, r0[j].name)} ::
      0 <= i < j < |r0| ==> FirstIndex(ns0, r0[i].name) < FirstIndex(ns0, r0[j].name)
    requires t.name in ns && FirstIndex(ns, t.name) == |ns0|
    requires forall n :: n in ns0 ==> n in ns && FirstIndex(ns, n) == FirstIndex(ns0, n)
    ensures var r := r0 + [t];
      forall i, j :: 0 <= i < j < |r| ==> FirstIndex(ns, r[i].name) < FirstIndex(ns, r[j].name)
  {
    var r := r0 + [t];
    forall i, j | 0 <= i < j < |r|
      ensures FirstIndex(ns, r[i].name) < FirstIndex(ns, r[j].name)
    {
      var a := r0[i].name;
      assert r[i].name == a && a in ns0;
      assert FirstIndex(ns, a) == FirstIndex(ns0, a) < |ns0|;
      if j < |r0| {
        var b := r0[j].name;
        assert r[j].name == b && b in ns0;
        assert FirstIndex(ns, b) == FirstIndex(ns0, b);
      } else {
        assert r[|r0|].name == t.name;
      }
    }
  }

  /** A name not yet declared first appears where it is appended. */
  lemma FirstIndexNew(s: seq<string>, x: string)
    requires x !in s
    ensures x in s + [x] && FirstIndex(s + [x], x) == |s|
  {
    assert (s + [x])[|s|] == x;
  }

  ghost predicate LoadOrderHolds(ds: seq<Descriptor>)
  {
    var r := Load(ds);
    (forall i :: 0 <= i < |r| ==> r[i].name in Names(ds)) &&
    forall i, j :: 0 <= i < j < |r| ==>
      FirstIndex(Names(ds), r[i].name) < FirstIndex(Names(ds), r[j].name)
  }

  lemma FirstIndexAppend(s: seq<string>, x: string, n: string)
    requires n in s
    ensures n in s + [x] && FirstIndex(s + [x], n) == FirstIndex(s, n)
  {
    if s[0] != n {
      assert (s + [x])[1..] == s[1..] + [x];
      FirstIndexAppend(s[1..], x, n);
    }
  }

  /** Resolve a list of dependency names, as `Task.init` does with
      `tasks[task_name]`; the first unregistered name is the error. */
  function ResolveNames(r: Registry, names: seq<string>): (res: Result<seq<nat>, string>)
    ensures res.Ok? <==> forall k :: 0 <= k < |names| ==> Find(r, names[k]).Some?
    ensures res.Ok? ==>
      |res.value| == |names| &&
      (forall k :: 0 <= k < |names| ==> res.value[k] < |r| && r[res.value[k]].name == names[k])
    ensures res.Err? ==> res.error in names && Find(r, res.error).None?
  {
    if names == [] then Ok([])
    else match Find(r, names[0])
      case None => Err(names[0])
      case Some(i) =>
        match ResolveNames(r, names[1..])
        case Err(n) => Err(n)
        case Ok(rest) => Ok([i] + rest)
  }

  /** Every dependency index points into the registry. */
  predicate WellFormed(a: Registry)
  {
    forall i, k :: 0 <= i < |a| && 0 <= k < |a[i].deps| ==> a[i].deps[k] < |a|
  }

  /** The second loop of `parse_config`: call `init` on every task in order. */
  function Resolve(r: Registry): (res: Result<Registry, string>)
    ensures res.Ok? <==> forall i, k :: 0 <= i < |r| && 0 <= k < |r[i].deplist| ==>
      Find(r, r[i].deplist[k]).Some?
    ensures res.Ok? ==> |res.value| == |r| && WellFormed(res.value)
    ensures res.Ok? ==> forall i :: 0 <= i < |r| ==> Resolved(r, r[i], res.value[i])
    ensures res.Err? ==>
      Find(r, res.error).None? &&
      (exists i :: 0 <= i < |r| && res.error in r[i].deplist)
  {
    ResolveList(r, r)
  }

  /** `u` is `t` with every dependency name replaced by its position in `r`. */
  predicate Resolved(r: Registry, t: Task, u: Task)
  {
    && u == t.(deps := u.deps)
    && |u.deps| == |t.deplist|
    && forall k :: 0 <= k < |t.deplist| ==> u.deps[k] < |r| && r[u.deps[k]].name == t.deplist[k]
  }

  /** `init` on each of `ts`, looking names up in `r`. */
  function ResolveList(r: Registry, ts: seq<Task>): (res: Result<seq<Task>, string>)
    ensures res.Ok? <==> forall i, k :: 0 <= i < |ts| && 0 <= k < |ts[i].deplist| ==>
      Find(r, ts[i].deplist[k]).Some?
    ensures res.Ok? ==> |res.value| == |ts|
    ensures res.Ok? ==> forall i :: 0 <= i < |ts| ==> Resolved(r, ts[i], res.value[i])
    ensures res.Err? ==>
      Find(r, res.error).None? &&
      (exists i :: 0 <= i < |ts| && res.error in ts[i].deplist)
  {
    if ts == [] then Ok([])
    else match ResolveNames(r, ts[0].deplist)
      case Err(n) => Err(n)
      case Ok(ix) =>
        match ResolveList(r, ts[1..])
        case Err(n) => Err(n)
        case Ok(rest) => Ok([ts[0].(deps := ix)] + rest)
  }

  /** `parse_config`: register the descriptors, then resolve every task. */
  function ParseConfig(ds: seq<Descriptor>): Result<Registry, string>
  {
    Resolve(Load(ds))
  }

  /** A configuration whose dependency names are all declared parses. */
  lemma ParseConfigSucceeds(ds: seq<Descriptor>)
    requires forall j, k :: 0 <= j < |ds| && 0 <= k < |OrEmpty(ds[j].deps)| ==>
      OrEmpty(ds[j].deps)[k] in Names(ds)
    ensures ParseConfig(ds).Ok?
    ensures |ParseConfig(ds).value| == |Load(ds)|
  {
    var r := Load(ds);
    LoadKeys(ds);
    LoadValues(ds);
    forall i, k | 0 <= i < |r| && 0 <= k < |r[i].deplist|
      ensures Find(r, r[i].deplist[k]).Some?
    {
      var j := LastIndex(Names(ds), r[i].name);
      assert r[i].deplist == OrEmpty(ds[j].deps);
      var q := FirstIndex(Names(ds), r[i].deplist[k]);
      assert ds[q].name == r[i].deplist[k];
    }
  }

  /** A dependency on an undeclared name, in the descriptor that wins its
      name, makes parsing fail, and the reported name is not declared. */
  lemma ParseConfigFails(ds: seq<Descriptor>, j: nat, k: nat)
    requires j < |ds| && k < |OrEmpty(ds[j].deps)|
    requires LastIndex(Names(ds), ds[j].name) == j
    requires OrEmpty(ds[j].deps)[k] !in Names(ds)
    ensures ParseConfig(ds).Err?
    ensures ParseConfig(ds).error !in Names(ds)
  {
    var r := Load(ds);
    LoadKeys(ds);
    LoadValues(ds);
    LoadFindsNames(ds);
    var n := OrEmpty(ds[j].deps)[k];
    var i := Find(r, ds[j].name).value;
    assert r[i].deplist[k] == n;
  }
}

=== FILE: app_main.dfy ===
/** The script entry point of the application-graph tool, minus its file
    I/O: load the configuration, read the selection, run the walk and
    produce the service table and the flag list. */
module AppMain {
  import opened Base
  import opened AppConfig
  import opened AppSelect
  import opened AppReach
  import opened AppRun
  import opened AppWalk
  import opened AppOutput

  /** The command line: no argument, or a selection file whose
      `module-selected` key may be absent. */
  datatype Invocation = NoSelectFile | SelectFile(moduleSelected: Option<seq<string>>)

  datatype Outcome =
    | UnknownDependency(name: string)   // `KeyError` in `Task.init`
    | MissingSelectFile                 // message, exit status 0
    | EmptySelection                    // message, exit status 0
    | UnknownRoot(name: string)         // `KeyError` in the main loop
    | Generated(services: seq<Service>, cfg: seq<string>)

  /** The `__main__` block. The configuration is parsed before the argument
      count is checked, so a bad configuration wins over a missing argument. */
  function RunScript(ds: seq<Descriptor>, inv: Invocation): (r: Outcome)
    ensures r.UnknownDependency? <==> ParseConfig(ds).Err?
    ensures r.MissingSelectFile? <==> ParseConfig(ds).Ok? && inv.NoSelectFile?
    ensures r.EmptySelection? <==>
      ParseConfig(ds).Ok? && inv.SelectFile? && OrEmpty(inv.moduleSelected) == []
    ensures r.UnknownRoot? ==> r.name in OrEmpty(inv.moduleSelected) && Find(ParseConfig(ds).value, r.name).None?
    ensures r.Generated? ==>
      ParseConfig(ds).Ok? && inv.SelectFile? && OrEmpty(inv.moduleSelected) != [] &&
      forall k :: 0 <= k < |OrEmpty(inv.moduleSelected)| ==>
        Find(ParseConfig(ds).value, OrEmpty(inv.moduleSelected)[k]).Some?
  {
    match ParseConfig(ds)
    case Err(n) => UnknownDependency(n)
    case Ok(a) =>
      match inv
      case NoSelectFile => MissingSelectFile
      case SelectFile(sel) =>
        var targets := OrEmpty(sel);
        if targets == [] then EmptySelection
        else
          match ResolveNames(a, targets)
          case Err(n) => UnknownRoot(n)
          case Ok(roots) =>
            var f := Force(a, Fresh(|a|), roots);
            RunWalkOrder(a, roots);
            Generated(Services(a, f, RunVisits(a, Fresh(|a|), roots)), CfgFlags(a, f))
  }

  lemma ResolvedKeepsNames(ds: seq<Descriptor>)
    requires ParseConfig(ds).Ok?
    ensures var a := ParseConfig(ds).value;
      |a| == |Load(ds)| && UniqueNames(a) &&
      forall i :: 0 <= i < |a| ==> a[i].name == Load(ds)[i].name
  {
    LoadKeys(ds);
  }

  /** End to end: the generated table names task `x` iff `x` was selected by
      name or the plain walk reached it at least twice. */
  lemma ScriptEmitsShared(ds: seq<Descriptor>, sel: seq<string>, x: nat)
    requires RunScript(ds, SelectFile(Some(sel))).Generated?
    requires x < |ParseConfig(ds).value|
    ensures var a := ParseConfig(ds).value;
      var roots := ResolveNames(a, sel).value;
      var svcs := RunScript(ds, SelectFile(Some(sel))).services;
      var p := SelectAll(a, Fresh(|a|), roots);
      (exists k :: 0 <= k < |svcs| && svcs[k].name == a[x].name) <==>
        (a[x].name in sel || Occ(roots, x) + Hits(a, Fresh(|a|), p, x, |a|) >= 2)
  {
    var a := ParseConfig(ds).value;
    ResolvedKeepsNames(ds);
    var roots := ResolveNames(a, sel).value;
    var f := Force(a, Fresh(|a|), roots);
    var svcs := RunScript(ds, SelectFile(Some(sel))).services;
    var S := Standalone(f);
    StandaloneIffRootOrShared(a, roots, x);
    RootIffSelected(a, sel, roots, x);
    if exists k :: 0 <= k < |svcs| && svcs[k].name == a[x].name {
      var k :| 0 <= k < |svcs| && svcs[k].name == a[x].name;
      assert a[S[k]].name == a[x].name;
      assert S[k] == x;
    }
    if f[x] >= 2 {
      assert x in S;
      var k :| 0 <= k < |S| && S[k] == x;
      assert svcs[k].name == a[x].name;
    }
  }

  /** With unique names, a task is among the resolved roots exactly when
      its name was selected. */
  lemma RootIffSelected(a: Registry, sel: seq<string>, roots: seq<nat>, x: nat)
    requires UniqueNames(a) && x < |a| && ResolveNames(a, sel) == Ok(roots)
    ensures x in roots <==> a[x].name in sel
  {
    if x in roots {
      var k :| 0 <= k < |roots| && roots[k] == x;
      assert a[x].name == sel[k];
    }
    if a[x].name in sel {
      var k :| 0 <= k < |sel| && sel[k] == a[x].name;
      assert a[roots[k]].name == a[x].name;
    }
  }
}

=== FILE: app_output.dfy ===
/** What the application-graph tool emits: the standalone tasks in registry
    order, each with the memory and DMA regions it owns (its own plus those
    of the dependencies folded into it), and the `--cfg=` flags. */
module AppOutput {
  import opened Base
  import opened AppConfig
  import opened AppSelect
  import opened AppReach
  import opened AppRun
  import opened AppWalk

  /** `get_all_standalone_tasks`: the tasks with a counter above 1, in registry order. */
  function Standalone(c: Counts): (s: seq<nat>)
    ensures forall x: nat :: x in s <==> x < |c| && c[x] > 1
    ensures forall k :: 0 <= k < |s| ==> s[k] < |c| && c[s[k]] > 1
    ensures forall i, j :: 0 <= i < j < |s| ==> s[i] < s[j]
  {
    if c == [] then []
    else
      var s0 := Standalone(c[..|c| - 1]);
      forall i | 0 <= i < |s0|
        ensures s0[i] < |c| - 1
      {
        assert s0[i] in s0;
      }
      if c[|c| - 1] > 1 then s0 + [|c| - 1] else s0
  }

  /** The tasks whose resources `get_mems(t)` gathers, in pre-order: `t`,
      then for each dependency with counter at most 1, its own fold. */
  function Fold(a: Registry, f: Counts, ghost o: seq<nat>, ghost i: nat, t: nat): seq<nat>
    requires WellFormed(a) && |f| == |a| && Ordered(a, f, o) && i < |o| && o[i] == t && t < |a|
    decreases |o| - i, 1, 0
  {
    [t] + FoldDeps(a, f, o, i, a[t].deps)
  }

  /** Dependencies with counter above 1 stay in their own component. */
  ghost predicate Foldable(f: Counts, o: seq<nat>, i: nat, ds: seq<nat>)
  {
    forall k :: 0 <= k < |ds| ==> ds[k] < |f| && (f[ds[k]] >= 2 || (i < |o| && ds[k] in o[i + 1..]))
  }

  function FoldDeps(a: Registry, f: Counts, ghost o: seq<nat>, ghost i: nat, ds: seq<nat>): seq<nat>
    requires WellFormed(a) && |f| == |a| && Ordered(a, f, o) && i < |o| && Foldable(f, o, i, ds)
    decreases |o| - i, 0, |ds|
  {
    if ds == [] then []
    else
      (if f[ds[0]] > 1 then [] else Fold(a, f, o, After(o, i, ds[0]), ds[0]))
        + FoldDeps(a, f, o, i, ds[1..])
  }

  /** `get_mems`. */
  function Mems(a: Registry, f: Counts, ghost o: seq<nat>, ghost i: nat, t: nat): seq<MemRegion>
    requires WellFormed(a) && |f| == |a| && Ordered(a, f, o) && i < |o| && o[i] == t && t < |a|
    decreases |o| - i, 1, 0
  {
    a[t].mem + MemsDeps(a, f, o, i, a[t].deps)
  }

  function MemsDeps(a: Registry, f: Counts, ghost o: seq<nat>, ghost i: nat, ds: seq<nat>): seq<MemRegion>
    requires WellFormed(a) && |f| == |a| && Ordered(a, f, o) && i < |o| && Foldable(f, o, i, ds)
    decreases |o| - i, 0, |ds|
  {
    if ds == [] then []
    else
      (if f[ds[0]] > 1 then [] else Mems(a, f, o, After(o, i, ds[0]), ds[0]))
        + MemsDeps(a, f, o, i, ds[1..])
  }

  /** `get_dmas`. */
  function Dmas(a: Registry, f: Counts, ghost o: seq<nat>, ghost i: nat, t: nat): seq<DmaRegion>
    requires WellFormed(a) && |f| == |a| && Ordered(a, f, o) && i < |o| && o[i] == t && t < |a|
    decreases |o| - i, 1, 0
  {
    a[t].dma + DmasDeps(a, f, o, i, a[t].deps)
  }

  function DmasDeps(a: Registry, f: Counts, ghost o: seq<nat>, ghost i: nat, ds: seq<nat>): seq<DmaRegion>
    requires WellFormed(a) && |f| == |a| && Ordered(a, f, o) && i < |o| && Foldable(f, o, i, ds)
    decreases |o| - i, 0, |ds|
  {
    if ds == [] then []
    else
      (if f[ds[0]] > 1 then [] else Dmas(a, f, o, After(o, i, ds[0]), ds[0]))
        + DmasDeps(a, f, o, i, ds[1..])
  }

  /** The memory regions of the tasks `us`, concatenated in order. */
  function MemsOf(a: Registry, us: seq<nat>): seq<MemRegion>
    requires forall k :: 0 <= k < |us| ==> us[k] < |a|
  {
    if us == [] then [] else a[us[0]].mem + MemsOf(a, us[1..])
  }

  function DmasOf(a: Registry, us: seq<nat>): seq<DmaRegion>
    requires forall k :: 0 <= k < |us| ==> us[k] < |a|
  {
    if us == [] then [] else a[us[0]].dma + DmasOf(a, us[1..])
  }

  lemma MemsOfAppend(a: Registry, xs: seq<nat>, ys: seq<nat>)
    requires forall k :: 0 <= k < |xs| ==> xs[k] < |a|
    requires forall k :: 0 <= k < |ys| ==> ys[k] < |a|
    ensures MemsOf(a, xs + ys) == MemsOf(a, xs) + MemsOf(a, ys)
    ensures DmasOf(a, xs + ys) == DmasOf(a, xs) + DmasOf(a, ys)
  {
    MemsAppend(a, xs, ys);
    DmasAppend(a, xs, ys);
  }

  lemma {:induction false} MemsAppend(a: Registry, xs: seq<nat>, ys: seq<nat>)
    requires forall k :: 0 <= k < |xs| ==> xs[k] < |a|
    requires forall k :: 0 <= k < |ys| ==> ys[k] < |a|
    ensures MemsOf(a, xs + ys) == MemsOf(a, xs) + MemsOf(a, ys)
  {
    if xs == [] {
      assert xs + ys == ys;
    } else {
      var xs1, zs := xs[1..], xs + ys;
      assert zs[0] == xs[0] && zs[1..] == xs1 + ys;
      MemsAppend(a, xs1, ys);
    }
  }

  lemma {:induction false} DmasAppend(a: Registry, xs: seq<nat>, ys: seq<nat>)
    requires forall k :: 0 <= k < |xs| ==> xs[k] < |a|
    requires forall k :: 0 <= k < |ys| ==> ys[k] < |a|
    ensures DmasOf(a, xs + ys) == DmasOf(a, xs) + DmasOf(a, ys)
  {
    if xs == [] {
      assert xs + ys == ys;
    } else {
      var xs1, zs := xs[1..], xs + ys;
      assert zs[0] == xs[0] && zs[1..] == xs1 + ys;
      DmasAppend(a, xs1, ys);
    }
  }

  /** `get_mems(t)` and `get_dmas(t)` are the regions of the tasks of `Fold`,
      concatenated in pre-order, and `Fold` starts at `t` and otherwise
      holds only tasks whose counter is at most 1. */
  lemma FoldGathers(a: Registry, f: Counts, o: seq<nat>, i: nat, t: nat)
    requires WellFormed(a) && |f| == |a| && Ordered(a, f, o) && i < |o| && o[i] == t && t < |a|
    ensures var us := Fold(a, f, o, i, t);
      && |us| >= 1 && us[0] == t
      && (forall j :: 0 <= j < |us| ==> us[j] < |a|)
      && (forall j :: 1 <= j < |us| ==> f[us[j]] <= 1)
      && Mems(a, f, o, i, t) == MemsOf(a, us)
      && Dmas(a, f, o, i, t) == DmasOf(a, us)
    decreases |o| - i, 1, 0
  {
    FoldDepsGathers(a, f, o, i, a[t].deps);
    var rest := FoldDeps(a, f, o, i, a[t].deps);
    var us := [t] + rest;
    assert us[1..] == rest;
  }

  lemma FoldDepsGathers(a: Registry, f: Counts, o: seq<nat>, i: nat, ds: seq<nat>)
    requires WellFormed(a) && |f| == |a| && Ordered(a, f, o) && i < |o| && Foldable(f, o, i, ds)
    ensures var us := FoldDeps(a, f, o, i, ds);
      && (forall j :: 0 <= j < |us| ==> us[j] < |a| && f[us[j]] <= 1)
      && MemsDeps(a, f, o, i, ds) == MemsOf(a, us)
      && DmasDeps(a, f, o, i, ds) == DmasOf(a, us)
    decreases |o| - i, 0, |ds|
  {
    if ds != [] {
      var head: seq<nat> := [];
      if f[ds[0]] <= 1 {
        var j := After(o, i, ds[0]);
        FoldGathers(a, f, o, j, ds[0]);
        head := Fold(a, f, o, j, ds[0]);
      }
      FoldDepsGathers(a, f, o, i, ds[1..]);
      var tail := FoldDeps(a, f, o, i, ds[1..]);
      MemsOfAppend(a, head, tail);
    }
  }

  /** One `service!` entry of the generated root-task table. */
  datatype Service = Service(name: string, file: string, mem: seq<MemRegion>, dma: seq<DmaRegion>)

  /** The `service!` entries of `write_to_file`, one per standalone task in
      registry order; `o` is a walk order of the run (see `AppWalk`). */
  function Services(a: Registry, f: Counts, ghost o: seq<nat>): (r: seq<Service>)
    requires WellFormed(a) && WalkOrder(a, f, o)
    ensures |r| == |Standalone(f)|
    ensures forall k :: 0 <= k < |r| ==>
      var t := Standalone(f)[k];
      t < |a| && r[k].name == a[t].name && r[k].file == a[t].file &&
      a[t].mem <= r[k].mem && a[t].dma <= r[k].dma
    ensures forall k :: 0 <= k < |r| ==>
      var t := Standalone(f)[k];
      r[k].mem == Mems(a, f, o, PosOf(o, t), t) && r[k].dma == Dmas(a, f, o, PosOf(o, t), t)
  {
    ServicesOf(a, f, o, Standalone(f))
  }

  function ServicesOf(a: Registry, f: Counts, ghost o: seq<nat>, ts: seq<nat>): (r: seq<Service>)
    requires WellFormed(a) && WalkOrder(a, f, o)
    requires forall k :: 0 <= k < |ts| ==> ts[k] < |a| && f[ts[k]] > 1
    ensures |r| == |ts|
    ensures forall k :: 0 <= k < |r| ==>
      var t := ts[k];
      r[k].name == a[t].name && r[k].file == a[t].file && a[t].mem <= r[k].mem && a[t].dma <= r[k].dma
    ensures forall k :: 0 <= k < |r| ==>
      var t := ts[k];
      r[k].mem == Mems(a, f, o, PosOf(o, t), t) && r[k].dma == Dmas(a, f, o, PosOf(o, t), t)
  {
    if ts == [] then []
    else
      var t := ts[0];
      var i := PosOf(o, t);
      [Service(a[t].name, a[t].file, Mems(a, f, o, i, t), Dmas(a, f, o, i, t))] + ServicesOf(a, f, o, ts[1..])
  }

  /** The flag prefix the build passes to `rustc`. */
  const CFG_PREFIX: string := "--cfg="

  /** The `cfg` lists of the tasks `ts`, concatenated. */
  function Configs(a: Registry, ts: seq<nat>): seq<string>
    requires forall k :: 0 <= k < |ts| ==> ts[k] < |a|
  {
    if ts == [] then [] else a[ts[0]].cfglist + Configs(a, ts[1..])
  }

  function Prefixed(vs: seq<string>): (r: seq<string>)
    ensures |r| == |vs| && forall j :: 0 <= j < |vs| ==> r[j] == CFG_PREFIX + vs[j]
  {
    seq(|vs|, j requires 0 <= j < |vs| => CFG_PREFIX + vs[j])
  }

  /** The `RUSTFLAGS` entries: each standalone task's OWN `cfg` list, in
      registry order, each entry prefixed. */
  function CfgFlags(a: Registry, f: Counts): seq<string>
    requires |f| == |a|
  {
    Prefixed(Configs(a, Standalone(f)))
  }

  lemma {:induction false} ConfigsMember(a: Registry, ts: seq<nat>, v: string)
    requires forall k :: 0 <= k < |ts| ==> ts[k] < |a|
    ensures v in Configs(a, ts) <==> exists k :: 0 <= k < |ts| && v in a[ts[k]].cfglist
  {
    if ts != [] {
      ConfigsMember(a, ts[1..], v);
      if v in Configs(a, ts[1..]) {
        var k :| 0 <= k < |ts[1..]| && v in a[ts[1..][k]].cfglist;
        assert v in a[ts[k + 1]].cfglist;
      }
      if exists k :: 0 <= k < |ts| && v in a[ts[k]].cfglist {
        var k :| 0 <= k < |ts| && v in a[ts[k]].cfglist;
        if k > 0 {
          assert v in a[ts[1..][k - 1]].cfglist;
        }
      }
    }
  }

  /** A flag is emitted iff it is some standalone task's own `cfg` entry;
      entries of folded dependencies never reach the flags. */
  lemma CfgFlagsFromStandaloneOnly(a: Registry, f: Counts, v: string)
    requires |f| == |a|
    ensures CFG_PREFIX + v in CfgFlags(a, f) <==> exists t :: 0 <= t < |a| && f[t] > 1 && v in a[t].cfglist
  {
    var S := Standalone(f);
    var vs := Configs(a, S);
    ConfigsMember(a, S, v);
    PrefixedMember(vs, v);
    if exists t :: 0 <= t < |a| && f[t] > 1 && v in a[t].cfglist {
      var t :| 0 <= t < |a| && f[t] > 1 && v in a[t].cfglist;
      assert t in S;
      var k :| 0 <= k < |S| && S[k] == t;
    }
  }

  /** The prefixed flags hold exactly the prefixed values. */
  lemma PrefixedMember(vs: seq<string>, v: string)
    ensures CFG_PREFIX + v in Prefixed(vs) <==> v in vs
  {
    var r := Prefixed(vs);
    if CFG_PREFIX + v in r {
      var j :| 0 <= j < |r| && r[j] == CFG_PREFIX + v;
      assert vs[j] == (CFG_PREFIX + vs[j])[|CFG_PREFIX|..] == (CFG_PREFIX + v)[|CFG_PREFIX|..] == v;
    }
    if v in vs {
      var j :| 0 <= j < |vs| && vs[j] == v;
      assert r[j] == CFG_PREFIX + v;
    }
  }
}

=== FILE: app_reach.dfy ===
/** Which tasks a run reaches. A task's counter ends at zero exactly when
    no selected root reaches it through dependency edges. */
module AppReach {
  import opened Base
  import opened AppConfig
  import opened AppSelect

  /** `S` is closed under the dependency relation. */
  ghost predicate Closed(a: Registry, S: set<nat>)
  {
    forall i, k :: i in S && 0 <= i < |a| && 0 <= k < |a[i].deps| ==> a[i].deps[k] in S
  }

  ghost predicate ContainsAll(S: set<nat>, roots: seq<nat>)
  {
    forall k :: 0 <= k < |roots| ==> roots[k] in S
  }

  /** `x` lies in every dependency-closed set holding the roots, that is,
      in the least one: the tasks reachable from `roots`. */
  ghost predicate Reachable(a: Registry, roots: seq<nat>, x: nat)
  {
    forall S: set<nat> :: Closed(a, S) && ContainsAll(S, roots) ==> x in S
  }

  /** The tasks with a nonzero counter. */
  function Visited(c: Counts): set<nat>
  {
    set i: nat | i < |c| && c[i] > 0
  }

  ghost predicate VisitedWithin(c: Counts, S: set<nat>)
  {
    forall i :: 0 <= i < |c| && c[i] > 0 ==> i in S
  }

  /** A walk that starts inside a closed set stays inside it. */
  lemma SelectStaysIn(a: Registry, c: Counts, t: nat, S: set<nat>)
    requires WellFormed(a) && |c| == |a| && t < |a|
    requires Closed(a, S) && t in S && VisitedWithin(c, S)
    ensures VisitedWithin(Select(a, c, t), S)
    decreases |Unvisited(c)|, 0
  {
    if c[t] == 0 {
      UnvisitedShrinks(c, t);
      var c1 := c[t := 1];
      assert ContainsAll(S, a[t].deps);
      SelectAllStaysIn(a, c1, a[t].deps, S);
    }
  }

  lemma SelectAllStaysIn(a: Registry, c: Counts, ds: seq<nat>, S: set<nat>)
    requires WellFormed(a) && |c| == |a| && InRange(a, ds)
    requires Closed(a, S) && ContainsAll(S, ds) && VisitedWithin(c, S)
    ensures VisitedWithin(SelectAll(a, c, ds), S)
    decreases |Unvisited(c)|, 1, |ds|
  {
    if ds != [] {
      SelectStaysIn(a, c, ds[0], S);
      var c1 := Select(a, c, ds[0]);
      UnvisitedMonotone(c, c1);
      SelectAllStaysIn(a, c1, ds[1..], S);
    }
  }

  /** After the roots are selected from fresh counters, the visited tasks
      form a dependency-closed set holding every root. */
  lemma VisitedClosed(a: Registry, roots: seq<nat>)
    requires WellFormed(a) && InRange(a, roots)
    ensures var V := Visited(SelectAll(a, Fresh(|a|), roots));
      Closed(a, V) && ContainsAll(V, roots)
  {
    var z := Fresh(|a|);
    var c := SelectAll(a, z, roots);
    var V := Visited(c);
    forall i, k | i in V && 0 <= i < |a| && 0 <= k < |a[i].deps|
      ensures a[i].deps[k] in V
    {
      var d := a[i].deps[k];
      HitsCovers(a, z, c, d, |a|, i);
      OccPositive(a[i].deps, k);
    }
    forall k | 0 <= k < |roots|
      ensures roots[k] in V
    {
      OccPositive(roots, k);
    }
  }

  /** A task's counter is zero after the roots are selected iff no root reaches it. */
  lemma CountZeroIffUnreachable(a: Registry, roots: seq<nat>, x: nat)
    requires WellFormed(a) && InRange(a, roots) && x < |a|
    ensures SelectAll(a, Fresh(|a|), roots)[x] == 0 <==> !Reachable(a, roots, x)
  {
    var z := Fresh(|a|);
    var c := SelectAll(a, z, roots);
    var V := Visited(c);
    VisitedClosed(a, roots);
    if c[x] > 0 {
      forall S: set<nat> | Closed(a, S) && ContainsAll(S, roots)
        ensures x in S
      {
        SelectAllStaysIn(a, z, roots, S);
      }
    } else {
      assert x !in V;
    }
  }
}

=== FILE: app_run.dfy ===
/** The main loop of the application-graph tool: each requested root is
    selected and, right after its own selection, its counter is raised to 2
    if it is still at most 1, interleaved with the later roots. */
module AppRun {
  import opened Base
  import opened AppConfig
  import opened AppSelect
  import opened AppReach

  /** The loop `tasks[selected].select(); if in_degree <= 1: in_degree += 1`
      over roots already resolved to registry positions. */
  function Force(a: Registry, c: Counts, roots: seq<nat>): (c2: Counts)
    requires WellFormed(a) && |c| == |a| && InRange(a, roots)
    ensures |c2| == |a| && Below(c, c2)
    ensures forall k :: 0 <= k < |roots| ==> c2[roots[k]] >= 2
    decreases |roots|
  {
    if roots == [] then c
    else
      Force(a, Bump(Select(a, c, roots[0]), roots[0]), roots[1..])
  }

  /** `if in_degree <= 1: in_degree += 1`. */
  function Bump(c: Counts, r: nat): (c2: Counts)
    requires r < |c|
    ensures |c2| == |c| && Below(c, c2)
    ensures c[r] >= 1 ==> c2[r] >= 2
    ensures forall x :: 0 <= x < |c| && x != r ==> c2[x] == c[x]
  {
    if c[r] <= 1 then c[r := c[r] + 1] else c
  }

  /** Same tasks visited in both counter vectors. */
  predicate SameVisited(c: Counts, d: Counts)
  {
    |c| == |d| && forall i :: 0 <= i < |c| ==> (c[i] == 0 <==> d[i] == 0)
  }

  /** What a selection adds depends only on which tasks were visited, not on
      the counter values themselves. */
  lemma SelectDelta(a: Registry, c: Counts, d: Counts, t: nat)
    requires WellFormed(a) && |c| == |a| && t < |a| && SameVisited(c, d)
    ensures forall x :: 0 <= x < |a| ==> Select(a, d, t)[x] + c[x] == Select(a, c, t)[x] + d[x]
    decreases |Unvisited(c)|, 0
  {
    if c[t] == 0 {
      UnvisitedShrinks(c, t);
      SelectAllDelta(a, c[t := 1], d[t := 1], a[t].deps);
    }
  }

  lemma SelectAllDelta(a: Registry, c: Counts, d: Counts, ds: seq<nat>)
    requires WellFormed(a) && |c| == |a| && InRange(a, ds) && SameVisited(c, d)
    ensures forall x :: 0 <= x < |a| ==> SelectAll(a, d, ds)[x] + c[x] == SelectAll(a, c, ds)[x] + d[x]
    decreases |Unvisited(c)|, 1, |ds|
  {
    if ds != [] {
      SelectDelta(a, c, d, ds[0]);
      var c1, d1 := Select(a, c, ds[0]), Select(a, d, ds[0]);
      UnvisitedMonotone(c, c1);
      SelectAllDelta(a, c1, d1, ds[1..]);
    }
  }

  /** `f` differs from `p` only by single bumps of tasks named in `R`. */
  predicate Shadows(f: Counts, p: Counts, R: set<nat>)
  {
    |f| == |p| &&
    forall x :: 0 <= x < |f| ==> p[x] <= f[x] <= p[x] + 1 && (f[x] != p[x] ==> x in R && p[x] > 0)
  }

  lemma {:induction false} ForceShadows(a: Registry, f: Counts, p: Counts, R: set<nat>, roots: seq<nat>)
    requires WellFormed(a) && |p| == |a| && InRange(a, roots) && Shadows(f, p, R)
    ensures Shadows(Force(a, f, roots), SelectAll(a, p, roots), R + set x | x in roots)
    decreases |roots|
  {
    if roots != [] {
      var r := roots[0];
      ShadowStep(a, f, p, R, r);
      var p1 := Select(a, p, r);
      var f2 := Bump(Select(a, f, r), r);
      UnvisitedMonotone(p, p1);
      ForceShadows(a, f2, p1, R + {r}, roots[1..]);
      RootsSet(R, roots);
    }
  }

  lemma RootsSet(R: set<nat>, roots: seq<nat>)
    requires roots != []
    ensures (R + {roots[0]}) + (set x | x in roots[1..]) == R + set x | x in roots
  {
    assert roots == [roots[0]] + roots[1..];
  }

  lemma ShadowStep(a: Registry, f: Counts, p: Counts, R: set<nat>, r: nat)
    requires WellFormed(a) && |p| == |a| && r < |a| && Shadows(f, p, R)
    ensures Shadows(Bump(Select(a, f, r), r), Select(a, p, r), R + {r})
  {
    SelectDelta(a, p, f, r);
    var f1, p1 := Select(a, f, r), Select(a, p, r);
    var f2 := Bump(f1, r);
    forall x | 0 <= x < |a|
      ensures p1[x] <= f2[x] <= p1[x] + 1 && (f2[x] != p1[x] ==> x in R + {r} && p1[x] > 0)
    {
      if x != r {
        assert f2[x] == f1[x];
      }
    }
  }

  /** Root forcing changes a counter by at most one, and only a root's. */
  lemma ForcingOnlyBumpsRoots(a: Registry, roots: seq<nat>)
    requires WellFormed(a) && InRange(a, roots)
    ensures var f, p := Force(a, Fresh(|a|), roots), SelectAll(a, Fresh(|a|), roots);
      forall x :: 0 <= x < |a| ==> p[x] <= f[x] <= p[x] + 1 && (f[x] != p[x] ==> x in roots)
  {
    ForceShadows(a, Fresh(|a|), Fresh(|a|), {}, roots);
  }

  /** Whatever the order of the roots, a task ends with a counter of at
      least 2 iff it is a root or the plain walk selected it at least twice:
      once as a root plus once per dependency mention by a visited task. */
  lemma StandaloneIffRootOrShared(a: Registry, roots: seq<nat>, x: nat)
    requires WellFormed(a) && InRange(a, roots) && x < |a|
    ensures var z := Fresh(|a|); var p := SelectAll(a, z, roots);
      Force(a, z, roots)[x] >= 2 <==> x in roots || Occ(roots, x) + Hits(a, z, p, x, |a|) >= 2
  {
    ForcingOnlyBumpsRoots(a, roots);
    if x in roots {
      var k :| 0 <= k < |roots| && roots[k] == x;
      assert Force(a, Fresh(|a|), roots)[roots[k]] >= 2;
    }
  }

  /** Forcing does not change which tasks are reached. */
  lemma ForcedZeroIffUnreachable(a: Registry, roots: seq<nat>, x: nat)
    requires WellFormed(a) && InRange(a, roots) && x < |a|
    ensures Force(a, Fresh(|a|), roots)[x] == 0 <==> !Reachable(a, roots, x)
  {
    ForcingOnlyBumpsRoots(a, roots);
    CountZeroIffUnreachable(a, roots, x);
    if x in roots {
      var k :| 0 <= k < |roots| && roots[k] == x;
      assert Force(a, Fresh(|a|), roots)[roots[k]] >= 2;
    }
  }
}

=== FILE: app_select.dfy ===
/** The visit counter of the application-graph tool (`Task.select`).

    A run threads one counter per task through the walk. Selecting a task
    bumps its counter; only the bump from 0 to 1 walks on into the task's
    dependencies, in declared order. The walk therefore terminates on any
    graph, cyclic or not: each propagation removes one task from the set of
    unvisited ones. */
module AppSelect {
  import opened Base
  import opened AppConfig

  /** A counter for every task of the registry. */
  type Counts = seq<nat>

  /** The tasks not yet visited. */
  function Unvisited(c: Counts): set<nat>
  {
    set i: nat | i < |c| && c[i] == 0
  }

  /** Number of occurrences of `x` in `s`. */
  function Occ(s: seq<nat>, x: nat): nat
  {
    if s == [] then 0 else (if s[0] == x then 1 else 0) + Occ(s[1..], x)
  }

  /** Task `p` went from unvisited in `c` to visited in `c2`. */
  predicate Newly(c: Counts, c2: Counts, p: nat)
    requires p < |c| && p < |c2|
  {
    c[p] == 0 && c2[p] > 0
  }

  /** How often `x` is named as a dependency by the tasks among the first `n`
      that became visited between `c` and `c2`: the selections of `x` that
      those first visits caused. */
  function Hits(a: Registry, c: Counts, c2: Counts, x: nat, n: nat): nat
    requires n <= |a| && |c| == |a| && |c2| == |a|
  {
    if n == 0 then 0
    else Hits(a, c, c2, x, n - 1) + (if Newly(c, c2, n - 1) then Occ(a[n - 1].deps, x) else 0)
  }

  predicate Below(c: Counts, c2: Counts)
  {
    |c| == |c2| && forall i :: 0 <= i < |c| ==> c[i] <= c2[i]
  }

  /** All dependency indices of `ds` are tasks of `a`. */
  predicate InRange(a: Registry, ds: seq<nat>)
  {
    forall k :: 0 <= k < |ds| ==> ds[k] < |a|
  }

  /** `Task.select`: bump the counter of `t`; on its first visit, select
      every dependency in declared order.

      The counter of every task `x` grows by exactly the number of times it
      was selected: once if it is `t`, plus once per mention of `x` in the
      dependency list of every task this call visited for the first time. */
  function Select(a: Registry, c: Counts, t: nat): (c2: Counts)
    requires WellFormed(a) && |c| == |a| && t < |a|
    ensures |c2| == |a|
    ensures forall x :: 0 <= x < |a| ==>
      c2[x] == c[x] + (if x == t then 1 else 0) + Hits(a, c, c2, x, |a|)
    ensures c[t] > 0 ==> c2 == c[t := c[t] + 1]
    decreases |Unvisited(c)|, 0
  {
    var c1 := c[t := c[t] + 1];
    if c1[t] > 1 then
      HitsNone(a, c, c1, |a|);
      c1
    else
      UnvisitedShrinks(c, t);
      var c2 := SelectAll(a, c1, a[t].deps);
      HitsFirstVisit(a, c, c1, c2, t, |a|);
      c2
  }

  /** The loop `for task in self.deptask: task.select()`. */
  function SelectAll(a: Registry, c: Counts, ds: seq<nat>): (c2: Counts)
    requires WellFormed(a) && |c| == |a| && InRange(a, ds)
    ensures |c2| == |a|
    ensures forall x :: 0 <= x < |a| ==> c2[x] == c[x] + Occ(ds, x) + Hits(a, c, c2, x, |a|)
    decreases |Unvisited(c)|, 1, |ds|
  {
    if ds == [] then
      HitsNone(a, c, c, |a|);
      c
    else
      var c1 := Select(a, c, ds[0]);
      UnvisitedMonotone(c, c1);
      var c2 := SelectAll(a, c1, ds[1..]);
      HitsChain(a, c, c1, c2, |a|);
      c2
  }

  lemma UnvisitedShrinks(c: Counts, t: nat)
    requires t < |c| && c[t] == 0
    ensures |Unvisited(c[t := 1])| < |Unvisited(c)|
  {
    assert Unvisited(c[t := 1]) == Unvisited(c) - {t};
  }

  lemma UnvisitedMonotone(c: Counts, c2: Counts)
    requires Below(c, c2)
    ensures |Unvisited(c2)| <= |Unvisited(c)|
  {
    SubsetCard(Unvisited(c2), Unvisited(c));
  }

  /** No first visit between `c` and `c2`: nothing was propagated. */
  lemma {:induction false} HitsNone(a: Registry, c: Counts, c2: Counts, n: nat)
    requires n <= |a| && |c| == |a| && |c2| == |a|
    requires forall p :: 0 <= p < |a| ==> !Newly(c, c2, p)
    ensures forall x :: Hits(a, c, c2, x, n) == 0
  {
    if n > 0 {
      HitsNone(a, c, c2, n - 1);
    }
  }

  /** First visits add up along a growing chain of counters. */
  lemma {:induction false} HitsChain(a: Registry, c1: Counts, c2: Counts, c3: Counts, n: nat)
    requires n <= |a| && |c1| == |a| && Below(c1, c2) && Below(c2, c3)
    ensures forall x :: Hits(a, c1, c3, x, n) == Hits(a, c1, c2, x, n) + Hits(a, c2, c3, x, n)
  {
    if n > 0 {
      HitsChain(a, c1, c2, c3, n - 1);
    }
  }

  /** Splitting off the first visit of `t` itself. */
  lemma {:induction false} HitsFirstVisit(a: Registry, c: Counts, c1: Counts, c2: Counts, t: nat, n: nat)
    requires n <= |a| && |c| == |a| && t < |a| && c[t] == 0
    requires c1 == c[t := 1] && Below(c1, c2)
    ensures forall x :: Hits(a, c, c2, x, n) == Hits(a, c1, c2, x, n) + (if t < n then Occ(a[t].deps, x) else 0)
  {
    if n > 0 {
      HitsFirstVisit(a, c, c1, c2, t, n - 1);
    }
  }

  /** Counters as `Task.__init__` leaves them: every task unvisited. */
  function Fresh(n: nat): (c: Counts)
    ensures |c| == n && forall i :: 0 <= i < n ==> c[i] == 0
  {
    seq(n, _ => 0)
  }

  /** A first visit of `p` accounts for every mention of `x` among `p`'s dependencies. */
  lemma {:induction false} HitsCovers(a: Registry, c: Counts, c2: Counts, x: nat, n: nat, p: nat)
    requires n <= |a| && |c| == |a| && |c2| == |a| && p < n && Newly(c, c2, p)
    ensures Hits(a, c, c2, x, n) >= Occ(a[p].deps, x)
  {
    if p < n - 1 {
      HitsCovers(a, c, c2, x, n - 1, p);
    }
  }

  lemma {:induction false} OccPositive(s: seq<nat>, k: nat)
    requires k < |s|
    ensures Occ(s, s[k]) >= 1
  {
    if k > 0 {
      OccPositive(s[1..], k - 1);
    }
  }

  lemma {:induction false} OccZero(s: seq<nat>, x: nat)
    requires x !in s
    ensures Occ(s, x) == 0
  {
    if s != [] {
      OccZero(s[1..], x);
    }
  }
}

=== FILE: app_walk.dfy ===
/** The order in which a run visits tasks for the first time. Along any
    dependency edge out of a visited task, the target either ends the run
    with a counter of at least 2 or was first visited later. So the tasks
    with counter 1 contain no dependency cycle, which is what makes the
    resource aggregation terminate even on a cyclic configuration. */
module AppWalk {
  import opened Base
  import opened AppConfig
  import opened AppSelect
  import opened AppRun

  /** The tasks `Select(a, c, t)` visits for the first time, in visiting order. */
  ghost function Visits(a: Registry, c: Counts, t: nat): seq<nat>
    requires WellFormed(a) && |c| == |a| && t < |a|
    decreases |Unvisited(c)|, 0
  {
    if c[t] > 0 then []
    else
      UnvisitedShrinks(c, t);
      [t] + VisitsAll(a, c[t := 1], a[t].deps)
  }

  ghost function VisitsAll(a: Registry, c: Counts, ds: seq<nat>): seq<nat>
    requires WellFormed(a) && |c| == |a| && InRange(a, ds)
    decreases |Unvisited(c)|, 1, |ds|
  {
    if ds == [] then []
    else
      var c1 := Select(a, c, ds[0]);
      UnvisitedMonotone(c, c1);
      Visits(a, c, ds[0]) + VisitsAll(a, c1, ds[1..])
  }

  /** `o` lists exactly the tasks first visited between `c` and `c2`. */
  ghost predicate Lists(a: Registry, c: Counts, c2: Counts, o: seq<nat>)
    requires |c| == |a| && |c2| == |a|
  {
    (forall i :: 0 <= i < |o| ==> o[i] < |a|) &&
    forall p :: 0 <= p < |a| ==> (p in o <==> Newly(c, c2, p))
  }

  /** Every dependency of a task listed in `o` ends with a counter of at
      least 2 in `f` or is listed after that task. */
  ghost predicate Ordered(a: Registry, f: Counts, o: seq<nat>)
  {
    forall i, k :: 0 <= i < |o| && o[i] < |a| && 0 <= k < |a[o[i]].deps| ==>
      a[o[i]].deps[k] < |f| && (f[a[o[i]].deps[k]] >= 2 || a[o[i]].deps[k] in o[i + 1..])
  }

  lemma OrderedGrow(a: Registry, f: Counts, f2: Counts, o: seq<nat>, o2: seq<nat>)
    requires Ordered(a, f, o) && Below(f, f2) && Ordered(a, f2, o2)
    ensures Ordered(a, f2, o + o2)
  {
    var o3 := o + o2;
    forall i, k | 0 <= i < |o3| && o3[i] < |a| && 0 <= k < |a[o3[i]].deps|
      ensures a[o3[i]].deps[k] < |f2| && (f2[a[o3[i]].deps[k]] >= 2 || a[o3[i]].deps[k] in o3[i + 1..])
    {
      if i < |o| {
        assert o3[i] == o[i];
        assert o[i + 1..] <= o3[i + 1..];
        var d := a[o[i]].deps[k];
        if d in o[i + 1..] {
          var j :| 0 <= j < |o[i + 1..]| && o[i + 1..][j] == d;
          assert o3[i + 1..][j] == d;
        }
      } else {
        assert o3[i] == o2[i - |o|];
        assert o3[i + 1..] == o2[i - |o| + 1..];
      }
    }
  }

  lemma VisitsOrdered(a: Registry, c: Counts, t: nat)
    requires WellFormed(a) && |c| == |a| && t < |a|
    ensures Lists(a, c, Select(a, c, t), Visits(a, c, t))
    ensures Ordered(a, Select(a, c, t), Visits(a, c, t))
    decreases |Unvisited(c)|, 0
  {
    if c[t] == 0 {
      UnvisitedShrinks(c, t);
      var c1 := c[t := 1];
      VisitsAllOrdered(a, c1, a[t].deps);
      FirstVisitOrdered(a, c, t);
    }
  }

  /** The step of `VisitsOrdered` for a first visit: `t` goes in front. */
  lemma FirstVisitOrdered(a: Registry, c: Counts, t: nat)
    requires WellFormed(a) && |c| == |a| && t < |a| && c[t] == 0
    requires Lists(a, c[t := 1], SelectAll(a, c[t := 1], a[t].deps), VisitsAll(a, c[t := 1], a[t].deps))
    requires Ordered(a, SelectAll(a, c[t := 1], a[t].deps), VisitsAll(a, c[t := 1], a[t].deps))
    ensures Lists(a, c, Select(a, c, t), Visits(a, c, t))
    ensures Ordered(a, Select(a, c, t), Visits(a, c, t))
  {
    var c1 := c[t := 1];
    var ds := a[t].deps;
    var c2 := SelectAll(a, c1, ds);
    var rest := VisitsAll(a, c1, ds);
    assert Select(a, c, t) == c2;
    assert Visits(a, c, t) == [t] + rest;
    assert c2[t] > 0;
    forall k | 0 <= k < |ds|
      ensures c2[ds[k]] >= 2 || ds[k] in rest
    {
      OccPositive(ds, k);
      assert c1[ds[k]] == 0 ==> Newly(c1, c2, ds[k]);
    }
    FrontLists(a, c, t, c2, rest);
    FrontOrdered(a, t, c2, rest);
  }

  /** A first visit to `t` lists `t` in front of what its dependencies list. */
  lemma FrontLists(a: Registry, c: Counts, t: nat, c2: Counts, rest: seq<nat>)
    requires |c| == |a| && t < |a| && c[t] == 0 && |c2| == |a| && c2[t] > 0
    requires Lists(a, c[t := 1], c2, rest)
    ensures Lists(a, c, c2, [t] + rest)
  {
    var o := [t] + rest;
    assert forall i :: 0 <= i < |rest| ==> o[i + 1] == rest[i];
    forall p | 0 <= p < |a|
      ensures p in o <==> Newly(c, c2, p)
    {
      assert p in o <==> p == t || p in rest;
    }
  }

  /** The dependencies of `t` end counted at least twice or are listed after it. */
  lemma FrontOrdered(a: Registry, t: nat, c2: Counts, rest: seq<nat>)
    requires WellFormed(a) && |c2| == |a| && t < |a|
    requires forall k :: 0 <= k < |a[t].deps| ==> c2[a[t].deps[k]] >= 2 || a[t].deps[k] in rest
    requires Ordered(a, c2, rest)
    ensures Ordered(a, c2, [t] + rest)
  {
    var o := [t] + rest;
    assert o[1..] == rest;
    forall i, k | 0 <= i < |o| && o[i] < |a| && 0 <= k < |a[o[i]].deps|
      ensures a[o[i]].deps[k] < |c2| && (c2[a[o[i]].deps[k]] >= 2 || a[o[i]].deps[k] in o[i + 1..])
    {
      if i > 0 {
        assert o[i] == rest[i - 1] && o[i + 1..] == rest[i..];
      }
    }
  }

  lemma VisitsAllOrdered(a: Registry, c: Counts, ds: seq<nat>)
    requires WellFormed(a) && |c| == |a| && InRange(a, ds)
    ensures Lists(a, c, SelectAll(a, c, ds), VisitsAll(a, c, ds))
    ensures Ordered(a, SelectAll(a, c, ds), VisitsAll(a, c, ds))
    decreases |Unvisited(c)|, 1, |ds|
  {
    if ds != [] {
      VisitsOrdered(a, c, ds[0]);
      var c1 := Select(a, c, ds[0]);
      UnvisitedMonotone(c, c1);
      VisitsAllOrdered(a, c1, ds[1..]);
      var c2 := SelectAll(a, c1, ds[1..]);
      OrderedGrow(a, c1, c2, Visits(a, c, ds[0]), VisitsAll(a, c1, ds[1..]));
    }
  }

  /** The first visits of the whole main loop, root after root. */
  ghost function RunVisits(a: Registry, c: Counts, roots: seq<nat>): seq<nat>
    requires WellFormed(a) && |c| == |a| && InRange(a, roots)
    decreases |roots|
  {
    if roots == [] then []
    else Visits(a, c, roots[0]) + RunVisits(a, Bump(Select(a, c, roots[0]), roots[0]), roots[1..])
  }

  lemma {:induction false} RunOrdered(a: Registry, c: Counts, roots: seq<nat>)
    requires WellFormed(a) && |c| == |a| && InRange(a, roots)
    ensures Lists(a, c, Force(a, c, roots), RunVisits(a, c, roots))
    ensures Ordered(a, Force(a, c, roots), RunVisits(a, c, roots))
    decreases |roots|
  {
    if roots != [] {
      var r := roots[0];
      VisitsOrdered(a, c, r);
      var c1 := Select(a, c, r);
      var c2 := Bump(c1, r);
      RunOrdered(a, c2, roots[1..]);
      var f := Force(a, c2, roots[1..]);
      assert Ordered(a, c2, Visits(a, c, r));
      OrderedGrow(a, c2, f, Visits(a, c, r), RunVisits(a, c2, roots[1..]));
    }
  }

  /** A walk order for the counters a run ends with: every visited task is
      listed, and `Ordered` holds. */
  ghost predicate WalkOrder(a: Registry, f: Counts, o: seq<nat>)
  {
    |f| == |a| && Ordered(a, f, o) &&
    (forall i :: 0 <= i < |o| ==> o[i] < |a|) &&
    forall p :: 0 <= p < |a| && f[p] > 0 ==> p in o
  }

  lemma RunWalkOrder(a: Registry, roots: seq<nat>)
    requires WellFormed(a) && InRange(a, roots)
    ensures WalkOrder(a, Force(a, Fresh(|a|), roots), RunVisits(a, Fresh(|a|), roots))
  {
    RunOrdered(a, Fresh(|a|), roots);
  }

  /** A position of `x` after position `i` of `o`. */
  ghost function After(o: seq<nat>, i: nat, x: nat): (j: nat)
    requires i < |o| && x in o[i + 1..]
    ensures i < j < |o| && o[j] == x
  {
    var k :| 0 <= k < |o[i + 1..]| && o[i + 1..][k] == x;
    i + 1 + k
  }

  /** Some position of `x` in `o`. */
  ghost function PosOf(o: seq<nat>, x: nat): (j: nat)
    requires x in o
    ensures j < |o| && o[j] == x
  {
    var k :| 0 <= k < |o| && o[k] == x;
    k
  }
}

=== FILE: base.dfy ===
/** Definitions shared by every component of the model: failure-carrying
    result types, the error numbers the services return, bytes and machine
    words, the page size, and the rounding helpers the memory code is built on. */
module Base {

  /** The conventional Some/None datatype. */
  datatype Option<+T> = None | Some(value: T)

  /** A value or an error, as returned by a Rust `Result`. */
  datatype Result<+T, +E> = Ok(value: T) | Err(error: E)

  /** The Linux error numbers that appear in the modelled code paths. */
  datatype Errno = EPERM | ENOENT | EAGAIN | ENOMEM | EACCES | EFAULT | EINVAL | ENOTDIR

  /** seL4 error values that appear in the modelled code paths. */
  datatype Sel4Error = AlignmentError | FailedLookup | NotEnoughMemory

  type Byte = b: int | 0 <= b < 256

  /** Number of distinct values of a 64-bit machine word (`usize`, `u64`). */
  const WORD_LIMIT: nat := 0x1_0000_0000_0000_0000

  type Word = w: int | 0 <= w < WORD_LIMIT

  /** Half the word range: the values of a signed 64-bit `i64` lie in
      `[-I64_LIMIT, I64_LIMIT)`. */
  const I64_LIMIT: int := 0x8000_0000_0000_0000

  type I64 = x: int | -I64_LIMIT <= x < I64_LIMIT

  /** Bytes in a machine word, `size_of::<usize>()` on the 64-bit targets. */
  const WORD_BYTES: nat := 8

  /** The 4 KiB small page used throughout the system. */
  const PAGE_SIZE: nat := 0x1000

  /** `n - n % b`: the largest multiple of `b` not above `n`. */
  function RoundDown(n: nat, b: nat): (r: nat)
    requires b > 0
    ensures r <= n && r % b == 0
    ensures n - r < b
  {
    ModUnique(n - n % b, b, n / b, 0);
    n - n % b
  }

  /** Rust's `usize::next_multiple_of`: the least multiple of `b` not below `n`. */
  function RoundUp(n: nat, b: nat): (r: nat)
    requires b > 0
    ensures r >= n && r % b == 0
    ensures r - n < b
  {
    if n % b == 0 then n
    else
      ModUnique(n + (b - n % b), b, n / b + 1, 0);
      n + (b - n % b)
  }

  /** Rust's `usize::div_ceil`. */
  function DivCeil(n: nat, b: nat): (r: nat)
    requires b > 0
    ensures r * b >= n
    ensures r == 0 || (r - 1) * b < n
  {
    if n % b == 0 then n / b
    else
      MulDistrib(n / b + 1, 1, b);
      n / b + 1
  }

  lemma MulAtLeast(k: int, b: int)
    requires k >= 1 && b > 0
    ensures k * b >= b
  {
  }

  lemma MulPositive(k: int, b: int)
    requires b > 0 && k * b > 0
    ensures k > 0
  {
  }

  lemma MulDistrib(x: int, y: int, b: int)
    ensures x * b - y * b == (x - y) * b
  {
  }

  /** Euclidean division is unique: a quotient and remainder in range are the ones `/` and `%` give. */
  lemma ModUnique(x: int, b: int, q: int, r: int)
    requires b > 0 && 0 <= r < b && x == q * b + r
    ensures x % b == r && x / b == q
  {
    var q0, r0 := x / b, x % b;
    assert x == q0 * b + r0;
    if q0 > q {
      MulAtLeast(q0 - q, b);
      MulDistrib(q0, q, b);
      assert false;
    } else if q0 < q {
      MulAtLeast(q - q0, b);
      MulDistrib(q, q0, b);
      assert false;
    }
  }

  /** Floor division is monotone, and the quotients differ by at most the
      difference scaled down, plus one. */
  lemma DivMonotone(x: nat, y: nat, b: nat)
    requires x <= y && b > 0
    ensures x / b <= y / b
    ensures (y / b - x / b) * b <= y - x + b
  {
    var qx, qy := x / b, y / b;
    assert qx * b <= x < qx * b + b;
    assert qy * b <= y < qy * b + b;
    if qx > qy {
      MulAtLeast(qx - qy, b);
      MulDistrib(qx, qy, b);
      assert false;
    }
    MulDistrib(qy, qx, b);
  }

  function Min(x: int, y: int): (r: int)
    ensures r <= x && r <= y && (r == x || r == y)
  {
    if x <= y then x else y
  }

  /** The least element of a finite set of naturals. */
  function MinOf(s: set<nat>): (m: nat)
    requires s != {}
    ensures m in s && forall x :: x in s ==> m <= x
  {
    MinExists(s);
    var m :| m in s && forall x :: x in s ==> m <= x;
    m
  }

  lemma MinExists(s: set<nat>)
    requires s != {}
    ensures exists m :: m in s && forall x :: x in s ==> m <= x
  {
    var y :| y in s;
    MinBelow(s, y);
  }

  /** Descending from any element reaches the least one. */
  lemma {:induction false} MinBelow(s: set<nat>, y: nat)
    requires y in s
    ensures exists m :: m in s && forall x :: x in s ==> m <= x
    decreases y
  {
    if z :| z in s && z < y {
      MinBelow(s, z);
    } else {
      assert forall x :: x in s ==> y <= x;
    }
  }

  function Max(x: int, y: int): (r: int)
    ensures r >= x && r >= y && (r == x || r == y)
  {
    if x >= y then x else y
  }

  /** The `k` little-endian bytes of `w` (the low `k` bytes; higher ones are dropped). */
  function LeBytes(w: nat, k: nat): (r: seq<Byte>)
    ensures |r| == k
  {
    if k == 0 then [] else [w % 256] + LeBytes(w / 256, k - 1)
  }

  /** The number whose little-endian encoding is `bs`. */
  function LeValue(bs: seq<Byte>): nat
  {
    if bs == [] then 0 else bs[0] + 256 * LeValue(bs[1..])
  }

  /** `2^k`. */
  function Pow2(k: nat): (r: nat)
    ensures r > 0
  {
    if k == 0 then 1 else 2 * Pow2(k - 1)
  }

  /** The bound every `k`-byte little-endian value stays under. */
  function Pow256(k: nat): (r: nat)
    ensures r >= 1
  {
    if k == 0 then 1 else 256 * Pow256(k - 1)
  }

  /** Decoding an encoding returns the value when it fits in `k` bytes. */
  lemma {:induction false} LeRoundTrip(w: nat, k: nat)
    requires w < Pow256(k)
    ensures LeValue(LeBytes(w, k)) == w
  {
    if k > 0 {
      LeRoundTrip(w / 256, k - 1);
      assert LeBytes(w, k)[1..] == LeBytes(w / 256, k - 1);
    }
  }

  /** Every `k`-byte sequence decodes below `256^k`. */
  lemma {:induction false} LeValueBound(bs: seq<Byte>)
    ensures LeValue(bs) < Pow256(|bs|)
  {
    if bs != [] {
      LeValueBound(bs[1..]);
    }
  }

  lemma WordFitsEightBytes()
    ensures Pow256(WORD_BYTES) == WORD_LIMIT
  {
  }

  /** Set-cardinality monotonicity, used for termination measures. */
  lemma SubsetCard<T>(a: set<T>, b: set<T>)
    requires a <= b
    ensures |a| <= |b|
  {
    assert b == a + (b - a);
  }

  /** Concatenation of a sequence of sequences. */
  function Flatten<T>(ss: seq<seq<T>>): seq<T>
  {
    if ss == [] then [] else ss[0] + Flatten(ss[1..])
  }

  lemma {:induction false} FlattenAppend<T>(xs: seq<seq<T>>, ys: seq<seq<T>>)
    ensures Flatten(xs + ys) == Flatten(xs) + Flatten(ys)
  {
    if xs == [] {
      assert xs + ys == ys;
    } else {
      assert (xs + ys)[0] == xs[0];
      assert (xs + ys)[1..] == xs[1..] + ys;
      FlattenAppend(xs[1..], ys);
    }
  }

  /** Cutting one element out of a sequence takes exactly that element away. */
  lemma RemoveAt<T>(s: seq<T>, i: nat)
    requires i < |s|
    ensures multiset(s[..i] + s[i + 1..]) + multiset{s[i]} == multiset(s)
  {
    assert s == s[..i] + [s[i]] + s[i + 1..];
  }

  /** A suffix is the slice up to `j` followed by the suffix from `j`. */
  lemma SliceSplit<T>(s: seq<T>, i: nat, j: nat)
    requires i <= j <= |s|
    ensures s[i..] == s[i..j] + s[j..]
  {
  }

  /** `xs` back to front. */
  function Reversed<T>(xs: seq<T>): (r: seq<T>)
    ensures |r| == |xs|
  {
    if xs == [] then [] else Reversed(xs[1..]) + [xs[0]]
  }

  lemma {:induction false} ReversedAppend<T>(xs: seq<T>, x: T)
    ensures Reversed(xs + [x]) == [x] + Reversed(xs)
  {
    if xs != [] {
      assert (xs + [x])[1..] == xs[1..] + [x];
      ReversedAppend(xs[1..], x);
    } else {
      assert xs + [x] == [x];
    }
  }

  /** Element `i` of the reversal is element `|xs| - 1 - i` of `xs`. */
  lemma {:induction false} ReversedIndex<T>(xs: seq<T>)
    ensures forall i :: 0 <= i < |xs| ==> Reversed(xs)[i] == xs[|xs| - 1 - i]
  {
    if xs != [] {
      ReversedIndex(xs[1..]);
    }
  }

  lemma ReversedConcat<T>(a: seq<T>, b: seq<T>)
    ensures Reversed(a + b) == Reversed(b) + Reversed(a)
  {
    ReversedIndex(a + b);
    ReversedIndex(a);
    ReversedIndex(b);
    var l, r := Reversed(a + b), Reversed(b) + Reversed(a);
    forall i | 0 <= i < |l|
      ensures l[i] == r[i]
    {
      if i < |b| {
        assert l[i] == b[|b| - 1 - i];
      } else {
        assert l[i] == a[|a| + |b| - 1 - i];
      }
    }
  }

  lemma ReversedTwice<T>(xs: seq<T>)
    ensures Reversed(Reversed(xs)) == xs
  {
    ReversedIndex(xs);
    ReversedIndex(Reversed(xs));
  }
}

=== FILE: block_cursor.dfy ===
/** The byte cursor the file-system services keep over a block device:
    a block (sector) number and an offset inside that 512-byte block. The
    lwext4 service's `Ext4Disk` and the FAT service's `DiskCursor` use the
    same arithmetic. Both keep 64-bit fields; a cursor set from a 64-bit
    position stays within them. */
module BlockCursor {
  import opened Base

  const BLOCK_SIZE: nat := 0x200

  datatype Cursor = Cursor(block: nat, offset: nat)

  /** The cursors `set_position` can produce. */
  predicate Valid(c: Cursor)
  {
    c.offset < BLOCK_SIZE && c.block * BLOCK_SIZE + c.offset < WORD_LIMIT
  }

  /** `position` / `get_position`: `block * 0x200 + offset`. */
  function Position(c: Cursor): nat
  {
    c.block * BLOCK_SIZE + c.offset
  }

  /** `set_position(p)`: the block is `p / 0x200`, the offset `p % 0x200`,
      so the position reads back as `p`. */
  function SetPosition(p: Word): (c: Cursor)
    ensures Valid(c) && Position(c) == p
    ensures c.offset == p % BLOCK_SIZE
  {
    Cursor(p / BLOCK_SIZE, p % BLOCK_SIZE)
  }

  /** Setting a valid cursor's own position gives back that cursor. */
  lemma PositionRoundTrip(c: Cursor)
    requires Valid(c)
    ensures SetPosition(Position(c)) == c
  {
    ModUnique(Position(c), BLOCK_SIZE, c.block, c.offset);
  }

  /** The cursor of a fresh device is at 0. */
  function NewCursor(): (c: Cursor)
    ensures Valid(c) && Position(c) == 0
  {
    Cursor(0, 0)
  }
}

=== FILE: bulk_data.dfy ===
/** Bulk-data framing over IPC (`send_bulk_data` / `recv_bulk_data`).

    Data too large for one message is cut into chunks of at most
    `IPC_DATA_LEN - 2 * REG_LEN` bytes. Each message carries, in register 0,
    how many bytes remain after this chunk, in register 1 the chunk's size,
    and the chunk from register 2 on. The receiver appends chunks until a
    message says nothing remains. The endpoint calls are the sequence of
    sent messages; the reply label checks are outside the model. */
module BulkData {
  import opened Base
  import opened IpcCodec

  /** The largest chunk one message carries. */
  const CHUNK_MAX: nat := IPC_DATA_LEN - 2 * REG_LEN

  /** A sent message: the IPC buffer and the message length in registers. */
  datatype Message = Message(buf: Buffer, length: nat)

  /** Fill the buffer for the chunk starting at `start`. */
  function Frame(b: Buffer, data: seq<Byte>, start: nat): (m: Message)
    requires start < |data| < WORD_LIMIT
    ensures var size := Min(CHUNK_MAX, |data| - start);
      && Reg(m.buf, 0) == |data| - start - size
      && Reg(m.buf, 1) == size
      && m.buf[2 * REG_LEN..2 * REG_LEN + size] == data[start..start + size]
      && m.length == DivCeil(size, REG_LEN) + 2
      && m.length <= MSG_REGS
  {
    var size := Min(CHUNK_MAX, |data| - start);
    var b0 := SetReg(b, 0, |data| - start - size);
    var b1 := SetReg(b0, 1, size);
    var b2 := SetBytes(b1, 2 * REG_LEN, data[start..start + size]);
    RegLocal(b0, b1, 0);
    RegLocal(b1, b2, 0);
    RegLocal(b1, b2, 1);
    assert DivCeil(size, REG_LEN) <= MSG_REGS - 2 by {
      var d := DivCeil(size, REG_LEN);
      assert d == 0 || (d - 1) * REG_LEN < size;
    }
    Message(b2, DivCeil(size, REG_LEN) + 2)
  }

  /** `send_bulk_data`: the messages sent for `data[start..]`; the buffer
      is reused from one message to the next. */
  function SendFrom(b: Buffer, data: seq<Byte>, start: nat): (ms: seq<Message>)
    requires start <= |data| < WORD_LIMIT
    ensures |ms| == DivCeil(|data| - start, CHUNK_MAX)
    decreases |data| - start
  {
    if start >= |data| then []
    else
      var m := Frame(b, data, start);
      var size := Min(CHUNK_MAX, |data| - start);
      var rest := SendFrom(m.buf, data, start + size);
      ChunkCount(|data| - start);
      [m] + rest
  }

  function SendBulk(b: Buffer, data: seq<Byte>): seq<Message>
    requires |data| < WORD_LIMIT
  {
    SendFrom(b, data, 0)
  }

  lemma ChunkCount(n: nat)
    requires n > 0
    ensures DivCeil(n, CHUNK_MAX) == 1 + DivCeil(n - Min(CHUNK_MAX, n), CHUNK_MAX)
  {
    if n > CHUNK_MAX {
      var m := n - CHUNK_MAX;
      ModUnique(n, CHUNK_MAX, m / CHUNK_MAX + 1, m % CHUNK_MAX);
    } else {
      ModUnique(n, CHUNK_MAX, if n == CHUNK_MAX then 1 else 0, if n == CHUNK_MAX then 0 else n);
    }
  }

  /** `recv_bulk_data`: collect chunks up to and including the message whose
      remaining count is 0. `None` when the messages run out first or a
      chunk size points past the buffer. */
  function RecvBulk(ms: seq<Message>): Option<seq<Byte>>
  {
    if ms == [] then None
    else
      var b := ms[0].buf;
      var len := Reg(b, 1);
      if 2 * REG_LEN + len > IPC_DATA_LEN then None
      else
        var chunk := b[2 * REG_LEN..2 * REG_LEN + len];
        if Reg(b, 0) == 0 then Some(chunk)
        else match RecvBulk(ms[1..])
          case None => None
          case Some(rest) => Some(chunk + rest)
  }

  /** One received message: its chunk, then the rest if more remains. */
  lemma RecvStep(m: Message, rest: seq<Message>, chunk: seq<Byte>)
    requires 2 * REG_LEN + |chunk| <= IPC_DATA_LEN && Reg(m.buf, 1) == |chunk|
    requires m.buf[2 * REG_LEN..2 * REG_LEN + |chunk|] == chunk
    ensures Reg(m.buf, 0) == 0 ==> RecvBulk([m] + rest) == Some(chunk)
    ensures Reg(m.buf, 0) != 0 && RecvBulk(rest).Some? ==> RecvBulk([m] + rest) == Some(chunk + RecvBulk(rest).value)
  {
    assert ([m] + rest)[0] == m;
    assert ([m] + rest)[1..] == rest;
  }

  /** The last message carries the tail and ends the transfer. */
  lemma RecvLast(b: Buffer, data: seq<Byte>, start: nat)
    requires start < |data| < WORD_LIMIT && |data| - start <= CHUNK_MAX
    ensures RecvBulk(SendFrom(b, data, start)) == Some(data[start..])
  {
    var m := Frame(b, data, start);
    var size := |data| - start;
    var rest := SendFrom(m.buf, data, start + size);
    assert SendFrom(b, data, start) == [m] + rest;
    assert data[start..] == data[start..start + size];
    RecvStep(m, rest, data[start..]);
  }

  /** A message with more to come puts its chunk in front of the rest. */
  lemma RecvMiddle(b: Buffer, data: seq<Byte>, start: nat)
    requires start < |data| < WORD_LIMIT && |data| - start > CHUNK_MAX
    requires RecvBulk(SendFrom(Frame(b, data, start).buf, data, start + CHUNK_MAX)) == Some(data[start + CHUNK_MAX..])
    ensures RecvBulk(SendFrom(b, data, start)) == Some(data[start..])
  {
    var m := Frame(b, data, start);
    var rest := SendFrom(m.buf, data, start + CHUNK_MAX);
    assert SendFrom(b, data, start) == [m] + rest;
    var chunk := data[start..start + CHUNK_MAX];
    RecvStep(m, rest, chunk);
    SliceSplit(data, start, start + CHUNK_MAX);
  }

  /** The receiver reassembles exactly the bytes that were sent. */
  lemma {:induction false} SendRecvFrom(b: Buffer, data: seq<Byte>, start: nat)
    requires start < |data| < WORD_LIMIT
    ensures RecvBulk(SendFrom(b, data, start)) == Some(data[start..])
    decreases |data| - start
  {
    if |data| - start <= CHUNK_MAX {
      RecvLast(b, data, start);
    } else {
      SendRecvFrom(Frame(b, data, start).buf, data, start + CHUNK_MAX);
      RecvMiddle(b, data, start);
    }
  }

  /** Whole-transfer round trip; an empty transfer sends nothing. */
  lemma SendRecvBulk(b: Buffer, data: seq<Byte>)
    requires |data| < WORD_LIMIT
    ensures data != [] ==> RecvBulk(SendBulk(b, data)) == Some(data)
    ensures data == [] <==> SendBulk(b, data) == []
  {
    if data != [] {
      SendRecvFrom(b, data, 0);
      assert data[0..] == data;
    }
  }

  /** Every message fits the buffer and declares enough registers to
      cover its chunk. */
  lemma {:induction false} SendLengthsCover(b: Buffer, data: seq<Byte>, start: nat)
    requires start <= |data| < WORD_LIMIT
    ensures forall i :: 0 <= i < |SendFrom(b, data, start)| ==>
      var m := SendFrom(b, data, start)[i];
      m.length <= MSG_REGS && m.length * REG_LEN >= 2 * REG_LEN + Reg(m.buf, 1)
    decreases |data| - start
  {
    if start < |data| {
      var m := Frame(b, data, start);
      var size := Min(CHUNK_MAX, |data| - start);
      SendLengthsCover(m.buf, data, start + size);
      var ms := SendFrom(b, data, start);
      assert ms[1..] == SendFrom(m.buf, data, start + size);
      assert m.length * REG_LEN == DivCeil(size, REG_LEN) * REG_LEN + 2 * REG_LEN;
    }
  }
}

=== FILE: cap_mem.dfy ===
/** Untyped-memory budget accounting (`CapMemSet`).

    The set is a list of untyped capabilities, each paired with the bytes
    still free in it. Objects are always carved from the last entry; when
    that entry looks too small, an optional supplier hands over a new
    untyped, which is appended. The capabilities themselves are opaque
    numbers here, and the supplier's answer is a parameter. */
module CapMem {
  import opened Base

  /** An untyped capability and its remaining budget in bytes. */
  datatype Untyped = Untyped(cap: nat, available: nat)

  /** `hasSupplier` records whether `alloc_func` is set. */
  datatype CapMemSet = CapMemSet(untypes: seq<Untyped>, hasSupplier: bool)

  /** `CapMemSet::new`: no untyped yet. */
  function NewCapMemSet(hasSupplier: bool): (s: CapMemSet)
    ensures s.untypes == [] && s.hasSupplier == hasSupplier
  {
    CapMemSet([], hasSupplier)
  }

  /** `CapMemSet::add`: append at the end. */
  function Add(s: CapMemSet, u: Untyped): (s2: CapMemSet)
    ensures |s2.untypes| == |s.untypes| + 1 && s2.untypes[|s.untypes|] == u
    ensures s2.untypes[..|s.untypes|] == s.untypes && s2.hasSupplier == s.hasSupplier
  {
    s.(untypes := s.untypes + [u])
  }

  /** The last entry serves a request of `size` bytes: strictly more must be left. */
  predicate LastServes(s: CapMemSet, size: nat)
  {
    s.untypes != [] && s.untypes[|s.untypes| - 1].available > size
  }

  /** `CapMemSet::check_available`. `supplied` is what `alloc_func()` would
      return; `None` stands for the panic. */
  function CheckAvailable(s: CapMemSet, size: nat, supplied: Untyped): (res: Option<CapMemSet>)
    ensures LastServes(s, size) ==> res == Some(s)
    ensures !LastServes(s, size) ==>
      (res.Some? <==> s.hasSupplier && supplied.available >= size)
    ensures !LastServes(s, size) && res.Some? ==> res.value == Add(s, supplied)
    ensures res.Some? ==> res.value.untypes != [] && res.value.untypes[|res.value.untypes| - 1].available >= size
  {
    if LastServes(s, size) then Some(s)
    else if s.hasSupplier && supplied.available >= size then Some(Add(s, supplied))
    else None
  }

  /** `alloc_fixed` / `alloc_variable`: make room for an object of
      `physSize` bytes, then take them from the last untyped. The slot and
      the retype call are capability operations outside the model. */
  function AllocObject(s: CapMemSet, physSize: nat, supplied: Untyped): (res: Option<CapMemSet>)
    ensures res.None? <==> CheckAvailable(s, physSize, supplied).None?
    ensures res.Some? ==>
      var before := CheckAvailable(s, physSize, supplied).value.untypes;
      var after := res.value.untypes;
      && |after| == |before| && after[..|after| - 1] == before[..|before| - 1]
      && after[|after| - 1].cap == before[|before| - 1].cap
      && after[|after| - 1].available + physSize == before[|before| - 1].available
  {
    match CheckAvailable(s, physSize, supplied)
    case None => None
    case Some(s1) =>
      var n := |s1.untypes|;
      var last := s1.untypes[n - 1];
      Some(s1.(untypes := s1.untypes[n - 1 := last.(available := last.available - physSize)]))
  }

  /** Total budget across all untypeds. */
  function Budget(us: seq<Untyped>): nat
  {
    if us == [] then 0 else Budget(us[..|us| - 1]) + us[|us| - 1].available
  }

  /** An allocation consumes exactly the object's size from the total
      budget, after adding whatever untyped the supplier handed over. */
  lemma AllocConsumesBudget(s: CapMemSet, physSize: nat, supplied: Untyped)
    requires AllocObject(s, physSize, supplied).Some?
    ensures Budget(AllocObject(s, physSize, supplied).value.untypes) + physSize
      == Budget(s.untypes) + (if LastServes(s, physSize) then 0 else supplied.available)
  {
    var before := CheckAvailable(s, physSize, supplied).value.untypes;
    var after := AllocObject(s, physSize, supplied).value.untypes;
    assert after[..|after| - 1] == before[..|before| - 1];
    if !LastServes(s, physSize) {
      assert before[..|before| - 1] == s.untypes;
    }
  }

  /** Earlier untypeds are never touched, and the entries present before
      the call keep their order. */
  lemma AllocKeepsEarlier(s: CapMemSet, physSize: nat, supplied: Untyped)
    requires AllocObject(s, physSize, supplied).Some?
    ensures var after := AllocObject(s, physSize, supplied).value.untypes;
      |after| >= |s.untypes| &&
      forall i :: 0 <= i < |s.untypes| - 1 ==> after[i] == s.untypes[i]
  {
    var before := CheckAvailable(s, physSize, supplied).value.untypes;
    var after := AllocObject(s, physSize, supplied).value.untypes;
    assert forall i :: 0 <= i < |before| - 1 ==> after[i] == after[..|after| - 1][i];
  }

  /** The `>` / `>=` asymmetry: an entry with exactly `size` bytes left is
      passed over, and a new untyped is requested even though the old one
      would have sufficed. */
  lemma ExactFitRequestsNew(s: CapMemSet, size: nat, supplied: Untyped)
    requires s.untypes != [] && s.untypes[|s.untypes| - 1].available == size
    ensures CheckAvailable(s, size, supplied).Some? ==>
      |CheckAvailable(s, size, supplied).value.untypes| == |s.untypes| + 1
    ensures !s.hasSupplier ==> CheckAvailable(s, size, supplied).None?
  {
  }
}

=== FILE: child_wait.dfy ===
/** Waiting for children (`wait4`). A wait looks through the task table
    for an exited task of the waiting parent, the lowest task id first;
    finding none, it either returns at once (the non-blocking flag) or
    queues `(parent, child, waker)` and stays pending. When a task exits,
    `wake_hangs` wakes the first queued waiter it satisfies. Wakers are
    opaque tokens. */
module ChildWait {
  import opened Base
  import opened TaskSpace
  import opened Timer

  /** `u64::MAX`, the `-1 as u64` that marks a wait for any child. */
  const ANY_CHILD: nat := WORD_LIMIT - 1

  /** An entry of `WAITING_PID`. */
  datatype Waiter = Waiter(parent: nat, child: nat, waker: nat)

  /** The two futures: `WaitPid(parent, pid, once)` and
      `WaitAnyChild(parent, once)`. */
  datatype Wait = WaitPid(parent: nat, pid: nat, once: bool) | WaitAnyChild(parent: nat, once: bool)

  /** An exited child of the waiting parent (with the awaited pid, for `WaitPid`). */
  predicate Reaps(w: Wait, t: Task)
  {
    t.exit.Some? && t.ppid == w.parent && (w.WaitPid? ==> t.pid == w.pid)
  }

  /** The child id a pending wait is queued under. */
  function ChildKey(w: Wait): nat
  {
    if w.WaitPid? then w.pid else ANY_CHILD
  }

  datatype Poll = Ready(found: Option<(nat, int)>) | Pending

  /** One `poll` of either future: the lowest-id reapable task with its
      exit code; else `Ready(None)` with the non-blocking flag; else a new
      waiter at the back of the queue and `Pending`. */
  function PollWait(tm: TaskMap, w: Wait, queue: seq<Waiter>, waker: nat): (r: (Poll, seq<Waiter>))
    ensures (r.0.Ready? && r.0.found.Some?) <==> exists tid :: tid in tm && Reaps(w, tm[tid])
    ensures r.0.Ready? && r.0.found.Some? ==>
      var tid := r.0.found.value.0;
      && tid in tm && Reaps(w, tm[tid]) && tm[tid].exit == Some(r.0.found.value.1)
      && forall other :: other in tm && Reaps(w, tm[other]) ==> tid <= other
    ensures r.0 == Ready(None) <==> w.once && forall tid :: tid in tm ==> !Reaps(w, tm[tid])
    ensures r.0.Pending? ==> r.1 == queue + [Waiter(w.parent, ChildKey(w), waker)]
    ensures !r.0.Pending? ==> r.1 == queue
  {
    var found := set tid | tid in tm && Reaps(w, tm[tid]);
    assert forall tid :: tid in tm && Reaps(w, tm[tid]) ==> tid in found;
    if found != {} then
      var tid := MinOf(found);
      (Ready(Some((tid, tm[tid].exit.value))), queue)
    else if w.once then (Ready(None), queue)
    else (Pending, queue + [Waiter(w.parent, ChildKey(w), waker)])
  }

  /** The exit of `t` satisfies a queued waiter of its parent that waits
      for any child or for `t`'s process. */
  predicate Wakes(x: Waiter, t: Task)
  {
    x.parent == t.ppid && (x.child == ANY_CHILD || x.child == t.pid)
  }

  /** `.position(..)`: where the first waiter `t` satisfies stands. */
  function FirstWaiter(queue: seq<Waiter>, t: Task): (r: Option<nat>)
    ensures r.None? <==> forall i :: 0 <= i < |queue| ==> !Wakes(queue[i], t)
    ensures r.Some? ==> r.value < |queue| && Wakes(queue[r.value], t)
    ensures r.Some? ==> forall i :: 0 <= i < r.value ==> !Wakes(queue[i], t)
  {
    if queue == [] then None
    else if Wakes(queue[0], t) then Some(0)
    else
      match FirstWaiter(queue[1..], t)
      case None => None
      case Some(i) => Some(i + 1)
  }

  /** `wake_hangs(t)`: the first waiter `t` satisfies leaves the queue and
      its waker is woken; the others stay, in their order. */
  function WakeHangs(queue: seq<Waiter>, t: Task): (r: (seq<Waiter>, Option<nat>))
    ensures r.1.None? <==> forall i :: 0 <= i < |queue| ==> !Wakes(queue[i], t)
    ensures r.1.None? ==> r.0 == queue
    ensures r.1.Some? ==> var i := FirstWaiter(queue, t).value;
      r.0 == queue[..i] + queue[i + 1..] && r.1.value == queue[i].waker
  {
    match FirstWaiter(queue, t)
    case None => (queue, None)
    case Some(i) => (queue[..i] + queue[i + 1..], Some(queue[i].waker))
  }

  /** Waking removes exactly one waiter: the woken one. */
  lemma WakeHangsRemovesOne(queue: seq<Waiter>, t: Task)
    requires FirstWaiter(queue, t).Some?
    ensures var i := FirstWaiter(queue, t).value;
      multiset(WakeHangs(queue, t).0) + multiset{queue[i]} == multiset(queue)
  {
    var i := FirstWaiter(queue, t).value;
    RemoveAt(queue, i);
  }

  /** A waiter added behind waiters `t` does not satisfy is the first one `t` satisfies. */
  lemma {:induction false} FirstWaiterAppend(queue: seq<Waiter>, x: Waiter, t: Task)
    requires forall i :: 0 <= i < |queue| ==> !Wakes(queue[i], t)
    requires Wakes(x, t)
    ensures FirstWaiter(queue + [x], t) == Some(|queue|)
    decreases |queue|
  {
    if queue == [] {
      assert (queue + [x])[0] == x;
    } else {
      var q := queue + [x];
      assert q[0] == queue[0] && q[1..] == queue[1..] + [x];
      FirstWaiterAppend(queue[1..], x, t);
    }
  }

  /** A parent that went to sleep waiting is woken when a child it waits
      for exits, provided no earlier waiter claims that exit; the queue
      returns to what it was before the wait. */
  lemma WaitThenWake(tm: TaskMap, w: Wait, queue: seq<Waiter>, waker: nat, t: Task)
    requires PollWait(tm, w, queue, waker).0.Pending?
    requires t.ppid == w.parent && (w.WaitPid? ==> t.pid == w.pid)
    requires forall i :: 0 <= i < |queue| ==> !Wakes(queue[i], t)
    ensures WakeHangs(PollWait(tm, w, queue, waker).1, t) == (queue, Some(waker))
  {
    var x := Waiter(w.parent, ChildKey(w), waker);
    var q := PollWait(tm, w, queue, waker).1;
    assert q == queue + [x];
    FirstWaiterAppend(queue, x, t);
    assert q[..|queue|] == queue && q[|queue| + 1..] == [];
    assert q[|queue|] == x;
    assert q[..|queue|] + q[|queue| + 1..] == queue;
    assert WakeHangs(q, t).1.Some?;
  }
}

=== FILE: clock.dfy ===
/** Time on the AArch64 generic timer. The physical counter `cnt` ticks
    `freq` times a second and the compare value `cval` raises the timer
    interrupt once the counter reaches it; all three live in system
    registers, so here they are parameters. The kernel thread converts
    between ticks and nanoseconds with one 64-bit multiplication and one
    division; the seL4 kit and the vDSO split the count into whole
    seconds and a sub-second remainder instead. */
module Clock {
  import opened Base

  const NS_PER_SEC: nat := 1_000_000_000
  const US_PER_SEC: nat := 1_000_000
  const MS_PER_SEC: nat := 1_000

  /** The counter frequency register holds a 32-bit value. */
  const FREQ_LIMIT: nat := 0x1_0000_0000

  predicate ValidFreq(freq: nat)
  {
    0 < freq < FREQ_LIMIT
  }

  /** `usize`/`u64` arithmetic as a release build computes it: modulo 2^64. */
  function Wrap(x: nat): (r: Word)
    ensures x < WORD_LIMIT ==> r == x
  {
    x % WORD_LIMIT
  }

  /** `get_curr_ns` on the counter and `get_cval_ns` on the compare value,
      as written: `ticks * 1_000_000_000 / freq`, where the product wraps
      once `ticks` passes 2^64 / 10^9. */
  function TicksToNsWrapping(ticks: Word, freq: nat): (r: Word)
    requires freq > 0
    ensures ticks * NS_PER_SEC < WORD_LIMIT ==> r == ticks * NS_PER_SEC / freq
  {
    DivBelow(Wrap(ticks * NS_PER_SEC), freq);
    Wrap(ticks * NS_PER_SEC) / freq
  }

  /** At the 62.5 MHz counter of the QEMU `virt` machine, the clock read by
      `get_curr_ns` jumps from about 295 seconds back to 4 nanoseconds. */
  lemma TicksToNsWrappingGoesBack()
    ensures TicksToNsWrapping(18_446_744_073, 62_500_000) == 295_147_905_168
    ensures TicksToNsWrapping(18_446_744_074, 62_500_000) == 4
  {
  }

  /** The conversion split into whole seconds and the remainder, as the
      seL4 kit does it: the exact `floor(ticks * 10^9 / freq)`. Its
      remainder product stays below 2^64 for every 32-bit frequency. */
  function TicksToNs(ticks: nat, freq: nat): (r: nat)
    requires freq > 0
    ensures r == ticks * NS_PER_SEC / freq
  {
    SplitMulDiv(ticks, NS_PER_SEC, freq);
    (ticks / freq) * NS_PER_SEC + (ticks % freq) * NS_PER_SEC / freq
  }

  /** A later counter value never reads as an earlier time. */
  lemma TicksToNsMonotone(t1: nat, t2: nat, freq: nat)
    requires freq > 0 && t1 <= t2
    ensures TicksToNs(t1, freq) <= TicksToNs(t2, freq)
  {
    MulMono(t1, t2, NS_PER_SEC);
    DivMonotone(t1 * NS_PER_SEC, t2 * NS_PER_SEC, freq);
  }

  /** `get_curr_us`, `get_curr_ms` and `get_curr_sec` as written: the
      wrapping nanosecond clock of `get_curr_ns` divided down. While the
      product fits in 64 bits this is the tick count converted straight
      into the coarser unit; past that it inherits the wrap. */
  function CurrUs(cnt: Word, freq: nat): (r: Word)
    requires freq > 0
    ensures cnt * NS_PER_SEC < WORD_LIMIT ==> r == cnt * US_PER_SEC / freq
    ensures r * 1000 <= TicksToNsWrapping(cnt, freq) < (r + 1) * 1000
  {
    var ns := TicksToNsWrapping(cnt, freq);
    if cnt * NS_PER_SEC < WORD_LIMIT then
      assert cnt * NS_PER_SEC == cnt * US_PER_SEC * 1000;
      DivDiv(cnt * US_PER_SEC, 1000, freq);
      ns / 1000
    else ns / 1000
  }

  function CurrMs(cnt: Word, freq: nat): (r: Word)
    requires freq > 0
    ensures cnt * NS_PER_SEC < WORD_LIMIT ==> r == cnt * MS_PER_SEC / freq
    ensures r * 1_000_000 <= TicksToNsWrapping(cnt, freq) < (r + 1) * 1_000_000
  {
    var ns := TicksToNsWrapping(cnt, freq);
    if cnt * NS_PER_SEC < WORD_LIMIT then
      assert cnt * NS_PER_SEC == cnt * MS_PER_SEC * 1_000_000;
      DivDiv(cnt * MS_PER_SEC, 1_000_000, freq);
      ns / 1_000_000
    else ns / 1_000_000
  }

  function CurrSec(cnt: Word, freq: nat): (r: Word)
    requires freq > 0
    ensures cnt * NS_PER_SEC < WORD_LIMIT ==> r == cnt / freq
    ensures r * NS_PER_SEC <= TicksToNsWrapping(cnt, freq) < (r + 1) * NS_PER_SEC
  {
    var ns := TicksToNsWrapping(cnt, freq);
    if cnt * NS_PER_SEC < WORD_LIMIT then
      DivDiv(cnt, NS_PER_SEC, freq);
      ns / NS_PER_SEC
    else ns / NS_PER_SEC
  }

  /** The coarser clocks inherit the wrap: at 62.5 MHz the second count
      drops from 295 back to 0, and the microsecond count to 0 as well. */
  lemma CurrSecGoesBack()
    ensures CurrSec(18_446_744_073, 62_500_000) == 295
    ensures CurrSec(18_446_744_074, 62_500_000) == 0
    ensures CurrUs(18_446_744_074, 62_500_000) == 0
    ensures CurrSecExact(18_446_744_074, 62_500_000) == 295
  {
  }

  /** The three clocks divided down from the exact conversion, which is
      the same as converting the ticks straight into the coarser unit. */
  function CurrUsExact(cnt: nat, freq: nat): (r: nat)
    requires freq > 0
    ensures r == cnt * US_PER_SEC / freq
  {
    DivDiv(cnt * US_PER_SEC, 1000, freq);
    TicksToNs(cnt, freq) / 1000
  }

  function CurrMsExact(cnt: nat, freq: nat): (r: nat)
    requires freq > 0
    ensures r == cnt * MS_PER_SEC / freq
  {
    DivDiv(cnt * MS_PER_SEC, 1_000_000, freq);
    TicksToNs(cnt, freq) / 1_000_000
  }

  function CurrSecExact(cnt: nat, freq: nat): (r: nat)
    requires freq > 0
    ensures r == cnt / freq
  {
    DivDiv(cnt, NS_PER_SEC, freq);
    TicksToNs(cnt, freq) / NS_PER_SEC
  }

  /** While the product fits, the clocks as written agree with the exact ones. */
  lemma CurrAgreesWhileFits(cnt: Word, freq: nat)
    requires freq > 0 && cnt * NS_PER_SEC < WORD_LIMIT
    ensures CurrUs(cnt, freq) == CurrUsExact(cnt, freq)
    ensures CurrMs(cnt, freq) == CurrMsExact(cnt, freq)
    ensures CurrSec(cnt, freq) == CurrSecExact(cnt, freq)
  {
  }

  /** What `set_timer` writes: the compare value and the enable bit. */
  datatype TimerProgram = TimerProgram(cval: Word, enabled: bool)

  /** `set_timer(next_ns)` as written: `next_ns * freq / 10^9` ticks, where
      the product wraps once `next_ns` passes 2^64 / freq; the timer is
      enabled exactly when `next_ns` is not 0. */
  function SetTimerWrapping(ns: Word, freq: nat): (r: TimerProgram)
    ensures r.enabled <==> ns != 0
    ensures ns * freq < WORD_LIMIT ==> r.cval == ns * freq / NS_PER_SEC
  {
    TimerProgram(Wrap(ns * freq) / NS_PER_SEC, ns != 0)
  }

  /** A deadline about 295 seconds after boot is programmed as compare
      value 0, which has already passed: the interrupt fires at once. */
  lemma SetTimerWrappingFiresEarly()
    ensures SetTimerWrapping(295_147_905_179, 62_500_000).cval == 18_446_744_073
    ensures SetTimerWrapping(295_147_905_180, 62_500_000).cval == 0
    ensures NsToTicks(295_147_905_180, 62_500_000) == 18_446_744_073
  {
  }

  /** The tick count split the way the seL4 kit's `set_timer` does:
      the exact `floor(ns * freq / 10^9)`. */
  function NsToTicks(ns: nat, freq: nat): (r: nat)
    ensures r == ns * freq / NS_PER_SEC
  {
    SplitMulDiv(ns, freq, NS_PER_SEC);
    (ns / NS_PER_SEC) * freq + (ns % NS_PER_SEC) * freq / NS_PER_SEC
  }

  /** `set_timer` with the split conversion. */
  function SetTimer(ns: nat, freq: nat): (r: TimerProgram)
    requires NsToTicks(ns, freq) < WORD_LIMIT
    ensures r.enabled <==> ns != 0
    ensures r.cval == ns * freq / NS_PER_SEC
  {
    TimerProgram(NsToTicks(ns, freq), ns != 0)
  }

  lemma NsToTicksMonotone(n1: nat, n2: nat, freq: nat)
    requires n1 <= n2
    ensures NsToTicks(n1, freq) <= NsToTicks(n2, freq)
  {
    MulMono(n1, n2, freq);
    DivMonotone(n1 * freq, n2 * freq, NS_PER_SEC);
  }

  /** A deadline programmed and read back through `get_cval_ns` is never
      later than the one asked for. */
  lemma NsTicksRoundTrip(ns: nat, freq: nat)
    requires freq > 0
    ensures TicksToNs(NsToTicks(ns, freq), freq) <= ns
  {
    var t := NsToTicks(ns, freq);
    assert t * NS_PER_SEC <= ns * freq by {
      DivMulBelow(ns * freq, NS_PER_SEC);
    }
    DivMonotone(t * NS_PER_SEC, ns * freq, freq);
    MulDivCancel(ns, freq);
  }

  /** `set_timer` as written, while `next_ns * freq` fits in 64 bits: a
      later deadline never gets an earlier compare value. One nanosecond
      past that bound the order breaks (`SetTimerWrappingFiresEarly`). */
  lemma SetTimerWrappingMonotone(n1: Word, n2: Word, freq: nat)
    requires n1 <= n2 && n2 * freq < WORD_LIMIT
    ensures SetTimerWrapping(n1, freq).cval <= SetTimerWrapping(n2, freq).cval
  {
    MulMono(n1, n2, freq);
    NsToTicksMonotone(n1, n2, freq);
  }

  /** `set_timer` then `get_cval_ns`, both as written, while `next_ns * freq`
      fits in 64 bits: the deadline read back is never later than the one
      asked for. */
  lemma SetTimerWrappingReadBack(ns: Word, freq: nat)
    requires freq > 0 && ns * freq < WORD_LIMIT
    ensures TicksToNsWrapping(SetTimerWrapping(ns, freq).cval, freq) <= ns
  {
    var t := SetTimerWrapping(ns, freq).cval;
    assert t == NsToTicks(ns, freq);
    DivMulBelow(ns * freq, NS_PER_SEC);
    assert t * NS_PER_SEC < WORD_LIMIT;
    NsTicksRoundTrip(ns, freq);
  }

  /** A `core::time::Duration`. */
  datatype Duration = Duration(secs: nat, nanos: nat)

  /** `(ticks % freq) * 10^9 / freq`, with the 64-bit product and the
      narrowing to 32 bits that the kit's `as _` and the vDSO's `uint32_t`
      perform. */
  function SubsecNanos(ticks: Word, freq: nat): nat
    requires freq > 0
  {
    (Wrap((ticks % freq) * NS_PER_SEC) / freq) % 0x1_0000_0000
  }

  /** For a 32-bit frequency neither the product nor the narrowing loses
      anything: the sub-second part is exact and below one second. */
  lemma SubsecNanosExact(ticks: Word, freq: nat)
    requires ValidFreq(freq)
    ensures SubsecNanos(ticks, freq) == (ticks % freq) * NS_PER_SEC / freq
    ensures SubsecNanos(ticks, freq) < NS_PER_SEC
  {
    var p := (ticks % freq) * NS_PER_SEC;
    SubsecFits(ticks, freq);
    assert Wrap(p) == p;
    var n := p / freq;
    assert n < 0x1_0000_0000;
    assert n % 0x1_0000_0000 == n;
  }

  /** `current_time` on the counter and `get_cval` on the compare value:
      whole seconds and the nanoseconds of the remainder. Together they
      are the exact nanosecond time, so they agree with `TicksToNs`. */
  function TicksToDuration(ticks: Word, freq: nat): (r: Duration)
    requires freq > 0
    ensures r.secs == ticks / freq
    ensures ValidFreq(freq) ==> r.nanos < NS_PER_SEC && r.secs * NS_PER_SEC + r.nanos == TicksToNs(ticks, freq)
  {
    var r := Duration(ticks / freq, SubsecNanos(ticks, freq));
    if ValidFreq(freq) then
      SubsecNanosExact(ticks, freq);
      SplitMulDiv(ticks, NS_PER_SEC, freq);
      r
    else r
  }

  /** The kit's `set_timer(next)`: `secs * freq + nanos * freq / 10^9`
      ticks with wrapping arithmetic, enabled unless the duration is zero. */
  function DurationToProgram(d: Duration, freq: nat): (r: TimerProgram)
    ensures r.enabled <==> d != Duration(0, 0)
    ensures d.nanos * freq < WORD_LIMIT && d.secs * freq + d.nanos * freq / NS_PER_SEC < WORD_LIMIT ==>
      r.cval == d.secs * freq + d.nanos * freq / NS_PER_SEC
  {
    DivBelow(Wrap(d.nanos * freq), NS_PER_SEC);
    TimerProgram(Wrap(Wrap(d.secs * freq) + Wrap(d.nanos * freq) / NS_PER_SEC), d != Duration(0, 0))
  }

  /** Ticks to a duration and back to ticks never overshoot: a compare
      value read with `get_cval` and programmed again fires no later. */
  lemma DurationRoundTrip(ticks: Word, freq: nat)
    requires ValidFreq(freq)
    ensures DurationToProgram(TicksToDuration(ticks, freq), freq).cval <= ticks
  {
    var d := TicksToDuration(ticks, freq);
    var q, r := ticks / freq, ticks % freq;
    assert d.secs == q;
    assert d.nanos == r * NS_PER_SEC / freq;
    assert d.nanos * NS_PER_SEC <= r * NS_PER_SEC / freq * NS_PER_SEC;
    DivMulBelow(r * NS_PER_SEC, freq);
    assert d.nanos * freq <= r * NS_PER_SEC by {
      MulComm(d.nanos, freq);
    }
    DivMonotone(d.nanos * freq, r * NS_PER_SEC, NS_PER_SEC);
    MulDivCancel(r, NS_PER_SEC);
    assert d.nanos * freq / NS_PER_SEC <= r;
    assert q * freq + r == ticks;
  }

  /** The vDSO's `timespec`. */
  datatype Timespec = Timespec(sec: nat, nsec: nat)

  /** `__kernel_clock_gettime(id, tp)`: the clock id is ignored, both
      fields are filled from the counter, and the result is always 0. The
      reading is the kernel's exact nanosecond time split at the second. */
  function ClockGettime(id: Word, cnt: Word, freq: nat): (r: (int, Timespec))
    requires freq > 0
    ensures r.0 == 0
    ensures r.1.sec == cnt / freq
    ensures ValidFreq(freq) ==> r.1.nsec < NS_PER_SEC && r.1.sec * NS_PER_SEC + r.1.nsec == TicksToNs(cnt, freq)
  {
    var r := (0, Timespec(cnt / freq, SubsecNanos(cnt, freq)));
    if ValidFreq(freq) then
      SubsecNanosExact(cnt, freq);
      SplitMulDiv(cnt, NS_PER_SEC, freq);
      r
    else r
  }

  /** Two calls with different clock ids read the same time. */
  lemma ClockGettimeIgnoresId(id1: Word, id2: Word, cnt: Word, freq: nat)
    requires freq > 0
    ensures ClockGettime(id1, cnt, freq) == ClockGettime(id2, cnt, freq)
  {
  }

  // Arithmetic helpers.

  lemma MulComm(a: nat, b: nat)
    ensures a * b == b * a
  {
  }

  lemma MulAdd(a: int, b: int, c: int)
    ensures (a + b) * c == a * c + b * c
  {
  }

  lemma MulMono(a: nat, b: nat, c: nat)
    requires a <= b
    ensures a * c <= b * c
  {
    MulDistrib(b, a, c);
  }

  lemma DivBelow(x: nat, d: nat)
    requires d > 0
    ensures x / d <= x
  {
    if d > 1 {
      DivMonotone(x, x * d, d);
      MulDivCancel(x, d);
    }
  }

  /** A numerator below `a * b` divides by `b` to less than `a`. */
  lemma DivBelowBound(x: nat, a: nat, b: nat)
    requires b > 0 && x < a * b
    ensures x / b < a
  {
    DivMonotone(x, a * b - 1, b);
    ModUnique(a * b - 1, b, a - 1, b - 1);
  }

  lemma DivMulBelow(x: nat, d: nat)
    requires d > 0
    ensures x / d * d <= x
  {
  }

  lemma MulDivCancel(x: nat, d: nat)
    requires d > 0
    ensures x * d / d == x
  {
    ModUnique(x * d, d, x, 0);
  }

  /** `(x / b) * a + (x % b) * a / b` is `x * a / b`. */
  lemma SplitMulDiv(x: nat, a: nat, b: nat)
    requires b > 0
    ensures (x / b) * a + (x % b) * a / b == x * a / b
  {
    var q, r := x / b, x % b;
    var s, t := r * a / b, r * a % b;
    assert x * a == q * a * b + r * a by {
      assert x == q * b + r;
    }
    assert r * a == s * b + t;
    assert x * a == (q * a + s) * b + t;
    ModUnique(x * a, b, q * a + s, t);
  }

  /** Dividing by `a` and then by `b` is dividing `x * 1` by `a * b`; here
      with the product written as a numerator scaled down. */
  lemma DivDiv(x: nat, a: nat, b: nat)
    requires a > 0 && b > 0
    ensures x * a / b / a == x / b
  {
    var q, r := x / b, x % b;
    var s, t := (r * a) / b, (r * a) % b;
    assert s < a by {
      MulMono(r, b - 1, a);
      DivBelowBound(r * a, a, b);
    }
    assert x * a == (q * a + s) * b + t by {
      MulAdd(q * b, r, a);
      MulAdd(q * a, s, b);
    }
    ModUnique(x * a, b, q * a + s, t);
    ModUnique(q * a + s, a, q, s);
  }

  /** For a 32-bit frequency the remainder product fits in 64 bits and
      the sub-second part in 32 bits. */
  lemma SubsecFits(ticks: Word, freq: nat)
    requires ValidFreq(freq)
    ensures (ticks % freq) * NS_PER_SEC < WORD_LIMIT
    ensures (ticks % freq) * NS_PER_SEC / freq < NS_PER_SEC
  {
    var r := ticks % freq;
    MulMono(r, FREQ_LIMIT, NS_PER_SEC);
    MulMono(r + 1, freq, NS_PER_SEC);
    MulComm(freq, NS_PER_SEC);
    DivBelowBound(r * NS_PER_SEC, NS_PER_SEC, freq);
  }
}

=== FILE: dev_fs.dfy ===
/** The device file system of the kernel thread (`DevDir`,
    `DevDirContainer`): a name-to-device map with sorted listing. */
module DevFs {
  import opened Base

  /** The device nodes the directory holds. */
  datatype Node = Console(idx: Byte) | NullDev | ZeroDev | Other(id: nat)

  type DevDir = map<string, Node>

  /** `DevDir::new`. */
  function NewDevDir(): (d: DevDir)
    ensures d.Keys == {"stdout", "stderr", "stdin", "ttyv0", "null", "zero"}
    ensures d["stdin"] == Console(0) && d["stdout"] == Console(1) && d["stderr"] == Console(2)
    ensures d["ttyv0"] == Console(3) && d["null"] == NullDev && d["zero"] == ZeroDev
  {
    map["stdout" := Console(1), "stderr" := Console(2), "stdin" := Console(0),
        "ttyv0" := Console(3), "null" := NullDev, "zero" := ZeroDev]
  }

  /** `DevDir::add`: insert, replacing any node of that name. */
  function Add(d: DevDir, name: string, n: Node): (d2: DevDir)
    ensures d2.Keys == d.Keys + {name} && d2[name] == n
    ensures forall k :: k in d && k != name ==> d2[k] == d[k]
  {
    d[name := n]
  }

  /** `lookup`: the node, or `ENOENT`. */
  function Lookup(d: DevDir, name: string): (r: Result<Node, Errno>)
    ensures r.Ok? <==> name in d
    ensures r.Ok? ==> r.value == d[name]
    ensures r.Err? ==> r.error == ENOENT
  {
    if name in d then Ok(d[name]) else Err(ENOENT)
  }

  /** Byte-wise lexicographic order, the order of `str` keys in a `BTreeMap`. */
  predicate Less(a: string, b: string)
  {
    if a == [] then b != []
    else if b == [] then false
    else if a[0] != b[0] then a[0] < b[0]
    else Less(a[1..], b[1..])
  }

  lemma {:induction false} LessIrreflexive(a: string)
    ensures !Less(a, a)
  {
    if a != [] {
      LessIrreflexive(a[1..]);
    }
  }

  lemma {:induction false} LessTotal(a: string, b: string)
    ensures a == b || Less(a, b) || Less(b, a)
  {
    if a != [] && b != [] && a[0] == b[0] {
      LessTotal(a[1..], b[1..]);
      if a[1..] == b[1..] {
        assert a == [a[0]] + a[1..] && b == [b[0]] + b[1..];
      }
    }
  }

  lemma {:induction false} LessTransitive(a: string, b: string, c: string)
    requires Less(a, b) && Less(b, c)
    ensures Less(a, c)
  {
    if a != [] && a[0] == b[0] && b[0] == c[0] {
      LessTransitive(a[1..], b[1..], c[1..]);
    }
  }

  /** The least name of a non-empty set. */
  ghost function MinName(s: set<string>): (m: string)
    requires s != {}
    ensures m in s && forall x :: x in s && x != m ==> Less(m, x)
    decreases |s|
  {
    var x :| x in s;
    if s == {x} then x
    else
      var m' := MinName(s - {x});
      LessTotal(x, m');
      if Less(x, m') then
        forall y | y in s && y != x
          ensures Less(x, y)
        {
          if y != m' {
            LessTransitive(x, m', y);
          }
        }
        x
      else
        m'
  }

  /** The names of `s` in ascending order. */
  ghost function SortedNames(s: set<string>): (r: seq<string>)
    ensures |r| == |s|
    ensures forall x :: x in r <==> x in s
    ensures forall i, j :: 0 <= i < j < |r| ==> Less(r[i], r[j])
    decreases |s|
  {
    if s == {} then []
    else
      var m := MinName(s);
      var rest := SortedNames(s - {m});
      assert forall i :: 0 <= i < |rest| ==> rest[i] in s - {m};
      [m] + rest
  }

  datatype FileType = Device | Directory | Regular

  /** A directory listing entry: name, length and type. */
  datatype DirEntry = DirEntry(filename: string, len: nat, fileType: FileType)

  /** `read_dir`: one device entry of length 0 per name, in key order. */
  ghost function ReadDir(d: DevDir): (r: seq<DirEntry>)
    ensures |r| == |d.Keys|
    ensures forall x :: x in d <==> DirEntry(x, 0, Device) in r
    ensures forall e :: e in r ==> e.len == 0 && e.fileType == Device
    ensures Sorted(Names(r))
  {
    Entries(SortedNames(d.Keys))
  }

  /** One device entry per name, in the order given. */
  function Entries(names: seq<string>): (r: seq<DirEntry>)
    ensures Names(r) == names
    ensures forall x :: x in names <==> DirEntry(x, 0, Device) in r
    ensures forall e :: e in r ==> e.len == 0 && e.fileType == Device
  {
    if names == [] then [] else [DirEntry(names[0], 0, Device)] + Entries(names[1..])
  }

  function Names(es: seq<DirEntry>): (r: seq<string>)
    ensures |r| == |es| && forall i :: 0 <= i < |es| ==> r[i] == es[i].filename
  {
    if es == [] then [] else [es[0].filename] + Names(es[1..])
  }

  predicate Sorted(r: seq<string>)
  {
    forall i, j :: 0 <= i < j < |r| ==> Less(r[i], r[j])
  }

  lemma LessAsymmetric(a: string, b: string)
    requires Less(a, b)
    ensures !Less(b, a)
  {
    if Less(b, a) {
      LessTransitive(a, b, a);
      LessIrreflexive(a);
    }
  }

  /** Two ascending listings of the same names are the same listing: the
      key order fixes the listing completely. */
  lemma {:induction false} SortedUnique(r1: seq<string>, r2: seq<string>)
    requires Sorted(r1) && Sorted(r2)
    requires forall x :: x in r1 <==> x in r2
    ensures r1 == r2
  {
    if r1 != [] {
      assert r1[0] in r2;
    }
    if r2 != [] {
      assert r2[0] in r1;
    }
    if r1 != [] && r2 != [] {
      assert r1[0] == r2[0] by {
        var i :| 0 <= i < |r1| && r1[i] == r2[0];
        var j :| 0 <= j < |r2| && r2[j] == r1[0];
        assert i == 0 || Less(r1[0], r2[0]);
        assert j == 0 || Less(r2[0], r1[0]);
        if i != 0 {
          LessAsymmetric(r1[0], r2[0]);
        }
      }
      forall x
        ensures x in r1[1..] <==> x in r2[1..]
      {
        SortedTail(r1, x);
        SortedTail(r2, x);
      }
      SortedUnique(r1[1..], r2[1..]);
    }
  }

  lemma SortedTail(r: seq<string>, x: string)
    requires Sorted(r) && r != []
    ensures x in r[1..] <==> x in r && x != r[0]
  {
    if x in r[1..] {
      var k :| 0 <= k < |r[1..]| && r[1..][k] == x;
      assert Less(r[0], r[k + 1]);
      LessIrreflexive(x);
    }
    if x in r && x != r[0] {
      var k :| 0 <= k < |r| && r[k] == x;
      assert r[1..][k - 1] == x;
    }
  }

  /** The fields of a `stat` record this directory writes, and the access
      times it leaves as they were. */
  datatype Stat = Stat(dev: nat, ino: nat, mode: nat, nlink: nat, uid: nat, gid: nat,
                       size: nat, blksize: nat, blocks: nat, rdev: nat,
                       atime: nat, mtime: nat, ctime: nat)

  /** The directory type bits of a `stat` mode (`S_IFDIR`). */
  const MODE_DIR: nat := 0x4000

  /** `stat` of the directory itself: a directory, inode 1, one link,
      512-byte blocks, every other field it writes zero; the time fields
      are not written. */
  function DirStat(s: Stat): (r: Stat)
    ensures r.mode == MODE_DIR && r.ino == 1 && r.nlink == 1 && r.blksize == 512
    ensures r.dev == 0 && r.uid == 0 && r.gid == 0 && r.size == 0 && r.blocks == 0 && r.rdev == 0
    ensures r.atime == s.atime && r.mtime == s.mtime && r.ctime == s.ctime
  {
    s.(dev := 0, ino := 1, mode := MODE_DIR, nlink := 1, uid := 0, gid := 0,
       size := 0, blksize := 512, blocks := 0, rdev := 0)
  }

  /** A new directory lists its six devices in byte order. */
  lemma NewDevDirListing()
    ensures Names(ReadDir(NewDevDir())) == ["null", "stderr", "stdin", "stdout", "ttyv0", "zero"]
  {
    var want := ["null", "stderr", "stdin", "stdout", "ttyv0", "zero"];
    var got := Names(ReadDir(NewDevDir()));
    DeviceNamesSorted();
    forall x
      ensures x in got <==> x in want
    {
      var d := NewDevDir();
      assert x in got <==> DirEntry(x, 0, Device) in ReadDir(d);
      assert x in d.Keys <==> x in want;
    }
    SortedUnique(got, want);
  }

  lemma DeviceNamesSorted()
    ensures Sorted(["null", "stderr", "stdin", "stdout", "ttyv0", "zero"])
  {
    var w := ["null", "stderr", "stdin", "stdout", "ttyv0", "zero"];
    assert Less(w[0], w[1]) && Less(w[1], w[2]) && Less(w[2], w[3]) && Less(w[3], w[4]) && Less(w[4], w[5]);
    forall i, j | 0 <= i < j < |w|
      ensures Less(w[i], w[j])
    {
      ChainLess(w, i, j);
    }
  }

  lemma {:induction false} ChainLess(w: seq<string>, i: nat, j: nat)
    requires i < j < |w| && forall k :: 0 <= k < |w| - 1 ==> Less(w[k], w[k + 1])
    ensures Less(w[i], w[j])
    decreases j - i
  {
    if j > i + 1 {
      ChainLess(w, i + 1, j);
      LessTransitive(w[i], w[i + 1], w[j]);
    }
  }

  /** Adding a name makes it visible to `lookup`, and lists it. */
  lemma AddThenLookup(d: DevDir, name: string, n: Node)
    ensures Lookup(Add(d, name, n), name) == Ok(n)
    ensures DirEntry(name, 0, Device) in ReadDir(Add(d, name, n))
  {
  }
}

=== FILE: ext4_disk.dfy ===
/** The lwext4 service's block device (`Ext4Disk`): the seek callback the
    ext4 library uses, and the cursor side of the whole-block transfers.
    The capacity comes from the block service and is a parameter; the
    data moved through the shared buffer is outside the model. */
module Ext4Disk {
  import opened Base
  import opened BlockCursor

  /** The `whence` values of the C library. */
  const SEEK_SET: int := 0
  const SEEK_CUR: int := 1
  const SEEK_END: int := 2

  /** `x as i64` for a `u64`. */
  function AsI64(x: Word): (r: I64)
    ensures x < I64_LIMIT ==> r == x
    ensures r % WORD_LIMIT == x
  {
    if x < I64_LIMIT then x else x - WORD_LIMIT
  }

  /** `x as u64` for an `i64`. */
  function AsU64(x: I64): (r: Word)
    ensures x >= 0 ==> r == x
    ensures r % WORD_LIMIT == x % WORD_LIMIT
  {
    if x >= 0 then x else x + WORD_LIMIT
  }

  /** The new position `seek` aims at, or `None` when the checked
      arithmetic overflows: `SEEK_CUR` adds to the unsigned position and
      fails below 0 or past `u64::MAX` (a result past `i64::MAX` turns
      negative in the `as i64`); `SEEK_END` adds to the `i64` size and
      fails outside the `i64` range; an unknown `whence` is treated as `SEEK_SET`. */
  function Target(pos: Word, size: I64, off: I64, whence: int): (r: Option<I64>)
    ensures whence == SEEK_CUR ==> (r.None? <==> !(0 <= pos + off < WORD_LIMIT))
    ensures whence == SEEK_CUR && r.Some? ==> r.value % WORD_LIMIT == pos + off
    ensures whence == SEEK_END ==> (r.None? <==> !(-I64_LIMIT <= size + off < I64_LIMIT))
    ensures whence == SEEK_END && r.Some? ==> r.value == size + off
    ensures whence != SEEK_CUR && whence != SEEK_END ==> r == Some(off)
  {
    if whence == SEEK_CUR then
      var v := pos + off;
      if 0 <= v < WORD_LIMIT then Some(AsI64(v)) else None
    else if whence == SEEK_END then
      var v := size + off;
      if -I64_LIMIT <= v < I64_LIMIT then Some(v) else None
    else Some(off)
  }

  datatype SeekOutcome = Moved(c: Cursor, pos: I64) | Failed(code: int) | Panicked

  /** `seek(off, whence)` on a device of `capacity` bytes: an overflowing
      target fails with -1; a target past the capacity (compared as
      unsigned, so a negative one too) panics; otherwise the cursor moves
      there and the target is returned. */
  function Seek(c: Cursor, capacity: Word, off: I64, whence: int): (r: SeekOutcome)
    requires Valid(c)
    ensures r.Failed? <==> Target(Position(c), AsI64(capacity), off, whence).None?
    ensures r.Failed? ==> r.code == -1
    ensures r.Moved? ==> Valid(r.c) && Position(r.c) == AsU64(r.pos) && Position(r.c) <= capacity
    ensures r.Moved? ==> Target(Position(c), AsI64(capacity), off, whence) == Some(r.pos)
    ensures capacity < I64_LIMIT && r.Moved? ==> 0 <= r.pos <= capacity
  {
    var size := AsI64(capacity);
    match Target(Position(c), size, off, whence)
    case None => Failed(-1)
    case Some(p) =>
      if AsU64(p) > AsU64(size) then Panicked
      else Moved(SetPosition(AsU64(p)), p)
  }

  /** `SEEK_SET` anywhere up to the capacity lands there. */
  lemma SeekSetLands(c: Cursor, capacity: Word, p: nat)
    requires Valid(c) && p <= capacity && p < I64_LIMIT
    ensures Seek(c, capacity, p, SEEK_SET) == Moved(SetPosition(p), p)
  {
  }

  /** `SEEK_CUR` by 0 reports the current position and stays there. */
  lemma SeekCurZeroTells(c: Cursor, capacity: Word)
    requires Valid(c) && Position(c) <= capacity && capacity < I64_LIMIT
    ensures Seek(c, capacity, 0, SEEK_CUR) == Moved(c, Position(c))
  {
    PositionRoundTrip(c);
  }

  /** `read_one` and `write_one` on the cursor: the buffer must be whole
      blocks, at most 16 KiB, from a block boundary, or the assertion
      panics (`None`); otherwise the cursor advances by the length, stays
      on a block boundary, and the length is returned. */
  function Transfer(c: Cursor, len: nat): (r: Option<(Cursor, nat)>)
    requires Valid(c)
    ensures r.Some? <==> len % BLOCK_SIZE == 0 && c.offset == 0 && len <= 0x4000
    ensures r.Some? ==> r.value.1 == len && Valid(r.value.0)
    ensures r.Some? ==> Position(r.value.0) == (Position(c) + len) % WORD_LIMIT && r.value.0.offset == 0
  {
    if len % BLOCK_SIZE == 0 && c.offset == 0 && len <= 0x4000 then
      var p := (Position(c) + len) % WORD_LIMIT;
      BlockMultiple(c.block, len, WORD_LIMIT);
      Some((SetPosition(p), len))
    else None
  }

  /** Whole-block moves from a block boundary, wrapped at 2^64, stay on a
      block boundary. */
  lemma BlockMultiple(block: nat, len: nat, m: nat)
    requires len % BLOCK_SIZE == 0 && m == WORD_LIMIT
    ensures (block * BLOCK_SIZE + len) % m % BLOCK_SIZE == 0
  {
    var x := block * BLOCK_SIZE + len;
    ModUnique(x, BLOCK_SIZE, block + len / BLOCK_SIZE, 0);
    ModUnique(m, BLOCK_SIZE, m / BLOCK_SIZE, 0);
    var q, r := x / m, x % m;
    ModUnique(r, BLOCK_SIZE, x / BLOCK_SIZE - q * (m / BLOCK_SIZE), 0);
  }

  /** Two transfers move the cursor by their total length. */
  lemma TransfersAdd(c: Cursor, a: nat, b: nat)
    requires Valid(c) && Transfer(c, a).Some?
    requires Transfer(Transfer(c, a).value.0, b).Some?
    requires Position(c) + a + b < WORD_LIMIT
    ensures Position(Transfer(Transfer(c, a).value.0, b).value.0) == Position(c) + a + b
  {
    var c1 := Transfer(c, a).value.0;
    ModUnique(Position(c) + a, WORD_LIMIT, 0, Position(c) + a);
    ModUnique(Position(c1) + b, WORD_LIMIT, 0, Position(c1) + b);
  }
}

=== FILE: ext4_fs.dfy ===
/** The lwext4 file service (`EXT4FSImpl`): the table of open files,
    the decision `open` takes on its flags, `close`, the fields `stat`
    fills in, and how `getdents64` packs directory entries into the
    caller's buffer. What the ext4 library itself answers (whether a path
    is a directory or a regular file, a file's size and mode bits, the
    names in a directory) enters as parameters. */
module Ext4Fs {
  import opened Base

  /** Open flags, with the values of the Linux ABI (octal 0100, 01000, 040000). */
  const O_CREAT: nat := 0x40
  const O_TRUNC: nat := 0x200
  const O_DIRECTORY: nat := 0x4000

  /** Capacity of the open-file table. */
  const STORE_CAP: nat := 500

  /** Flag bit `bit` (a power of two) is set in `flags`: `flags & bit == bit`. */
  predicate HasFlag(flags: nat, bit: nat)
    requires bit > 0
  {
    (flags / bit) % 2 == 1
  }

  /** `flags | bit` for a single-bit `bit`. */
  function SetFlag(flags: nat, bit: nat): (r: nat)
    requires bit > 0
    ensures HasFlag(r, bit)
    ensures r - flags == if HasFlag(flags, bit) then 0 else bit
  {
    if HasFlag(flags, bit) then flags
    else
      ModUnique(flags + bit, bit, flags / bit + 1, flags % bit);
      flags + bit
  }

  /** The inode types of the ext4 library. */
  datatype InodeType = RegFile | Dir | ChrDev | BlkDev | Fifo | Socket | Symlink | Unknown

  /** An `Ext4File` in the table: the path and type it was created with,
      and the flags it was opened with, if `file_open` ran. */
  datatype Handle = Handle(path: string, kind: InodeType, openFlags: Option<nat>)

  /** The `FlattenObjects` table of open files, indexed below `STORE_CAP`. */
  type Stores = map<nat, Handle>

  predicate StoresValid(s: Stores)
  {
    forall i :: i in s ==> i < STORE_CAP
  }

  /** The index `add` hands out: the lowest free one, or `None` when the
      table is full. */
  function FreeIndex(s: Stores): (r: Option<nat>)
    ensures r.Some? ==> r.value < STORE_CAP && r.value !in s
    ensures r.Some? ==> forall i :: 0 <= i < r.value ==> i in s
    ensures r.None? ==> forall i :: 0 <= i < STORE_CAP ==> i in s
  {
    FreeFrom(s, 0)
  }

  function FreeFrom(s: Stores, from: nat): (r: Option<nat>)
    requires from <= STORE_CAP
    ensures r.Some? ==> from <= r.value < STORE_CAP && r.value !in s
    ensures r.Some? ==> forall i :: from <= i < r.value ==> i in s
    ensures r.None? ==> forall i :: from <= i < STORE_CAP ==> i in s
    decreases STORE_CAP - from
  {
    if from == STORE_CAP then None
    else if from !in s then Some(from)
    else FreeFrom(s, from + 1)
  }

  /** What `open` does with the flags, given whether the path names a
      directory or a regular file. */
  datatype OpenAction =
    | Create(flags: nat)      // a regular file through `file_open(path, flags | O_TRUNC)`
    | OpenDir                  // a directory handle, never `file_open`ed
    | OpenRegular(flags: nat) // an existing regular file through `file_open(path, flags)`
    | Deny(err: Errno)
    | RefuseDirCreate          // `O_CREAT | O_DIRECTORY`: the service panics

  /** `O_CREAT` decides first: with `O_DIRECTORY` as well the call panics,
      otherwise a regular file is created with `O_TRUNC` added. Without
      `O_CREAT` a directory is looked for before a regular file; a path
      that is neither is refused with `EACCES`. */
  function OpenDecision(flags: nat, isDir: bool, isReg: bool): (r: OpenAction)
    ensures r.RefuseDirCreate? <==> HasFlag(flags, O_CREAT) && HasFlag(flags, O_DIRECTORY)
    ensures r.Create? <==> HasFlag(flags, O_CREAT) && !HasFlag(flags, O_DIRECTORY)
    ensures r.Create? ==> HasFlag(r.flags, O_TRUNC) && r.flags - flags <= O_TRUNC
    ensures r.OpenDir? <==> !HasFlag(flags, O_CREAT) && isDir
    ensures r.OpenRegular? <==> !HasFlag(flags, O_CREAT) && !isDir && isReg
    ensures r.OpenRegular? ==> r.flags == flags
    ensures r.Deny? <==> !HasFlag(flags, O_CREAT) && !isDir && !isReg
    ensures r.Deny? ==> r.err == EACCES
  {
    if HasFlag(flags, O_CREAT) then
      if !HasFlag(flags, O_DIRECTORY) then Create(SetFlag(flags, O_TRUNC)) else RefuseDirCreate
    else if isDir then OpenDir
    else if isReg then OpenRegular(flags)
    else Deny(EACCES)
  }

  datatype OpenOutcome = Opened(stores: Stores, index: nat, size: nat) | Failed(err: Errno) | Panicked

  /** `open(path, flags)`: the decision above, then the handle goes into
      the table at its lowest free index and `(index, file size)` is
      returned; a full table panics. `size` is what the library reports
      for the handle. */
  function Open(s: Stores, path: string, flags: nat, isDir: bool, isReg: bool, size: nat): (r: OpenOutcome)
    requires StoresValid(s)
    ensures r.Failed? <==> OpenDecision(flags, isDir, isReg).Deny?
    ensures r.Failed? ==> r.err == EACCES
    ensures r.Panicked? <==> (OpenDecision(flags, isDir, isReg).RefuseDirCreate?
      || (!OpenDecision(flags, isDir, isReg).Deny? && FreeIndex(s).None?))
    ensures r.Opened? ==> (&& StoresValid(r.stores)
      && Some(r.index) == FreeIndex(s) && r.size == size
      && r.stores.Keys == s.Keys + {r.index}
      && (forall i :: i in s ==> r.stores[i] == s[i])
      && r.stores[r.index].path == path)
    ensures r.Opened? ==> match OpenDecision(flags, isDir, isReg)
      case Create(f) => r.stores[r.index].kind == RegFile && r.stores[r.index].openFlags == Some(f)
      case OpenDir => r.stores[r.index].kind == Dir && r.stores[r.index].openFlags.None?
      case OpenRegular(f) => r.stores[r.index].kind == RegFile && r.stores[r.index].openFlags == Some(f)
      case _ => false
  {
    var h := match OpenDecision(flags, isDir, isReg)
      case Create(f) => Some(Handle(path, RegFile, Some(f)))
      case OpenDir => Some(Handle(path, Dir, None))
      case OpenRegular(f) => Some(Handle(path, RegFile, Some(f)))
      case _ => None;
    var d := OpenDecision(flags, isDir, isReg);
    if d.Deny? then Failed(d.err)
    else if h.None? then Panicked
    else match FreeIndex(s)
      case None => Panicked
      case Some(i) => Opened(s[i := h.value], i, size)
  }

  /** `close(inode)`: the entry leaves the table if it is there. */
  function Close(s: Stores, inode: nat): (r: Stores)
    ensures r.Keys == s.Keys - {inode}
    ensures forall i :: i in r ==> r[i] == s[i]
  {
    s - {inode}
  }

  /** Closing what `open` just stored gives back the table as it was, and
      the next `open` reuses the index. */
  lemma OpenThenClose(s: Stores, path: string, flags: nat, isDir: bool, isReg: bool, size: nat)
    requires StoresValid(s) && Open(s, path, flags, isDir, isReg, size).Opened?
    ensures var r := Open(s, path, flags, isDir, isReg, size);
      && Close(r.stores, r.index) == s
      && FreeIndex(Close(r.stores, r.index)) == Some(r.index)
  {
    var r := Open(s, path, flags, isDir, isReg, size);
    assert Close(r.stores, r.index) == s;
  }

  /** Bitwise or of two naturals. */
  function BitOr(a: nat, b: nat): nat
    decreases a + b
  {
    if a == 0 then b
    else if b == 0 then a
    else 2 * BitOr(a / 2, b / 2) + Max(a % 2, b % 2)
  }

  /** Or-ing bits above the low `k` into a value below `2^k` is adding them. */
  lemma {:induction false} BitOrDisjoint(a: nat, b: nat, k: nat)
    requires a < Pow2(k) && b % Pow2(k) == 0
    ensures BitOr(a, b) == a + b
    decreases k
  {
    if a != 0 && b != 0 {
      assert k > 0;
      var p := Pow2(k - 1);
      var q := b / Pow2(k);
      ModUnique(b, Pow2(k), q, 0);
      assert b == (q * p) * 2 by { MulAdd(q, p, 2); }
      ModUnique(b, 2, q * p, 0);
      ModUnique(b / 2, p, q, 0);
      BitOrDisjoint(a / 2, b / 2, k - 1);
    }
  }

  lemma MulAdd(q: int, p: int, c: int)
    ensures q * (p * c) == (q * p) * c
  {
  }

  /** The type bits `stat` or-s into the mode, per `StatMode`. */
  function TypeBits(k: InodeType): (r: nat)
    ensures r % 0x1000 == 0 && r < 0x1_0000
  {
    match k
    case RegFile => 0x8000
    case Dir => 0x4000
    case ChrDev => 0x2000
    case BlkDev => 0x6000
    case Fifo => 0x1000
    case Socket => 0xC000
    case Symlink => 0xA000
    case Unknown => 0x8000
  }

  /** The type a mode word describes, read back from its type bits. */
  function KindOfMode(mode: nat): InodeType
  {
    match mode / 0x1000 % 16
    case 8 => RegFile
    case 4 => Dir
    case 2 => ChrDev
    case 6 => BlkDev
    case 1 => Fifo
    case 12 => Socket
    case 10 => Symlink
    case _ => Unknown
  }

  /** The fields `stat` fills in; the others keep their defaults. */
  datatype Stat = Stat(ino: nat, mode: nat, nlink: nat, blksize: nat, size: nat)

  /** `stat(inode)` with the library's mode bits `perm` and size for the
      file: the inode number is the table index, one link, 512-byte
      blocks, and the mode carries the type bits of the handle's type (an
      unknown type reads as a regular file). An index not in the table
      panics (`None`). */
  function DoStat(s: Stores, inode: nat, perm: nat, size: nat): (r: Option<Stat>)
    ensures r.Some? <==> inode in s
    ensures r.Some? ==> r.value.ino == inode && r.value.nlink == 1 && r.value.blksize == 0x200
    ensures r.Some? ==> r.value.size == size
  {
    if inode in s then Some(Stat(inode, BitOr(perm, TypeBits(s[inode].kind)), 1, 0x200, size))
    else None
  }

  /** With plain permission bits from the library, the mode `stat` reports
      is those bits plus the type bits, and it reads back as the handle's
      type. */
  lemma StatReportsType(s: Stores, inode: nat, perm: nat, size: nat)
    requires inode in s && perm < 0x1000
    ensures var m := DoStat(s, inode, perm, size).value.mode;
      && m == perm + TypeBits(s[inode].kind)
      && m % 0x1000 == perm
      && KindOfMode(m) == (if s[inode].kind == Unknown then RegFile else s[inode].kind)
  {
    var t := TypeBits(s[inode].kind);
    assert Pow2(12) == 0x1000;
    BitOrDisjoint(perm, t, 12);
    ModUnique(perm + t, 0x1000, t / 0x1000, perm);
  }

  /** A `Dirent64` record as `getdents64` fills it in. */
  datatype Dirent = Dirent(ino: nat, off: nat, reclen: nat, ftype: nat, name: seq<Byte>)

  /** The record length of a name: `(len + 7) / 8 * 8` with `len` the name
      length plus the fixed header of `hdr` bytes. */
  function RecLen(name: seq<Byte>, hdr: nat): (r: nat)
    ensures r == RoundUp(|name| + hdr, 8)
  {
    var len := |name| + hdr;
    var r := (len + 7) / 8 * 8;
    ModUnique(r, 8, (len + 7) / 8, 0);
    RoundUpUnique(len, r);
    r
  }

  /** Only one multiple of 8 lies in `[n, n + 8)`. */
  lemma RoundUpUnique(n: nat, r: nat)
    requires r >= n && r % 8 == 0 && r - n < 8
    ensures r == RoundUp(n, 8)
  {
    var u := RoundUp(n, 8);
    ModUnique(r, 8, r / 8, 0);
    ModUnique(u, 8, u / 8, 0);
  }

  /** Total length of a run of records. */
  function Span(recs: seq<Dirent>): nat
  {
    if recs == [] then 0 else Span(recs[..|recs| - 1]) + recs[|recs| - 1].reclen
  }

  /** What `getdents64` returns besides the records: the bytes written and
      the entry index to resume from. */
  datatype Listing = Listing(recs: seq<Dirent>, total: nat, next: nat)

  /** The records `getdents64` packs for the directory entries `names`
      from the index `offset` on: the `k`-th record carries the entry
      `offset + k` with its record length and, as its offset, the end of
      the run so far; the bytes written fit the buffer. */
  predicate Packed(names: seq<seq<Byte>>, offset: nat, hdr: nat, bufLen: nat, l: Listing)
  {
    && l.next == offset + |l.recs|
    && (offset <= |names| ==> l.next <= |names|)
    && (offset > |names| ==> l.recs == [])
    && l.total == Span(l.recs) <= bufLen
    && AllRecs(names, offset, hdr, l.recs)
  }

  /** The `k`-th record carries the entry `offset + k` with its record
      length and, as its offset, the end of the run up to it. */
  predicate RecAt(names: seq<seq<Byte>>, offset: nat, hdr: nat, recs: seq<Dirent>, k: nat)
    requires k < |recs|
  {
    && offset + k < |names|
    && recs[k] == Dirent(0, Span(recs[..k + 1]), RecLen(names[offset + k], hdr), 0, names[offset + k])
  }

  predicate AllRecs(names: seq<seq<Byte>>, offset: nat, hdr: nat, recs: seq<Dirent>)
  {
    forall k :: 0 <= k < |recs| ==> RecAt(names, offset, hdr, recs, k)
  }

  /** Appending the record of the next entry keeps every record in place
      and extends the run by its length. */
  lemma AppendRec(names: seq<seq<Byte>>, offset: nat, hdr: nat, recs: seq<Dirent>, d: Dirent)
    requires AllRecs(names, offset, hdr, recs) && offset + |recs| < |names|
    requires d == Dirent(0, Span(recs) + RecLen(names[offset + |recs|], hdr), RecLen(names[offset + |recs|], hdr), 0, names[offset + |recs|])
    ensures AllRecs(names, offset, hdr, recs + [d])
    ensures Span(recs + [d]) == Span(recs) + d.reclen
  {
    var r2 := recs + [d];
    assert r2[..|r2| - 1] == recs;
    forall k | 0 <= k < |r2|
      ensures RecAt(names, offset, hdr, r2, k)
    {
      if k < |recs| {
        assert r2[..k + 1] == recs[..k + 1] && r2[k] == recs[k];
        assert RecAt(names, offset, hdr, recs, k);
      } else {
        assert r2[..k + 1] == r2;
      }
    }
  }

  /** `getdents64(inode, offset, buf)` with the directory's entry names
      `names` and a record header of `hdr` bytes: records are packed until
      the entries run out or the next one would overflow `buf`. An inode
      not in the table panics (`None`). */
  method Getdents64(s: Stores, inode: nat, names: seq<seq<Byte>>, offset: nat, bufLen: nat, hdr: nat)
    returns (r: Option<Listing>)
    ensures r.None? <==> inode !in s
    ensures r.Some? ==> Packed(names, offset, hdr, bufLen, r.value)
    ensures r.Some? ==> Maximal(names, hdr, bufLen, r.value)
  {
    if inode !in s {
      return None;
    }
    var recs: seq<Dirent> := [];
    var used := 0;
    var i := offset;
    while i < |names|
      invariant offset <= i && i == offset + |recs|
      invariant offset <= |names| ==> i <= |names|
      invariant offset > |names| ==> recs == []
      invariant used == Span(recs) <= bufLen
      invariant AllRecs(names, offset, hdr, recs)
      decreases |names| - i
    {
      var aligned := RecLen(names[i], hdr);
      if used + aligned > bufLen {
        break;
      }
      var d := Dirent(0, used + aligned, aligned, 0, names[i]);
      AppendRec(names, offset, hdr, recs, d);
      recs := recs + [d];
      used := used + aligned;
      i := i + 1;
    }
    return Some(Listing(recs, used, i));
  }
  /** A listing that stops only where the entries run out or the next
      record would not fit. */
  predicate Maximal(names: seq<seq<Byte>>, hdr: nat, bufLen: nat, l: Listing)
  {
    l.next >= |names| || l.total + RecLen(names[l.next], hdr) > bufLen
  }

  lemma SpanStep(recs: seq<Dirent>, k: nat)
    requires k < |recs|
    ensures Span(recs[..k + 1]) == Span(recs[..k]) + recs[k].reclen
  {
    assert recs[..k + 1][..k] == recs[..k];
  }

  /** Two packings of the same entries agree on their common prefix. */
  lemma PackedPrefix(names: seq<seq<Byte>>, offset: nat, hdr: nat, bufLen: nat, l1: Listing, l2: Listing, k: nat)
    requires Packed(names, offset, hdr, bufLen, l1) && Packed(names, offset, hdr, bufLen, l2)
    requires k <= |l1.recs| && k <= |l2.recs|
    ensures l1.recs[..k] == l2.recs[..k]
  {
    RecsPrefix(names, offset, hdr, l1.recs, l2.recs, k);
  }

  /** Two runs of records of the same entries agree up to the shorter. */
  lemma {:induction false} RecsPrefix(names: seq<seq<Byte>>, offset: nat, hdr: nat, r1: seq<Dirent>, r2: seq<Dirent>, k: nat)
    requires AllRecs(names, offset, hdr, r1) && AllRecs(names, offset, hdr, r2)
    requires k <= |r1| && k <= |r2|
    ensures r1[..k] == r2[..k]
  {
    if k > 0 {
      var j := k - 1;
      RecsPrefix(names, offset, hdr, r1, r2, j);
      assert RecAt(names, offset, hdr, r1, j) && RecAt(names, offset, hdr, r2, j);
      PrefixStep(names, offset, hdr, r1, r2, j);
    }
  }

  /** Equal runs up to `j` and records of the same entry at `j` give equal
      runs up to `j + 1`. */
  lemma PrefixStep(names: seq<seq<Byte>>, offset: nat, hdr: nat, r1: seq<Dirent>, r2: seq<Dirent>, j: nat)
    requires j < |r1| && j < |r2| && r1[..j] == r2[..j]
    requires RecAt(names, offset, hdr, r1, j) && RecAt(names, offset, hdr, r2, j)
    ensures r1[..j + 1] == r2[..j + 1]
  {
    SpanStep(r1, j);
    SpanStep(r2, j);
    assert r1[..j + 1] == r1[..j] + [r1[j]];
    assert r2[..j + 1] == r2[..j] + [r2[j]];
  }

  /** The run before any record of a packing fits with that record. */
  lemma {:induction false} SpanPrefixBound(recs: seq<Dirent>, k: nat)
    requires k < |recs|
    ensures Span(recs[..k]) + recs[k].reclen <= Span(recs)
    decreases |recs|
  {
    SpanStep(recs, k);
    if k + 1 < |recs| {
      var last := |recs| - 1;
      assert recs[..last][..k] == recs[..k] && recs[..last][k] == recs[k];
      SpanPrefixBound(recs[..last], k);
    } else {
      assert recs[..k + 1] == recs;
    }
  }

  /** A packing longer than another shows the other stopped while the
      next record still fitted. */
  lemma PackedLonger(names: seq<seq<Byte>>, offset: nat, hdr: nat, bufLen: nat, l1: Listing, l2: Listing)
    requires Packed(names, offset, hdr, bufLen, l1) && Packed(names, offset, hdr, bufLen, l2)
    ensures |l2.recs| > |l1.recs| ==> !Maximal(names, hdr, bufLen, l1)
  {
    var n1 := |l1.recs|;
    if |l2.recs| > n1 {
      PackedPrefix(names, offset, hdr, bufLen, l1, l2, n1);
      assert l1.recs[..n1] == l1.recs;
      assert Span(l2.recs[..n1]) == l1.total;
      assert RecAt(names, offset, hdr, l2.recs, n1);
      SpanPrefixBound(l2.recs, n1);
    }
  }

  /** A maximal packing is at least as long as any packing. */
  lemma PackedNoShorter(names: seq<seq<Byte>>, offset: nat, hdr: nat, bufLen: nat, l1: Listing, l2: Listing)
    requires Packed(names, offset, hdr, bufLen, l1) && Maximal(names, hdr, bufLen, l1)
    requires Packed(names, offset, hdr, bufLen, l2)
    ensures |l2.recs| <= |l1.recs|
  {
    PackedLonger(names, offset, hdr, bufLen, l1, l2);
  }

  /** `getdents64`'s packing is determined by the entries, the starting
      index and the buffer size: any two maximal packings are equal. */
  lemma PackedUnique(names: seq<seq<Byte>>, offset: nat, hdr: nat, bufLen: nat, l1: Listing, l2: Listing)
    requires Packed(names, offset, hdr, bufLen, l1) && Maximal(names, hdr, bufLen, l1)
    requires Packed(names, offset, hdr, bufLen, l2) && Maximal(names, hdr, bufLen, l2)
    ensures l1 == l2
  {
    PackedNoShorter(names, offset, hdr, bufLen, l1, l2);
    PackedNoShorter(names, offset, hdr, bufLen, l2, l1);
    PackedPrefix(names, offset, hdr, bufLen, l1, l2, |l1.recs|);
    assert l1.recs == l1.recs[..|l1.recs|] && l2.recs == l2.recs[..|l2.recs|];
  }
}

=== FILE: fat_cursor.dfy ===
/** The FAT service's `DiskCursor` as the fatfs library drives it: moving
    the cursor and seeking. Positions are `usize`, and a relative seek
    adds an `i64` in wrapping two's-complement arithmetic, as a release
    build computes it. */
module FatCursor {
  import opened Base
  import opened BlockCursor

  /** Reduction modulo 2^64: the bit pattern a signed or unsigned 64-bit
      result carries, read as unsigned. */
  function Wrap64(x: int): (r: Word)
    ensures 0 <= x < WORD_LIMIT ==> r == x
  {
    x % WORD_LIMIT
  }

  /** `move_cursor(n)`: the position grows by `n`. */
  function MoveCursor(c: Cursor, n: Word): (r: Cursor)
    requires Valid(c)
    ensures Valid(r) && Position(r) == Wrap64(Position(c) + n)
  {
    SetPosition(Wrap64(Position(c) + n))
  }

  datatype SeekFrom = Start(to: Word) | End(delta: I64) | Current(delta: I64)

  /** `seek(pos)`: `Start(i)` moves to `i`; `Current(i)` moves by `i` and
      reports the new position; `End` is `unreachable!()` (`None`). */
  function Seek(c: Cursor, pos: SeekFrom): (r: Option<(Cursor, Word)>)
    requires Valid(c)
    ensures r.None? <==> pos.End?
    ensures r.Some? ==> Valid(r.value.0) && Position(r.value.0) == r.value.1
    ensures pos.Start? ==> r.Some? && r.value.1 == pos.to
    ensures pos.Current? ==> r.Some? && r.value.1 == Wrap64(Position(c) + pos.delta)
  {
    match pos
    case Start(i) => Some((SetPosition(i), i))
    case End(_) => None
    case Current(i) =>
      var p := Wrap64(Position(c) + i);
      Some((SetPosition(p), p))
  }

  /** Seeking to `p` and then by `d` lands on `p + d` when that is a valid position. */
  lemma SeekStartThenCurrent(c: Cursor, p: Word, d: I64)
    requires Valid(c) && 0 <= p + d < WORD_LIMIT
    ensures var c1 := Seek(c, Start(p)).value.0;
      Seek(c1, Current(d)).value.1 == p + d
  {
  }

  /** A relative seek by 0 reports the position and leaves the cursor. */
  lemma SeekCurrentZero(c: Cursor)
    requires Valid(c)
    ensures Seek(c, Current(0)) == Some((c, Position(c)))
  {
    PositionRoundTrip(c);
  }

  /** A relative seek by `-d` undoes one by `d`. */
  lemma SeekCurrentBack(c: Cursor, d: I64)
    requires Valid(c) && d != -I64_LIMIT
    ensures var c1 := Seek(c, Current(d)).value.0;
      Seek(c1, Current(-d)) == Some((c, Position(c)))
  {
    var c1 := Seek(c, Current(d)).value.0;
    var x := Position(c) + d;
    var q := x / WORD_LIMIT;
    ModUnique(Position(c1) - d, WORD_LIMIT, -q, Position(c));
    PositionRoundTrip(c);
  }
}

=== FILE: file_cursor.dfy ===
/** An open file of the kernel thread (`File`): a file-system object, the
    path it was backend by, and a byte offset that reads and writes advance.

    The object behind the file is opaque; its answers to `readat` and
    `writeat` enter as parameters. `read_all` is modelled against a
    backend holding `content` and answering each `readat` with at most
    `chunk` bytes, the shape of the IPC file-system client. */
module FileCursor {
  import opened Base
  import opened MountTable

  datatype File = File(path: string, off: nat)

  /** `File::open`: the mount covering `path` is looked up first, and the
      `unwrap` of that lookup panics (`None`) when no non-empty mounted
      path is a prefix of it. Otherwise the file starts at offset 0 with
      the path given, or the mount's `open` fails with its error,
      `backend`. */
  function Open(ms: Mounts, path: string, backend: Result<(), Errno>): (r: Option<Result<File, Errno>>)
    ensures r.None? <==> forall m :: m in ms && m.path <= path ==> m.path == []
    ensures r.Some? ==> (r.value.Ok? <==> backend.Ok?)
    ensures r.Some? && r.value.Ok? ==> r.value.value.off == 0 && r.value.value.path == path
    ensures r.Some? && backend.Err? ==> r.value == Err(backend.error)
  {
    if GetMounted(ms, path).None? then None
    else
      match backend
      case Err(e) => Some(Err(e))
      case Ok(_) => Some(Ok(File(path, 0)))
  }

  /** `File::from_raw`: offset 0, empty path. */
  function FromRaw(): (f: File)
    ensures f.off == 0 && f.path == ""
  {
    File("", 0)
  }

  /** `File::read` and `File::write`: pass the backend's answer through and
      advance the offset by it, only on success. */
  function Advance(f: File, answer: Result<nat, Errno>): (r: (File, Result<nat, Errno>))
    ensures r.1 == answer && r.0.path == f.path
    ensures answer.Ok? ==> r.0.off == f.off + answer.value
    ensures answer.Err? ==> r.0 == f
  {
    match answer
    case Err(e) => (f, Err(e))
    case Ok(n) => (f.(off := f.off + n), Ok(n))
  }

  /** `File::path`. */
  function PathOf(f: File): string
  {
    f.path
  }

  /** A file opened by a path under some mount reports that path, and a
      raw file none. */
  lemma PathOfOpen(ms: Mounts, p: string)
    requires exists m :: m in ms && m.path <= p && m.path != []
    ensures Open(ms, p, Ok(())).Some? && PathOf(Open(ms, p, Ok(())).value.value) == p
    ensures PathOf(FromRaw()) == ""
  {
  }

  /** With only `/dev` mounted, opening `/tmp/a` panics in the lookup
      before the file system is asked; so does any open once the table is
      empty. */
  lemma OpenUnmountedPanics(fs: nat, backend: Result<(), Errno>)
    ensures Open([Mount("/dev", fs)], "/tmp/a", backend) == None
    ensures Open([], "/tmp/a", backend) == None
  {
    assert !("/dev" <= "/tmp/a") by {
      assert "/dev"[1] != "/tmp/a"[1];
    }
  }

  /** A backend's `readat(off, buf)`: up to `chunk` bytes of `content` from
      `off`, never more than the buffer holds, none past the end. */
  function BackendRead(content: seq<Byte>, chunk: nat, off: nat, bufLen: nat): (r: seq<Byte>)
    ensures |r| <= bufLen && |r| <= chunk
    ensures off <= |content| ==> off + |r| <= |content| && r == content[off..off + |r|]
    ensures off <= |content| && bufLen > 0 && chunk > 0 && off < |content| ==> |r| > 0
  {
    if off >= |content| then []
    else content[off..off + Min(Min(bufLen, chunk), |content| - off)]
  }

  /** How `read_all` ends: the underflow panic of `size - off` when the
      offset is already past the end, the first error of `metadata` or
      `readat`, or the bytes read. */
  datatype ReadAllOutcome = Underflow | Failed(error: Errno) | Done(data: seq<Byte>)

  /** `File::read_all`: allocate what is left of the file and read until the
      backend returns nothing. `metadata` is the backend's answer to the
      size query, and `failAt`, when present, is the index of the `readat`
      call that fails and its error; the offset keeps what the calls
      before it advanced. Call `k` is made only when every earlier call
      returned bytes, that is when `k * chunk < left + chunk`. */
  method ReadAll(f: File, content: seq<Byte>, chunk: nat, metadata: Result<(), Errno>, failAt: Option<(nat, Errno)>)
    returns (f2: File, r: ReadAllOutcome)
    requires chunk > 0
    ensures metadata.Err? ==> r == Failed(metadata.error) && f2 == f
    ensures metadata.Ok? && f.off > |content| ==> r == Underflow && f2 == f
    ensures metadata.Ok? && f.off <= |content| ==>
      var left := |content| - f.off;
      var hit := failAt.Some? && failAt.value.0 * chunk < left + chunk;
      && (hit ==> r == Failed(failAt.value.1) && f2 == f.(off := f.off + Min(failAt.value.0 * chunk, left)))
      && (!hit ==> r == Done(content[f.off..]) && f2 == f.(off := |content|))
  {
    if metadata.Err? {
      return f, Failed(metadata.error);
    }
    if f.off > |content| {
      return f, Underflow;
    }
    var last := |content| - f.off;
    var buffer: seq<Byte> := seq(last, _ => 0);
    var readed := 0;
    var calls := 0;
    f2 := f;
    while true
      invariant readed <= last && |buffer| == last
      invariant f2 == f.(off := f.off + readed)
      invariant buffer[..readed] == content[f.off..f.off + readed]
      invariant readed == Min(calls * chunk, last)
      invariant calls == 0 || (calls - 1) * chunk < last
      invariant failAt.None? || failAt.value.0 >= calls
      decreases last - readed
    {
      assert calls * chunk < last + chunk;
      if failAt.Some? && failAt.value.0 == calls {
        return f2, Failed(failAt.value.1);
      }
      var got := BackendRead(content, chunk, f2.off, last - readed);
      if |got| == 0 {
        break;
      }
      buffer := buffer[..readed] + got + buffer[readed + |got|..];
      assert buffer[..readed + |got|] == content[f.off..f.off + readed] + got;
      readed := readed + |got|;
      calls := calls + 1;
      f2 := f2.(off := f2.off + |got|);
    }
    assert readed == last;
    assert buffer == buffer[..readed];
    if failAt.Some? {
      assert failAt.value.0 >= calls + 1;
      CallsMono(failAt.value.0, calls + 1, chunk);
    }
    return f2, Done(buffer);
  }

  /** A later call index covers at least as many chunks. */
  lemma CallsMono(k: nat, c: nat, chunk: nat)
    requires k >= c
    ensures k * chunk >= c * chunk
  {
    assert k * chunk == c * chunk + (k - c) * chunk;
  }
}

=== FILE: image_layout.dfy ===
/** Laying out an ELF image in a new address space (`footprint`,
    `coarsen_footprint`, `round_down`, `map_image`), in the shared crate
    and in the root task's own copy.

    Segments are given as a sequence (the ELF parser is outside the
    model). Mapping produces the page map the loader records: page-aligned
    virtual address to page contents. Fresh frames are zero-filled; page
    rights are outside the model. */
module ImageLayout {
  import opened Base
  import opened PhysPage

  datatype Segment = Segment(address: nat, size: nat, data: seq<Byte>)

  /** A half-open range `start..end`. */
  datatype Range = Range(start: nat, end: nat)

  /** `Range::len`: empty when the ends are reversed. */
  function Len(r: Range): nat
  {
    if r.end >= r.start then r.end - r.start else 0
  }

  /** `coarsen_footprint`: grow the range outwards to multiples of `g`. */
  function Coarsen(r: Range, g: nat): (c: Range)
    requires g > 0
    ensures c.start <= r.start && c.end >= r.end
    ensures c.start % g == 0 && c.end % g == 0
    ensures r.start - c.start < g && c.end - r.end < g
  {
    Range(RoundDown(r.start, g), RoundUp(r.end, g))
  }

  /** The length of a coarsened range is a whole number of granules. */
  lemma CoarsenWhole(r: Range, g: nat)
    requires g > 0 && r.start <= r.end
    ensures Len(Coarsen(r, g)) % g == 0
  {
    var c := Coarsen(r, g);
    var a, b := c.start / g, c.end / g;
    assert c.start == a * g && c.end == b * g;
    MulDistrib(b, a, g);
    ModUnique(c.end - c.start, g, b - a, 0);
  }

  function MinAddress(segs: seq<Segment>): (m: nat)
    requires segs != []
    ensures exists i :: 0 <= i < |segs| && m == segs[i].address
    ensures forall i :: 0 <= i < |segs| ==> m <= segs[i].address
  {
    if |segs| == 1 then segs[0].address
    else
      var m := MinAddress(segs[1..]);
      assert forall i :: 1 <= i < |segs| ==> segs[i] == segs[1..][i - 1];
      if segs[0].address <= m then segs[0].address else m
  }

  function MaxEnd(segs: seq<Segment>): (m: nat)
    requires segs != []
    ensures exists i :: 0 <= i < |segs| && m == segs[i].address + segs[i].size
    ensures forall i :: 0 <= i < |segs| ==> segs[i].address + segs[i].size <= m
  {
    if |segs| == 1 then segs[0].address + segs[0].size
    else
      var m := MaxEnd(segs[1..]);
      assert forall i :: 1 <= i < |segs| ==> segs[i] == segs[1..][i - 1];
      if segs[0].address + segs[0].size >= m then segs[0].address + segs[0].size else m
  }

  /** Within the footprint: the segment's whole memory range lies inside. */
  predicate Covers(fp: Range, s: Segment)
  {
    fp.start <= s.address && s.address + s.size <= fp.end
  }

  /** `footprint` (shared crate): lowest segment address to highest
      segment end, page-coarsened. `None` stands for the panic on an image
      without segments. */
  function Footprint(segs: seq<Segment>): (res: Option<Range>)
    ensures res.None? <==> segs == []
    ensures res.Some? ==> res.value.start % PAGE_SIZE == 0 && res.value.end % PAGE_SIZE == 0
    ensures res.Some? ==> forall i :: 0 <= i < |segs| ==> Covers(res.value, segs[i])
  {
    if segs == [] then None
    else Some(Coarsen(Range(MinAddress(segs), MaxEnd(segs)), PAGE_SIZE))
  }

  /** The segments a loader places: those not at address 0. */
  function Placed(segs: seq<Segment>): (ps: seq<Segment>)
    ensures forall i :: 0 <= i < |ps| ==> ps[i] in segs && ps[i].address != 0
    ensures forall i :: 0 <= i < |segs| && segs[i].address != 0 ==> segs[i] in ps
  {
    if segs == [] then []
    else (if segs[0].address != 0 then [segs[0]] else []) + Placed(segs[1..])
  }

  /** `footprint` (root task): the minimum skips segments at address 0,
      the maximum does not. `None` when no segment has a nonzero address. */
  function RootFootprint(segs: seq<Segment>): (res: Option<Range>)
    ensures res.None? <==> Placed(segs) == []
    ensures res.Some? ==> res.value.start % PAGE_SIZE == 0 && res.value.end % PAGE_SIZE == 0
    ensures res.Some? ==> forall i :: 0 <= i < |segs| && segs[i].address != 0 ==> Covers(res.value, segs[i])
    ensures res.Some? ==> forall i :: 0 <= i < |segs| ==> segs[i].address + segs[i].size <= res.value.end
  {
    var ps := Placed(segs);
    if ps == [] then None
    else
      assert segs != [];
      Some(Coarsen(Range(MinAddress(ps), MaxEnd(segs)), PAGE_SIZE))
  }

  /** A segment at address 0 widens the root task's footprint at the top
      but not at the bottom, so the footprint need not contain it. */
  lemma RootFootprintSkipsZero()
    ensures var segs := [Segment(0, 0x20000, []), Segment(0x10000, 0x1000, [])];
      RootFootprint(segs) == Some(Range(0x10000, 0x20000)) &&
      Footprint(segs) == Some(Range(0, 0x20000))
  {
    var segs := [Segment(0, 0x20000, []), Segment(0x10000, 0x1000, [])];
    assert segs[1..] == [Segment(0x10000, 0x1000, [])];
    assert Placed(segs) == [Segment(0x10000, 0x1000, [])];
    ModUnique(0x10000, PAGE_SIZE, 0x10, 0);
    ModUnique(0x20000, PAGE_SIZE, 0x20, 0);
  }

  /** The page-sized chunks of `data`, written from `off` in page `idx`
      and from offset 0 in each of the following `count - 1` pages. */
  function CopyData(pages: seq<Page>, idx: nat, count: nat, off: nat, data: seq<Byte>): (ps: seq<Page>)
    requires idx + count <= |pages| && off < PAGE_SIZE
    ensures |ps| == |pages|
    ensures forall i :: 0 <= i < |pages| && !(idx <= i < idx + count) ==> ps[i] == pages[i]
    decreases count
  {
    if count == 0 then pages
    else
      var n := Min(PAGE_SIZE - off, |data|);
      var page := Overwrite(pages[idx], off, data[..n]);
      CopyData(pages[idx := page], idx + 1, count - 1, 0, data[n..])
  }

  /** Byte `j` of the data lands `off + j` bytes into the run of pages. */
  lemma {:induction false} CopyDataPlaces(pages: seq<Page>, idx: nat, count: nat, off: nat, data: seq<Byte>, j: nat)
    requires idx + count <= |pages| && off < PAGE_SIZE
    requires off + |data| <= count * PAGE_SIZE && j < |data|
    ensures (off + j) / PAGE_SIZE < count
    ensures CopyData(pages, idx, count, off, data)[idx + (off + j) / PAGE_SIZE][(off + j) % PAGE_SIZE] == data[j]
    decreases count
  {
    var n := Min(PAGE_SIZE - off, |data|);
    var page := Overwrite(pages[idx], off, data[..n]);
    var rest := CopyData(pages[idx := page], idx + 1, count - 1, 0, data[n..]);
    if j < n {
      ModUnique(off + j, PAGE_SIZE, 0, off + j);
      assert page[off + j] == data[j];
      assert rest[idx] == page;
    } else {
      var j2 := j - n;
      assert n == PAGE_SIZE - off;
      MulDistrib(count, 1, PAGE_SIZE);
      CopyDataPlaces(pages[idx := page], idx + 1, count - 1, 0, data[n..], j2);
      ModUnique(j2, PAGE_SIZE, j2 / PAGE_SIZE, j2 % PAGE_SIZE);
      ModUnique(off + j, PAGE_SIZE, j2 / PAGE_SIZE + 1, j2 % PAGE_SIZE);
    }
  }

  /** Byte `o` of page `i` is byte `i * PAGE_SIZE + o` of the run. */
  function At(i: nat, o: nat): nat
  {
    i * PAGE_SIZE + o
  }

  /** Copying touches only the bytes of the run it writes to. */
  lemma {:induction false} CopyDataFrame(pages: seq<Page>, idx: nat, count: nat, off: nat, data: seq<Byte>, i: nat, o: nat)
    requires idx + count <= |pages| && off < PAGE_SIZE && i < |pages| && o < PAGE_SIZE
    requires !(At(idx, off) <= At(i, o) < At(idx, off) + |data|)
    ensures CopyData(pages, idx, count, off, data)[i][o] == pages[i][o]
    decreases count
  {
    if count > 0 {
      var n := Min(PAGE_SIZE - off, |data|);
      var page := Overwrite(pages[idx], off, data[..n]);
      MulDistrib(idx + 1, idx, PAGE_SIZE);
      if i == idx {
        assert !(off <= o < off + n);
      }
      CopyDataFrame(pages[idx := page], idx + 1, count - 1, 0, data[n..], i, o);
    }
  }

  /** Byte `j` of the data is at run position `At(idx, off) + j`. */
  lemma CopyDataAt(pages: seq<Page>, idx: nat, count: nat, off: nat, data: seq<Byte>, j: nat, i: nat, o: nat)
    requires idx + count <= |pages| && off < PAGE_SIZE
    requires off + |data| <= count * PAGE_SIZE && j < |data|
    requires o < PAGE_SIZE && At(i, o) == At(idx, off) + j
    ensures i < |pages|
    ensures CopyData(pages, idx, count, off, data)[i][o] == data[j]
  {
    CopyDataPlaces(pages, idx, count, off, data, j);
    var q := (off + j) / PAGE_SIZE;
    ModUnique(off + j, PAGE_SIZE, q, (off + j) % PAGE_SIZE);
    MulDistrib(idx + q, idx, PAGE_SIZE);
    ModUnique(At(i, o), PAGE_SIZE, i, o);
    ModUnique(At(i, o), PAGE_SIZE, idx + q, (off + j) % PAGE_SIZE);
  }

  /** Where a segment goes inside the footprint's run of pages. */
  datatype Placement = Placement(pageIndex: nat, dataPages: nat, spanPages: nat, offset: nat)

  /** The page-index arithmetic of `map_image` for one segment; `None` where
      the Rust code would underflow or slice past the page list. */
  function Place(fp: Range, numPages: nat, s: Segment): (res: Option<Placement>)
    requires fp.start % PAGE_SIZE == 0
    ensures res.Some? ==>
      && res.value.pageIndex + res.value.spanPages <= numPages
      && res.value.pageIndex + res.value.dataPages <= numPages
      && res.value.offset == s.address % PAGE_SIZE
      && res.value.offset + |s.data| <= res.value.dataPages * PAGE_SIZE
      && fp.start + res.value.pageIndex * PAGE_SIZE == RoundDown(s.address, PAGE_SIZE)
      && fp.start + res.value.pageIndex * PAGE_SIZE + res.value.offset == s.address
  {
    var segFp := Coarsen(Range(s.address, s.address + s.size), PAGE_SIZE);
    var dataFp := Coarsen(Range(s.address, s.address + |s.data|), PAGE_SIZE);
    var span := Len(segFp) / PAGE_SIZE;
    var dataPages := Len(dataFp) / PAGE_SIZE;
    if segFp.start < fp.start then None
    else
      var index := (segFp.start - fp.start) / PAGE_SIZE;
      if index + span > numPages || index + dataPages > numPages then None
      else
        PlaceArithmetic(fp, s, index, dataPages);
        Some(Placement(index, dataPages, span, s.address % PAGE_SIZE))
  }

  lemma PlaceArithmetic(fp: Range, s: Segment, index: nat, dataPages: nat)
    requires fp.start % PAGE_SIZE == 0
    requires RoundDown(s.address, PAGE_SIZE) >= fp.start
    requires index == (RoundDown(s.address, PAGE_SIZE) - fp.start) / PAGE_SIZE
    requires dataPages == Len(Coarsen(Range(s.address, s.address + |s.data|), PAGE_SIZE)) / PAGE_SIZE
    ensures s.address % PAGE_SIZE + |s.data| <= dataPages * PAGE_SIZE
    ensures fp.start + index * PAGE_SIZE == RoundDown(s.address, PAGE_SIZE)
    ensures RoundDown(s.address, PAGE_SIZE) + s.address % PAGE_SIZE == s.address
  {
    var lo := RoundDown(s.address, PAGE_SIZE);
    ModUnique(s.address, PAGE_SIZE, lo / PAGE_SIZE, s.address - lo);
    var dataFp := Coarsen(Range(s.address, s.address + |s.data|), PAGE_SIZE);
    CoarsenWhole(Range(s.address, s.address + |s.data|), PAGE_SIZE);
    assert Len(dataFp) == dataPages * PAGE_SIZE;
    var a, b := lo / PAGE_SIZE, fp.start / PAGE_SIZE;
    assert lo == a * PAGE_SIZE && fp.start == b * PAGE_SIZE;
    MulDistrib(a, b, PAGE_SIZE);
    ModUnique(lo - fp.start, PAGE_SIZE, a - b, 0);
  }

  /** Copy one segment's data into the page run. */
  function LoadSegment(fp: Range, pages: seq<Page>, s: Segment): (res: Option<seq<Page>>)
    requires fp.start % PAGE_SIZE == 0
    ensures res.Some? ==> |res.value| == |pages|
  {
    match Place(fp, |pages|, s)
    case None => None
    case Some(pl) => Some(CopyData(pages, pl.pageIndex, pl.dataPages, pl.offset, s.data))
  }

  /** The segment loop of `map_image`; `skipZero` is the root task's
      `continue` on segments at address 0. */
  function LoadAll(fp: Range, pages: seq<Page>, segs: seq<Segment>, skipZero: bool): (res: Option<seq<Page>>)
    requires fp.start % PAGE_SIZE == 0
    ensures res.Some? ==> |res.value| == |pages|
    decreases |segs|
  {
    if segs == [] then Some(pages)
    else if skipZero && segs[0].address == 0 then LoadAll(fp, pages, segs[1..], skipZero)
    else match LoadSegment(fp, pages, segs[0])
      case None => None
      case Some(p1) => LoadAll(fp, p1, segs[1..], skipZero)
  }

  /** Whether `LoadAll` copies segment `s`. */
  predicate Loaded(s: Segment, skipZero: bool)
  {
    !(skipZero && s.address == 0)
  }

  /** Address `a` is covered by the data of segment `s`. */
  predicate InData(s: Segment, a: nat)
  {
    s.address <= a < s.address + |s.data|
  }

  /** Every loaded segment's data lies within the mapped pages. */
  lemma {:induction false} LoadAllInRange(fp: Range, pages: seq<Page>, segs: seq<Segment>, skipZero: bool, k: nat)
    requires fp.start % PAGE_SIZE == 0 && LoadAll(fp, pages, segs, skipZero).Some?
    requires k < |segs| && Loaded(segs[k], skipZero)
    ensures fp.start <= segs[k].address && segs[k].address + |segs[k].data| <= fp.start + |pages| * PAGE_SIZE
    decreases |segs|
  {
    if k == 0 {
      var pl := Place(fp, |pages|, segs[0]).value;
      MulDistrib(pl.pageIndex + pl.dataPages, pl.pageIndex, PAGE_SIZE);
      MulDistrib(|pages|, pl.pageIndex + pl.dataPages, PAGE_SIZE);
    } else if Loaded(segs[0], skipZero) {
      LoadAllInRange(fp, LoadSegment(fp, pages, segs[0]).value, segs[1..], skipZero, k - 1);
    } else {
      LoadAllInRange(fp, pages, segs[1..], skipZero, k - 1);
    }
  }

  /** Bytes no loaded segment's data covers keep their initial value. */
  lemma {:induction false} LoadAllFrame(fp: Range, pages: seq<Page>, segs: seq<Segment>, skipZero: bool, i: nat, o: nat, a: nat)
    requires fp.start % PAGE_SIZE == 0 && LoadAll(fp, pages, segs, skipZero).Some?
    requires i < |pages| && o < PAGE_SIZE && a == fp.start + At(i, o)
    requires forall k :: 0 <= k < |segs| && Loaded(segs[k], skipZero) ==> !InData(segs[k], a)
    ensures LoadAll(fp, pages, segs, skipZero).value[i][o] == pages[i][o]
    decreases |segs|
  {
    if segs != [] {
      var rest := segs[1..];
      assert forall k :: 1 <= k < |segs| ==> rest[k - 1] == segs[k];
      if Loaded(segs[0], skipZero) {
        var pl := Place(fp, |pages|, segs[0]).value;
        assert !InData(segs[0], a);
        CopyDataFrame(pages, pl.pageIndex, pl.dataPages, pl.offset, segs[0].data, i, o);
        LoadAllFrame(fp, LoadSegment(fp, pages, segs[0]).value, rest, skipZero, i, o, a);
      } else {
        LoadAllFrame(fp, pages, rest, skipZero, i, o, a);
      }
    }
  }

  /** Byte `j` of a loaded segment ends up at its address `a` unless a later
      loaded segment's data overwrites that address. */
  lemma {:induction false} LoadAllPlaces(fp: Range, pages: seq<Page>, segs: seq<Segment>, skipZero: bool, k: nat, j: nat, i: nat, o: nat, a: nat)
    requires fp.start % PAGE_SIZE == 0 && LoadAll(fp, pages, segs, skipZero).Some?
    requires k < |segs| && Loaded(segs[k], skipZero) && j < |segs[k].data| && a == segs[k].address + j
    requires i < |pages| && o < PAGE_SIZE && a == fp.start + At(i, o)
    requires forall k2 :: k < k2 < |segs| && Loaded(segs[k2], skipZero) ==> !InData(segs[k2], a)
    ensures LoadAll(fp, pages, segs, skipZero).value[i][o] == segs[k].data[j]
    decreases |segs|
  {
    var rest := segs[1..];
    assert forall k2 :: 1 <= k2 < |segs| ==> rest[k2 - 1] == segs[k2];
    if k == 0 {
      var pl := Place(fp, |pages|, segs[0]).value;
      var p1 := LoadSegment(fp, pages, segs[0]).value;
      CopyDataAt(pages, pl.pageIndex, pl.dataPages, pl.offset, segs[0].data, j, i, o);
      LoadAllFrame(fp, p1, rest, skipZero, i, o, a);
    } else if Loaded(segs[0], skipZero) {
      LoadAllPlaces(fp, LoadSegment(fp, pages, segs[0]).value, rest, skipZero, k - 1, j, i, o, a);
    } else {
      LoadAllPlaces(fp, pages, rest, skipZero, k - 1, j, i, o, a);
    }
  }

  /** Page `i` of the run is mapped at `start + i * PAGE_SIZE`, and
      nothing else is mapped. */
  function PageMap(start: nat, pages: seq<Page>): (m: map<nat, Page>)
    ensures forall i :: 0 <= i < |pages| ==> PageAddr(start, i) in m && m[PageAddr(start, i)] == pages[i]
    ensures forall a :: a in m <==> InRun(start, |pages|, a)
    decreases |pages|
  {
    if pages == [] then map[]
    else
      var rest := PageMap(start + PAGE_SIZE, pages[1..]);
      PageMapStep(start, start + PAGE_SIZE, pages, rest);
      rest[start := pages[0]]
  }

  /** Page 0 mapped at `start` in front of the rest mapped from the next page. */
  lemma PageMapStep(start: nat, next: nat, pages: seq<Page>, rest: map<nat, Page>)
    requires pages != [] && next == start + PAGE_SIZE
    requires forall i :: 0 <= i < |pages| - 1 ==>
      PageAddr(next, i) in rest && rest[PageAddr(next, i)] == pages[i + 1]
    requires forall a :: a in rest <==> InRun(next, |pages| - 1, a)
    ensures var m := rest[start := pages[0]];
      && (forall i :: 0 <= i < |pages| ==> PageAddr(start, i) in m && m[PageAddr(start, i)] == pages[i])
      && (forall a :: a in m <==> InRun(start, |pages|, a))
  {
    var m := rest[start := pages[0]];
    forall i | 0 <= i < |pages|
      ensures PageAddr(start, i) in m && m[PageAddr(start, i)] == pages[i]
    {
      if i > 0 {
        assert PageAddr(start, i) == PageAddr(next, i - 1);
      }
    }
    forall a
      ensures a in m <==> InRun(start, |pages|, a)
    {
      InRunStep(start, |pages|, a);
    }
  }

  /** `a` is the address of one of the `n` pages of the run from `start`. */
  predicate InRun(start: nat, n: nat, a: nat)
  {
    start <= a < start + n * PAGE_SIZE && (a - start) % PAGE_SIZE == 0
  }

  /** A run of pages is its first page followed by the run from the next page. */
  lemma InRunStep(start: nat, n: nat, a: nat)
    requires n >= 1
    ensures InRun(start, n, a) <==> a == start || InRun(start + PAGE_SIZE, n - 1, a)
  {
    if start < a {
      var x: nat := a - start;
      if x % PAGE_SIZE == 0 {
        var q := x / PAGE_SIZE;
        assert q >= 1;
        ModUnique(x - PAGE_SIZE, PAGE_SIZE, q - 1, 0);
      }
      if start + PAGE_SIZE <= a && (x - PAGE_SIZE) % PAGE_SIZE == 0 {
        ModUnique(x, PAGE_SIZE, (x - PAGE_SIZE) / PAGE_SIZE + 1, 0);
      }
    }
  }

  /** The address of page `i` of a run starting at `start`. */
  function PageAddr(start: nat, i: nat): nat
  {
    start + i * PAGE_SIZE
  }

  /** `map_image`: `Len(fp) / PAGE_SIZE` zeroed frames, the segments'
      data copied in, every frame mapped at its page of the footprint.
      `skipZero` selects the root task's variant. */
  function MapImage(fp: Range, segs: seq<Segment>, skipZero: bool): (res: Option<map<nat, Page>>)
    requires fp.start % PAGE_SIZE == 0
    ensures res.Some? ==> forall a :: a in res.value <==> InRun(fp.start, Len(fp) / PAGE_SIZE, a)
  {
    var n := Len(fp) / PAGE_SIZE;
    match LoadAll(fp, seq(n, _ => ZeroPage()), segs, skipZero)
    case None => None
    case Some(pages) => Some(PageMap(fp.start, pages))
  }

  /** The mapped image holds each loaded segment's data at the segment's
      addresses, on the page containing each address at the offset within
      that page, except where a later segment's data overwrites it. */
  lemma MapImagePlaces(fp: Range, segs: seq<Segment>, skipZero: bool, m: map<nat, Page>, k: nat, j: nat, a: nat)
    requires fp.start % PAGE_SIZE == 0 && MapImage(fp, segs, skipZero) == Some(m)
    requires k < |segs| && Loaded(segs[k], skipZero) && j < |segs[k].data| && a == segs[k].address + j
    requires forall k2 :: k < k2 < |segs| && Loaded(segs[k2], skipZero) ==> !InData(segs[k2], a)
    ensures RoundDown(a, PAGE_SIZE) in m && m[RoundDown(a, PAGE_SIZE)][a % PAGE_SIZE] == segs[k].data[j]
  {
    var n := Len(fp) / PAGE_SIZE;
    var zero := seq(n, _ => ZeroPage());
    var pages := LoadAll(fp, zero, segs, skipZero).value;
    assert m == PageMap(fp.start, pages);
    LoadAllInRange(fp, zero, segs, skipZero, k);
    var i, o := PageOfAddr(fp.start, a, |pages|);
    LoadAllPlaces(fp, zero, segs, skipZero, k, j, i, o, a);
    PageMapAt(fp.start, pages, m, a, i, o);
  }

  /** The byte at offset `o` of page `i` of a run is the byte of the
      mapped image at the page of `a` and the offset of `a` in it. */
  lemma PageMapAt(start: nat, pages: seq<Page>, m: map<nat, Page>, a: nat, i: nat, o: nat)
    requires m == PageMap(start, pages) && i < |pages| && o < PAGE_SIZE
    requires RoundDown(a, PAGE_SIZE) == PageAddr(start, i) && a % PAGE_SIZE == o
    ensures RoundDown(a, PAGE_SIZE) in m && m[RoundDown(a, PAGE_SIZE)][a % PAGE_SIZE] == pages[i][o]
  {
  }

  /** An address inside a run of `n` pages from the aligned `start` lies on
      page `(a - start) / PAGE_SIZE` of the run, at its offset in that page. */
  lemma PageOfAddr(start: nat, a: nat, n: nat) returns (i: nat, o: nat)
    requires start % PAGE_SIZE == 0 && start <= a < start + n * PAGE_SIZE
    ensures i < n && o < PAGE_SIZE && start + At(i, o) == a
    ensures RoundDown(a, PAGE_SIZE) == PageAddr(start, i) && a % PAGE_SIZE == o
  {
    i, o := (a - start) / PAGE_SIZE, (a - start) % PAGE_SIZE;
    PageIndexBound(a - start, n);
    ModUnique(a, PAGE_SIZE, start / PAGE_SIZE + i, o);
    MulDistrib(start / PAGE_SIZE + i, i, PAGE_SIZE);
  }

  lemma PageIndexBound(x: nat, n: nat)
    requires x < n * PAGE_SIZE
    ensures x / PAGE_SIZE < n
  {
    MulDistrib(n, x / PAGE_SIZE, PAGE_SIZE);
    MulPositive(n - x / PAGE_SIZE, PAGE_SIZE);
  }
}

=== FILE: ipc_codec.dfy ===
/** The message-register codec used for IPC between services
    (`IpcTypeReader` / `IpcTypeWriter`, and the older `IpcBufferRW`).

    The IPC buffer holds 120 message registers of 8 bytes each; it is
    modelled as the 960 bytes of those registers, register `i` being the
    little-endian word in bytes `8*i .. 8*i + 8`. A write or read starts at
    a register offset and returns the offset after it. Out-of-range
    indexing, which panics in the Rust code, is `None`. */
module IpcCodec {
  import opened Base

  /** `REG_LEN`: bytes per message register. */
  const REG_LEN: nat := 8
  /** Number of message registers in the IPC buffer. */
  const MSG_REGS: nat := 120
  /** `IPC_DATA_LEN`: bytes of message registers in the IPC buffer. */
  const IPC_DATA_LEN: nat := MSG_REGS * REG_LEN

  type Buffer = b: seq<Byte> | |b| == IPC_DATA_LEN witness seq(IPC_DATA_LEN, _ => 0)

  /** `msg_regs()[i]`. */
  function Reg(b: Buffer, i: nat): Word
    requires i < MSG_REGS
  {
    LeValueBound(b[i * REG_LEN..i * REG_LEN + REG_LEN]);
    WordFitsEightBytes();
    LeValue(b[i * REG_LEN..i * REG_LEN + REG_LEN])
  }

  /** Bytes `at .. at + |data|` replaced by `data`. */
  function SetBytes(b: Buffer, at: nat, data: seq<Byte>): (b2: Buffer)
    requires at + |data| <= IPC_DATA_LEN
    ensures b2[at..at + |data|] == data
    ensures forall k :: 0 <= k < IPC_DATA_LEN && !(at <= k < at + |data|) ==> b2[k] == b[k]
  {
    b[..at] + data + b[at + |data|..]
  }

  /** `msg_regs_mut()[i] = v`. */
  function SetReg(b: Buffer, i: nat, v: Word): (b2: Buffer)
    requires i < MSG_REGS
    ensures Reg(b2, i) == v
    ensures forall k :: 0 <= k < IPC_DATA_LEN && !(i * REG_LEN <= k < i * REG_LEN + REG_LEN) ==> b2[k] == b[k]
  {
    var b2 := SetBytes(b, i * REG_LEN, LeBytes(v, REG_LEN));
    WordFitsEightBytes();
    LeRoundTrip(v, REG_LEN);
    b2
  }

  /** A register reads the same from two buffers that agree on its bytes. */
  lemma RegLocal(b: Buffer, b2: Buffer, i: nat)
    requires i < MSG_REGS
    requires forall k :: i * REG_LEN <= k < i * REG_LEN + REG_LEN ==> b2[k] == b[k]
    ensures Reg(b2, i) == Reg(b, i)
  {
    assert b2[i * REG_LEN..i * REG_LEN + REG_LEN] == b[i * REG_LEN..i * REG_LEN + REG_LEN];
  }

  /** The primitive integer types the macro instantiates: width in bytes and signedness. */
  datatype IntKind = IntKind(width: nat, signed: bool)

  predicate ValidKind(k: IntKind)
  {
    k.width == 1 || k.width == 2 || k.width == 4 || k.width == 8
  }

  /** The values of that Rust type. */
  predicate Fits(k: IntKind, v: int)
    requires ValidKind(k)
  {
    if k.signed then -(Pow256(k.width) / 2) <= v < Pow256(k.width) / 2 else 0 <= v < Pow256(k.width)
  }

  /** `self as _` into a 64-bit register: two's complement, so negative
      values wrap around modulo 2^64. */
  function ToReg(v: int): Word
  {
    v % WORD_LIMIT
  }

  /** `reg as T`: keep the low bytes, then read them as signed if `T` is. */
  function FromReg(k: IntKind, w: Word): int
    requires ValidKind(k)
  {
    var low := w % Pow256(k.width);
    if k.signed && low >= Pow256(k.width) / 2 then low - Pow256(k.width) else low
  }

  lemma Pow256Split(n: nat)
    requires n <= 8
    ensures Pow256(n) * Pow256(8 - n) == WORD_LIMIT
  {
    WordFitsEightBytes();
    Pow256Add(n, 8 - n);
  }

  lemma {:induction false} Pow256Add(m: nat, n: nat)
    ensures Pow256(m) * Pow256(n) == Pow256(m + n)
  {
    if m > 0 {
      Pow256Add(m - 1, n);
    }
  }

  /** Reducing modulo a multiple first does not change the remainder. */
  lemma ModOfMod(v: int, p: nat, t: nat)
    requires p > 0 && t > 0
    ensures (v % (p * t)) % p == v % p
  {
    var m := p * t;
    var q := v / m;
    var r := v % m;
    var q2 := r / p;
    var r2 := r % p;
    assert v == q * m + r;
    assert r == q2 * p + r2;
    assert v == (q * t + q2) * p + r2 by {
      assert q * m == (q * t) * p;
    }
    ModUnique(v, p, q * t + q2, r2);
  }

  /** An integer of any of the register types survives the trip through a register. */
  lemma IntRoundTrip(k: IntKind, v: int)
    requires ValidKind(k) && Fits(k, v)
    ensures FromReg(k, ToReg(v)) == v
  {
    var p := Pow256(k.width);
    Pow256Split(k.width);
    ModOfMod(v, p, Pow256(8 - k.width));
    if v >= 0 {
      ModUnique(v, p, 0, v);
    } else {
      ModUnique(v, p, -1, v + p);
    }
  }

  /** One value passed through the IPC buffer. */
  datatype Value = IntV(kind: IntKind, n: int) | BytesV(bytes: seq<Byte>)

  /** What a reader is asked for. `StrK` stands for `&str`, `String` and
      `&[u8]`, which all share one layout. */
  datatype Kind = IntK(k: IntKind) | StrK

  function KindOf(v: Value): Kind
  {
    match v
    case IntV(k, _) => IntK(k)
    case BytesV(_) => StrK
  }

  predicate ValidValue(v: Value)
  {
    match v
    case IntV(k, n) => ValidKind(k) && Fits(k, n)
    case BytesV(_) => true
  }

  /** Registers taken by a `len`-byte string: the length register and the padded bytes. */
  function StrRegs(len: nat): nat
  {
    1 + DivCeil(len, REG_LEN)
  }

  /** Registers a value takes. */
  function RegsOf(v: Value): nat
  {
    match v
    case IntV(_, _) => 1
    case BytesV(bs) => StrRegs(|bs|)
  }

  /** `write_buffer` for every writer type. */
  function Write(b: Buffer, off: nat, v: Value): (res: Option<(Buffer, nat)>)
    ensures res.Some? ==> res.value.1 == off + RegsOf(v)
    ensures res.Some? <==>
      off < MSG_REGS && (v.BytesV? ==> (off + 1) * REG_LEN + |v.bytes| <= IPC_DATA_LEN)
  {
    if off >= MSG_REGS then None
    else match v
      case IntV(_, n) => Some((SetReg(b, off, ToReg(n)), off + 1))
      case BytesV(bs) =>
        if (off + 1) * REG_LEN + |bs| > IPC_DATA_LEN then None
        else Some((SetBytes(SetReg(b, off, |bs|), (off + 1) * REG_LEN, bs), off + StrRegs(|bs|)))
  }

  /** `read_buffer` for every reader type: the integer register, or the
      `len` bytes that follow the length register. */
  function Read(b: Buffer, off: nat, kind: Kind): (res: Option<(Value, nat)>)
    ensures res.Some? ==> KindOf(res.value.0) == kind && res.value.1 == off + RegsOf(res.value.0)
  {
    if off >= MSG_REGS then None
    else match kind
      case IntK(k) =>
        if ValidKind(k) then Some((IntV(k, FromReg(k, Reg(b, off))), off + 1)) else None
      case StrK =>
        var len := Reg(b, off);
        if (off + 1) * REG_LEN + len > IPC_DATA_LEN then None
        else Some((BytesV(b[(off + 1) * REG_LEN..][..len]), off + StrRegs(len)))
  }

  /** A write touches only the registers between its start and end offsets. */
  lemma WriteFootprint(b: Buffer, off: nat, v: Value)
    requires Write(b, off, v).Some?
    ensures var (b2, off2) := Write(b, off, v).value;
      forall k :: 0 <= k < IPC_DATA_LEN && !(off * REG_LEN <= k < off2 * REG_LEN) ==> b2[k] == b[k]
  {
    if v.BytesV? {
      var len := |v.bytes|;
      var d := DivCeil(len, REG_LEN);
      assert (off + 1 + d) * REG_LEN == (off + 1) * REG_LEN + d * REG_LEN;
    }
  }

  /** What a read sees depends only on the bytes between its start and end offsets. */
  lemma ReadLocal(b: Buffer, b2: Buffer, off: nat, kind: Kind)
    requires Read(b, off, kind).Some?
    requires var off2 := Read(b, off, kind).value.1;
      forall k :: off * REG_LEN <= k < off2 * REG_LEN && k < IPC_DATA_LEN ==> b2[k] == b[k]
    ensures Read(b2, off, kind) == Read(b, off, kind)
  {
    var off2 := Read(b, off, kind).value.1;
    assert b2[off * REG_LEN..off * REG_LEN + REG_LEN] == b[off * REG_LEN..off * REG_LEN + REG_LEN] by {
      assert off * REG_LEN + REG_LEN <= off2 * REG_LEN;
    }
    if kind.StrK? {
      var len := Reg(b, off);
      var d := DivCeil(len, REG_LEN);
      assert (off + 1 + d) * REG_LEN == (off + 1) * REG_LEN + d * REG_LEN;
      assert b2[(off + 1) * REG_LEN..][..len] == b[(off + 1) * REG_LEN..][..len];
    }
  }

  /** Reading with the value's own kind at the offset it was written to
      returns the value and the same end offset. */
  lemma WriteReadRoundTrip(b: Buffer, off: nat, v: Value)
    requires ValidValue(v) && Write(b, off, v).Some?
    ensures var (b2, off2) := Write(b, off, v).value;
      Read(b2, off, KindOf(v)) == Some((v, off2))
  {
    var (b2, off2) := Write(b, off, v).value;
    match v {
      case IntV(k, n) =>
        IntRoundTrip(k, n);
      case BytesV(bs) =>
        var b1 := SetReg(b, off, |bs|);
        assert Reg(b2, off) == Reg(b1, off) by {
          assert b2[off * REG_LEN..off * REG_LEN + REG_LEN] == b1[off * REG_LEN..off * REG_LEN + REG_LEN];
        }
        assert b2[(off + 1) * REG_LEN..][..|bs|] == bs;
    }
  }

  /** The `write_values!` macro: every value in turn from register 0. */
  function WriteAll(b: Buffer, off: nat, vs: seq<Value>): (res: Option<(Buffer, nat)>)
    ensures res.Some? ==> res.value.1 >= off
    decreases |vs|
  {
    if vs == [] then Some((b, off))
    else match Write(b, off, vs[0])
      case None => None
      case Some((b1, off1)) => WriteAll(b1, off1, vs[1..])
  }

  /** The `read_types!` macro: one read per requested kind, from register 0. */
  function ReadAll(b: Buffer, off: nat, kinds: seq<Kind>): (res: Option<(seq<Value>, nat)>)
    ensures res.Some? ==> |res.value.0| == |kinds| && res.value.1 >= off
    decreases |kinds|
  {
    if kinds == [] then Some(([], off))
    else match Read(b, off, kinds[0])
      case None => None
      case Some((v, off1)) =>
        match ReadAll(b, off1, kinds[1..])
        case None => None
        case Some((vs, off2)) => Some(([v] + vs, off2))
  }

  function KindsOf(vs: seq<Value>): (ks: seq<Kind>)
    ensures |ks| == |vs| && forall i :: 0 <= i < |vs| ==> ks[i] == KindOf(vs[i])
  {
    seq(|vs|, i requires 0 <= i < |vs| => KindOf(vs[i]))
  }

  /** Later writes leave everything below their starting offset alone. */
  lemma {:induction false} WriteAllFootprint(b: Buffer, off: nat, vs: seq<Value>)
    requires WriteAll(b, off, vs).Some?
    ensures forall k :: 0 <= k < off * REG_LEN && k < IPC_DATA_LEN ==> WriteAll(b, off, vs).value.0[k] == b[k]
    decreases |vs|
  {
    if vs != [] {
      var (b1, off1) := Write(b, off, vs[0]).value;
      WriteFootprint(b, off, vs[0]);
      WriteAllFootprint(b1, off1, vs[1..]);
    }
  }

  /** Values written by `write_values!` are read back in order by
      `read_types!` with the same types, ending at the same offset. */
  lemma {:induction false} WriteAllReadAll(b: Buffer, off: nat, vs: seq<Value>)
    requires forall i :: 0 <= i < |vs| ==> ValidValue(vs[i])
    requires WriteAll(b, off, vs).Some?
    ensures var (b2, off2) := WriteAll(b, off, vs).value;
      ReadAll(b2, off, KindsOf(vs)) == Some((vs, off2))
    decreases |vs|
  {
    if vs != [] {
      var (b1, off1) := Write(b, off, vs[0]).value;
      var (b2, off2) := WriteAll(b, off, vs).value;
      WriteAllReadAll(b1, off1, vs[1..]);
      WriteAllFootprint(b1, off1, vs[1..]);
      WriteReadRoundTrip(b, off, vs[0]);
      ReadLocal(b1, b2, off, KindOf(vs[0]));
      assert KindsOf(vs)[1..] == KindsOf(vs[1..]);
      assert [vs[0]] + vs[1..] == vs;
    }
  }

  /** `write_values!` as written: the message length it returns is the
      register count divided by `REG_LEN`, rounded up. */
  function WriteValues(b: Buffer, vs: seq<Value>): (res: Option<(Buffer, nat)>)
    ensures res.Some? <==> WriteAll(b, 0, vs).Some?
    ensures res.Some? ==> res.value.1 * REG_LEN >= WriteAll(b, 0, vs).value.1
    ensures res.Some? ==> var (b2, off) := WriteAll(b, 0, vs).value;
      res.value.0 == b2 && (res.value.1 == 0 || (res.value.1 - 1) * REG_LEN < off)
    ensures res.Some? ==> res.value == (WriteAll(b, 0, vs).value.0, DivCeil(WriteAll(b, 0, vs).value.1, REG_LEN))
  {
    match WriteAll(b, 0, vs)
    case None => None
    case Some((b2, off)) => Some((b2, DivCeil(off, REG_LEN)))
  }

  /** Two 64-bit integers fill registers 0 and 1, but the reported message
      length is one register, so the second value is not transferred. */
  lemma WriteValuesDropsRegisters(b: Buffer)
    ensures var u64 := IntKind(8, false);
      WriteValues(b, [IntV(u64, 1), IntV(u64, 2)]).Some? &&
      WriteValues(b, [IntV(u64, 1), IntV(u64, 2)]).value.1 == 1 &&
      WriteAll(b, 0, [IntV(u64, 1), IntV(u64, 2)]).value.1 == 2
  {
    var u64 := IntKind(8, false);
    var vs := [IntV(u64, 1), IntV(u64, 2)];
    assert vs[1..] == [IntV(u64, 2)];
    assert DivCeil(2, REG_LEN) == 1;
  }

  /** `write_values!` with the message length in registers, as the
      `length` of a message info counts them. */
  function WriteValuesFixed(b: Buffer, vs: seq<Value>): (res: Option<(Buffer, nat)>)
    ensures res.Some? <==> WriteAll(b, 0, vs).Some?
    ensures res.Some? ==> res.value.1 <= MSG_REGS
    ensures res.Some? ==> res.value == WriteAll(b, 0, vs).value
  {
    match WriteAll(b, 0, vs)
    case None => None
    case Some((b2, off)) =>
      WriteAllBound(b, 0, vs);
      Some((b2, off))
  }

  /** The offset after a successful write never passes the last register. */
  lemma {:induction false} WriteAllBound(b: Buffer, off: nat, vs: seq<Value>)
    requires off <= MSG_REGS && WriteAll(b, off, vs).Some?
    ensures WriteAll(b, off, vs).value.1 <= MSG_REGS
    decreases |vs|
  {
    if vs != [] {
      var (b1, off1) := Write(b, off, vs[0]).value;
      if vs[0].BytesV? {
        var len := |vs[0].bytes|;
        var d := DivCeil(len, REG_LEN);
        assert (off + 1) * REG_LEN + len <= IPC_DATA_LEN;
        assert d * REG_LEN < len + REG_LEN;
        assert off1 * REG_LEN == (off + 1) * REG_LEN + d * REG_LEN;
      }
      WriteAllBound(b1, off1, vs[1..]);
    }
  }

  /** With the corrected length, every register the values occupy is part of the message. */
  lemma WriteValuesFixedCoversAll(b: Buffer, vs: seq<Value>)
    requires WriteValuesFixed(b, vs).Some?
    ensures var (b2, len) := WriteValuesFixed(b, vs).value;
      forall k :: len * REG_LEN <= k < IPC_DATA_LEN ==> b2[k] == b[k]
  {
    var (b2, len) := WriteValuesFixed(b, vs).value;
    WriteAllTail(b, 0, vs);
  }

  /** Nothing at or above the final offset is written. */
  lemma {:induction false} WriteAllTail(b: Buffer, off: nat, vs: seq<Value>)
    requires WriteAll(b, off, vs).Some?
    ensures var (b2, off2) := WriteAll(b, off, vs).value;
      forall k :: off2 * REG_LEN <= k < IPC_DATA_LEN ==> b2[k] == b[k]
    decreases |vs|
  {
    if vs != [] {
      var (b1, off1) := Write(b, off, vs[0]).value;
      WriteFootprint(b, off, vs[0]);
      WriteAllTail(b1, off1, vs[1..]);
    }
  }

  /** `IpcBufferRW::read_buffer` for `&str`: the same layout, slicing with
      an explicit end. */
  function ServicesReadStr(b: Buffer, off: nat): (res: Option<(seq<Byte>, nat)>)
    ensures res.Some? ==> res.value.1 == off + StrRegs(|res.value.0|)
  {
    if off >= MSG_REGS then None
    else
      var len := Reg(b, off);
      if (off + 1) * REG_LEN + len > IPC_DATA_LEN then None
      else Some((b[(off + 1) * REG_LEN..(off + 1) * REG_LEN + len], off + StrRegs(len)))
  }

  /** `IpcBufferRW::write_buffer` for `&str`: the same layout again. */
  function ServicesWriteStr(b: Buffer, off: nat, s: seq<Byte>): (res: Option<(Buffer, nat)>)
    ensures res.Some? <==> off < MSG_REGS && (off + 1) * REG_LEN + |s| <= IPC_DATA_LEN
    ensures res.Some? ==> res.value.1 == off + StrRegs(|s|)
  {
    if off >= MSG_REGS || (off + 1) * REG_LEN + |s| > IPC_DATA_LEN then None
    else
      var b1 := SetReg(b, off, |s|);
      Some((b1[..(off + 1) * REG_LEN] + s + b1[(off + 1) * REG_LEN + |s|..], off + StrRegs(|s|)))
  }

  /** The two codecs are interchangeable on strings: each reads what the
      other writes. */
  lemma CodecsAgree(b: Buffer, off: nat, s: seq<Byte>)
    ensures ServicesWriteStr(b, off, s) == Write(b, off, BytesV(s))
    ensures Read(b, off, StrK).Some? <==> ServicesReadStr(b, off).Some?
    ensures Read(b, off, StrK).Some? ==>
      Read(b, off, StrK).value == (BytesV(ServicesReadStr(b, off).value.0), ServicesReadStr(b, off).value.1)
  {
    if off < MSG_REGS {
      var len := Reg(b, off);
      var at := (off + 1) * REG_LEN;
      if at + len <= IPC_DATA_LEN {
        assert b[at..][..len] == b[at..at + len];
      }
    }
  }
}

=== FILE: ipc_saver.dfy ===
/** The reply-capability saver (`IpcSaver`): callers whose reply has to
    wait are parked in a FIFO queue of slots; slots freed by replies are
    kept in a stack and reused first. Slots are plain numbers here. */
module IpcSaver {
  import opened Base

  datatype Saver = Saver(queue: seq<nat>, free: seq<nat>)

  /** `IpcSaver::new` (and `Default`). */
  function NewSaver(): (s: Saver)
    ensures QueueLen(s) == 0 && s.free == []
  {
    Saver([], [])
  }

  /** `IpcSaver::queue_len`. */
  function QueueLen(s: Saver): nat
  {
    |s.queue|
  }

  /** The slot `save_caller` will use: the most recently freed one, else
      `newSlot`, the one `alloc_slot` would return. */
  function NextSlot(s: Saver, newSlot: nat): nat
  {
    if s.free != [] then s.free[|s.free| - 1] else newSlot
  }

  /** `IpcSaver::save_caller`. `saved` is the answer of the kernel's
      save-caller call; its error is passed on by `?`, and the slot taken
      is then in neither list any more. */
  function SaveCaller(s: Saver, newSlot: nat, saved: Result<(), Sel4Error>): (res: (Saver, Result<(), Sel4Error>))
    ensures var slot := NextSlot(s, newSlot);
      var free := if s.free != [] then s.free[..|s.free| - 1] else [];
      && res.0.free == free
      && (saved.Ok? ==> res.1 == Ok(()) && res.0.queue == s.queue + [slot])
      && (saved.Err? ==> res.1 == Err(saved.error) && res.0.queue == s.queue)
  {
    var slot := NextSlot(s, newSlot);
    var free := if s.free != [] then s.free[..|s.free| - 1] else [];
    match saved
    case Ok(_) => (Saver(s.queue + [slot], free), Ok(()))
    case Err(e) => (Saver(s.queue, free), Err(e))
  }

  /** `IpcSaver::reply_one`: the front of the queue is answered and its
      slot moves to the free stack. An empty queue is left alone. The
      result is always `Ok`. */
  function ReplyOne(s: Saver): (res: (Saver, Option<nat>))
    ensures s.queue == [] ==> res == (s, None)
    ensures s.queue != [] ==>
      && res.1 == Some(s.queue[0])
      && res.0.queue == s.queue[1..]
      && res.0.free == s.free + [s.queue[0]]
  {
    if s.queue == [] then (s, None)
    else (Saver(s.queue[1..], s.free + [s.queue[0]]), Some(s.queue[0]))
  }

  /** Every slot the saver owns is in exactly one place: the queue and the
      free stack hold distinct slots, and together they are `owned`. */
  ghost predicate Partition(s: Saver, owned: set<nat>)
  {
    && (forall i, j :: 0 <= i < j < |s.queue| ==> s.queue[i] != s.queue[j])
    && (forall i, j :: 0 <= i < j < |s.free| ==> s.free[i] != s.free[j])
    && (forall i, j :: 0 <= i < |s.queue| && 0 <= j < |s.free| ==> s.queue[i] != s.free[j])
    && owned == (set x | x in s.queue) + (set x | x in s.free)
  }

  /** A successful save keeps the partition; a fresh slot joins the owned set. */
  lemma SavePreservesPartition(s: Saver, owned: set<nat>, newSlot: nat)
    requires Partition(s, owned)
    requires s.free == [] ==> newSlot !in owned
    ensures var s2 := SaveCaller(s, newSlot, Ok(())).0;
      Partition(s2, owned + {NextSlot(s, newSlot)})
  {
    if s.free != [] {
      var f, x := s.free[..|s.free| - 1], s.free[|s.free| - 1];
      assert s.free == f + [x];
      assert x in s.free;
      assert owned + {x} == owned;
      MoveToQueue(s.queue, f, x, owned);
    } else {
      FreshToQueue(s.queue, newSlot, owned);
    }
  }

  /** The top of the free stack moving to the back of the queue keeps the partition. */
  lemma MoveToQueue(q: seq<nat>, f: seq<nat>, x: nat, owned: set<nat>)
    requires Partition(Saver(q, f + [x]), owned)
    ensures Partition(Saver(q + [x], f), owned)
  {
    var f1, q1 := f + [x], q + [x];
    assert forall j :: 0 <= j < |f| ==> f1[j] == f[j];
    assert forall i :: 0 <= i < |q| ==> q1[i] == q[i];
    assert f1[|f|] == x && q1[|q|] == x;
    forall i, j | 0 <= i < j < |q1|
      ensures q1[i] != q1[j]
    {
      if j == |q| {
        assert q[i] != f1[|f|];
      }
    }
    forall i, j | 0 <= i < |q1| && 0 <= j < |f|
      ensures q1[i] != f[j]
    {
      if i == |q| {
        assert f1[j] != f1[|f|];
      } else {
        assert q[i] != f1[j];
      }
    }
    assert (set y | y in q1) == (set y | y in q) + {x};
    assert (set y | y in f1) == (set y | y in f) + {x};
  }

  /** A slot owned by nobody joining the back of the queue keeps the partition. */
  lemma FreshToQueue(q: seq<nat>, x: nat, owned: set<nat>)
    requires Partition(Saver(q, []), owned) && x !in owned
    ensures Partition(Saver(q + [x], []), owned + {x})
  {
    var q1 := q + [x];
    assert forall i :: 0 <= i < |q| ==> q1[i] == q[i] && q[i] in owned;
    assert (set y | y in q1) == (set y | y in q) + {x};
  }

  /** A reply keeps the partition: the answered slot moves to the free stack. */
  lemma ReplyPreservesPartition(s: Saver, owned: set<nat>)
    requires Partition(s, owned)
    ensures Partition(ReplyOne(s).0, owned)
  {
    if s.queue != [] {
      var s2 := ReplyOne(s).0;
      assert s.queue == [s.queue[0]] + s2.queue;
      assert (set x | x in s.queue) == (set x | x in s2.queue) + {s.queue[0]};
      assert (set x | x in s2.free) == (set x | x in s.free) + {s.queue[0]};
    }
  }

  /** A failed save loses the slot it took: it is in neither list. */
  lemma FailedSaveDropsSlot(s: Saver, owned: set<nat>, newSlot: nat, e: Sel4Error)
    requires Partition(s, owned) && s.free != []
    ensures var s2 := SaveCaller(s, newSlot, Err(e)).0;
      Partition(s2, owned - {NextSlot(s, newSlot)}) && NextSlot(s, newSlot) !in s2.queue + s2.free
  {
    var s2 := SaveCaller(s, newSlot, Err(e)).0;
    assert s.free == s2.free + [s.free[|s.free| - 1]];
    assert (set x | x in s.free) == (set x | x in s2.free) + {s.free[|s.free| - 1]};
  }

  /** Replies answer the oldest parked caller: a save behind a non-empty
      queue does not change who is answered next. */
  lemma SaveThenReplyFifo(s: Saver, newSlot: nat)
    ensures var s1 := SaveCaller(s, newSlot, Ok(())).0;
      ReplyOne(s1).1 == Some(if s.queue != [] then s.queue[0] else NextSlot(s, newSlot))
  {
  }

  /** Saves with fresh slots `newSlots`, one after another, all succeeding. */
  function SaveAll(s: Saver, newSlots: seq<nat>): Saver
    decreases |newSlots|
  {
    if newSlots == [] then s else SaveAll(SaveCaller(s, newSlots[0], Ok(())).0, newSlots[1..])
  }

  /** Successive saves reuse the freed slots from the most recently freed
      down, and queue them behind the callers already waiting. */
  lemma {:induction false} SavesReuseFreedLifo(s: Saver, newSlots: seq<nat>)
    requires |s.free| >= |newSlots|
    ensures SaveAll(s, newSlots).queue == s.queue + Reversed(s.free[|s.free| - |newSlots|..])
    decreases |newSlots|
  {
    if newSlots == [] {
      assert s.free[|s.free|..] == [];
    } else {
      var k := |newSlots|;
      var s1 := SaveCaller(s, newSlots[0], Ok(())).0;
      var top := s.free[|s.free| - 1];
      var x := s.free[|s.free| - k..|s.free| - 1];
      var rest := newSlots[1..];
      assert SaveAll(s, newSlots) == SaveAll(s1, rest);
      assert s1.queue == s.queue + [top] && s1.free == s.free[..|s.free| - 1];
      SavesReuseFreedLifo(s1, rest);
      TailOfPrefix(s.free, k);
      assert s1.free[|s1.free| - |rest|..] == x;
      QueueBehind(s.queue, x, top);
    }
  }

  /** The last `k - 1` elements of `a` without its last element, and the last `k` of `a`. */
  lemma TailOfPrefix<T>(a: seq<T>, k: nat)
    requires 1 <= k <= |a|
    ensures a[..|a| - 1][|a| - k..] == a[|a| - k..|a| - 1]
    ensures a[|a| - k..] == a[|a| - k..|a| - 1] + [a[|a| - 1]]
  {
  }

  /** A slot queued before the reversed rest is the reversal with it at the end. */
  lemma QueueBehind(q: seq<nat>, x: seq<nat>, top: nat)
    ensures (q + [top]) + Reversed(x) == q + Reversed(x + [top])
  {
    ReversedAppend(x, top);
    assert (q + [top]) + Reversed(x) == q + ([top] + Reversed(x));
  }
}

=== FILE: item_list.dfy ===
/** The kernel thread's access to items in a task's memory
    (`process_item_list`): the bytes of `number` items of one size are
    visited page by page, and a callback receives, for every piece, where
    the piece lies in its page, how far it is from the start, and how long
    it is. The callback's own effect is outside the model; the sequence of
    calls it receives is the result. */
module ItemList {
  import opened Base
  import opened PhysPage
  import opened TaskMem

  /** `align_bits(a, b)`, `a & !((1 << b) - 1)`: clearing the low `b` bits
      is subtracting `a` modulo `2^b`. A shift by 64 or more overflows
      (`None`). */
  function AlignBits(a: Word, b: nat): (r: Option<Word>)
    ensures r.Some? <==> b < 64
    ensures r.Some? ==> r.value <= a && r.value % Pow2(b) == 0 && a - r.value < Pow2(b)
  {
    if b >= 64 then None else Some(RoundDown(a, Pow2(b)))
  }

  /** Clearing the low 12 bits gives the key of the page, as the loop uses it. */
  lemma AlignBitsIsKey(a: Word)
    ensures AlignBits(a, 12) == Some(Key(a))
  {
    assert Pow2(12) == PAGE_SIZE;
  }

  /** One callback invocation: the page of the piece, its offset inside
      that page, its distance from the start address, and its length. */
  datatype Call = Call(page: nat, pageOff: nat, off: nat, len: nat)

  /** The calls form consecutive pieces from `done` on, each non-empty,
      inside one page, and naming that page and its offset in it. */
  predicate Tiles(addr: nat, done: nat, calls: seq<Call>)
    decreases |calls|
  {
    if calls == [] then true
    else
      && calls[0].off == done && calls[0].len > 0
      && calls[0].pageOff + calls[0].len <= PAGE_SIZE
      && calls[0].page == Key(addr + done) && calls[0].pageOff == (addr + done) % PAGE_SIZE
      && Tiles(addr, done + calls[0].len, calls[1..])
  }

  /** Where the pieces stop: just past the last one. */
  function Reach(done: nat, calls: seq<Call>): nat
  {
    if calls == [] then done else calls[|calls| - 1].off + calls[|calls| - 1].len
  }

  /** The loop of `process_item_list` with `done` bytes behind it and `rem`
      to go: each piece is `min(PAGE_SIZE - offset, rem)` bytes; an
      unmapped page ends the loop (flag false). */
  function Pieces(pm: PageMap, addr: nat, done: nat, rem: nat): (r: (seq<Call>, bool))
    ensures Tiles(addr, done, r.0)
    ensures r.1 <==> forall b :: addr + done <= b < addr + done + rem ==> Key(b) in pm
    ensures r.1 ==> Reach(done, r.0) == done + rem
    ensures !r.1 ==> Reach(done, r.0) < done + rem && Key(addr + Reach(done, r.0)) !in pm
    decreases rem
  {
    if rem == 0 then ([], true)
    else
      var a := addr + done;
      if Key(a) !in pm then ([], false)
      else
        var n := Min(PAGE_SIZE - a % PAGE_SIZE, rem);
        var (rest, ok) := Pieces(pm, addr, done + n, rem - n);
        PieceStep(pm, addr, done, rem, n, rest, ok);
        ([Call(Key(a), a % PAGE_SIZE, done, n)] + rest, ok)
  }

  /** One piece in front of the pieces after it. */
  lemma PieceStep(pm: PageMap, addr: nat, done: nat, rem: nat, n: nat, rest: seq<Call>, ok: bool)
    requires rem > 0 && Key(addr + done) in pm
    requires n == Min(PAGE_SIZE - (addr + done) % PAGE_SIZE, rem)
    requires Tiles(addr, done + n, rest)
    requires ok <==> forall b :: addr + done + n <= b < addr + done + rem ==> Key(b) in pm
    ensures Tiles(addr, done, [Call(Key(addr + done), (addr + done) % PAGE_SIZE, done, n)] + rest)
    ensures Reach(done, [Call(Key(addr + done), (addr + done) % PAGE_SIZE, done, n)] + rest) == Reach(done + n, rest)
    ensures ok <==> forall b :: addr + done <= b < addr + done + rem ==> Key(b) in pm
  {
    var c := Call(Key(addr + done), (addr + done) % PAGE_SIZE, done, n);
    TilesCons(addr, done, c, rest);
    RangeSplit(pm, addr + done, n, rem);
  }

  lemma TilesCons(addr: nat, done: nat, c: Call, rest: seq<Call>)
    requires c.off == done && c.len > 0 && c.pageOff + c.len <= PAGE_SIZE
    requires c.page == Key(addr + done) && c.pageOff == (addr + done) % PAGE_SIZE
    requires Tiles(addr, done + c.len, rest)
    ensures Tiles(addr, done, [c] + rest)
    ensures Reach(done, [c] + rest) == Reach(done + c.len, rest)
  {
    var calls := [c] + rest;
    assert calls[0] == c && calls[1..] == rest;
    if rest != [] {
      assert calls[|calls| - 1] == rest[|rest| - 1];
    }
  }

  /** A mapped first page splits the range check at the page end. */
  lemma RangeSplit(pm: PageMap, a: nat, n: nat, rem: nat)
    requires Key(a) in pm && n <= rem && a % PAGE_SIZE + n <= PAGE_SIZE
    ensures (forall b :: a <= b < a + rem ==> Key(b) in pm) <==> (forall b :: a + n <= b < a + rem ==> Key(b) in pm)
  {
    SamePageRange(a, n);
  }

  /** `number.unwrap_or(1)`. */
  function Count(number: Option<nat>): nat
  {
    if number.Some? then number.value else 1
  }

  /** `size_of::<T>() * number` as a release build computes it: the
      product modulo 2^64, exact while it fits. */
  function ItemBytes(size: nat, number: Option<nat>): (r: Word)
    ensures size * Count(number) < WORD_LIMIT ==> r == size * Count(number)
  {
    (size * Count(number)) % WORD_LIMIT
  }

  /** `process_item_list::<T>(addr, number, f)` for items of `size` bytes:
      with no count, an item that does not fit in the rest of its page is
      `EINVAL`; otherwise the `ItemBytes` bytes are visited, an unmapped
      page gives `EFAULT` (the calls already made stand), and success
      returns the number of bytes visited. */
  function ProcessItemList(pm: PageMap, addr: nat, size: nat, number: Option<nat>): (r: (seq<Call>, Result<nat, Errno>))
    ensures r.1 == Err(EINVAL) <==> number.None? && size + addr % PAGE_SIZE > PAGE_SIZE
    ensures r.1 == Err(EINVAL) ==> r.0 == []
    ensures r.1.Err? ==> r.1 == Err(EINVAL) || r.1 == Err(EFAULT)
    ensures var total := ItemBytes(size, number);
      && (r.1.Ok? <==> r.1 != Err(EINVAL) && forall b :: addr <= b < addr + total ==> Key(b) in pm)
      && (r.1.Ok? ==> r.1.value == total && Reach(0, r.0) == total)
      && (r.1 == Err(EFAULT) ==> Reach(0, r.0) < total && Key(addr + Reach(0, r.0)) !in pm)
    ensures Tiles(addr, 0, r.0)
  {
    if number.None? && size + addr % PAGE_SIZE > PAGE_SIZE then ([], Err(EINVAL))
    else
      var total := ItemBytes(size, number);
      var (calls, ok) := Pieces(pm, addr, 0, total);
      (calls, if ok then Ok(total) else Err(EFAULT))
  }

  /** A count whose byte length overflows wraps to a short one: 2^60
      sixteen-byte items are zero bytes, so nothing is visited and the
      call succeeds on any page map. */
  lemma ItemBytesWrap(pm: PageMap, addr: nat)
    ensures ProcessItemList(pm, addr, 16, Some(0x1000_0000_0000_0000)) == ([], Ok(0))
  {
    assert ItemBytes(16, Some(0x1000_0000_0000_0000)) == 0;
  }

  /** `read_item`: a single item that fits in its mapped page is handled by
      exactly one call covering the whole item. */
  lemma SingleItemOneCall(pm: PageMap, addr: nat, size: nat)
    requires 0 < size && size + addr % PAGE_SIZE <= PAGE_SIZE && Key(addr) in pm
    ensures ProcessItemList(pm, addr, size, None) == ([Call(Key(addr), addr % PAGE_SIZE, 0, size)], Ok(size))
  {
    SamePageRange(addr, size);
    assert size * 1 == size && addr + 0 == addr;
    assert ItemBytes(size, None) == size;
    assert Min(PAGE_SIZE - addr % PAGE_SIZE, size) == size;
    assert Pieces(pm, addr, 0 + size, size - size) == ([], true);
    assert Pieces(pm, addr, 0, size) == ([Call(Key(addr), addr % PAGE_SIZE, 0, size)] + [], true);
    assert Count(None) == 1 && size * Count(None) == size;
    var r := ProcessItemList(pm, addr, size, None);
    assert r.1 == Ok(size);
    assert r.0 == [Call(Key(addr), addr % PAGE_SIZE, 0, size)];
  }

  /** The pieces of a successful visit add up to the bytes visited, in order. */
  lemma {:induction false} PiecesSum(addr: nat, done: nat, calls: seq<Call>)
    requires Tiles(addr, done, calls)
    ensures Reach(done, calls) == done + Lens(calls)
    decreases |calls|
  {
    if calls != [] {
      var rest := calls[1..];
      PiecesSum(addr, done + calls[0].len, rest);
      if rest != [] {
        assert calls[|calls| - 1] == rest[|rest| - 1];
      }
    }
  }

  function Lens(calls: seq<Call>): nat
  {
    if calls == [] then 0 else calls[0].len + Lens(calls[1..])
  }
}

=== FILE: mm_syscalls.dfy ===
/** The memory-management system calls of the kernel thread: `brk`,
    `mmap` and `munmap` over a task's page map, in the current
    implementation and in the older one (whose `mmap` checks its flag
    words and maps only missing pages). Frame allocation and the seL4
    mapping calls are the page-map updates; they do not fail here. */
module MmSyscalls {
  import opened Base
  import opened PhysPage
  import opened TaskMem
  import opened TaskSpace
  import opened Uspace

  /** `sys_brk` of the current implementation: the task's `brk`, whose
      result is always a success. */
  function SysBrk(m: MemInfo, value: nat): (r: (MemInfo, Result<nat, Errno>))
    ensures r.1 == Ok(if value == 0 then m.heap else value)
    ensures r.0.heap == (if value == 0 then m.heap else value)
  {
    var (m2, v) := Brk(m, value);
    (m2, Ok(v))
  }

  /** Asking for the heap end after moving it reports the new end. */
  lemma BrkThenQuery(m: MemInfo, value: nat)
    requires value != 0
    ensures SysBrk(SysBrk(m, value).0, 0).1 == Ok(value)
  {
  }

  /** Mapping `size` bytes of zeroed pages from an aligned `s`, one page per
      step, over a region no mapped page overlaps: the region becomes
      readable as zeros and every page mapped before keeps its contents. */
  function MapFresh(pm: PageMap, s: nat, size: nat): (r: PageMap)
    requires s % PAGE_SIZE == 0
    requires forall k :: k in pm ==> k + PAGE_SIZE <= s || s + size <= k
    ensures forall k :: k in r <==> k in pm || (k % PAGE_SIZE == 0 && s <= k < s + size)
    ensures forall k :: k in pm ==> r[k] == pm[k]
    ensures forall b: nat :: s <= b < s + size ==> ByteAt(r, b) == Some(0)
  {
    assert Key(s) == s;
    var r := MapSteps(pm, s, s + size);
    forall b: nat | s <= b < s + size
      ensures ByteAt(r, b) == Some(0)
    {
      ModUnique(Key(b), PAGE_SIZE, b / PAGE_SIZE, 0);
      RoundDownMonotone(s, b);
      assert InSteps(Key(b), s, s + size);
    }
    r
  }

  /** A file written over a mapped area with the as-written `write_bytes`
      lands whole, and reads back from its start when it also stays
      inside the area's first page. */
  lemma RoundTripIfFits(pm: PageMap, s: nat, size: nat, data: seq<Byte>)
    requires forall b: nat :: s <= b < s + size ==> ByteAt(pm, b).Some?
    ensures |data| <= size ==> TaskMem.WriteBytes(pm, s, data).1
    ensures |data| <= size && s % PAGE_SIZE + |data| <= PAGE_SIZE ==>
      ReadBytes(TaskMem.WriteBytes(pm, s, data).0, s, |data|) == Some(data)
  {
    if |data| <= size && s % PAGE_SIZE + |data| <= PAGE_SIZE {
      WriteBytesInPage(pm, s, data);
    }
  }

  /** With the corrected `write_bytes` every file that fits reads back. */
  lemma RoundTripIfFitsFixed(pm: PageMap, s: nat, size: nat, data: seq<Byte>)
    requires forall b: nat :: s <= b < s + size ==> ByteAt(pm, b).Some?
    ensures |data| <= size ==> ReadBytes(WriteBytesFixed(pm, s, data).0, s, |data|) == Some(data)
  {
    if |data| <= size {
      WriteReadRoundTrip(pm, s, data);
    }
  }

  /** What the current `sys_mmap` does after its shortcut: the area comes
      from `find_free_area`; a positive descriptor must name an open file,
      whose whole contents are written at the start of the area by the
      as-written `write_bytes`, so a file longer than a page repeats its
      first page's bytes on every later page. */
  function MmapArea(m: MemInfo, vmEnd: nat, start: nat, size: nat, fd: int, file: Option<seq<Byte>>): (r: Option<(MemInfo, Result<nat, Errno>)>)
    requires start % PAGE_SIZE == 0
    ensures var s := FindFreeArea(m.pages, vmEnd, start, size);
      && (fd > 0 && file.None? ==> r == Some((m, Err(EINVAL))))
      && (!(fd > 0 && file.None?) ==> (r.None? <==> size > 0 && s % PAGE_SIZE != 0))
      && (r.Some? && r.value.1.Ok? ==> r.value.1.value == s && r.value.0.heap == m.heap)
      && (r.Some? && r.value.1.Ok? && fd <= 0 ==>
            && (forall b: nat :: s <= b < s + size ==> ByteAt(r.value.0.pages, b) == Some(0))
            && (forall k :: k in m.pages ==> k in r.value.0.pages && r.value.0.pages[k] == m.pages[k]))
      && (r.Some? && r.value.1.Ok? && fd > 0 && |file.value| <= size ==>
            && (forall b :: s <= b < s + |file.value| ==> ByteAt(r.value.0.pages, b) == Some(WrittenByte(file.value, s, b)))
            && (|file.value| <= PAGE_SIZE ==> ReadBytes(r.value.0.pages, s, |file.value|) == Some(file.value)))
  {
    var s := FindFreeArea(m.pages, vmEnd, start, size);
    if fd > 0 && file.None? then Some((m, Err(EINVAL)))
    else if size > 0 && s % PAGE_SIZE != 0 then None
    else if size == 0 then
      var pages := if fd > 0 then TaskMem.WriteBytes(m.pages, s, file.value).0 else m.pages;
      RoundTripIfFits(m.pages, s, size, if fd > 0 then file.value else []);
      Some((m.(pages := pages), Ok(s)))
    else
      var mapped := MapFresh(m.pages, s, size);
      var pages := if fd > 0 then TaskMem.WriteBytes(mapped, s, file.value).0 else mapped;
      RoundTripIfFits(mapped, s, size, if fd > 0 then file.value else []);
      Some((m.(pages := pages), Ok(s)))
  }

  /** `sys_mmap(start, size, prot, flags, fd, off)` of the current
      implementation; `None` is a panic (an unaligned `start`, or a page
      step `map_page` finds unaligned). The protection, the flags and the
      file offset do not influence the outcome. `file` is the descriptor
      table's answer for `fd`: the file's contents, read from offset 0 with
      the descriptor's offset put back afterwards. */
  function SysMmap(m: MemInfo, vmEnd: nat, start: nat, size: nat, fd: int, file: Option<seq<Byte>>): (r: Option<(MemInfo, Result<nat, Errno>)>)
    ensures start % PAGE_SIZE != 0 ==> r.None?
    ensures start % PAGE_SIZE == 0 && m.heap >= start + size && start >= DEF_HEAP_ADDR ==> r == Some((m, Ok(start)))
    ensures start % PAGE_SIZE == 0 && !(m.heap >= start + size && start >= DEF_HEAP_ADDR) ==> r == MmapArea(m, vmEnd, start, size, fd, file)
  {
    if start % PAGE_SIZE != 0 then None
    else if m.heap >= start + size && start >= DEF_HEAP_ADDR then Some((m, Ok(start)))
    else MmapArea(m, vmEnd, start, size, fd, file)
  }

  /** The file is written whole whatever `size` asked for: a two-page file
      mapped into a one-page area overwrites the page mapped right after
      the area. */
  lemma MmapFileSpillsPastArea()
    ensures var m := MemInfo(map[0x2000 := ZeroPage()], DEF_HEAP_ADDR);
      var r := SysMmap(m, 0x1000, 0x1000, PAGE_SIZE, 3, Some(seq(2 * PAGE_SIZE, _ => 7)));
      && r.Some? && r.value.1 == Ok(0x1000)
      && ByteAt(r.value.0.pages, 0x2000) == Some(7)
  {
    var m := MemInfo(map[0x2000 := ZeroPage()], DEF_HEAP_ADDR);
    var data: seq<Byte> := seq(2 * PAGE_SIZE, _ => 7);
    assert m.pages.Keys == {0x2000};
    assert MinOf({0x2000}) == 0x2000;
    assert FindFreeArea(m.pages, 0x1000, 0x1000, PAGE_SIZE) == 0x1000;
    var mapped := MapFresh(m.pages, 0x1000, PAGE_SIZE);
    assert Key(0x1000) == 0x1000 && Key(0x2fff) == 0x2000 && Key(0x2000) == 0x2000;
    assert forall b :: 0x1000 <= b < 0x3000 ==> Key(b) == 0x1000 || Key(b) == 0x2000;
    var w := TaskMem.WriteBytes(mapped, 0x1000, data);
    assert w.1;
    assert ByteAt(w.0, 0x2000) == Some(WrittenByte(data, 0x1000, 0x2000));
  }

  /** `sys_munmap(start, len)`: every page whose key lies in
      `[start, start + len)` is unmapped, every other page kept. */
  function SysMunmap(pm: PageMap, start: nat, len: nat): (r: (PageMap, Result<nat, Errno>))
    ensures r.1 == Ok(0)
    ensures forall k :: k in r.0 <==> k in pm && !(start <= k < start + len)
    ensures forall k :: k in r.0 ==> r.0[k] == pm[k]
  {
    (map k | k in pm && !(start <= k < start + len) :: pm[k], Ok(0))
  }

  /** A page that starts below an unaligned `start` stays although part of
      it is in the range. */
  lemma MunmapKeepsStraddlingPage()
    ensures 0x1000 in SysMunmap(map[0x1000 := ZeroPage()], 0x1800, 0x1000).0
  {
  }

  /** The flag bits the older `sys_mmap` knows: `MAP_SHARED`, `MAP_PRIVATE`,
      `MAP_FIXED`, `MAP_ANONYMOUS`, `MAP_NORESERVE` and `MAP_STACK`. */
  const MAP_SHARED: bv32 := 1
  const MAP_PRIVATE: bv32 := 2
  const MAP_FIXED: bv32 := 0x10
  const MAP_ANONYMOUS: bv32 := 0x20
  const MAP_NORESERVE: bv32 := 0x4000
  const MAP_STACK: bv32 := 0x2_0000
  const MAP_KNOWN: bv32 := MAP_SHARED | MAP_PRIVATE | MAP_FIXED | MAP_ANONYMOUS | MAP_NORESERVE | MAP_STACK

  /** `PROT_READ`, `PROT_WRITE`, `PROT_EXEC`. */
  const PROT_READ: bv32 := 1
  const PROT_WRITE: bv32 := 2
  const PROT_EXEC: bv32 := 4
  const PROT_KNOWN: bv32 := PROT_READ | PROT_WRITE | PROT_EXEC

  /** seL4 capability rights. */
  datatype Rights = Rights(read: bool, write: bool, grant: bool, grantReply: bool)

  /** `From<MmapProt> for CapRights`: all rights, less read without
      `PROT_READ` and less write without `PROT_WRITE`. */
  function ProtToRights(prot: bv32): (r: Rights)
    ensures r.read <==> prot & PROT_READ != 0
    ensures r.write <==> prot & PROT_WRITE != 0
    ensures r.grant && r.grantReply
  {
    Rights(prot & PROT_READ != 0, prot & PROT_WRITE != 0, true, true)
  }

  /** `PROT_EXEC` makes no difference to the rights. */
  lemma ExecIgnored(prot: bv32)
    ensures ProtToRights(prot | PROT_EXEC) == ProtToRights(prot & !PROT_EXEC)
  {
  }

  /** The mapping step of the older `sys_mmap`: every page touching
      `[start, start + length)` that is not mapped yet gets a zeroed frame,
      mapped pages are left alone. */
  function MapTouched(pm: PageMap, start: nat, length: nat): (r: PageMap)
    ensures forall b: nat :: start <= b < start + length ==> ByteAt(r, b).Some?
    ensures forall k :: k in pm ==> k in r && r[k] == pm[k]
    ensures forall k :: k in r && k !in pm ==>
      k % PAGE_SIZE == 0 && RoundDown(start, PAGE_SIZE) <= k < RoundUp(start + length, PAGE_SIZE) && r[k] == ZeroPage()
  {
    MapMissing(pm, RoundDown(start, PAGE_SIZE), RoundUp(start + length, PAGE_SIZE))
  }

  /** `sys_mmap` of the older implementation: unknown flag bits, then
      unknown protection bits, are `EINVAL`; `MAP_FIXED` takes the address
      as given, otherwise a free area is searched from it; the touched pages
      are mapped as `MapTouched` says, and the start is returned. */
  function SysMmapOld(pm: PageMap, addr: nat, length: nat, prot: bv32, flags: bv32): (r: Result<(PageMap, nat), Errno>)
    ensures r.Err? <==> flags & !MAP_KNOWN != 0 || prot & !PROT_KNOWN != 0
    ensures r.Err? ==> r.error == EINVAL
    ensures r.Ok? ==>
      && r.value.1 == (if flags & MAP_FIXED != 0 then addr else FindFreeAreaOld(pm, addr, length).value)
      && r.value.0 == MapTouched(pm, r.value.1, length)
  {
    if flags & !MAP_KNOWN != 0 || prot & !PROT_KNOWN != 0 then Err(EINVAL)
    else
      var start := if flags & MAP_FIXED != 0 then addr else FindFreeAreaOld(pm, addr, length).value;
      Ok((MapTouched(pm, start, length), start))
  }

  /** Without `MAP_FIXED` the area returned overlaps no page mapped before. */
  lemma MmapOldAreaWasFree(pm: PageMap, addr: nat, length: nat, prot: bv32, flags: bv32)
    requires SysMmapOld(pm, addr, length, prot, flags).Ok? && flags & MAP_FIXED == 0
    ensures var s := SysMmapOld(pm, addr, length, prot, flags).value.1;
      forall k :: k in pm ==> k + PAGE_SIZE <= s || s + length <= k
  {
  }

  /** `sys_unmap` of the older implementation: every mapped page touching
      `[start, start + length)` is unmapped (the frame unmap succeeds), the
      others are kept, and the result is 0. */
  function SysUnmapOld(pm: PageMap, start: nat, length: nat): (r: (PageMap, Result<nat, Errno>))
    ensures r.1 == Ok(0)
    ensures forall k :: k in r.0 <==> k in pm && !(RoundDown(start, PAGE_SIZE) <= k < RoundUp(start + length, PAGE_SIZE))
    ensures forall k :: k in r.0 ==> r.0[k] == pm[k]
  {
    var lo, hi := RoundDown(start, PAGE_SIZE), RoundUp(start + length, PAGE_SIZE);
    (map k | k in pm && !(lo <= k < hi) :: pm[k], Ok(0))
  }

  /** Unmapping what the older `mmap` just mapped at a fixed, aligned
      address leaves no page in the range. */
  lemma MmapThenUnmapOld(pm: PageMap, addr: nat, length: nat, prot: bv32, flags: bv32)
    requires SysMmapOld(pm, addr, length, prot, flags).Ok? && flags & MAP_FIXED != 0
    ensures var pm2 := SysUnmapOld(SysMmapOld(pm, addr, length, prot, flags).value.0, addr, length).0;
      forall b: nat :: addr <= b < addr + length ==> ByteAt(pm2, b).None?
  {
    var pm1 := SysMmapOld(pm, addr, length, prot, flags).value.0;
    var pm2 := SysUnmapOld(pm1, addr, length).0;
    forall b: nat | addr <= b < addr + length
      ensures ByteAt(pm2, b).None?
    {
      var lo := RoundDown(addr, PAGE_SIZE);
      ModUnique(lo, PAGE_SIZE, addr / PAGE_SIZE, 0);
      assert lo == Key(addr);
      KeyMonotone(addr, b);
    }
  }

  lemma KeyMonotone(a: nat, b: nat)
    requires a <= b
    ensures Key(a) <= Key(b) <= b
  {
    ModUnique(Key(a), PAGE_SIZE, a / PAGE_SIZE, 0);
    RoundDownMonotone(Key(a), b);
  }

  /** `sys_brk` of the older implementation: addresses outside
      `[USPACE_HEAP_BASE, USPACE_HEAP_BASE + USPACE_HEAP_SIZE]` are
      `ENOMEM`; pages are mapped only when growing; the heap end is set
      even when shrinking, and the result is 0. `None` is the panic of a
      page step that is not aligned. */
  function SysBrkOld(pm: PageMap, heap: nat, addr: nat): (r: Option<(PageMap, nat, Result<nat, Errno>)>)
    ensures addr < USPACE_HEAP_BASE || addr > USPACE_HEAP_BASE + USPACE_HEAP_SIZE ==> r == Some((pm, heap, Err(ENOMEM)))
    ensures USPACE_HEAP_BASE <= addr <= USPACE_HEAP_BASE + USPACE_HEAP_SIZE ==>
      && (r.None? <==> addr > heap && heap % PAGE_SIZE != 0)
      && (r.Some? ==> r.value.1 == addr && r.value.2 == Ok(0))
      && (r.Some? && addr <= heap ==> r.value.0 == pm)
      && (r.Some? && addr > heap ==> forall k :: k in r.value.0 <==> k in pm || (k % PAGE_SIZE == 0 && heap <= k < addr))
      && (r.Some? && addr > heap ==> forall k :: k in r.value.0 ==>
            r.value.0[k] == if k % PAGE_SIZE == 0 && heap <= k < addr then ZeroPage() else pm[k])
  {
    if addr < USPACE_HEAP_BASE || addr > USPACE_HEAP_BASE + USPACE_HEAP_SIZE then Some((pm, heap, Err(ENOMEM)))
    else if addr > heap then
      match BrkOld(pm, heap, addr)
      case None => None
      case Some((pm2, _)) => Some((pm2, addr, Ok(0)))
    else Some((pm, addr, Ok(0)))
  }

  /** Setting an unaligned heap end and growing again panics: the first
      page step is the unaligned old end. */
  lemma BrkOldUnalignedPanics(pm: PageMap)
    ensures var r1 := SysBrkOld(pm, USPACE_HEAP_BASE, USPACE_HEAP_BASE + 0x800);
      && r1.Some? && r1.value.2 == Ok(0)
      && SysBrkOld(r1.value.0, r1.value.1, USPACE_HEAP_BASE + 0x1800).None?
  {
  }
}

=== FILE: mount_table.dfy ===
/** The kernel thread's mount table: an ordered list of (path, file
    system) pairs searched by plain string prefix. */
module MountTable {
  import opened Base

  /** A mount: the path and an opaque file-system identity. */
  datatype Mount = Mount(path: string, fs: nat)

  type Mounts = seq<Mount>

  /** The fold of `get_mounted` over the first `n` entries: the index of the
      entry it holds. An entry replaces the held one only when its path is
      a prefix of `path` and strictly longer (an empty held value counting
      as length 0). */
  function Best(ms: Mounts, path: string, n: nat): (r: Option<nat>)
    requires n <= |ms|
    ensures r.Some? ==>
      && r.value < n
      && ms[r.value].path <= path
      && |ms[r.value].path| > 0
      && (forall j :: 0 <= j < n && ms[j].path <= path ==> |ms[j].path| <= |ms[r.value].path|)
      && (forall j :: 0 <= j < r.value && ms[j].path <= path ==> |ms[j].path| < |ms[r.value].path|)
    ensures r.None? <==> forall j :: 0 <= j < n && ms[j].path <= path ==> ms[j].path == []
  {
    if n == 0 then None
    else
      var acc := Best(ms, path, n - 1);
      var held := if acc.Some? then |ms[acc.value].path| else 0;
      if !(ms[n - 1].path <= path) then acc
      else if |ms[n - 1].path| > held then Some(n - 1)
      else acc
  }

  /** `get_mounted`: the longest mounted path that is a string prefix of
      `path`, the earliest such mount on a tie. `None` is the panic of the
      final `unwrap` when nothing non-empty matches. */
  function GetMounted(ms: Mounts, path: string): (r: Option<Mount>)
    ensures r.Some? ==> r.value in ms && r.value.path <= path && r.value.path != []
    ensures r.Some? ==> forall m :: m in ms && m.path <= path ==> |m.path| <= |r.value.path|
    ensures r.None? <==> forall m :: m in ms && m.path <= path ==> m.path == []
  {
    match Best(ms, path, |ms|)
    case None => None
    case Some(i) => Some(ms[i])
  }

  /** `mount`: append; never fails. */
  function DoMount(ms: Mounts, path: string, fs: nat): (r: Mounts)
    ensures |r| == |ms| + 1 && r[..|ms|] == ms && r[|ms|] == Mount(path, fs)
  {
    ms + [Mount(path, fs)]
  }

  /** How many of the first `i` entries have a path other than `path`:
      the position an entry kept by `umount` ends up at. */
  function KeptBefore(ms: Mounts, path: string, i: nat): (n: nat)
    requires i <= |ms|
    ensures n <= i
  {
    if i == 0 then 0 else KeptBefore(ms, path, i - 1) + (if ms[i - 1].path != path then 1 else 0)
  }

  /** `r` holds the entries of `ms` whose path differs from `path`, each
      at its rank among them: the kept entries, in their order, and
      nothing else. */
  predicate InRankOrder(ms: Mounts, path: string, r: Mounts)
  {
    RankCount(ms, path, r) && RankPlaced(ms, path, r)
  }

  /** `r` is exactly as long as the number of kept entries. */
  predicate RankCount(ms: Mounts, path: string, r: Mounts)
  {
    |r| == KeptBefore(ms, path, |ms|)
  }

  /** Every kept entry of `ms` sits in `r` at its rank. */
  predicate RankPlaced(ms: Mounts, path: string, r: Mounts)
  {
    forall i :: 0 <= i < |ms| && ms[i].path != path ==>
      KeptBefore(ms, path, i) < |r| && r[KeptBefore(ms, path, i)] == ms[i]
  }

  /** `umount`: keep every entry whose path differs, in order; removing a
      path that is not mounted is not an error. */
  function Umount(ms: Mounts, path: string): (r: Mounts)
    ensures forall m :: m in r <==> m in ms && m.path != path
    ensures |r| <= |ms|
    ensures InRankOrder(ms, path, r)
    decreases |ms|
  {
    if ms == [] then []
    else
      var h := if ms[0].path != path then [ms[0]] else [];
      var rest := Umount(ms[1..], path);
      UmountStep(ms, path, h, rest, h + rest);
      h + rest
  }

  /** Counting from the second entry on is counting from the first and
      dropping the first entry's contribution. */
  lemma {:induction false} KeptShift(ms: Mounts, path: string, i: nat)
    requires ms != [] && i < |ms|
    ensures KeptBefore(ms, path, i + 1) == (if ms[0].path != path then 1 else 0) + KeptBefore(ms[1..], path, i)
    decreases i
  {
    if i > 0 {
      KeptShift(ms, path, i - 1);
      assert ms[1..][i - 1] == ms[i];
    }
  }

  /** Putting the first entry, if kept, in front of the rest kept in rank
      order keeps the whole list in rank order. */
  lemma UmountStep(ms: Mounts, path: string, h: Mounts, rest: Mounts, r: Mounts)
    requires ms != [] && h == (if ms[0].path != path then [ms[0]] else [])
    requires InRankOrder(ms[1..], path, rest) && r == h + rest
    ensures InRankOrder(ms, path, r)
  {
    UmountLength(ms, path, h, rest, r);
    UmountEntries(ms, path, h, rest, r);
  }

  /** Every kept entry lands at its rank. */
  lemma UmountEntries(ms: Mounts, path: string, h: Mounts, rest: Mounts, r: Mounts)
    requires ms != [] && h == (if ms[0].path != path then [ms[0]] else [])
    requires RankPlaced(ms[1..], path, rest) && r == h + rest
    ensures RankPlaced(ms, path, r)
  {
    var tail := ms[1..];
    forall i | 0 <= i < |ms| && ms[i].path != path
      ensures KeptBefore(ms, path, i) < |r| && r[KeptBefore(ms, path, i)] == ms[i]
    {
      if i > 0 {
        RankInTail(tail, path, rest, i - 1);
        UmountStepAt(ms, path, h, rest, i, KeptBefore(tail, path, i - 1));
      }
    }
  }

  /** The kept entries of the whole list number those of the rest, plus
      the first entry if it is kept. */
  lemma UmountLength(ms: Mounts, path: string, h: Mounts, rest: Mounts, r: Mounts)
    requires ms != [] && h == (if ms[0].path != path then [ms[0]] else [])
    requires RankCount(ms[1..], path, rest) && r == h + rest
    ensures RankCount(ms, path, r)
  {
    KeptShift(ms, path, |ms| - 1);
  }

  /** One kept entry past the first: its rank in the whole list is its
      rank in the rest, shifted by the kept first entry. */
  lemma UmountStepAt(ms: Mounts, path: string, h: Mounts, rest: Mounts, i: nat, k: nat)
    requires ms != [] && h == (if ms[0].path != path then [ms[0]] else [])
    requires 0 < i < |ms| && k == KeptBefore(ms[1..], path, i - 1)
    requires k < |rest| && rest[k] == ms[1..][i - 1]
    ensures KeptBefore(ms, path, i) < |h + rest| && (h + rest)[KeptBefore(ms, path, i)] == ms[i]
  {
    KeptShift(ms, path, i - 1);
    assert ms[1..][i - 1] == ms[i];
    assert (h + rest)[|h| + k] == rest[k];
  }

  lemma RankInTail(tail: Mounts, path: string, rest: Mounts, j: nat)
    requires RankPlaced(tail, path, rest) && j < |tail| && tail[j].path != path
    ensures KeptBefore(tail, path, j) < |rest| && rest[KeptBefore(tail, path, j)] == tail[j]
  {
  }

  /** A new mount that is a strictly longer match than every mount before
      it is chosen for the paths under it. */
  lemma MountShadows(ms: Mounts, p: string, fs: nat, path: string)
    requires p <= path && p != []
    requires forall m :: m in ms && m.path <= path ==> |m.path| < |p|
    ensures GetMounted(DoMount(ms, p, fs), path) == Some(Mount(p, fs))
  {
    var r := DoMount(ms, p, fs);
    assert r[|ms|].path <= path;
  }

  /** An entry of equal length mounted earlier wins the tie. */
  lemma EarlierWinsTie(ms: Mounts, p: string, fs: nat, path: string)
    requires GetMounted(ms, path).Some? && |GetMounted(ms, path).value.path| == |p|
    ensures GetMounted(DoMount(ms, p, fs), path) == GetMounted(ms, path)
  {
    var i := Best(ms, path, |ms|).value;
    var r := DoMount(ms, p, fs);
    assert r == ms + [Mount(p, fs)];
    BestTie(ms, Mount(p, fs), path, i);
    GetMountedIs(ms, path, i);
    GetMountedIs(r, path, i);
  }

  /** An appended entry no longer than the held one leaves it held. */
  lemma BestTie(ms: Mounts, m: Mount, path: string, i: nat)
    requires Best(ms, path, |ms|) == Some(i) && |m.path| <= |ms[i].path|
    ensures Best(ms + [m], path, |ms + [m]|) == Some(i)
  {
    var r := ms + [m];
    assert Best(r, path, |ms|) == Some(i) by {
      assert forall j :: 0 <= j < |ms| ==> r[j] == ms[j];
      BestPrefix(r, ms, path, |ms|);
    }
    assert |r[i].path| == |ms[i].path|;
  }

  lemma GetMountedIs(ms: Mounts, path: string, i: nat)
    requires Best(ms, path, |ms|) == Some(i)
    ensures GetMounted(ms, path) == Some(ms[i])
  {
  }

  lemma {:induction false} BestPrefix(r: Mounts, ms: Mounts, path: string, n: nat)
    requires n <= |ms| <= |r| && forall j :: 0 <= j < |ms| ==> r[j] == ms[j]
    ensures Best(r, path, n) == Best(ms, path, n)
  {
    if n > 0 {
      BestPrefix(r, ms, path, n - 1);
    }
  }

  /** After `umount(p)`, no lookup lands on `p`. */
  lemma UmountForgets(ms: Mounts, p: string, path: string)
    ensures var r := GetMounted(Umount(ms, p), path); r.Some? ==> r.value.path != p
  {
  }

  /** The plain prefix test: `/dev` matches `/device`. */
  lemma PrefixNotPathAware()
    ensures GetMounted([Mount("/", 0), Mount("/dev", 1)], "/device") == Some(Mount("/dev", 1))
  {
    var ms := [Mount("/", 0), Mount("/dev", 1)];
    assert "/dev" <= "/device";
    MountShadows([Mount("/", 0)], "/dev", 1, "/device");
    assert DoMount([Mount("/", 0)], "/dev", 1) == ms;
  }
}

=== FILE: phys_page.dfy ===
/** A physical page mapped for reading and writing (`PhysPageLocker`).

    The page is its 4096 bytes. Every accessor first reduces the offset
    modulo the page size; an access that would run past the end of the
    page panics in the Rust code (or, for `read_usize`, reads outside it)
    and is `None` here. Mapping the page into the placeholder and the
    spin lock around it are outside the model. */
module PhysPage {
  import opened Base

  type Page = p: seq<Byte> | |p| == PAGE_SIZE witness seq(PAGE_SIZE, _ => 0)

  /** A freshly retyped frame: all zero. */
  function ZeroPage(): (p: Page)
    ensures forall i :: 0 <= i < PAGE_SIZE ==> p[i] == 0
  {
    seq(PAGE_SIZE, _ => 0)
  }

  /** `data` copied over bytes `at .. at + |data|`. */
  function Overwrite(p: Page, at: nat, data: seq<Byte>): (p2: Page)
    requires at + |data| <= PAGE_SIZE
    ensures p2[at..at + |data|] == data
    ensures forall i :: 0 <= i < PAGE_SIZE && !(at <= i < at + |data|) ==> p2[i] == p[i]
  {
    seq(PAGE_SIZE, i requires 0 <= i < PAGE_SIZE => if at <= i < at + |data| then data[i - at] else p[i])
  }

  /** `write_bytes`. */
  function WriteBytes(p: Page, offset: nat, data: seq<Byte>): (res: Option<Page>)
    ensures res.Some? <==> offset % PAGE_SIZE + |data| <= PAGE_SIZE
    ensures res.Some? ==> res.value == Overwrite(p, offset % PAGE_SIZE, data)
  {
    var o := offset % PAGE_SIZE;
    if o + |data| <= PAGE_SIZE then Some(Overwrite(p, o, data)) else None
  }

  /** The in-memory bytes of a word on a little-endian target. */
  function WordBytes(w: Word): (r: seq<Byte>)
    ensures |r| == WORD_BYTES
  {
    LeBytes(w, WORD_BYTES)
  }

  /** `write_usize`: the word's eight little-endian bytes. */
  function WriteUsize(p: Page, offset: nat, w: Word): (res: Option<Page>)
    ensures res.Some? <==> offset % PAGE_SIZE + WORD_BYTES <= PAGE_SIZE
    ensures res.Some? ==> res.value[offset % PAGE_SIZE..offset % PAGE_SIZE + WORD_BYTES] == WordBytes(w)
    ensures res.Some? ==> res.value == Overwrite(p, offset % PAGE_SIZE, WordBytes(w))
    ensures res.Some? ==> forall i :: 0 <= i < PAGE_SIZE && !(offset % PAGE_SIZE <= i < offset % PAGE_SIZE + WORD_BYTES) ==>
      res.value[i] == p[i]
  {
    WriteBytes(p, offset, WordBytes(w))
  }

  /** `write_u8`: the reduced offset is always inside the page. */
  function WriteU8(p: Page, offset: nat, b: Byte): (p2: Page)
    ensures p2[offset % PAGE_SIZE] == b
    ensures forall i :: 0 <= i < PAGE_SIZE && i != offset % PAGE_SIZE ==> p2[i] == p[i]
  {
    p[offset % PAGE_SIZE := b]
  }

  /** `read_usize` on a little-endian target. */
  function ReadUsize(p: Page, offset: nat): (res: Option<Word>)
    ensures res.Some? <==> offset % PAGE_SIZE + WORD_BYTES <= PAGE_SIZE
  {
    var o := offset % PAGE_SIZE;
    if o + WORD_BYTES <= PAGE_SIZE then
      LeValueBound(p[o..o + WORD_BYTES]);
      WordFitsEightBytes();
      Some(LeValue(p[o..o + WORD_BYTES]))
    else None
  }

  /** A word read back from where it was written is the word written. */
  lemma UsizeRoundTrip(p: Page, offset: nat, w: Word)
    requires WriteUsize(p, offset, w).Some?
    ensures ReadUsize(WriteUsize(p, offset, w).value, offset) == Some(w)
  {
    WordFitsEightBytes();
    LeRoundTrip(w, WORD_BYTES);
  }

  /** Offsets that differ by whole pages address the same bytes. */
  lemma OffsetWraps(p: Page, offset: nat, w: Word)
    ensures WriteUsize(p, offset + PAGE_SIZE, w) == WriteUsize(p, offset, w)
    ensures ReadUsize(p, offset + PAGE_SIZE) == ReadUsize(p, offset)
  {
    ModUnique(offset + PAGE_SIZE, PAGE_SIZE, offset / PAGE_SIZE + 1, offset % PAGE_SIZE);
  }

  /** Writing a word leaves a word stored elsewhere readable unchanged. */
  lemma UsizeWritesIndependent(p: Page, off1: nat, off2: nat, w: Word)
    requires WriteUsize(p, off1, w).Some? && ReadUsize(p, off2).Some?
    requires off1 % PAGE_SIZE + WORD_BYTES <= off2 % PAGE_SIZE || off2 % PAGE_SIZE + WORD_BYTES <= off1 % PAGE_SIZE
    ensures ReadUsize(WriteUsize(p, off1, w).value, off2) == ReadUsize(p, off2)
  {
    var o := off2 % PAGE_SIZE;
    assert WriteUsize(p, off1, w).value[o..o + WORD_BYTES] == p[o..o + WORD_BYTES];
  }
}

=== FILE: pipe.dfy ===
/** The in-kernel pipe: a byte FIFO shared by a read end and a write end,
    with a count of live write ends that tells an empty pipe that will
    still fill (`EAGAIN`) from one that has reached end of file. */
module Pipe {
  import opened Base

  /** The state both ends share: the queued bytes and `tx_num`. */
  datatype Shared = Shared(queue: seq<Byte>, writers: Word)

  /** One end of a pipe; `tx` marks the write end. */
  datatype End = End(tx: bool)

  /** `create_pipe2`: the read end, then the write end, over an empty
      queue with one writer. */
  function CreatePipe2(): (r: (End, End, Shared))
    ensures !r.0.tx && r.1.tx
    ensures r.2.queue == [] && r.2.writers == 1
  {
    (End(false), End(true), Shared([], 1))
  }

  /** `Pipe::readat` into a buffer of `bufLen` bytes: the bytes read, taken
      from the front of the queue. */
  function ReadAt(s: Shared, e: End, bufLen: nat): (res: (Shared, Result<seq<Byte>, Errno>))
    ensures e.tx ==> res == (s, Err(EACCES))
    ensures !e.tx && s.queue == [] && s.writers > 0 ==> res == (s, Err(EAGAIN))
    ensures res.1.Ok? <==> !e.tx && (s.queue != [] || s.writers == 0)
    ensures res.1.Ok? ==>
      && |res.1.value| == Min(bufLen, |s.queue|)
      && s.queue == res.1.value + res.0.queue
      && res.0.writers == s.writers
    ensures res.1.Err? ==> res.0 == s
  {
    if e.tx then (s, Err(EACCES))
    else if |s.queue| == 0 && s.writers > 0 then (s, Err(EAGAIN))
    else
      var n := Min(bufLen, |s.queue|);
      assert s.queue == s.queue[..n] + s.queue[n..];
      (s.(queue := s.queue[n..]), Ok(s.queue[..n]))
  }

  /** `Pipe::writeat`: append every byte; the count written is the whole
      buffer. */
  function WriteAt(s: Shared, e: End, data: seq<Byte>): (res: (Shared, Result<nat, Errno>))
    ensures !e.tx ==> res == (s, Err(EACCES))
    ensures e.tx ==> res.1 == Ok(|data|) && res.0 == Shared(s.queue + data, s.writers)
  {
    if !e.tx then (s, Err(EACCES))
    else (s.(queue := s.queue + data), Ok(|data|))
  }

  /** `Drop for Pipe`: only a write end lowers the writer count. The
      count is unsigned, so a drop below zero wraps. */
  function Drop(s: Shared, e: End): (s2: Shared)
    ensures s2.queue == s.queue
    ensures !e.tx ==> s2 == s
    ensures e.tx && s.writers > 0 ==> s2.writers == s.writers - 1
  {
    if e.tx then s.(writers := (s.writers + WORD_LIMIT - 1) % WORD_LIMIT) else s
  }

  /** A use of a pipe end: a read with a buffer size, or a write. */
  datatype Op = Read(bufLen: nat) | Write(data: seq<Byte>)

  /** Run a sequence of reads on `rx` and writes on `tx` against the
      shared state: the final state and every successful read's bytes. */
  function Run(s: Shared, ops: seq<Op>): (res: (Shared, seq<seq<Byte>>))
    ensures res.0.writers == s.writers
    decreases |ops|
  {
    if ops == [] then (s, [])
    else
      match ops[0]
      case Read(n) =>
        var (s1, r) := ReadAt(s, End(false), n);
        var (s2, rest) := Run(s1, ops[1..]);
        (s2, (if r.Ok? then [r.value] else []) + rest)
      case Write(d) =>
        var (s1, _) := WriteAt(s, End(true), d);
        Run(s1, ops[1..])
  }

  /** Everything written, in order. */
  function Written(ops: seq<Op>): seq<Byte>
  {
    if ops == [] then []
    else (match ops[0] case Write(d) => d case Read(_) => []) + Written(ops[1..])
  }

  /** FIFO: across any interleaving of reads and writes, the bytes read
      followed by what is still queued are exactly what was queued before
      followed by everything written. Nothing is lost, duplicated or
      reordered. */
  lemma {:induction false} RunIsFifo(s: Shared, ops: seq<Op>)
    ensures Fifo(s, ops)
    decreases |ops|
  {
    if ops != [] {
      match ops[0]
      case Read(n) =>
        RunIsFifo(ReadAt(s, End(false), n).0, ops[1..]);
        ReadKeepsFifo(s, ops, n);
      case Write(d) =>
        RunIsFifo(WriteAt(s, End(true), d).0, ops[1..]);
        WriteKeepsFifo(s, ops, d);
    }
  }

  /** The bytes read from `s` by `ops`, followed by what is left queued, are
      what was queued followed by everything written. */
  predicate Fifo(s: Shared, ops: seq<Op>)
  {
    var (s2, got) := Run(s, ops);
    Flatten(got) + s2.queue == s.queue + Written(ops)
  }

  /** A read in front keeps the FIFO property of the operations after it. */
  lemma ReadKeepsFifo(s: Shared, ops: seq<Op>, n: nat)
    requires ops != [] && ops[0] == Read(n)
    requires Fifo(ReadAt(s, End(false), n).0, ops[1..])
    ensures Fifo(s, ops)
  {
    var (s1, r) := ReadAt(s, End(false), n);
    var here := Got(r);
    ReadRun(s, ops, n);
    ReadFront(s, n);
    var (s2, rest) := Run(s1, ops[1..]);
    FlattenAppend(here, rest);
    Regroup(Flatten(here), Flatten(rest), s1.queue, s2.queue, Written(ops[1..]), s.queue);
  }

  /** The bytes a read adds to the output: its own when it succeeds. */
  function Got(r: Result<seq<Byte>, Errno>): (g: seq<seq<Byte>>)
    ensures r.Ok? ==> Flatten(g) == r.value
    ensures r.Err? ==> Flatten(g) == []
  {
    if r.Ok? then
      assert Flatten([r.value]) == r.value + Flatten([]);
      [r.value]
    else []
  }

  /** A read in front contributes its bytes and writes nothing. */
  lemma ReadRun(s: Shared, ops: seq<Op>, n: nat)
    requires ops != [] && ops[0] == Read(n)
    ensures var (s1, r) := ReadAt(s, End(false), n);
      var (s2, rest) := Run(s1, ops[1..]);
      Run(s, ops) == (s2, Got(r) + rest) && Written(ops) == Written(ops[1..])
  {
  }

  /** A read takes its bytes from the front of the queue. */
  lemma ReadFront(s: Shared, n: nat)
    ensures var (s1, r) := ReadAt(s, End(false), n);
      Flatten(Got(r)) + s1.queue == s.queue
  {
  }

  /** Bytes read first, then the rest, around the queue in between. */
  lemma Regroup(a: seq<Byte>, b: seq<Byte>, q1: seq<Byte>, q2: seq<Byte>, w: seq<Byte>, q: seq<Byte>)
    requires b + q2 == q1 + w && a + q1 == q
    ensures (a + b) + q2 == q + w
  {
    assert (a + b) + q2 == a + (q1 + w) == (a + q1) + w;
  }

  /** A write in front keeps the FIFO property of the operations after it. */
  lemma WriteKeepsFifo(s: Shared, ops: seq<Op>, d: seq<Byte>)
    requires ops != [] && ops[0] == Write(d)
    requires Fifo(WriteAt(s, End(true), d).0, ops[1..])
    ensures Fifo(s, ops)
  {
    assert Written(ops) == d + Written(ops[1..]);
  }

  /** Once every write end is dropped, an emptied pipe reads as end of
      file rather than "try again". */
  lemma EofAfterLastWriter()
    ensures var (rx, tx, s) := CreatePipe2();
      var s1 := Drop(s, tx);
      ReadAt(s1, rx, 16) == (s1, Ok([]))
  {
  }

  /** While a writer is alive, an empty pipe asks the reader to retry. */
  lemma EmptyWithWriterRetries(bufLen: nat)
    ensures var (rx, tx, s) := CreatePipe2();
      ReadAt(s, rx, bufLen).1 == Err(EAGAIN)
  {
  }
}

=== FILE: signal_mask.dfy ===
/** The signal mask of the kernel thread (`SigProcMask`): one 64-bit word,
    bit `s` standing for signal `s`, changed by `rt_sigprocmask`'s three
    operations. */
module SignalMask {
  import opened Base

  type Mask = bv64

  /** `SigMaskHow`: the `how` argument of `rt_sigprocmask`. */
  datatype SigMaskHow = Block | Unblock | SetMask

  /** `SigMaskHow::try_from`: exactly 0, 1 and 2 are accepted. */
  function HowFromWord(w: nat): (r: Option<SigMaskHow>)
    ensures r.Some? <==> w <= 2
    ensures r == Some(Block) <==> w == 0
    ensures r == Some(Unblock) <==> w == 1
    ensures r == Some(SetMask) <==> w == 2
  {
    if w == 0 then Some(Block)
    else if w == 1 then Some(Unblock)
    else if w == 2 then Some(SetMask)
    else None
  }

  /** The discriminant of each `SigMaskHow`, the inverse of `HowFromWord`. */
  function HowToWord(h: SigMaskHow): nat
  {
    match h
    case Block => 0
    case Unblock => 1
    case SetMask => 2
  }

  lemma HowRoundTrip(h: SigMaskHow)
    ensures HowFromWord(HowToWord(h)) == Some(h)
  {
  }

  /** Bit `s` of `m` is set. */
  predicate Bit(m: Mask, s: bv64)
    requires s < 64
  {
    (m >> s) & 1 == 1
  }

  /** `SigProcMask::handle`. */
  function Handle(cur: Mask, how: SigMaskHow, m: Mask): (r: Mask)
    ensures forall s: bv64 :: s < 64 ==> (Bit(r, s) <==>
      match how
      case Block => Bit(cur, s) || Bit(m, s)
      case Unblock => Bit(cur, s) && !Bit(m, s)
      case SetMask => Bit(m, s))
  {
    match how
    case Block => BitOr(cur, m); cur | m
    case Unblock => BitAndNot(cur, m); cur & !m
    case SetMask => m
  }

  lemma BitOr(a: Mask, b: Mask)
    ensures forall s: bv64 :: s < 64 ==> (Bit(a | b, s) <==> Bit(a, s) || Bit(b, s))
  {
    forall s: bv64 | s < 64
      ensures Bit(a | b, s) <==> Bit(a, s) || Bit(b, s)
    {
      BitOrAt(a, b, s);
    }
  }

  lemma BitAndNot(a: Mask, b: Mask)
    ensures forall s: bv64 :: s < 64 ==> (Bit(a & !b, s) <==> Bit(a, s) && !Bit(b, s))
  {
    forall s: bv64 | s < 64
      ensures Bit(a & !b, s) <==> Bit(a, s) && !Bit(b, s)
    {
      BitAndNotAt(a, b, s);
    }
  }

  lemma BitOrAt(a: Mask, b: Mask, s: bv64)
    requires s < 64
    ensures Bit(a | b, s) <==> Bit(a, s) || Bit(b, s)
  {
  }

  lemma BitAndNotAt(a: Mask, b: Mask, s: bv64)
    requires s < 64
    ensures Bit(a & !b, s) <==> Bit(a, s) && !Bit(b, s)
  {
  }

  /** `SigProcMask::masked`, as written: true when bit `s` is CLEAR, so the
      answer is "not blocked". A signal number of 64 or more overflows the
      shift, which panics. */
  function Masked(m: Mask, s: nat): (r: Option<bool>)
    ensures r.Some? <==> s < 64
    ensures s < 64 ==> (r.value <==> !Bit(m, s as bv64))
  {
    if s < 64 then Some((m >> (s as bv64)) & 1 == 0) else None
  }

  /** Blocking twice is blocking once. */
  lemma BlockIdempotent(cur: Mask, m: Mask)
    ensures Handle(Handle(cur, Block, m), Block, m) == Handle(cur, Block, m)
  {
  }

  /** Blocking then unblocking a set leaves every one of its signals
      unblocked and every other signal as it was. */
  lemma BlockThenUnblock(cur: Mask, m: Mask, s: bv64)
    requires s < 64
    ensures var r := Handle(Handle(cur, Block, m), Unblock, m);
      (Bit(m, s) ==> !Bit(r, s)) && (!Bit(m, s) ==> (Bit(r, s) <==> Bit(cur, s)))
  {
    assert Handle(Handle(cur, Block, m), Unblock, m) == (cur | m) & !m;
    BitOrAt(cur, m, s);
    BitAndNotAt(cur | m, m, s);
  }

  /** Setting the mask forgets the earlier one. */
  lemma SetMaskForgets(cur: Mask, cur2: Mask, m: Mask)
    ensures Handle(cur, SetMask, m) == Handle(cur2, SetMask, m)
  {
  }
}

=== FILE: slots.dfy ===
/** Capability-slot naming and the range allocator of empty slots.

    A slot index is split like a two-level page table: the low 12 bits name
    the slot inside a 4096-slot CNode, the bits above name the CNode.
    On unsigned words `idx >> 12` and `idx & 0xfff` are exactly the
    quotient and remainder by 4096, which is how they are written here. */
module SlotManager {
  import opened Base

  /** Slots per leaf CNode (`size_bits` 12). */
  const CNODE_SLOTS: nat := 0x1000

  datatype LeafSlot = LeafSlot(idx: Word)

  /** `LeafSlot::cnode_idx`: the index of the parent CNode. */
  function CnodeIdx(s: LeafSlot): nat
  {
    s.idx / CNODE_SLOTS
  }

  /** `LeafSlot::offset_of_cnode`: the position inside the parent CNode. */
  function OffsetOfCnode(s: LeafSlot): nat
  {
    s.idx % CNODE_SLOTS
  }

  /** A slot is its CNode's base plus its offset, and the offset stays
      inside one CNode, so the two parts name the slot uniquely. */
  lemma SlotSplits(s: LeafSlot)
    ensures s.idx == CnodeIdx(s) * CNODE_SLOTS + OffsetOfCnode(s)
    ensures OffsetOfCnode(s) < CNODE_SLOTS
  {
  }

  /** Rebuilding a slot from a CNode index and an offset gives back both parts. */
  lemma SlotFromParts(cnode: nat, offset: nat)
    requires offset < CNODE_SLOTS && cnode * CNODE_SLOTS + offset < WORD_LIMIT
    ensures var s := LeafSlot(cnode * CNODE_SLOTS + offset);
      CnodeIdx(s) == cnode && OffsetOfCnode(s) == offset
  {
    ModUnique(cnode * CNODE_SLOTS + offset, CNODE_SLOTS, cnode, offset);
  }

  /** Two slots with the same CNode and offset are the same slot. */
  lemma SlotPartsInjective(s: LeafSlot, t: LeafSlot)
    requires CnodeIdx(s) == CnodeIdx(t) && OffsetOfCnode(s) == OffsetOfCnode(t)
    ensures s == t
  {
    SlotSplits(s);
    SlotSplits(t);
  }

  /** `SlotManager`: the half-open range `start..end` of slots still empty. */
  datatype Slots = Slots(start: Word, end: Word)

  /** `SlotManager::empty`: no empty slots until initialised. */
  function EmptySlots(): (m: Slots)
    ensures m.start >= m.end
  {
    Slots(0, 0)
  }

  /** `SlotManager::new` and `SlotManager::init_empty_slots` both take the range as given. */
  function NewSlots(start: Word, end: Word): (m: Slots)
    ensures m.start == start && m.end == end
  {
    Slots(start, end)
  }

  /** `SlotManager::alloc_slot`: the next index of the range; `None` stands
      for the panic of `unwrap` on an exhausted range. */
  function AllocSlot(m: Slots): (res: Option<(Slots, LeafSlot)>)
    ensures res.None? <==> m.start >= m.end
    ensures res.Some? ==>
      && res.value.1.idx == m.start
      && res.value.0 == m.(start := m.start + 1)
  {
    if m.start < m.end then Some((m.(start := m.start + 1), LeafSlot(m.start))) else None
  }

  /** Allocating `n` slots in a row, stopping at the first failure. */
  function AllocSlots(m: Slots, n: nat): (res: Option<(Slots, seq<LeafSlot>)>)
    ensures res.Some? ==> |res.value.1| == n
    decreases n
  {
    if n == 0 then Some((m, []))
    else match AllocSlot(m)
      case None => None
      case Some((m1, s)) =>
        match AllocSlots(m1, n - 1)
        case None => None
        case Some((m2, ss)) => Some((m2, [s] + ss))
  }

  /** A range of `end - start` slots serves exactly that many allocations,
      in order, each slot once; one more allocation panics. */
  lemma {:induction false} AllocSlotsConsecutive(m: Slots, n: nat)
    ensures AllocSlots(m, n).Some? <==> n == 0 || m.start + n <= m.end
    ensures AllocSlots(m, n).Some? ==>
      && AllocSlots(m, n).value.0 == m.(start := m.start + n)
      && forall k :: 0 <= k < n ==> AllocSlots(m, n).value.1[k].idx == m.start + k
    decreases n
  {
    if n > 0 && m.start < m.end {
      var m1 := m.(start := m.start + 1);
      AllocSlotsConsecutive(m1, n - 1);
      assert AllocSlot(m) == Some((m1, LeafSlot(m.start)));
    }
  }

  /** Slots handed out by one manager are pairwise distinct. */
  lemma AllocSlotsDistinct(m: Slots, n: nat)
    requires AllocSlots(m, n).Some?
    ensures forall i, j :: 0 <= i < j < n ==> AllocSlots(m, n).value.1[i] != AllocSlots(m, n).value.1[j]
  {
    AllocSlotsConsecutive(m, n);
  }
}

=== FILE: std_console.dfy ===
/** The console device of the kernel thread (`StdConsole`): one type
    serving stdin (index 0, read only), stdout and stderr (1 and 2, write
    only) and terminals (above 2, both). The UART and debug output are
    parameters: the character the UART has ready, and the bytes sent. */
module StdConsole {
  import opened Base

  predicate MayRead(idx: Byte)  { idx == 0 || idx > 2 }
  predicate MayWrite(idx: Byte) { idx != 0 }

  /** `readat` into a buffer of `bufLen` bytes: `EPERM` for stdout and
      stderr; otherwise the one character the UART has ready, or nothing.
      `None` is the out-of-bounds panic of storing a character into an
      empty buffer. */
  function ReadAt(idx: Byte, bufLen: nat, ready: Option<Byte>): (r: Option<Result<seq<Byte>, Errno>>)
    ensures !MayRead(idx) ==> r == Some(Err(EPERM))
    ensures MayRead(idx) && ready.None? ==> r == Some(Ok([]))
    ensures MayRead(idx) && ready.Some? ==> (r.None? <==> bufLen == 0)
    ensures r.Some? && r.value.Ok? ==> |r.value.value| <= 1 && (ready.Some? <==> |r.value.value| == 1)
    ensures r.Some? && r.value.Ok? && ready.Some? ==> r.value.value == [ready.value]
  {
    if idx != 0 && idx <= 2 then Some(Err(EPERM))
    else match ready
      case None => Some(Ok([]))
      case Some(c) => if bufLen == 0 then None else Some(Ok([c]))
  }

  /** `writeat`: `EPERM` for stdin; otherwise every byte goes to the
      console and the whole length is reported. */
  function WriteAt(idx: Byte, data: seq<Byte>): (r: Result<(nat, seq<Byte>), Errno>)
    ensures r.Err? <==> !MayWrite(idx)
    ensures r.Err? ==> r.error == EPERM
    ensures r.Ok? ==> r.value.0 == |data| && r.value.1 == data
  {
    if idx == 0 then Err(EPERM) else Ok((|data|, data))
  }

  /** Index 0 only reads, 1 and 2 only write, every higher index does
      both; no index does neither. */
  lemma Permissions(idx: Byte)
    ensures MayRead(idx) && MayWrite(idx) <==> idx > 2
    ensures MayRead(idx) || MayWrite(idx)
    ensures ReadAt(idx, 1, None).Some? && (ReadAt(idx, 1, None).value.Err? <==> WriteAt(idx, []).Ok? && idx <= 2)
  {
  }
}

=== FILE: sys_info.dfy ===
/** The system-information calls of the kernel thread: `uname`, which
    stamps fixed names over the caller's `utsname`, and the microsecond
    split of `TimeVal::now` behind `gettimeofday`. */
module SysInfo {
  import opened Base
  import opened Clock
  import opened TaskMem

  /** Bytes in each of the six `utsname` fields. */
  const UTS_FIELD: nat := 65
  const UTSNAME_SIZE: nat := 6 * UTS_FIELD

  datatype UtsName = UtsName(
    sysname: seq<Byte>, nodename: seq<Byte>, release: seq<Byte>,
    version: seq<Byte>, machine: seq<Byte>, domainname: seq<Byte>)

  predicate WellFormed(u: UtsName)
  {
    && |u.sysname| == UTS_FIELD && |u.nodename| == UTS_FIELD && |u.release| == UTS_FIELD
    && |u.version| == UTS_FIELD && |u.machine| == UTS_FIELD && |u.domainname| == UTS_FIELD
  }

  /** The structure laid over `UTSNAME_SIZE` bytes, field after field. */
  function FromBytes(bs: seq<Byte>): (u: UtsName)
    requires |bs| == UTSNAME_SIZE
    ensures WellFormed(u)
  {
    UtsName(bs[0..65], bs[65..130], bs[130..195], bs[195..260], bs[260..325], bs[325..390])
  }

  function ToBytes(u: UtsName): (bs: seq<Byte>)
    requires WellFormed(u)
    ensures |bs| == UTSNAME_SIZE
  {
    u.sysname + u.nodename + u.release + u.version + u.machine + u.domainname
  }

  lemma BytesRoundTrip(u: UtsName)
    requires WellFormed(u)
    ensures FromBytes(ToBytes(u)) == u
  {
    var bs := ToBytes(u);
    assert bs[0..65] == u.sysname;
    assert bs[65..130] == u.nodename;
    assert bs[130..195] == u.release;
    assert bs[195..260] == u.version;
    assert bs[260..325] == u.machine;
    assert bs[325..390] == u.domainname;
  }

  /** The byte string of an ASCII literal. */
  function Ascii(s: string): (r: seq<Byte>)
    requires forall i :: 0 <= i < |s| ==> s[i] as int < 256
    ensures |r| == |s| && forall i :: 0 <= i < |s| ==> r[i] == s[i] as int
  {
    seq(|s|, i requires 0 <= i < |s| => s[i] as int)
  }

  const SYSNAME: seq<Byte> := Ascii("rel4-linux")
  const NODENAME: seq<Byte> := Ascii("rel4-beta1")
  const RELEASE: seq<Byte> := Ascii("vb0.1")
  const VERSION: seq<Byte> := Ascii("vb0.1")
  const MACHINE: seq<Byte> := Ascii("aarch64")

  /** `field[..s.len()].copy_from_slice(s)`. */
  function Stamp(field: seq<Byte>, s: seq<Byte>): (r: seq<Byte>)
    requires |s| <= |field|
    ensures |r| == |field| && r[..|s|] == s && r[|s|..] == field[|s|..]
  {
    s + field[|s|..]
  }

  /** The fields `uname` fills in: each of the first five starts with its
      fixed name and keeps the rest of what the caller passed; the domain
      name is left alone. */
  function Uname(u: UtsName): (r: UtsName)
    requires WellFormed(u)
    ensures WellFormed(r)
    ensures r.sysname[..|SYSNAME|] == SYSNAME && r.sysname[|SYSNAME|..] == u.sysname[|SYSNAME|..]
    ensures r.nodename[..|NODENAME|] == NODENAME && r.nodename[|NODENAME|..] == u.nodename[|NODENAME|..]
    ensures r.release[..|RELEASE|] == RELEASE && r.release[|RELEASE|..] == u.release[|RELEASE|..]
    ensures r.version[..|VERSION|] == VERSION && r.version[|VERSION|..] == u.version[|VERSION|..]
    ensures r.machine[..|MACHINE|] == MACHINE && r.machine[|MACHINE|..] == u.machine[|MACHINE|..]
    ensures r.domainname == u.domainname
  {
    UtsName(Stamp(u.sysname, SYSNAME), Stamp(u.nodename, NODENAME), Stamp(u.release, RELEASE),
      Stamp(u.version, VERSION), Stamp(u.machine, MACHINE), u.domainname)
  }

  /** Stamping twice is stamping once. */
  lemma UnameIdempotent(u: UtsName)
    requires WellFormed(u)
    ensures Uname(Uname(u)) == Uname(u)
  {
  }

  /** `sys_uname(buf)`: read the structure from the task's memory, stamp it,
      write it back with the as-written `write_bytes`, return 0. An
      unmapped byte makes the `unwrap` panic (`None`). */
  function SysUname(pm: PageMap, buf: nat): (r: Option<PageMap>)
    ensures r.Some? <==> ReadBytes(pm, buf, UTSNAME_SIZE).Some?
    ensures r.Some? ==> r.value.Keys == pm.Keys
    ensures r.Some? ==> var out := ToBytes(Uname(FromBytes(ReadBytes(pm, buf, UTSNAME_SIZE).value)));
      forall b :: buf <= b < buf + UTSNAME_SIZE ==> ByteAt(r.value, b) == Some(WrittenByte(out, buf, b))
  {
    match ReadBytes(pm, buf, UTSNAME_SIZE)
    case None => None
    case Some(bs) =>
      var out := ToBytes(Uname(FromBytes(bs)));
      var (pm2, ok) := WriteBytes(pm, buf, out);
      if ok then Some(pm2) else None
  }

  /** After `uname` the caller reads back its structure with the fixed
      names stamped in, when the structure lies inside one page. */
  lemma SysUnameReadsBack(pm: PageMap, buf: nat)
    requires ReadBytes(pm, buf, UTSNAME_SIZE).Some?
    ensures var u := FromBytes(ReadBytes(pm, buf, UTSNAME_SIZE).value);
      && SysUname(pm, buf).Some?
      && (buf % PAGE_SIZE + UTSNAME_SIZE <= PAGE_SIZE ==>
            ReadBytes(SysUname(pm, buf).value, buf, UTSNAME_SIZE) == Some(ToBytes(Uname(u))))
  {
    var out := ToBytes(Uname(FromBytes(ReadBytes(pm, buf, UTSNAME_SIZE).value)));
    if buf % PAGE_SIZE + UTSNAME_SIZE <= PAGE_SIZE {
      WriteBytesInPage(pm, buf, out);
    }
  }

  /** With the corrected `write_bytes` the stamped structure reads back
      wherever it lies. */
  lemma SysUnameReadsBackFixed(pm: PageMap, buf: nat)
    requires ReadBytes(pm, buf, UTSNAME_SIZE).Some?
    ensures var out := ToBytes(Uname(FromBytes(ReadBytes(pm, buf, UTSNAME_SIZE).value)));
      ReadBytes(WriteBytesFixed(pm, buf, out).0, buf, UTSNAME_SIZE) == Some(out)
  {
    var out := ToBytes(Uname(FromBytes(ReadBytes(pm, buf, UTSNAME_SIZE).value)));
    WriteReadRoundTrip(pm, buf, out);
  }

  /** `TimeVal { sec, usec }`. */
  datatype TimeVal = TimeVal(sec: nat, usec: nat)

  /** `TimeVal::now` for a clock reading of `us` microseconds: whole
      seconds and the microseconds left over, which recombine to `us`. */
  function TimeValNow(us: nat): (r: TimeVal)
    ensures r.usec < US_PER_SEC
    ensures r.sec * US_PER_SEC + r.usec == us
  {
    TimeVal(us / US_PER_SEC, us % US_PER_SEC)
  }

  /** Read from the counter, the seconds of `gettimeofday` are the whole
      seconds of the wrapping nanosecond clock; while its product fits in
      64 bits these are the whole seconds the counter has run, the same
      as the vDSO reports. */
  lemma TimeValOfCounter(cnt: Word, freq: nat)
    requires freq > 0
    ensures TimeValNow(CurrUs(cnt, freq)).sec == CurrSec(cnt, freq)
    ensures cnt * NS_PER_SEC < WORD_LIMIT ==> TimeValNow(CurrUs(cnt, freq)).sec == cnt / freq
  {
    var ns := TicksToNsWrapping(cnt, freq);
    DivDiv1000(ns);
  }

  /** Microseconds split into seconds are the nanoseconds split into seconds. */
  lemma DivDiv1000(ns: nat)
    ensures ns / 1000 / US_PER_SEC == ns / NS_PER_SEC
  {
    var q, r := ns / NS_PER_SEC, ns % NS_PER_SEC;
    ModUnique(ns, 1000, q * US_PER_SEC + r / 1000, r % 1000);
    ModUnique(ns / 1000, US_PER_SEC, q, r / 1000);
  }

  /** So `gettimeofday` inherits the wrap: at 62.5 MHz its seconds fall
      from 295 back to 0 one tick after about 295 seconds. */
  lemma TimeValGoesBack()
    ensures TimeValNow(CurrUs(18_446_744_073, 62_500_000)).sec == 295
    ensures TimeValNow(CurrUs(18_446_744_074, 62_500_000)).sec == 0
  {
    TimeValOfCounter(18_446_744_073, 62_500_000);
    TimeValOfCounter(18_446_744_074, 62_500_000);
    CurrSecGoesBack();
  }

  /** With the exact clock the seconds are the whole counter periods. */
  lemma TimeValOfCounterExact(cnt: nat, freq: nat)
    requires freq > 0
    ensures TimeValNow(CurrUsExact(cnt, freq)).sec == cnt / freq
  {
    DivDiv(cnt, US_PER_SEC, freq);
  }
}

=== FILE: task_mem.dfy ===
/** A task's address space as the kernel thread keeps it (`TaskMemInfo`):
    the 4 KiB pages mapped so far, keyed by their page-aligned virtual
    address, and the heap end. Reads and writes of user memory split at
    page boundaries. */
module TaskMem {
  import opened Base
  import opened PhysPage

  /** `DEF_HEAP_ADDR`. */
  const DEF_HEAP_ADDR: nat := 0x1_0000_0000

  type PageMap = map<nat, Page>

  datatype MemInfo = MemInfo(pages: PageMap, heap: nat)

  /** `TaskMemInfo::default`. */
  function DefaultMemInfo(): (m: MemInfo)
    ensures m.pages == map[] && m.heap == DEF_HEAP_ADDR
  {
    MemInfo(map[], DEF_HEAP_ADDR)
  }

  /** `vaddr / PAGE_SIZE * PAGE_SIZE`: the key of the page holding `a`. */
  function Key(a: nat): nat
  {
    (a / PAGE_SIZE) * PAGE_SIZE
  }

  /** The byte at user address `a`, if its page is mapped. */
  function ByteAt(pm: PageMap, a: nat): Option<Byte>
  {
    if Key(a) in pm then Some(pm[Key(a)][a % PAGE_SIZE]) else None
  }

  lemma SamePage(a: nat, i: nat)
    requires a % PAGE_SIZE + i < PAGE_SIZE
    ensures Key(a + i) == Key(a) && (a + i) % PAGE_SIZE == a % PAGE_SIZE + i
  {
    ModUnique(a + i, PAGE_SIZE, a / PAGE_SIZE, a % PAGE_SIZE + i);
  }

  lemma SamePageRange(a: nat, n: nat)
    requires a % PAGE_SIZE + n <= PAGE_SIZE
    ensures forall b :: a <= b < a + n ==> Key(b) == Key(a) && b % PAGE_SIZE == a % PAGE_SIZE + (b - a)
  {
    forall b | a <= b < a + n
      ensures Key(b) == Key(a) && b % PAGE_SIZE == a % PAGE_SIZE + (b - a)
    {
      SamePage(a, b - a);
    }
  }

  /** The first address of the next page. */
  lemma NextPage(a: nat)
    ensures Key(a + (PAGE_SIZE - a % PAGE_SIZE)) == Key(a) + PAGE_SIZE
    ensures (a + (PAGE_SIZE - a % PAGE_SIZE)) % PAGE_SIZE == 0
  {
    ModUnique(a + (PAGE_SIZE - a % PAGE_SIZE), PAGE_SIZE, a / PAGE_SIZE + 1, 0);
  }

  /** `read_bytes` from `v` up to `end`: page-sized chunks of
      `min(PAGE_SIZE - offset, remaining)`; `None` at the first unmapped
      page. */
  function ReadFrom(pm: PageMap, v: nat, end: nat): (r: Option<seq<Byte>>)
    requires v <= end
    ensures r.Some? <==> forall b :: v <= b < end ==> ByteAt(pm, b).Some?
    ensures r.Some? ==> |r.value| == end - v && forall b :: v <= b < end ==> ByteAt(pm, b) == Some(r.value[b - v])
    decreases end - v
  {
    if v == end then Some([])
    else if Key(v) !in pm then
      assert ByteAt(pm, v).None?;
      None
    else
      var off := v % PAGE_SIZE;
      var rsize := Min(PAGE_SIZE - off, end - v);
      SamePageRange(v, rsize);
      var chunk := pm[Key(v)][off..off + rsize];
      match ReadFrom(pm, v + rsize, end)
      case None => None
      case Some(rest) => Some(chunk + rest)
  }

  /** `read_bytes(vaddr, len)`. */
  function ReadBytes(pm: PageMap, vaddr: nat, len: nat): (r: Option<seq<Byte>>)
    ensures r.Some? <==> forall b :: vaddr <= b < vaddr + len ==> ByteAt(pm, b).Some?
    ensures r.Some? ==> |r.value| == len && forall i :: 0 <= i < len ==> ByteAt(pm, vaddr + i) == Some(r.value[i])
  {
    ReadFrom(pm, vaddr, vaddr + len)
  }

  /** `write_bytes` AS WRITTEN from `v` up to `end`: every chunk copies
      `data[..rsize]`, the start of the data, because the slice is never
      advanced. The flag is false when an unmapped page stopped the write;
      the chunks before it stay written. */
  function WriteChunks(pm: PageMap, v: nat, end: nat, data: seq<Byte>): (r: (PageMap, bool))
    requires v <= end && end - v <= |data|
    ensures r.0.Keys == pm.Keys
    ensures r.1 <==> forall b :: v <= b < end ==> ByteAt(pm, b).Some?
    ensures forall b: nat :: !(v <= b < end) ==> ByteAt(r.0, b) == ByteAt(pm, b)
    decreases end - v
  {
    if v == end then (pm, true)
    else if Key(v) !in pm then
      assert ByteAt(pm, v).None?;
      (pm, false)
    else
      var off := v % PAGE_SIZE;
      var rsize := Min(PAGE_SIZE - off, end - v);
      SamePageRange(v, rsize);
      var pm1 := pm[Key(v) := Overwrite(pm[Key(v)], off, data[..rsize])];
      ChunkFrame(pm, v, rsize, data[..rsize]);
      WriteChunks(pm1, v + rsize, end, data)
  }

  /** Writing `d` at `v` inside one page touches only `[v, v + |d|)`. */
  lemma ChunkFrame(pm: PageMap, v: nat, n: nat, d: seq<Byte>)
    requires Key(v) in pm && v % PAGE_SIZE + n <= PAGE_SIZE && |d| == n
    ensures var pm1 := pm[Key(v) := Overwrite(pm[Key(v)], v % PAGE_SIZE, d)];
      && (forall b: nat :: !(v <= b < v + n) ==> ByteAt(pm1, b) == ByteAt(pm, b))
      && (forall b :: v <= b < v + n ==> ByteAt(pm1, b) == Some(d[b - v]))
  {
    SamePageRange(v, n);
    var pm1 := pm[Key(v) := Overwrite(pm[Key(v)], v % PAGE_SIZE, d)];
    forall b: nat | !(v <= b < v + n)
      ensures ByteAt(pm1, b) == ByteAt(pm, b)
    {
      if Key(b) == Key(v) {
        var o := b % PAGE_SIZE;
        assert b == Key(b) + o && v == Key(v) + v % PAGE_SIZE;
      }
    }
  }

  /** The byte the as-written write from `v` leaves at `b`: on `v`'s own
      page the data byte at `b`'s distance from `v`; on every later page
      the data byte at `b`'s offset inside its page, because each chunk
      starts again at the front of the data. */
  function WrittenByte(data: seq<Byte>, v: nat, b: nat): Byte
  {
    var i := if Key(b) == Key(v) then b - v else b % PAGE_SIZE;
    if 0 <= i < |data| then data[i] else 0
  }

  /** What each chunk of the as-written walk leaves behind. */
  lemma {:induction false} WriteChunksPlaces(pm: PageMap, v: nat, end: nat, data: seq<Byte>)
    requires v <= end && end - v <= |data|
    ensures var r := WriteChunks(pm, v, end, data);
      r.1 ==> forall b :: v <= b < end ==> ByteAt(r.0, b) == Some(WrittenByte(data, v, b))
    decreases end - v
  {
    if v != end && Key(v) in pm {
      var off := v % PAGE_SIZE;
      var rsize := Min(PAGE_SIZE - off, end - v);
      var pm1 := pm[Key(v) := Overwrite(pm[Key(v)], off, data[..rsize])];
      SamePageRange(v, rsize);
      ChunkFrame(pm, v, rsize, data[..rsize]);
      var v1 := v + rsize;
      WriteChunksPlaces(pm1, v1, end, data);
      var r := WriteChunks(pm, v, end, data);
      assert r == WriteChunks(pm1, v1, end, data);
      if r.1 {
        forall b | v <= b < end
          ensures ByteAt(r.0, b) == Some(WrittenByte(data, v, b))
        {
          if b < v1 {
            assert ByteAt(r.0, b) == ByteAt(pm1, b);
          } else {
            LaterPage(v, v1, b);
          }
        }
      }
    }
  }

  /** Past the end of `v`'s page, `b` lies on a later page, at an offset
      that is also its distance from the next page boundary `v1` when it
      lies on `v1`'s page. */
  lemma LaterPage(v: nat, v1: nat, b: nat)
    requires v1 == v + (PAGE_SIZE - v % PAGE_SIZE) && v1 <= b
    ensures Key(b) != Key(v) && Key(v1) == v1
    ensures Key(b) == Key(v1) ==> b - v1 == b % PAGE_SIZE
  {
    ModUnique(v1, PAGE_SIZE, v / PAGE_SIZE + 1, 0);
    DivMonotone(v1, b, PAGE_SIZE);
  }

  /** `write_bytes(vaddr, data)` as written. */
  function WriteBytes(pm: PageMap, vaddr: nat, data: seq<Byte>): (r: (PageMap, bool))
    ensures r.0.Keys == pm.Keys
    ensures r.1 <==> forall b :: vaddr <= b < vaddr + |data| ==> ByteAt(pm, b).Some?
    ensures forall b: nat :: !(vaddr <= b < vaddr + |data|) ==> ByteAt(r.0, b) == ByteAt(pm, b)
    ensures r.1 ==> forall b :: vaddr <= b < vaddr + |data| ==> ByteAt(r.0, b) == Some(WrittenByte(data, vaddr, b))
  {
    WriteChunksPlaces(pm, vaddr, vaddr + |data|, data);
    WriteChunks(pm, vaddr, vaddr + |data|, data)
  }

  /** Inside one page the write as written is correct: the data reads back. */
  lemma WriteBytesInPage(pm: PageMap, vaddr: nat, data: seq<Byte>)
    requires vaddr % PAGE_SIZE + |data| <= PAGE_SIZE
    requires forall b :: vaddr <= b < vaddr + |data| ==> ByteAt(pm, b).Some?
    ensures ReadBytes(WriteBytes(pm, vaddr, data).0, vaddr, |data|) == Some(data)
  {
    var pm2 := WriteBytes(pm, vaddr, data).0;
    var r := ReadBytes(pm2, vaddr, |data|);
    SamePageRange(vaddr, |data|);
    assert r.Some?;
    forall i | 0 <= i < |data|
      ensures r.value[i] == data[i]
    {
      assert ByteAt(pm2, vaddr + i) == Some(r.value[i]);
      assert Key(vaddr + i) == Key(vaddr);
    }
    assert r.value == data;
  }

  /** `write_bytes` with the slice advanced past each chunk: byte `b` of the
      range receives `data[b - base]`. */
  function WriteChunksFixed(pm: PageMap, base: nat, v: nat, end: nat, data: seq<Byte>): (r: (PageMap, bool))
    requires base <= v <= end && end - base == |data|
    ensures r.0.Keys == pm.Keys
    ensures r.1 <==> forall b :: v <= b < end ==> ByteAt(pm, b).Some?
    ensures forall b: nat :: !(v <= b < end) ==> ByteAt(r.0, b) == ByteAt(pm, b)
    ensures r.1 ==> forall b :: v <= b < end ==> ByteAt(r.0, b) == Some(data[b - base])
    decreases end - v
  {
    if v == end then (pm, true)
    else if Key(v) !in pm then
      assert ByteAt(pm, v).None?;
      (pm, false)
    else
      var off := v % PAGE_SIZE;
      var rsize := Min(PAGE_SIZE - off, end - v);
      var chunk := data[v - base..v - base + rsize];
      var pm1 := pm[Key(v) := Overwrite(pm[Key(v)], off, chunk)];
      ChunkFrame(pm, v, rsize, chunk);
      SamePageRange(v, rsize);
      WriteChunksFixed(pm1, base, v + rsize, end, data)
  }

  /** The corrected `write_bytes`. */
  function WriteBytesFixed(pm: PageMap, vaddr: nat, data: seq<Byte>): (r: (PageMap, bool))
    ensures r.0.Keys == pm.Keys
    ensures r.1 <==> forall b :: vaddr <= b < vaddr + |data| ==> ByteAt(pm, b).Some?
    ensures forall b: nat :: !(vaddr <= b < vaddr + |data|) ==> ByteAt(r.0, b) == ByteAt(pm, b)
    ensures r.1 ==> forall b :: vaddr <= b < vaddr + |data| ==> ByteAt(r.0, b) == Some(data[b - vaddr])
  {
    WriteChunksFixed(pm, vaddr, vaddr, vaddr + |data|, data)
  }

  /** The corrected write, read back, gives the data. */
  lemma WriteReadRoundTrip(pm: PageMap, vaddr: nat, data: seq<Byte>)
    requires forall b :: vaddr <= b < vaddr + |data| ==> ByteAt(pm, b).Some?
    ensures ReadBytes(WriteBytesFixed(pm, vaddr, data).0, vaddr, |data|) == Some(data)
  {
    var pm2 := WriteBytesFixed(pm, vaddr, data).0;
    var r := ReadBytes(pm2, vaddr, |data|);
    assert r.Some?;
    forall i | 0 <= i < |data|
      ensures r.value[i] == data[i]
    {
      assert ByteAt(pm2, vaddr + i) == Some(r.value[i]);
    }
    assert r.value == data;
  }

  /** Two zeroed pages side by side. */
  function TwoPages(): PageMap
  {
    map[0 := ZeroPage(), PAGE_SIZE := ZeroPage()]
  }

  /** The write as written, across a page boundary: four bytes at 0xffe
      land as 1, 2 in the first page and again 1, 2 in the second. */
  lemma WriteBytesRepeatsChunk()
    ensures ReadBytes(WriteBytes(TwoPages(), 0xffe, [1, 2, 3, 4]).0, 0xffe, 4) == Some([1, 2, 1, 2])
    ensures ReadBytes(WriteBytesFixed(TwoPages(), 0xffe, [1, 2, 3, 4]).0, 0xffe, 4) == Some([1, 2, 3, 4])
  {
    var pm2 := RepeatedChunkPages();
    ReadFour(pm2, 0xffe, 1, 2, 1, 2);
    assert Key(0xffe) == 0 && Key(0xfff) == 0 && Key(0x1000) == PAGE_SIZE && Key(0x1001) == PAGE_SIZE;
    WriteReadRoundTrip(TwoPages(), 0xffe, [1, 2, 3, 4]);
  }

  /** The pages after the as-written write of 1, 2, 3, 4 at 0xffe. */
  lemma RepeatedChunkPages() returns (pm2: PageMap)
    ensures WriteBytes(TwoPages(), 0xffe, [1, 2, 3, 4]).0 == pm2
    ensures ByteAt(pm2, 0xffe) == Some(1) && ByteAt(pm2, 0xffe + 1) == Some(2)
    ensures ByteAt(pm2, 0xffe + 2) == Some(1) && ByteAt(pm2, 0xffe + 3) == Some(2)
  {
    var pm := TwoPages();
    var d: seq<Byte> := [1, 2, 3, 4];
    assert Key(0xffe) == 0 && Key(0xfff) == 0 && Key(0x1000) == PAGE_SIZE && Key(0x1001) == PAGE_SIZE;
    var p0 := Overwrite(pm[0], 0xffe, d[..2]);
    var pm1 := pm[0 := p0];
    assert WriteChunks(pm, 0xffe, 0x1002, d) == WriteChunks(pm1, 0x1000, 0x1002, d);
    var p1 := Overwrite(pm1[PAGE_SIZE], 0, d[..2]);
    pm2 := pm1[PAGE_SIZE := p1];
    assert WriteChunks(pm1, 0x1000, 0x1002, d) == WriteChunks(pm2, 0x1002, 0x1002, d);
  }

  /** Four mapped bytes read back as one sequence. */
  lemma ReadFour(pm: PageMap, a: nat, b0: Byte, b1: Byte, b2: Byte, b3: Byte)
    requires ByteAt(pm, a) == Some(b0) && ByteAt(pm, a + 1) == Some(b1)
    requires ByteAt(pm, a + 2) == Some(b2) && ByteAt(pm, a + 3) == Some(b3)
    ensures ReadBytes(pm, a, 4) == Some([b0, b1, b2, b3])
  {
    forall b | a <= b < a + 4
      ensures ByteAt(pm, b).Some?
    {
      assert b == a || b == a + 1 || b == a + 2 || b == a + 3;
    }
    var r := ReadBytes(pm, a, 4);
    assert ByteAt(pm, a + 0) == Some(r.value[0]) && ByteAt(pm, a + 1) == Some(r.value[1]);
    assert ByteAt(pm, a + 2) == Some(r.value[2]) && ByteAt(pm, a + 3) == Some(r.value[3]);
    assert r.value == [b0, b1, b2, b3];
  }

  /** `read_ins`: the little-endian 32-bit word at `vaddr`. The outer
      `None` is the slice panic when the word would run past its page; the
      inner `None` means the page is not mapped. */
  function ReadIns(pm: PageMap, vaddr: nat): (r: Option<Option<nat>>)
    ensures r.None? <==> Key(vaddr) in pm && vaddr % PAGE_SIZE + 4 > PAGE_SIZE
    ensures r == Some(None) <==> Key(vaddr) !in pm
    ensures r.Some? && r.value.Some? ==>
      ReadBytes(pm, vaddr, 4).Some? && r.value.value == LeValue(ReadBytes(pm, vaddr, 4).value)
  {
    if Key(vaddr) !in pm then Some(None)
    else
      var off := vaddr % PAGE_SIZE;
      if off + 4 > PAGE_SIZE then None
      else
        var bs := pm[Key(vaddr)][off..off + 4];
        SamePageRange(vaddr, 4);
        var rb := ReadBytes(pm, vaddr, 4);
        assert rb.Some? by {
          forall b | vaddr <= b < vaddr + 4
            ensures ByteAt(pm, b).Some?
          {
          }
        }
        assert rb.value == bs by {
          forall i | 0 <= i < 4
            ensures rb.value[i] == bs[i]
          {
            assert ByteAt(pm, vaddr + i) == Some(rb.value[i]);
          }
        }
        Some(Some(LeValue(bs)))
  }

  /** The index of the first zero byte of `p` at or after `from`. */
  function FirstZero(p: Page, from: nat): (r: Option<nat>)
    requires from <= PAGE_SIZE
    ensures r.Some? ==>
      && from <= r.value < PAGE_SIZE && p[r.value] == 0
      && forall j :: from <= j < r.value ==> p[j] != 0
    ensures r.None? ==> forall j :: from <= j < PAGE_SIZE ==> p[j] != 0
    decreases PAGE_SIZE - from
  {
    if from == PAGE_SIZE then None
    else if p[from] == 0 then Some(from)
    else FirstZero(p, from + 1)
  }

  /** The mapped page keys at or above `k`: the measure of page walks. */
  function Above(pm: PageMap, k: nat): set<nat>
  {
    set x | x in pm && x >= k
  }

  lemma AboveShrinks(pm: PageMap, k: nat)
    requires k in pm
    ensures |Above(pm, k + PAGE_SIZE)| < |Above(pm, k)|
  {
    assert Above(pm, k + PAGE_SIZE) <= Above(pm, k) - {k};
    SubsetCard(Above(pm, k + PAGE_SIZE), Above(pm, k) - {k});
  }

  /** User memory from `v` holds the C string `s`: mapped, non-zero bytes
      and a terminating zero. */
  predicate CStrAt(pm: PageMap, v: nat, s: seq<Byte>)
  {
    && (forall b :: v <= b < v + |s| ==> ByteAt(pm, b) == Some(s[b - v]) && s[b - v] != 0)
    && ByteAt(pm, v + |s|) == Some(0)
  }

  /** The string from `v` runs into an unmapped page before any zero. */
  ghost predicate CStrFaults(pm: PageMap, v: nat)
  {
    exists e :: e >= v && ByteAt(pm, e).None? &&
      forall b :: v <= b < e ==> ByteAt(pm, b).Some? && ByteAt(pm, b).value != 0
  }

  /** `read_cstr`: the bytes before the first zero, crossing pages; `None`
      when an unmapped page comes first. */
  function ReadCstr(pm: PageMap, v: nat): (r: Option<seq<Byte>>)
    ensures r.Some? ==> CStrAt(pm, v, r.value)
    ensures r.None? ==> CStrFaults(pm, v)
    decreases |Above(pm, Key(v))|
  {
    if Key(v) !in pm then
      assert ByteAt(pm, v).None?;
      None
    else
      var off := v % PAGE_SIZE;
      var page := pm[Key(v)];
      match FirstZero(page, off)
      case Some(j) =>
        CStrInPage(pm, v, j);
        Some(page[off..j])
      case None =>
        var next := v + (PAGE_SIZE - off);
        NextPage(v);
        AboveShrinks(pm, Key(v));
        match ReadCstr(pm, next)
        case None =>
          CStrFaultsBack(pm, v);
          None
        case Some(rest) =>
          CStrBack(pm, v, rest);
          Some(page[off..] + rest)
  }

  /** A zero found in the page of `v` ends the string there. */
  lemma CStrInPage(pm: PageMap, v: nat, j: nat)
    requires Key(v) in pm && FirstZero(pm[Key(v)], v % PAGE_SIZE) == Some(j)
    ensures CStrAt(pm, v, pm[Key(v)][v % PAGE_SIZE..j])
  {
    var off := v % PAGE_SIZE;
    var page := pm[Key(v)];
    SamePageRange(v, PAGE_SIZE - off);
    assert forall b :: v <= b < v + (j - off) ==> ByteAt(pm, b) == Some(page[off..j][b - v]);
    assert ByteAt(pm, v + (j - off)) == Some(0);
  }

  /** No zero in the rest of the page of `v`: a fault after it is a fault
      of the string from `v`. */
  lemma CStrFaultsBack(pm: PageMap, v: nat)
    requires Key(v) in pm && FirstZero(pm[Key(v)], v % PAGE_SIZE).None?
    requires CStrFaults(pm, v + (PAGE_SIZE - v % PAGE_SIZE))
    ensures CStrFaults(pm, v)
  {
    var next := v + (PAGE_SIZE - v % PAGE_SIZE);
    SamePageRange(v, PAGE_SIZE - v % PAGE_SIZE);
    var e :| e >= next && ByteAt(pm, e).None? &&
      forall b :: next <= b < e ==> ByteAt(pm, b).Some? && ByteAt(pm, b).value != 0;
    assert forall b :: v <= b < e ==> ByteAt(pm, b).Some? && ByteAt(pm, b).value != 0;
  }

  /** No zero in the rest of the page of `v`: the string from the next
      page, behind the rest of this one, is the string from `v`. */
  lemma CStrBack(pm: PageMap, v: nat, rest: seq<Byte>)
    requires Key(v) in pm && FirstZero(pm[Key(v)], v % PAGE_SIZE).None?
    requires CStrAt(pm, v + (PAGE_SIZE - v % PAGE_SIZE), rest)
    ensures CStrAt(pm, v, pm[Key(v)][v % PAGE_SIZE..] + rest)
  {
    var off := v % PAGE_SIZE;
    var next := v + (PAGE_SIZE - off);
    SamePageRange(v, PAGE_SIZE - off);
    var s := pm[Key(v)][off..] + rest;
    forall b | v <= b < v + |s|
      ensures ByteAt(pm, b) == Some(s[b - v]) && s[b - v] != 0
    {
      if b >= next {
        assert s[b - v] == rest[b - next];
      }
    }
    assert v + |s| == next + |rest|;
  }

  /** The machine word at user address `a`: its page mapped and the word
      not running past the page end. */
  function WordAt(pm: PageMap, a: nat): Option<Word>
  {
    if Key(a) in pm then ReadUsize(pm[Key(a)], a % PAGE_SIZE) else None
  }

  /** User memory from `v` holds the zero-terminated word array `ws`
      (words are `WORD_BYTES`, that is 8, bytes apart). */
  predicate VecAt(pm: PageMap, v: nat, ws: seq<Word>)
  {
    && (forall i :: 0 <= i < |ws| ==> WordAt(pm, v + 8 * i) == Some(ws[i]) && ws[i] != 0)
    && WordAt(pm, v + 8 * |ws|) == Some(0)
  }

  /** A word that cannot be read comes before any zero word. */
  ghost predicate VecFaults(pm: PageMap, v: nat)
  {
    exists n: nat :: WordAt(pm, v + 8 * n).None? &&
      forall i :: 0 <= i < n ==> WordAt(pm, v + 8 * i).Some? && WordAt(pm, v + 8 * i).value != 0
  }

  /** The inner loop of `read_vec` over one page: the words read from
      `off` on, ending at a zero word, at the page end, or at a word that
      would run past the page. */
  datatype Scan = Found(ws: seq<Word>) | PageEnd(ws: seq<Word>) | Overrun(ws: seq<Word>)

  function ScanPage(p: Page, off: nat): (r: Scan)
    requires off <= PAGE_SIZE
    ensures off + 8 * |r.ws| <= PAGE_SIZE
    ensures r.PageEnd? ==> off + 8 * |r.ws| == PAGE_SIZE
    ensures !r.PageEnd? ==> off + 8 * |r.ws| < PAGE_SIZE
    decreases PAGE_SIZE - off
  {
    if off >= PAGE_SIZE then PageEnd([])
    else
      match ReadUsize(p, off)
      case None => Scan.Overrun([])
      case Some(w) =>
        if w == 0 then Found([])
        else
          var r := ScanPage(p, off + 8);
          var ws := [w] + r.ws;
          match r
          case Found(_) => Found(ws)
          case PageEnd(_) => PageEnd(ws)
          case Overrun(_) => Scan.Overrun(ws)
  }

  /** The scan of the page holding `v` reads user memory word by word:
      nonzero words, then the zero, the page end, or an unreadable word. */
  lemma {:induction false} ScanIsMemory(pm: PageMap, v: nat)
    requires Key(v) in pm
    ensures ScanReads(pm, v, ScanPage(pm[Key(v)], v % PAGE_SIZE))
    decreases PAGE_SIZE - v % PAGE_SIZE
  {
    var p := pm[Key(v)];
    var off := v % PAGE_SIZE;
    if ReadUsize(p, off).Some? && ReadUsize(p, off).value != 0 && off + 8 < PAGE_SIZE {
      SamePage(v, 8);
      ScanIsMemory(pm, v + 8);
      ScanStep(pm, v);
    } else {
      assert v + 8 * 0 == v;
    }
  }

  /** `r` agrees with user memory from `v`. */
  predicate ScanReads(pm: PageMap, v: nat, r: Scan)
  {
    && (forall i :: 0 <= i < |r.ws| ==> WordAt(pm, v + 8 * i) == Some(r.ws[i]) && r.ws[i] != 0)
    && (r.Found? ==> WordAt(pm, v + 8 * |r.ws|) == Some(0))
    && (r.Overrun? ==> WordAt(pm, v + 8 * |r.ws|).None?)
  }

  /** A nonzero word in front of a scan that agrees with memory from the
      next word. */
  lemma ScanStep(pm: PageMap, v: nat)
    requires Key(v) in pm && v % PAGE_SIZE + 8 < PAGE_SIZE
    requires ReadUsize(pm[Key(v)], v % PAGE_SIZE).Some? && ReadUsize(pm[Key(v)], v % PAGE_SIZE).value != 0
    requires Key(v + 8) == Key(v) && (v + 8) % PAGE_SIZE == v % PAGE_SIZE + 8
    requires ScanReads(pm, v + 8, ScanPage(pm[Key(v)], v % PAGE_SIZE + 8))
    ensures ScanReads(pm, v, ScanPage(pm[Key(v)], v % PAGE_SIZE))
  {
    var r := ScanPage(pm[Key(v)], v % PAGE_SIZE);
    var r1 := ScanPage(pm[Key(v)], v % PAGE_SIZE + 8);
    assert r.ws == [ReadUsize(pm[Key(v)], v % PAGE_SIZE).value] + r1.ws;
    assert r.Found? == r1.Found? && r.Overrun? == r1.Overrun?;
    forall i | 0 <= i < |r.ws|
      ensures WordAt(pm, v + 8 * i) == Some(r.ws[i]) && r.ws[i] != 0
    {
      if i == 0 {
        assert v + 8 * i == v;
      } else {
        assert v + 8 * i == (v + 8) + 8 * (i - 1) && r.ws[i] == r1.ws[i - 1];
      }
    }
    assert v + 8 * |r.ws| == (v + 8) + 8 * |r1.ws|;
  }

  /** What `read_vec` ends with. */
  datatype VecRead = Words(ws: seq<Word>) | Unmapped | Straddles | Hangs

  /** `read_vec` AS WRITTEN: after the inner loop has run to the end of the
      page, `vaddr += PAGE_SIZE - offset` adds 0, so the same page is
      scanned again forever (and the result grows without bound). */
  function ReadVec(pm: PageMap, v: nat): (r: VecRead)
    ensures r.Words? ==> VecAt(pm, v, r.ws) && v % PAGE_SIZE + 8 * |r.ws| < PAGE_SIZE
    ensures r.Unmapped? <==> Key(v) !in pm
    ensures r.Hangs? <==> Key(v) in pm && ScanPage(pm[Key(v)], v % PAGE_SIZE).PageEnd?
    ensures r.Straddles? ==> VecFaults(pm, v)
  {
    if Key(v) !in pm then Unmapped
    else
      var sc := ScanPage(pm[Key(v)], v % PAGE_SIZE);
      ScanIsMemory(pm, v);
      match sc
      case Found(ws) => Words(ws)
      case Overrun(ws) =>
        FaultAt(pm, v, ws);
        Straddles
      case PageEnd(_) => Hangs
  }

  /** `read_vec` moving on to the next page when the current one is used
      up, as the loop evidently intends. */
  function ReadVecFixed(pm: PageMap, v: nat): (r: VecRead)
    ensures r.Words? ==> VecAt(pm, v, r.ws)
    ensures r.Unmapped? || r.Straddles? ==> VecFaults(pm, v)
    ensures !r.Hangs?
    decreases |Above(pm, Key(v))|
  {
    if Key(v) !in pm then
      assert v + 8 * 0 == v;
      assert WordAt(pm, v + 8 * 0).None?;
      Unmapped
    else
      var sc := ScanPage(pm[Key(v)], v % PAGE_SIZE);
      ScanIsMemory(pm, v);
      match sc
      case Found(ws) => Words(ws)
      case Overrun(ws) =>
        FaultAt(pm, v, ws);
        Straddles
      case PageEnd(ws) =>
        var next := v + (PAGE_SIZE - v % PAGE_SIZE);
        NextPage(v);
        AboveShrinks(pm, Key(v));
        var r := ReadVecFixed(pm, next);
        match r
        case Words(rest) =>
          VecJoin(pm, v, ws, next, rest);
          Words(ws + rest)
        case Unmapped =>
          VecFaultsShift(pm, v, ws, next);
          Unmapped
        case Straddles =>
          VecFaultsShift(pm, v, ws, next);
          Straddles
        case Hangs => Hangs
  }

  lemma FaultAt(pm: PageMap, v: nat, ws: seq<Word>)
    requires WordAt(pm, v + 8 * |ws|).None?
    requires forall i :: 0 <= i < |ws| ==> WordAt(pm, v + 8 * i) == Some(ws[i]) && ws[i] != 0
    ensures VecFaults(pm, v)
  {
    var n: nat := |ws|;
    assert WordAt(pm, v + 8 * n).None?;
    forall i | 0 <= i < n
      ensures WordAt(pm, v + 8 * i).Some? && WordAt(pm, v + 8 * i).value != 0
    {
      assert WordAt(pm, v + 8 * i) == Some(ws[i]);
    }
  }

  lemma VecJoin(pm: PageMap, v: nat, ws: seq<Word>, next: nat, rest: seq<Word>)
    requires next == v + 8 * |ws| && VecAt(pm, next, rest)
    requires forall i :: 0 <= i < |ws| ==> WordAt(pm, v + 8 * i) == Some(ws[i]) && ws[i] != 0
    ensures VecAt(pm, v, ws + rest)
  {
    var all := ws + rest;
    forall i | |ws| <= i <= |all|
      ensures v + 8 * i == next + 8 * (i - |ws|)
    {
    }
  }

  lemma VecFaultsShift(pm: PageMap, v: nat, ws: seq<Word>, next: nat)
    requires next == v + 8 * |ws| && VecFaults(pm, next)
    requires forall i :: 0 <= i < |ws| ==> WordAt(pm, v + 8 * i) == Some(ws[i]) && ws[i] != 0
    ensures VecFaults(pm, v)
  {
    var n: nat :| WordAt(pm, next + 8 * n).None? &&
      forall i :: 0 <= i < n ==> WordAt(pm, next + 8 * i).Some? && WordAt(pm, next + 8 * i).value != 0;
    var m := |ws| + n;
    assert v + 8 * m == next + 8 * n;
    forall i | 0 <= i < m
      ensures WordAt(pm, v + 8 * i).Some? && WordAt(pm, v + 8 * i).value != 0
    {
      if i < |ws| {
        assert WordAt(pm, v + 8 * i) == Some(ws[i]);
      } else {
        assert v + 8 * i == next + 8 * (i - |ws|);
        assert WordAt(pm, v + 8 * i) == WordAt(pm, next + 8 * (i - |ws|));
      }
    }
    assert WordAt(pm, v + 8 * m).None?;
  }

  /** Where `read_vec` as written terminates, the corrected walk agrees. */
  lemma ReadVecAgrees(pm: PageMap, v: nat)
    requires !ReadVec(pm, v).Hangs?
    ensures ReadVecFixed(pm, v) == ReadVec(pm, v)
  {
  }

  /** A page whose every byte is 1: no zero word anywhere. */
  function OnesPage(): (p: Page)
    ensures forall i :: 0 <= i < PAGE_SIZE ==> p[i] == 1
  {
    seq(PAGE_SIZE, _ => 1)
  }

  /** A one-word array whose terminator opens the next page: the walk as
      written never leaves the first page, the corrected one finds it. */
  lemma ReadVecMissesNextPage()
    ensures var pm := map[0 := OnesPage(), PAGE_SIZE := ZeroPage()];
      ReadVec(pm, 0xff8) == Hangs && ReadVecFixed(pm, 0xff8).Words? && |ReadVecFixed(pm, 0xff8).ws| == 1
  {
    var pm := map[0 := OnesPage(), PAGE_SIZE := ZeroPage()];
    var w := LeValue(OnesPage()[0xff8..0x1000]);
    assert OnesPage()[0xff8..0x1000][0] == 1;
    assert ReadUsize(OnesPage(), 0xff8) == Some(w);
    assert ScanPage(OnesPage(), 0x1000) == PageEnd([]);
    assert ScanPage(OnesPage(), 0xff8) == PageEnd([w]);
    LeValueZero(ZeroPage()[0..8]);
    assert ReadUsize(ZeroPage(), 0) == Some(0);
    assert ScanPage(ZeroPage(), 0) == Found([]);
    assert ReadVecFixed(pm, 0x1000) == Words([]);
  }

  lemma {:induction false} LeValueZero(bs: seq<Byte>)
    requires forall i :: 0 <= i < |bs| ==> bs[i] == 0
    ensures LeValue(bs) == 0
  {
    if bs != [] {
      LeValueZero(bs[1..]);
    }
  }

  /** `map_page(vaddr, page)` with a freshly allocated, zeroed frame:
      `None` is the failed alignment assertion. An existing entry at the
      same key is replaced. */
  function MapPage(pm: PageMap, vaddr: nat): (r: Option<PageMap>)
    ensures r.Some? <==> vaddr % PAGE_SIZE == 0
    ensures r.Some? ==> r.value.Keys == pm.Keys + {vaddr} && r.value[vaddr] == ZeroPage()
    ensures r.Some? ==> forall k :: k in pm && k != vaddr ==> r.value[k] == pm[k]
  {
    if vaddr % PAGE_SIZE != 0 then None else Some(pm[vaddr := ZeroPage()])
  }

  /** Page key `k` is visited by `(a..end).step_by(PAGE_SIZE)` mapping
      `vaddr / PAGE_SIZE * PAGE_SIZE`: the steps are `a + i * PAGE_SIZE`
      below `end`, whose keys are `Key(a) + i * PAGE_SIZE`. */
  predicate InSteps(k: nat, a: nat, end: nat)
  {
    k % PAGE_SIZE == 0 && Key(a) <= k && k + a % PAGE_SIZE < end
  }

  /** The first step is `Key(a)`; the rest are the steps from `a + PAGE_SIZE`. */
  lemma StepSplit(a: nat, end: nat, k: nat)
    requires a < end
    ensures InSteps(k, a, end) <==> k == Key(a) || InSteps(k, a + PAGE_SIZE, end)
  {
    ModUnique(a + PAGE_SIZE, PAGE_SIZE, a / PAGE_SIZE + 1, a % PAGE_SIZE);
    assert Key(a + PAGE_SIZE) == Key(a) + PAGE_SIZE;
    if k % PAGE_SIZE == 0 && Key(a) <= k && k != Key(a) {
      var q, p := k / PAGE_SIZE, a / PAGE_SIZE;
      assert k == q * PAGE_SIZE;
      if q <= p {
        MulAtLeast(p - q + 1, PAGE_SIZE);
        MulDistrib(p, q, PAGE_SIZE);
        assert false;
      }
      MulAtLeast(q - p, PAGE_SIZE);
      MulDistrib(q, p, PAGE_SIZE);
    }
  }

  /** The loop of `brk`: one zeroed page mapped at the key of every step
      of `(a..end).step_by(PAGE_SIZE)`. */
  function MapSteps(pm: PageMap, a: nat, end: nat): (r: PageMap)
    ensures forall k :: k in r <==> k in pm || InSteps(k, a, end)
    ensures forall k :: k in r ==> r[k] == if InSteps(k, a, end) then ZeroPage() else pm[k]
    decreases end - a
  {
    if a >= end then
      assert forall k :: !InSteps(k, a, end);
      pm
    else
      var r := MapSteps(pm[Key(a) := ZeroPage()], a + PAGE_SIZE, end);
      forall k
        ensures InSteps(k, a, end) <==> k == Key(a) || InSteps(k, a + PAGE_SIZE, end)
      {
        StepSplit(a, end, k);
      }
      r
  }

  /** `brk(value)` AS WRITTEN: 0 asks for the heap end and changes
      nothing; any other value becomes the heap end, a fresh zeroed page
      is mapped at the key of every step from the old end below the new
      one (replacing a page already mapped there, as the page map's
      `insert` does), and the new end is returned. */
  function Brk(m: MemInfo, value: nat): (r: (MemInfo, nat))
    ensures value == 0 ==> r == (m, m.heap)
    ensures value != 0 ==> r.1 == value && r.0.heap == value
    ensures value != 0 ==> forall k :: k in r.0.pages <==> k in m.pages || InSteps(k, m.heap, value)
    ensures value != 0 ==> forall k :: k in r.0.pages && !InSteps(k, m.heap, value) ==> r.0.pages[k] == m.pages[k]
    ensures value != 0 ==> forall k :: k in r.0.pages && InSteps(k, m.heap, value) ==> r.0.pages[k] == ZeroPage()
  {
    if value == 0 then (m, m.heap)
    else (MemInfo(MapSteps(m.pages, m.heap, value), value), value)
  }

  /** From a page-aligned heap end, growing maps every byte up to the new end. */
  lemma BrkCoversFromAligned(m: MemInfo, value: nat)
    requires m.heap % PAGE_SIZE == 0 && value != 0
    ensures forall b: nat :: m.heap <= b < value ==> ByteAt(Brk(m, value).0.pages, b).Some?
  {
    forall b: nat | m.heap <= b < value
      ensures InSteps(Key(b), m.heap, value)
    {
      assert Key(m.heap) == m.heap;
    }
  }

  /** A heap end left inside a page loses the next page: growing from
      0x1_0000_0800 to 0x1_0000_1800 maps only the page at 0x1_0000_0000,
      so 0x1_0000_1000 stays unmapped although it is below the new end. */
  lemma BrkSkipsPage()
    ensures var m := MemInfo(map[DEF_HEAP_ADDR := ZeroPage()], DEF_HEAP_ADDR + 0x800);
      && ByteAt(Brk(m, DEF_HEAP_ADDR + 0x1800).0.pages, DEF_HEAP_ADDR + 0x1000).None?
      && ByteAt(BrkFixed(m, DEF_HEAP_ADDR + 0x1800).0.pages, DEF_HEAP_ADDR + 0x1000).Some?
  {
    var m := MemInfo(map[DEF_HEAP_ADDR := ZeroPage()], DEF_HEAP_ADDR + 0x800);
    assert Key(DEF_HEAP_ADDR + 0x1000) == DEF_HEAP_ADDR + 0x1000;
    assert !InSteps(DEF_HEAP_ADDR + 0x1000, DEF_HEAP_ADDR + 0x800, DEF_HEAP_ADDR + 0x1800);
  }

  /** Map a zeroed page at every page-aligned key from `a` below `end` that
      is not mapped yet; mapped pages keep their contents. */
  function MapMissing(pm: PageMap, a: nat, end: nat): (r: PageMap)
    requires a % PAGE_SIZE == 0
    ensures forall b: nat :: a <= b < end ==> Key(b) in r
    ensures forall k :: k in pm ==> k in r && r[k] == pm[k]
    ensures forall k :: k in r && k !in pm ==> k % PAGE_SIZE == 0 && a <= k < end && r[k] == ZeroPage()
    decreases end - a
  {
    if a >= end then pm
    else
      var pm1 := if a in pm then pm else pm[a := ZeroPage()];
      ModUnique(a + PAGE_SIZE, PAGE_SIZE, a / PAGE_SIZE + 1, 0);
      var r := MapMissing(pm1, a + PAGE_SIZE, end);
      forall b: nat | a <= b < a + PAGE_SIZE
        ensures Key(b) == a
      {
        SamePage(a, b - a);
      }
      r
  }

  /** `brk` as evidently intended: the steps start from the page holding
      the old heap end and skip pages already mapped, so every byte from
      the old end to the new one is mapped and no data is lost. */
  function BrkFixed(m: MemInfo, value: nat): (r: (MemInfo, nat))
    ensures value == 0 ==> r == (m, m.heap)
    ensures value != 0 ==> r.1 == value && r.0.heap == value
    ensures value != 0 ==> forall b: nat :: m.heap <= b < value ==> ByteAt(r.0.pages, b).Some?
    ensures forall k :: k in m.pages ==> k in r.0.pages && r.0.pages[k] == m.pages[k]
  {
    if value == 0 then (m, m.heap)
    else
      var pages := MapMissing(m.pages, Key(m.heap), value);
      (MemInfo(pages, value), value)
  }

  /** The two agree when growing from a page-aligned end over unmapped pages. */
  lemma BrkAgreesWhenAligned(m: MemInfo, value: nat)
    requires m.heap % PAGE_SIZE == 0 && value != 0
    requires forall k :: k in m.pages ==> k < m.heap
    ensures Brk(m, value).0.pages.Keys == BrkFixed(m, value).0.pages.Keys
  {
    var r1, r2 := Brk(m, value).0.pages, BrkFixed(m, value).0.pages;
    assert Key(m.heap) == m.heap;
    BrkCoversFromAligned(m, value);
    forall k | k in r1
      ensures k in r2
    {
      if InSteps(k, m.heap, value) {
        assert Key(k) == k;
        assert ByteAt(r2, k).Some?;
      }
    }
  }

  /** `clear_maped`: every frame is unmapped and the page map emptied. */
  function ClearMapped(m: MemInfo): (r: MemInfo)
    ensures r.heap == m.heap
    ensures forall b: nat :: ByteAt(r.pages, b).None?
  {
    m.(pages := map[])
  }
}

=== FILE: task_space.dfy ===
/** The task object of the kernel thread (`Sel4Task`) as far as its
    identity and its address-space bookkeeping go: how ids are handed out,
    which thread state a new thread shares, where a free area is found,
    and how regions are mapped and unmapped in the page map. The seL4
    objects a task holds are opaque handles here. */
module TaskSpace {
  import opened Base
  import opened PhysPage
  import opened TaskMem
  import opened Uspace

  /** The identity part of a task. `caps` stands for the TCB, CNode and
      VSpace capabilities and `mem` for the shared memory record; both are
      opaque handles. */
  datatype Task = Task(pid: nat, ppid: nat, id: nat, caps: nat, mem: nat, exit: Option<int>, timer: nat)

  /** `Sel4Task::new`: the id counter is consumed first, so it advances even
      when minting the parent endpoint fails. The new task is its own
      process, with parent 1. */
  function NewTask(counter: nat, caps: nat, mem: nat, mint: Result<(), Sel4Error>): (r: (Result<Task, Sel4Error>, nat))
    ensures r.1 == counter + 1
    ensures r.0.Ok? <==> mint.Ok?
    ensures r.0.Ok? ==> var t := r.0.value;
      t.id == counter && t.pid == counter && t.ppid == 1 && t.exit == None && t.timer == 0
  {
    if mint.Err? then (Err(mint.error), counter + 1)
    else (Ok(Task(counter, 1, counter, caps, mem, None, 0)), counter + 1)
  }

  /** `Sel4Task::create_thread`: a new id; process, parent, capabilities
      and memory are shared with `parent`; no exit code and no timer. */
  function CreateThread(parent: Task, counter: nat): (r: (Task, nat))
    ensures r.1 == counter + 1
    ensures r.0.id == counter && r.0.exit == None && r.0.timer == 0
    ensures r.0.(id := parent.id, exit := parent.exit, timer := parent.timer) == parent
  {
    (parent.(id := counter, exit := None, timer := 0), counter + 1)
  }

  /** The ways a task comes into being. */
  datatype Spawn = SpawnProcess(caps: nat, mem: nat, mint: Result<(), Sel4Error>) | SpawnThread(parent: nat)

  /** The live tasks and the id counter. */
  datatype Tasks = Tasks(live: seq<Task>, counter: nat)

  /** Every task id is below the counter and no two tasks share one. */
  predicate IdsFresh(ts: Tasks)
  {
    && (forall i :: 0 <= i < |ts.live| ==> ts.live[i].id < ts.counter)
    && (forall i, j :: 0 <= i < j < |ts.live| ==> ts.live[i].id != ts.live[j].id)
  }

  /** One creation; a thread of a task that is not there, or a failed
      mint, adds nothing but still uses up an id. */
  function DoSpawn(ts: Tasks, s: Spawn): (r: Tasks)
    ensures r.counter == ts.counter + 1
    ensures |r.live| == |ts.live| || (|r.live| == |ts.live| + 1 && r.live[|ts.live|].id == ts.counter)
    ensures r.live[..|ts.live|] == ts.live
  {
    match s
    case SpawnProcess(caps, mem, mint) =>
      var (t, c) := NewTask(ts.counter, caps, mem, mint);
      if t.Ok? then Tasks(ts.live + [t.value], c) else Tasks(ts.live, c)
    case SpawnThread(p) =>
      if p < |ts.live| then
        var (t, c) := CreateThread(ts.live[p], ts.counter);
        Tasks(ts.live + [t], c)
      else Tasks(ts.live, ts.counter + 1)
  }

  function SpawnAll(ts: Tasks, ss: seq<Spawn>): (r: Tasks)
    ensures r.counter == ts.counter + |ss| && |r.live| >= |ts.live|
    decreases |ss|
  {
    if ss == [] then ts else SpawnAll(DoSpawn(ts, ss[0]), ss[1..])
  }

  /** Creation keeps ids unique, so a task id names one task. */
  lemma SpawnKeepsIdsFresh(ts: Tasks, s: Spawn)
    requires IdsFresh(ts)
    ensures IdsFresh(DoSpawn(ts, s))
  {
    var r := DoSpawn(ts, s);
    forall i | 0 <= i < |ts.live|
      ensures r.live[i] == ts.live[i]
    {
      assert r.live[..|ts.live|][i] == ts.live[i];
    }
  }

  /** Tasks created later have larger ids than every task before them. */
  lemma {:induction false} SpawnAllIncreasing(ts: Tasks, ss: seq<Spawn>)
    requires IdsFresh(ts)
    ensures var r := SpawnAll(ts, ss);
      && IdsFresh(r)
      && r.live[..|ts.live|] == ts.live
      && forall i :: |ts.live| <= i < |r.live| ==> ts.counter <= r.live[i].id
    decreases |ss|
  {
    if ss != [] {
      var ts1 := DoSpawn(ts, ss[0]);
      SpawnKeepsIdsFresh(ts, ss[0]);
      SpawnAllIncreasing(ts1, ss[1..]);
      var r := SpawnAll(ts, ss);
      assert r == SpawnAll(ts1, ss[1..]);
      assert r.live[..|ts1.live|] == ts1.live;
      assert r.live[..|ts.live|] == r.live[..|ts1.live|][..|ts.live|];
      forall i | |ts.live| <= i < |r.live|
        ensures ts.counter <= r.live[i].id
      {
        if i < |ts1.live| {
          assert r.live[i] == ts1.live[i];
        }
      }
    }
  }

  /** The loop of `find_free_area` over the mapped keys in ascending
      order, candidate `last`: the first gap of `size` bytes before a key
      ends the walk; otherwise the candidate moves past that key's page,
      whichever side of the candidate the key lies on. The area found
      overlaps no mapped page; it is at or above `last` only when no page
      ends at or below `last`. */
  function FindFrom(keys: set<nat>, last: nat, size: nat): (r: nat)
    ensures r == last || exists k :: k in keys && r == k + PAGE_SIZE
    ensures forall k :: k in keys ==> k + PAGE_SIZE <= r || r + size <= k
    ensures (forall k :: k in keys ==> last <= k + PAGE_SIZE) ==> last <= r
    decreases |keys|
  {
    if keys == {} then last
    else
      var m := MinOf(keys);
      if last + size <= m then last
      else
        var rest := keys - {m};
        assert forall k :: k in keys && k != m ==> k in rest;
        assert forall k :: k in rest ==> m + PAGE_SIZE <= k + PAGE_SIZE;
        FindFrom(rest, m + PAGE_SIZE, size)
  }

  /** `find_free_area(start, size)` of the current task implementation:
      the walk starts at `max(task_vm_end, start)`. */
  function FindFreeArea(pm: PageMap, vmEnd: nat, start: nat, size: nat): (r: nat)
    ensures r == Max(vmEnd, start) || exists k :: k in pm && r == k + PAGE_SIZE
    ensures forall k :: k in pm ==> k + PAGE_SIZE <= r || r + size <= k
  {
    FindFrom(pm.Keys, Max(vmEnd, start), size)
  }

  /** Keys below the starting point still move the candidate: with pages
      at 0x1000 and 0x5000 and a walk from 0x10000, a one-page request
      gets 0x2000, below both `start` and `task_vm_end`. */
  lemma FindFreeAreaGoesBelowStart()
    ensures var pm := map[0x1000 := ZeroPage(), 0x5000 := ZeroPage()];
      && FindFreeArea(pm, 0x10000, 0x10000, PAGE_SIZE) == 0x2000
      && FindFreeAreaFixed(pm, 0x10000, 0x10000, PAGE_SIZE) == 0x10000
  {
    var pm := map[0x1000 := ZeroPage(), 0x5000 := ZeroPage()];
    assert pm.Keys == {0x1000, 0x5000};
    assert MinOf({0x1000, 0x5000}) == 0x1000;
    assert {0x1000, 0x5000} - {0x1000} == {0x5000};
    assert MinOf({0x5000}) == 0x5000;
    assert FindFrom({0x5000}, 0x2000, PAGE_SIZE) == 0x2000;
    assert FindFromFixed({0x5000}, 0x10000, PAGE_SIZE) == 0x10000 by {
      assert {0x5000} - {0x5000} == {};
    }
  }

  /** The walk as evidently intended: keys whose page lies wholly below
      the candidate are passed over. */
  function FindFromFixed(keys: set<nat>, last: nat, size: nat): (r: nat)
    ensures r >= last
    ensures forall k :: k in keys ==> k + PAGE_SIZE <= last || k + PAGE_SIZE <= r || r + size <= k
    decreases |keys|
  {
    if keys == {} then last
    else
      var m := MinOf(keys);
      var rest := keys - {m};
      assert forall k :: k in keys && k != m ==> k in rest;
      if m + PAGE_SIZE <= last then FindFromFixed(rest, last, size)
      else if last + size <= m then last
      else FindFromFixed(rest, m + PAGE_SIZE, size)
  }

  /** `find_free_area` with the corrected walk: the area starts at or after
      `max(task_vm_end, start)` and overlaps no mapped page. */
  function FindFreeAreaFixed(pm: PageMap, vmEnd: nat, start: nat, size: nat): (r: nat)
    ensures r >= vmEnd && r >= start
    ensures forall k :: k in pm ==> k + PAGE_SIZE <= r || r + size <= k
  {
    var base := Max(vmEnd, start);
    FindFromFixed(pm.Keys, base, size)
  }

  /** When no page ends at or below the starting point the two walks agree. */
  lemma {:induction false} FindFromAgrees(keys: set<nat>, last: nat, size: nat)
    requires forall k :: k in keys ==> last < k + PAGE_SIZE
    ensures FindFromFixed(keys, last, size) == FindFrom(keys, last, size)
    decreases |keys|
  {
    if keys != {} {
      var m := MinOf(keys);
      var rest := keys - {m};
      assert forall k :: k in rest ==> k in keys && m < k;
      if last + size > m {
        FindFromAgrees(rest, m + PAGE_SIZE, size);
      }
    }
  }

  /** `find_free_area` of the older task implementation: the walk starts
      at `max(USPACE_BASE, start)` and always succeeds. */
  function FindFreeAreaOld(pm: PageMap, start: nat, size: nat): (r: Option<nat>)
    ensures r.Some?
    ensures r.value == Max(USPACE_BASE, start) || exists k :: k in pm && r.value == k + PAGE_SIZE
    ensures forall k :: k in pm ==> k + PAGE_SIZE <= r.value || r.value + size <= k
  {
    Some(FindFreeArea(pm, USPACE_BASE, start, size))
  }

  /** `map_region(start, end)`: both ends must be page-aligned (`None` is
      the failed assertion); a zeroed page is mapped at every page
      address from `start` below `end`, other pages are kept. */
  function MapRegion(pm: PageMap, start: nat, end: nat): (r: Option<PageMap>)
    ensures r.Some? <==> start % PAGE_SIZE == 0 && end % PAGE_SIZE == 0
    ensures r.Some? ==> forall k :: k in r.value <==> k in pm || (k % PAGE_SIZE == 0 && start <= k < end)
    ensures r.Some? ==> forall k :: k in r.value ==>
      r.value[k] == if k % PAGE_SIZE == 0 && start <= k < end then ZeroPage() else pm[k]
  {
    if start % PAGE_SIZE != 0 || end % PAGE_SIZE != 0 then None
    else
      assert Key(start) == start;
      Some(MapSteps(pm, start, end))
  }

  /** A mapped region reads back as zeros over its whole extent. */
  lemma MapRegionZeroed(pm: PageMap, start: nat, end: nat)
    requires MapRegion(pm, start, end).Some?
    ensures forall b: nat :: start <= b < end ==> ByteAt(MapRegion(pm, start, end).value, b) == Some(0)
  {
    var r := MapRegion(pm, start, end).value;
    forall b: nat | start <= b < end
      ensures ByteAt(r, b) == Some(0)
    {
      assert Key(b) % PAGE_SIZE == 0 && start <= Key(b) < end by {
        ModUnique(Key(b), PAGE_SIZE, b / PAGE_SIZE, 0);
        RoundDownMonotone(start, b);
      }
    }
  }

  /** The page key of an address is at least any page-aligned address below it. */
  lemma RoundDownMonotone(a: nat, b: nat)
    requires a % PAGE_SIZE == 0 && a <= b
    ensures a <= Key(b)
  {
    var q := a / PAGE_SIZE;
    assert a == q * PAGE_SIZE;
    if q < b / PAGE_SIZE {
      MulAtLeast(b / PAGE_SIZE - q, PAGE_SIZE);
      MulDistrib(b / PAGE_SIZE, q, PAGE_SIZE);
    }
  }

  /** `unmap_page(vaddr)`: an aligned address loses its page if it has one;
      an unaligned one fails the assertion. */
  function UnmapPage(pm: PageMap, vaddr: nat): (r: Option<PageMap>)
    ensures r.Some? <==> vaddr % PAGE_SIZE == 0
    ensures r.Some? ==> vaddr !in r.value && forall k :: k != vaddr ==> (k in r.value <==> k in pm)
    ensures r.Some? ==> forall k :: k in r.value ==> r.value[k] == pm[k]
  {
    if vaddr % PAGE_SIZE != 0 then None else Some(pm - {vaddr})
  }

  /** Mapping a page and unmapping it again restores an unmapped address. */
  lemma MapThenUnmap(pm: PageMap, vaddr: nat)
    requires vaddr % PAGE_SIZE == 0 && vaddr !in pm
    ensures UnmapPage(MapPage(pm, vaddr).value, vaddr) == Some(pm)
  {
    assert MapPage(pm, vaddr).value - {vaddr} == pm;
  }

  /** `unmap_page` of the older implementation: the key goes only when the
      frame unmap succeeded; a failed unmap panics. */
  function UnmapPageOld(pm: PageMap, vaddr: nat, unmap: Result<(), Sel4Error>): (r: Option<PageMap>)
    ensures r.Some? <==> vaddr % PAGE_SIZE == 0 && unmap.Ok?
    ensures r.Some? ==> r == UnmapPage(pm, vaddr)
  {
    if vaddr % PAGE_SIZE != 0 || unmap.Err? then None else Some(pm - {vaddr})
  }

  /** Largest end address of the sections, 0 when there are none. */
  function MaxEnd(sections: seq<(nat, nat)>): (r: nat)
    ensures forall i :: 0 <= i < |sections| ==> sections[i].0 + sections[i].1 <= r
    ensures r == 0 || exists i :: 0 <= i < |sections| && r == sections[i].0 + sections[i].1
  {
    if sections == [] then 0
    else
      var rest := MaxEnd(sections[1..]);
      assert forall i :: 1 <= i < |sections| ==> sections[i] == sections[1..][i - 1];
      Max(sections[0].0 + sections[0].1, rest)
  }

  /** `task_vm_end` as `load_elf` sets it: the largest section end,
      `(address, size)`, rounded up to a whole page. */
  function TaskVmEnd(sections: seq<(nat, nat)>): (r: nat)
    ensures r % PAGE_SIZE == 0
    ensures forall i :: 0 <= i < |sections| ==> sections[i].0 + sections[i].1 <= r
    ensures forall e: nat :: e % PAGE_SIZE == 0 && (forall i :: 0 <= i < |sections| ==> sections[i].0 + sections[i].1 <= e) ==> r <= e
  {
    var m := MaxEnd(sections);
    var q := DivCeil(m, PAGE_SIZE);
    ModUnique(q * PAGE_SIZE, PAGE_SIZE, q, 0);
    forall e: nat | e % PAGE_SIZE == 0 && (forall i :: 0 <= i < |sections| ==> sections[i].0 + sections[i].1 <= e)
      ensures q * PAGE_SIZE <= e
    {
      if m != 0 {
        var i :| 0 <= i < |sections| && m == sections[i].0 + sections[i].1;
      }
      RoundUpLeast(m, e);
    }
    q * PAGE_SIZE
  }

  /** A page multiple at or above `m` is at or above `m` rounded up. */
  lemma RoundUpLeast(m: nat, e: nat)
    requires e % PAGE_SIZE == 0 && m <= e
    ensures DivCeil(m, PAGE_SIZE) * PAGE_SIZE <= e
  {
    var q, p := DivCeil(m, PAGE_SIZE), e / PAGE_SIZE;
    assert e == p * PAGE_SIZE;
    if q < p {
      MulAtLeast(p - q, PAGE_SIZE);
      MulDistrib(p, q, PAGE_SIZE);
    }
  }

  /** `brk` of the older implementation: pages are mapped at every step
      address from the heap end below `value` (each step must be aligned,
      `None` is the failed assertion), the recorded heap end never moves,
      and `value` is returned. */
  function BrkOld(pm: PageMap, heap: nat, value: nat): (r: Option<(PageMap, nat)>)
    ensures value == 0 ==> r == Some((pm, heap))
    ensures value != 0 ==> (r.Some? <==> heap % PAGE_SIZE == 0 || value <= heap)
    ensures value != 0 && r.Some? ==> r.value.1 == value
    ensures value != 0 && r.Some? ==> forall k :: k in r.value.0 <==> k in pm || (k % PAGE_SIZE == 0 && heap <= k < value)
    ensures value != 0 && r.Some? ==> forall k :: k in r.value.0 ==>
      r.value.0[k] == if k % PAGE_SIZE == 0 && heap <= k < value then ZeroPage() else pm[k]
  {
    if value == 0 then Some((pm, heap))
    else if heap % PAGE_SIZE != 0 && heap < value then None
    else
      assert heap % PAGE_SIZE == 0 ==> Key(heap) == heap;
      Some((MapSteps(pm, heap, value), value))
  }

  /** Because the heap end is never recorded, a repeated request maps the
      same pages again from the old end. */
  lemma BrkOldRepeats(pm: PageMap, heap: nat, value: nat)
    requires value != 0 && heap % PAGE_SIZE == 0 && heap < value
    ensures var r1 := BrkOld(pm, heap, value).value.0;
      BrkOld(r1, heap, value).value.0.Keys == r1.Keys
  {
  }
}

=== FILE: timer.dfy ===
/** The kernel thread's sleep timers. Each task carries a deadline in
    nanoseconds (0 for none). The timer interrupt wakes every live task
    whose deadline has passed and programs the hardware timer for the
    earliest deadline still pending; a new sleep reprograms it only when
    it comes sooner than what is already set. The task table is the
    `TASK_MAP` keyed by task id. */
module Timer {
  import opened Base
  import opened TaskSpace
  import opened Clock

  type TaskMap = map<nat, Task>

  /** A live task with a deadline. */
  predicate Sleeping(t: Task)
  {
    t.exit.None? && t.timer != 0
  }

  /** A sleeping task whose deadline lies strictly before `now`. */
  predicate Due(t: Task, now: nat)
  {
    Sleeping(t) && now > t.timer
  }

  /** The deadlines of the sleeping tasks. */
  function Deadlines(tm: TaskMap): set<nat>
  {
    set tid | tid in tm && Sleeping(tm[tid]) :: tm[tid].timer
  }

  /** `.filter(sleeping).map(timer).min().unwrap_or(0)`. */
  function NextDeadline(tm: TaskMap): (r: nat)
    ensures r == 0 <==> forall tid :: tid in tm ==> !Sleeping(tm[tid])
    ensures r != 0 ==> exists tid :: tid in tm && Sleeping(tm[tid]) && tm[tid].timer == r
    ensures forall tid :: tid in tm && Sleeping(tm[tid]) ==> r <= tm[tid].timer
  {
    var ds := Deadlines(tm);
    assert forall tid :: tid in tm && Sleeping(tm[tid]) ==> tm[tid].timer in ds;
    if ds == {} then 0 else MinOf(ds)
  }

  /** One pass of `handle_timer`: the tasks after it, the ids of the tasks
      it resumed, and the deadline it hands to `set_timer`. */
  datatype TimerPass = TimerPass(tasks: TaskMap, resumed: set<nat>, next: nat)

  function Expire(t: Task, now: nat): Task
  {
    if Due(t, now) then t.(timer := 0) else t
  }

  /** `handle_timer` at time `now`: every due task has its deadline
      cleared and is resumed; nothing else about any task changes. The
      next deadline is the earliest one still pending, or 0 when no task
      sleeps any more; it is never before `now`. */
  function HandleTimer(tm: TaskMap, now: nat): (r: TimerPass)
    ensures r.tasks.Keys == tm.Keys
    ensures forall tid :: tid in tm ==> (tid in r.resumed <==> Due(tm[tid], now))
    ensures r.resumed <= tm.Keys
    ensures forall tid :: tid in tm ==>
      && r.tasks[tid].(timer := tm[tid].timer) == tm[tid]
      && (Due(tm[tid], now) ==> r.tasks[tid].timer == 0)
      && (!Due(tm[tid], now) ==> r.tasks[tid].timer == tm[tid].timer)
    ensures r.next == 0 <==> forall tid :: tid in tm ==> !Sleeping(tm[tid]) || Due(tm[tid], now)
    ensures r.next != 0 ==> now <= r.next && exists tid :: tid in tm && Sleeping(tm[tid]) && tm[tid].timer == r.next
    ensures forall tid :: tid in tm && Sleeping(tm[tid]) && !Due(tm[tid], now) ==> r.next <= tm[tid].timer
  {
    var tasks := map tid | tid in tm :: Expire(tm[tid], now);
    var resumed := set tid | tid in tm && Due(tm[tid], now);
    assert forall tid :: tid in tm ==> (Sleeping(tasks[tid]) <==> Sleeping(tm[tid]) && !Due(tm[tid], now));
    TimerPass(tasks, resumed, NextDeadline(tasks))
  }

  /** A second pass at the same time wakes nobody and leaves the table
      and the programmed deadline as they are. */
  lemma HandleTimerIdempotent(tm: TaskMap, now: nat)
    ensures var r := HandleTimer(tm, now);
      HandleTimer(r.tasks, now) == TimerPass(r.tasks, {}, r.next)
  {
    var r := HandleTimer(tm, now);
    var r2 := HandleTimer(r.tasks, now);
    assert forall tid :: tid in r.tasks ==> !Due(r.tasks[tid], now);
    assert r2.tasks == r.tasks;
    assert r2.resumed == {};
  }

  /** `flush_timer(next_ns)` with the compare value at `cvalNs`: the new
      deadline is programmed only when it is sooner or no deadline is set.
      `None` means the hardware timer is left alone. */
  function FlushTimer(next: nat, cvalNs: nat): (r: Option<nat>)
    ensures r.Some? <==> next < cvalNs || cvalNs == 0
    ensures r.Some? ==> r.value == next
  {
    if next < cvalNs || cvalNs == 0 then Some(next) else None
  }

  /** The deadline armed after a flush. */
  function Armed(next: nat, cvalNs: nat): nat
  {
    var f := FlushTimer(next, cvalNs);
    if f.Some? then f.value else cvalNs
  }

  /** After a flush with a real deadline, the timer fires at the earlier of
      the new deadline and the one that was set. */
  lemma FlushKeepsEarliest(next: nat, cvalNs: nat)
    requires next != 0
    ensures Armed(next, cvalNs) == if cvalNs == 0 then next else Min(next, cvalNs)
  {
  }

  /** What `sys_nanosleep` leaves behind: the sleeping task, the deadline
      written to the timer if any, and whether a zeroed remainder was
      written back to the caller. */
  datatype Sleep = Sleep(task: Task, flushed: Option<nat>, remZeroed: bool, ret: int)

  /** `sys_nanosleep(req, rem)` at time `now` with `req = (sec, nsec)`: the
      deadline is `now + sec * 10^9 + nsec` in wrapping `usize` arithmetic,
      handed to `flush_timer`; a non-null `rem` gets a zero `TimeSpec`; the
      call returns 0. */
  function Nanosleep(t: Task, now: Word, sec: Word, nsec: Word, remNonNull: bool, cvalNs: nat): (r: Sleep)
    ensures now + sec * NS_PER_SEC + nsec < WORD_LIMIT ==> r.task.timer == now + sec * NS_PER_SEC + nsec
    ensures r.task.(timer := t.timer) == t
    ensures r.flushed == FlushTimer(r.task.timer, cvalNs)
    ensures r.remZeroed == remNonNull && r.ret == 0
  {
    var deadline := Wrap(Wrap(now + Wrap(sec * NS_PER_SEC)) + nsec);
    Sleep(t.(timer := deadline), FlushTimer(deadline, cvalNs), remNonNull, 0)
  }

  /** A live task that went to sleep is resumed by the first timer pass
      strictly after its deadline, and by no pass before it. */
  lemma SleepThenWake(tm: TaskMap, tid: nat, now: Word, sec: Word, nsec: Word, remNonNull: bool, cvalNs: nat, later: nat)
    requires tid in tm && tm[tid].exit.None?
    requires 0 < now + sec * NS_PER_SEC + nsec < WORD_LIMIT
    ensures var s := Nanosleep(tm[tid], now, sec, nsec, remNonNull, cvalNs);
      tid in HandleTimer(tm[tid := s.task], later).resumed <==> later > now + sec * NS_PER_SEC + nsec
  {
  }
}

=== FILE: user_stack.dfy ===
/** The initial user stack of a task: the argument strings at the top,
    then, growing down, the auxiliary vector, the environment and argument
    terminators, the argument pointers and the argument count, in the
    layout of the System V AMD64 psABI section 3.4.1 ("Initial Stack and
    Register State"), which Linux also uses on AArch64.

    All writes go through one physical page with the offset reduced modulo
    the page size, so the model works on that page and on the addresses the
    stack pointer takes. A subtraction below zero and a write that runs past
    the page end are panics (`None`). */
module UserStack {
  import opened Base
  import opened PhysPage
  import opened TaskMem
  import opened TaskSpace
  import opened Uspace

  /** `STACK_ALIGN_SIZE`: every argument string starts 16-byte aligned. */
  const STACK_ALIGN_SIZE: nat := 16

  /** The auxiliary vector types the stack carries (`AuxV`). */
  const AT_NULL: nat := 0
  const AT_PAGESZ: nat := 6
  const AT_ENTRY: nat := 9
  const AT_UID: nat := 11
  const AT_EUID: nat := 12
  const AT_GID: nat := 13
  const AT_EGID: nat := 14
  const AT_EXECFN: nat := 31

  /** How an argument string is laid down: without a terminator (the older
      `map_stack`, which relies on the zeroed frame), with a NUL written
      right after it (`init_stack`), or with room for that NUL set aside
      below the previous string (the corrected placement). */
  datatype Terminator = Unterminated | NulAfter | NulReserved

  /** The bytes taken below the stack pointer before aligning down. */
  function Reserve(len: nat, t: Terminator): nat
  {
    if t.NulReserved? then len + 1 else len
  }

  /** `p2` equals `p` outside the offsets `[lo, hi)`. */
  predicate Keeps(p: Page, p2: Page, lo: int, hi: int)
  {
    forall i :: 0 <= i < PAGE_SIZE && !(lo <= i < hi) ==> p2[i] == p[i]
  }

  /** Page `p` holds `s` from offset `o`. */
  predicate BytesIn(p: Page, o: int, s: seq<Byte>)
  {
    0 <= o && o + |s| <= PAGE_SIZE && SameBytes(p, o, s)
  }

  predicate SameBytes(p: Page, o: int, s: seq<Byte>)
    requires 0 <= o && o + |s| <= PAGE_SIZE
  {
    forall k :: 0 <= k < |s| ==> p[o + k] == s[k]
  }

  /** Inside the page that starts at `base`, an address reduces to its
      distance from `base`; the page end reduces to 0. */
  lemma InPage(base: nat, a: nat)
    requires base % PAGE_SIZE == 0 && base <= a <= base + PAGE_SIZE
    ensures a < base + PAGE_SIZE ==> a % PAGE_SIZE == a - base
    ensures a == base + PAGE_SIZE ==> a % PAGE_SIZE == 0
  {
    if a < base + PAGE_SIZE {
      ModUnique(a, PAGE_SIZE, base / PAGE_SIZE, a - base);
    } else {
      ModUnique(a, PAGE_SIZE, base / PAGE_SIZE + 1, 0);
    }
  }

  /** A word-aligned offset leaves room for a whole word before the page end. */
  lemma AlignedWordFits(a: nat)
    ensures a % 8 == 0 ==> a % PAGE_SIZE + 8 <= PAGE_SIZE
  {
    if a % 8 == 0 {
      var k := a / 8;
      ModUnique(a, PAGE_SIZE, k / 512, 8 * (k % 512));
    }
  }

  /** Where one string of length `len` goes below `sp`:
      `align_down(sp - len, STACK_ALIGN_SIZE)` (with the NUL's byte added
      to `len` when it is reserved). `None` is the panic of the
      subtraction going below zero. */
  function StringAddr(sp: nat, len: nat, t: Terminator): (r: Option<nat>)
    ensures r.Some? <==> sp >= Reserve(len, t)
    ensures r.Some? ==> r.value % STACK_ALIGN_SIZE == 0 && r.value + Reserve(len, t) <= sp
    ensures r.Some? ==> sp - Reserve(len, t) - r.value < STACK_ALIGN_SIZE
  {
    if sp < Reserve(len, t) then None else Some(RoundDown(sp - Reserve(len, t), STACK_ALIGN_SIZE))
  }

  /** The addresses of the strings in argument order, each below the one
      before, the first below `sp`. They depend only on the lengths, so
      the model computes them apart from the page writes. */
  function StringAddrs(sp: nat, args: seq<seq<Byte>>, t: Terminator): (r: Option<seq<nat>>)
    ensures r.Some? ==> |r.value| == |args|
    decreases |args|
  {
    if args == [] then Some([])
    else
      match StringAddr(sp, |args[0]|, t)
      case None => None
      case Some(a) =>
        match StringAddrs(a, args[1..], t)
        case None => None
        case Some(rest) => Some([a] + rest)
  }

  /** One step of `StringAddrs`: the first address, then the rest from it. */
  lemma StringAddrsCons(sp: nat, s: seq<Byte>, rest: seq<seq<Byte>>, t: Terminator, a: nat)
    requires StringAddr(sp, |s|, t) == Some(a)
    ensures StringAddrs(sp, [s] + rest, t) ==
      if StringAddrs(a, rest, t).None? then None else Some([a] + StringAddrs(a, rest, t).value)
  {
    assert ([s] + rest)[0] == s && ([s] + rest)[1..] == rest;
  }

  /** Every address is 16-byte aligned with its string's reserve below
      `sp`, and each string's reserve lies below every earlier string. */
  lemma {:induction false} StringAddrsOrder(sp: nat, args: seq<seq<Byte>>, t: Terminator)
    requires StringAddrs(sp, args, t).Some?
    ensures var a := StringAddrs(sp, args, t).value;
      && (forall i :: 0 <= i < |args| ==> a[i] % STACK_ALIGN_SIZE == 0 && a[i] + Reserve(|args[i]|, t) <= sp)
      && (forall i, j :: 0 <= i < j < |args| ==> a[j] + Reserve(|args[j]|, t) <= a[i])
    decreases |args|
  {
    if args != [] {
      var a := StringAddrs(sp, args, t).value;
      var a0 := StringAddr(sp, |args[0]|, t).value;
      StringAddrsOrder(a0, args[1..], t);
      var rest := StringAddrs(a0, args[1..], t).value;
      assert a == [a0] + rest;
      assert forall i :: 1 <= i < |args| ==> a[i] == rest[i - 1] && args[i] == args[1..][i - 1];
    }
  }

  /** Bytes the strings may take below the starting stack pointer: the
      reserve of every string plus up to 15 bytes of alignment each. */
  function Room(args: seq<seq<Byte>>, t: Terminator): nat
  {
    if args == [] then 0 else Reserve(|args[0]|, t) + (STACK_ALIGN_SIZE - 1) + Room(args[1..], t)
  }

  /** Strings whose room fits below `sp` all get addresses, and the last
      one is at most that room below `sp`. */
  lemma {:induction false} StringAddrsFit(sp: nat, args: seq<seq<Byte>>, t: Terminator)
    requires Room(args, t) <= sp
    ensures StringAddrs(sp, args, t).Some?
    ensures args != [] ==> StringAddrs(sp, args, t).value[|args| - 1] + Room(args, t) >= sp
    decreases |args|
  {
    if args != [] {
      assert Room(args, t) == Reserve(|args[0]|, t) + 15 + Room(args[1..], t);
      var a0 := StringAddr(sp, |args[0]|, t).value;
      StringAddrsFit(a0, args[1..], t);
      var rest := StringAddrs(a0, args[1..], t).value;
      var a := StringAddrs(sp, args, t).value;
      assert a == [a0] + rest;
      if |args| > 1 {
        assert a[|args| - 1] == rest[|args| - 2];
      }
    }
  }

  /** One string written at `a` (`write_bytes`), then its NUL right after
      it (`write_u8`) unless the string is left unterminated. */
  function WriteString(p: Page, a: nat, s: seq<Byte>, t: Terminator): (r: Option<Page>)
    ensures r.Some? <==> a % PAGE_SIZE + |s| <= PAGE_SIZE
  {
    match PhysPage.WriteBytes(p, a, s)
    case None => None
    case Some(p1) => if t.Unterminated? then Some(p1) else Some(WriteU8(p1, a + |s|, 0))
  }

  /** The strings written at their addresses, in argument order. */
  function WriteStrings(p: Page, addrs: seq<nat>, args: seq<seq<Byte>>, t: Terminator): (r: Option<Page>)
    requires |addrs| == |args|
    decreases |args|
  {
    if args == [] then Some(p)
    else
      match WriteString(p, addrs[0], args[0], t)
      case None => None
      case Some(p1) => WriteStrings(p1, addrs[1..], args[1..], t)
  }

  /** The `args_ptr` loop: the argument strings placed from `sp` down. The
      result is the page, the final stack pointer and the string
      addresses in argument order. */
  function PlaceArgs(p: Page, sp: nat, args: seq<seq<Byte>>, t: Terminator): (r: Option<(Page, nat, seq<nat>)>)
    ensures r.Some? ==> |r.value.2| == |args|
  {
    match StringAddrs(sp, args, t)
    case None => None
    case Some(addrs) =>
      match WriteStrings(p, addrs, args, t)
      case None => None
      case Some(p1) => Some((p1, if args == [] then sp else addrs[|args| - 1], addrs))
  }

  /** A string as it lies on the stack: followed by its NUL when one was
      reserved. */
  function Laid(s: seq<Byte>, t: Terminator): seq<Byte>
  {
    if t.NulReserved? then s + [0] else s
  }

  /** A string written inside the page from `base` changes only its
      reserve and lies there afterwards, followed by its NUL when one is
      reserved. */
  lemma WriteStringInPage(p: Page, a: nat, s: seq<Byte>, t: Terminator, base: nat)
    requires !t.NulAfter? && base % PAGE_SIZE == 0 && base <= a && a + Reserve(|s|, t) <= base + PAGE_SIZE
    ensures WriteString(p, a, s, t).Some?
    ensures Keeps(p, WriteString(p, a, s, t).value, a - base, a - base + Reserve(|s|, t))
    ensures BytesIn(WriteString(p, a, s, t).value, a - base, Laid(s, t))
  {
    InPage(base, a);
    var o := a - base;
    if a == base + PAGE_SIZE {
      assert |s| == 0 && t.Unterminated?;
    } else if t.NulReserved? {
      InPage(base, a + |s|);
      var p1 := PhysPage.WriteBytes(p, a, s).value;
      var p2 := WriteString(p, a, s, t).value;
      assert p2 == WriteU8(p1, a + |s|, 0);
      NulReservedInPage(p, p2, o, s);
    }
  }

  /** The NUL-reserved case: the string and its NUL lie from `o`. */
  lemma NulReservedInPage(p: Page, p1: Page, o: nat, s: seq<Byte>)
    requires o + |s| < PAGE_SIZE
    requires forall i :: 0 <= i < PAGE_SIZE && !(o <= i < o + |s|) && i != o + |s| ==> p1[i] == p[i]
    requires p1[o + |s|] == 0 && BytesIn(p1, o, s)
    ensures Keeps(p, p1, o, o + |s| + 1) && BytesIn(p1, o, s + [0])
  {
  }

  /** Writing strings is writing the first one, which changes only its
      reserve and leaves it lying at its address, then the rest. */
  lemma WriteStringsStep(p: Page, addrs: seq<nat>, args: seq<seq<Byte>>, t: Terminator, base: nat, addrs1: seq<nat>, args1: seq<seq<Byte>>)
    returns (p1: Page)
    requires !t.NulAfter? && |addrs| == |args| && args != [] && base % PAGE_SIZE == 0
    requires addrs1 == addrs[1..] && args1 == args[1..]
    requires base <= addrs[0] && addrs[0] + Reserve(|args[0]|, t) <= base + PAGE_SIZE
    ensures Keeps(p, p1, addrs[0] - base, addrs[0] - base + Reserve(|args[0]|, t))
    ensures BytesIn(p1, addrs[0] - base, Laid(args[0], t))
    ensures WriteStrings(p, addrs, args, t) == WriteStrings(p1, addrs1, args1, t)
  {
    var a: nat := addrs[0];
    var s: seq<Byte> := args[0];
    WriteStringInPage(p, a, s, t, base);
    p1 := WriteString(p, a, s, t).value;
  }

  /** Strings written inside `[lo, hi)` of the page from `base` change
      nothing outside it. */
  lemma {:induction false} WriteStringsKeeps(p: Page, addrs: seq<nat>, args: seq<seq<Byte>>, t: Terminator, base: nat, lo: nat, hi: nat)
    requires !t.NulAfter? && |addrs| == |args| && base % PAGE_SIZE == 0 && base <= lo && hi <= base + PAGE_SIZE
    requires forall i :: 0 <= i < |args| ==> lo <= addrs[i] && addrs[i] + Reserve(|args[i]|, t) <= hi
    ensures WriteStrings(p, addrs, args, t).Some?
    ensures Keeps(p, WriteStrings(p, addrs, args, t).value, lo - base, hi - base)
    decreases |args|
  {
    if args != [] {
      var addrs1, args1 := addrs[1..], args[1..];
      var p1 := WriteStringsStep(p, addrs, args, t, base, addrs1, args1);
      assert forall i :: 0 <= i < |args1| ==> addrs1[i] == addrs[i + 1] && args1[i] == args[i + 1];
      WriteStringsKeeps(p1, addrs1, args1, t, base, lo, hi);
      KeepsChain(p, p1, WriteStrings(p1, addrs1, args1, t).value,
        addrs[0] - base, addrs[0] - base + Reserve(|args[0]|, t), lo - base, hi - base);
    }
  }

  /** Two changes inside `[lo, hi)`, the first inside `[a, b)`, are one
      change inside `[lo, hi)`. */
  lemma KeepsChain(p: Page, p1: Page, p2: Page, a: int, b: int, lo: int, hi: int)
    requires lo <= a && b <= hi && Keeps(p, p1, a, b) && Keeps(p1, p2, lo, hi)
    ensures Keeps(p, p2, lo, hi)
  {
  }

  /** Each string of `args` lies in `q` at its address, relative to `base`. */
  predicate StringsAt(q: Page, addrs: seq<nat>, args: seq<seq<Byte>>, t: Terminator, base: nat)
    decreases |args|
  {
    && |addrs| == |args|
    && (args == [] || (BytesIn(q, addrs[0] - base, Laid(args[0], t)) && StringsAt(q, addrs[1..], args[1..], t, base)))
  }

  /** `StringsAt` string by string. */
  lemma StringsAtIndex(q: Page, addrs: seq<nat>, args: seq<seq<Byte>>, t: Terminator, base: nat)
    requires StringsAt(q, addrs, args, t, base)
    ensures forall i :: 0 <= i < |args| ==> BytesIn(q, addrs[i] - base, Laid(args[i], t))
  {
    forall i | 0 <= i < |args|
      ensures BytesIn(q, addrs[i] - base, Laid(args[i], t))
    {
      StringAtIndex(q, addrs, args, t, base, i);
    }
  }

  /** The `i`-th string of a `StringsAt` run is in place. */
  lemma {:induction false} StringAtIndex(q: Page, addrs: seq<nat>, args: seq<seq<Byte>>, t: Terminator, base: nat, i: nat)
    requires StringsAt(q, addrs, args, t, base) && i < |args|
    ensures BytesIn(q, addrs[i] - base, Laid(args[i], t))
    decreases i
  {
    if i > 0 {
      var addrs1, args1 := addrs[1..], args[1..];
      assert StringsAt(q, addrs1, args1, t, base);
      var j: nat := i - 1;
      StringAtIndex(q, addrs1, args1, t, base, j);
      assert addrs1[j] == addrs[i] && args1[j] == args[i];
      BytesInSame(q, addrs1[j] - base, Laid(args1[j], t), addrs[i] - base, Laid(args[i], t));
    }
  }

  /** Strings inside the page, each below the previous: the ones after the
      first are too, and all of them lie below the first. */
  lemma OrderedTail(addrs: seq<nat>, args: seq<seq<Byte>>, t: Terminator, base: nat)
    requires |addrs| == |args| && args != []
    requires forall i :: 0 <= i < |args| ==> base <= addrs[i] && addrs[i] + Reserve(|args[i]|, t) <= base + PAGE_SIZE
    requires forall i, j :: 0 <= i < j < |args| ==> addrs[j] + Reserve(|args[j]|, t) <= addrs[i]
    ensures var addrs1, args1 := addrs[1..], args[1..];
      && (forall i :: 0 <= i < |args1| ==> base <= addrs1[i] && addrs1[i] + Reserve(|args1[i]|, t) <= base + PAGE_SIZE)
      && (forall i, j :: 0 <= i < j < |args1| ==> addrs1[j] + Reserve(|args1[j]|, t) <= addrs1[i])
      && (forall i :: 0 <= i < |args1| ==> base <= addrs1[i] && addrs1[i] + Reserve(|args1[i]|, t) <= addrs[0])
  {
    var addrs1, args1 := addrs[1..], args[1..];
    assert forall i :: 0 <= i < |args1| ==> addrs1[i] == addrs[i + 1] && args1[i] == args[i + 1];
  }

  /** Strings written from the top down leave every one of them in place. */
  lemma {:induction false} WriteStringsAt(p: Page, addrs: seq<nat>, args: seq<seq<Byte>>, t: Terminator, base: nat)
    requires !t.NulAfter? && |addrs| == |args| && base % PAGE_SIZE == 0
    requires forall i :: 0 <= i < |args| ==> base <= addrs[i] && addrs[i] + Reserve(|args[i]|, t) <= base + PAGE_SIZE
    requires forall i, j :: 0 <= i < j < |args| ==> addrs[j] + Reserve(|args[j]|, t) <= addrs[i]
    ensures WriteStrings(p, addrs, args, t).Some?
    ensures StringsAt(WriteStrings(p, addrs, args, t).value, addrs, args, t, base)
    decreases |args|
  {
    if args != [] {
      var addrs1, args1 := addrs[1..], args[1..];
      var p1 := WriteStringsStep(p, addrs, args, t, base, addrs1, args1);
      var top: nat := addrs[0];
      OrderedTail(addrs, args, t, base);
      WriteStringsAt(p1, addrs1, args1, t, base);
      WriteStringsKeeps(p1, addrs1, args1, t, base, base, top);
      var r := WriteStrings(p1, addrs1, args1, t).value;
      StringsAtStep(p1, r, addrs, args, t, base, addrs1, args1);
    }
  }

  /** The first string survives the later, lower writes, so all are in place. */
  lemma StringsAtStep(p1: Page, q: Page, addrs: seq<nat>, args: seq<seq<Byte>>, t: Terminator, base: nat, addrs1: seq<nat>, args1: seq<seq<Byte>>)
    requires |addrs| == |args| && args != [] && addrs1 == addrs[1..] && args1 == args[1..] && base <= addrs[0]
    requires Keeps(p1, q, 0, addrs[0] - base) && BytesIn(p1, addrs[0] - base, Laid(args[0], t))
    requires StringsAt(q, addrs1, args1, t, base)
    ensures StringsAt(q, addrs, args, t, base)
  {
    KeepsBytes(p1, q, 0, addrs[0] - base, addrs[0] - base, Laid(args[0], t));
    StringsAtCons(q, addrs, args, t, base);
  }

  /** The first string in place and the rest in place are all in place. */
  lemma StringsAtCons(q: Page, addrs: seq<nat>, args: seq<seq<Byte>>, t: Terminator, base: nat)
    requires |addrs| == |args| && args != []
    requires BytesIn(q, addrs[0] - base, Laid(args[0], t))
    requires StringsAt(q, addrs[1..], args[1..], t, base)
    ensures StringsAt(q, addrs, args, t, base)
  {
  }

  /** Strings written from the top down, each below the previous, inside
      the page from `base`, all lie at their addresses afterwards. */
  lemma WriteStringsReadBack(p: Page, addrs: seq<nat>, args: seq<seq<Byte>>, t: Terminator, base: nat)
    requires !t.NulAfter? && |addrs| == |args| && base % PAGE_SIZE == 0
    requires forall i :: 0 <= i < |args| ==> base <= addrs[i] && addrs[i] + Reserve(|args[i]|, t) <= base + PAGE_SIZE
    requires forall i, j :: 0 <= i < j < |args| ==> addrs[j] + Reserve(|args[j]|, t) <= addrs[i]
    ensures WriteStrings(p, addrs, args, t).Some?
    ensures forall i :: 0 <= i < |args| ==> BytesIn(WriteStrings(p, addrs, args, t).value, addrs[i] - base, Laid(args[i], t))
  {
    WriteStringsAt(p, addrs, args, t, base);
    StringsAtIndex(WriteStrings(p, addrs, args, t).value, addrs, args, t, base);
  }

  /** When the room of the strings fits between `base` and `sp`, every
      string gets an address, each string's reserve lies between `base`
      and `sp` and below every earlier string, and the last address is
      at most that room below `sp`. */
  lemma StringAddrsIn(sp: nat, args: seq<seq<Byte>>, t: Terminator, base: nat)
    requires args != [] && base + Room(args, t) <= sp
    ensures StringAddrs(sp, args, t).Some?
    ensures var a := StringAddrs(sp, args, t).value;
      && a[|args| - 1] % STACK_ALIGN_SIZE == 0 && a[|args| - 1] + Room(args, t) >= sp
      && (forall i :: 0 <= i < |args| ==> a[|args| - 1] <= a[i] && a[i] + Reserve(|args[i]|, t) <= sp)
      && (forall i, j :: 0 <= i < j < |args| ==> a[j] + Reserve(|args[j]|, t) <= a[i])
  {
    StringAddrsFit(sp, args, t);
    StringAddrsOrder(sp, args, t);
    var a := StringAddrs(sp, args, t).value;
    var last := |args| - 1;
    forall i | 0 <= i < |args|
      ensures a[last] <= a[i]
    {
      if i < last {
        assert a[last] + Reserve(|args[last]|, t) <= a[i];
      }
    }
  }

  /** Placement inside the page: when the room of the strings fits between
      `base` and `sp`, the placement succeeds, the final stack pointer is
      16-byte aligned and at most that room below `sp`, and every string
      lies between it and `sp`. */
  lemma PlaceArgsFits(p: Page, sp: nat, args: seq<seq<Byte>>, t: Terminator, base: nat)
    requires !t.NulAfter? && args != []
    requires base % PAGE_SIZE == 0 && sp <= base + PAGE_SIZE && base + Room(args, t) <= sp
    ensures PlaceArgs(p, sp, args, t).Some?
    ensures var r := PlaceArgs(p, sp, args, t).value;
      && |r.2| == |args| && r.1 % STACK_ALIGN_SIZE == 0 && r.1 + Room(args, t) >= sp
      && (forall i :: 0 <= i < |args| ==> r.1 <= r.2[i] && r.2[i] + Reserve(|args[i]|, t) <= sp)
  {
    StringAddrsIn(sp, args, t, base);
    var addrs := StringAddrs(sp, args, t).value;
    WriteStringsKeeps(p, addrs, args, t, base, base, sp);
  }

  /** The strings placed inside the page lie at their addresses, each
      followed by its NUL when the NUL was reserved. */
  lemma PlaceArgsReadBack(p: Page, sp: nat, args: seq<seq<Byte>>, t: Terminator, base: nat, p1: Page, sp1: nat, argv: seq<nat>)
    requires !t.NulAfter? && args != []
    requires base % PAGE_SIZE == 0 && sp <= base + PAGE_SIZE && base + Room(args, t) <= sp
    requires PlaceArgs(p, sp, args, t) == Some((p1, sp1, argv))
    ensures |argv| == |args|
    ensures forall i :: 0 <= i < |args| ==> BytesIn(p1, argv[i] - base, Laid(args[i], t))
  {
    StringAddrsIn(sp, args, t, base);
    WriteStringsReadBack(p, argv, args, t, base);
  }

  lemma BytesInSame(p: Page, o: int, s: seq<Byte>, o2: int, s2: seq<Byte>)
    requires BytesIn(p, o, s) && o2 == o && s2 == s
    ensures BytesIn(p, o2, s2)
  {
  }

  lemma KeepsBytes(p: Page, p2: Page, lo: int, hi: int, o: int, s: seq<Byte>)
    requires Keeps(p, p2, lo, hi) && BytesIn(p, o, s) && hi <= o
    ensures BytesIn(p2, o, s)
  {
  }

  /** `push_num` for every word of `ws` in turn: the stack pointer drops by
      a word and the word is stored there (a value is stored modulo 2^64,
      the width of `usize`). */
  function PushNums(p: Page, sp: nat, ws: seq<nat>): (r: Option<(Page, nat)>)
    ensures r.Some? ==> r.value.1 + 8 * |ws| == sp
    ensures sp % 8 == 0 && 8 * |ws| <= sp ==> r.Some?
    decreases |ws|
  {
    if ws == [] then Some((p, sp))
    else if sp < WORD_BYTES then None
    else
      AlignedWordFits(sp - WORD_BYTES);
      match WriteUsize(p, sp - WORD_BYTES, ws[0] % WORD_LIMIT)
      case None => None
      case Some(p1) => PushNums(p1, sp - WORD_BYTES, ws[1..])
  }

  /** A word written inside the page from `base` changes only its own
      eight bytes. */
  lemma WriteUsizeKeeps(p: Page, a: nat, w: Word, base: nat, lo: int, hi: int)
    requires base % PAGE_SIZE == 0 && base <= a && a + 8 <= base + PAGE_SIZE
    requires lo == a - base && hi == lo + 8
    ensures WriteUsize(p, a, w).Some?
    ensures Keeps(p, WriteUsize(p, a, w).value, lo, hi)
  {
    InPage(base, a);
  }

  /** A word written inside the page from `base` lies there as its
      little-endian bytes. */
  lemma WriteUsizeBytes(p: Page, a: nat, w: Word, base: nat)
    requires base % PAGE_SIZE == 0 && base <= a && a + 8 <= base + PAGE_SIZE
    ensures WriteUsize(p, a, w).Some?
    ensures BytesIn(WriteUsize(p, a, w).value, a - base, WordBytes(w))
  {
    InPage(base, a);
  }

  /** Eight bytes of a word in the page read back as the word. */
  lemma ReadWordBytes(p: Page, a: nat, w: Word, base: nat)
    requires base % PAGE_SIZE == 0 && base <= a && a + 8 <= base + PAGE_SIZE
    requires BytesIn(p, a - base, WordBytes(w))
    ensures ReadUsize(p, a) == Some(w)
  {
    InPage(base, a);
    var o := a - base;
    assert p[o..o + 8] == WordBytes(w);
    WordFitsEightBytes();
    LeRoundTrip(w, WORD_BYTES);
  }

  /** A push inside the page from `base` is its first word's write, which
      changes only that word's eight bytes and leaves them holding the
      word, followed by the rest of the push. */
  lemma PushStep(p: Page, sp: nat, ws: seq<nat>, base: nat, sp1: nat, ws1: seq<nat>) returns (p1: Page)
    requires ws != [] && PushNums(p, sp, ws).Some? && sp1 + 8 == sp && ws1 == ws[1..]
    requires base % PAGE_SIZE == 0 && sp <= base + PAGE_SIZE && base <= sp1
    ensures Keeps(p, p1, sp1 - base, sp - base)
    ensures BytesIn(p1, sp1 - base, WordBytes(ws[0] % WORD_LIMIT))
    ensures PushNums(p, sp, ws) == PushNums(p1, sp1, ws1)
  {
    var w: Word := ws[0] % WORD_LIMIT;
    WriteUsizeKeeps(p, sp1, w, base, sp1 - base, sp - base);
    WriteUsizeBytes(p, sp1, w, base);
    PushUnfold(p, sp, ws);
    p1 := WriteUsize(p, sp1, w).value;
  }

  /** A push of a word that fits is its write followed by the rest. */
  lemma PushUnfold(p: Page, sp: nat, ws: seq<nat>)
    requires ws != [] && sp >= 8 && WriteUsize(p, sp - 8, ws[0] % WORD_LIMIT).Some?
    ensures PushNums(p, sp, ws) == PushNums(WriteUsize(p, sp - 8, ws[0] % WORD_LIMIT).value, sp - 8, ws[1..])
  {
  }

  /** Pushing inside one page changes nothing outside the range the stack
      pointer swept. */
  lemma {:induction false} PushKeeps(p: Page, sp: nat, ws: seq<nat>, base: nat)
    requires base % PAGE_SIZE == 0 && sp <= base + PAGE_SIZE && base + 8 * |ws| <= sp
    requires PushNums(p, sp, ws).Some?
    ensures var r := PushNums(p, sp, ws).value;
      Keeps(p, r.0, r.1 - base, sp - base)
    decreases |ws|
  {
    if ws != [] {
      var ws1, sp1: nat := ws[1..], sp - 8;
      var p1 := PushStep(p, sp, ws, base, sp1, ws1);
      PushKeeps(p1, sp1, ws1, base);
      var r1 := PushNums(p1, sp1, ws1).value;
      KeepsJoin(p, p1, r1.0, r1.1 - base, sp1 - base, sp - base);
    }
  }

  lemma KeepsJoin(p: Page, p1: Page, p2: Page, a: int, b: int, c: int)
    requires a <= b <= c && Keeps(p, p1, b, c) && Keeps(p1, p2, a, b)
    ensures Keeps(p, p2, a, c)
  {
  }

  /** The words of `ws` lie in `q` as little-endian bytes, the first one
      highest: the last word at offset `o`, each earlier one a word above. */
  predicate WordsAt(q: Page, o: int, ws: seq<nat>)
    decreases |ws|
  {
    ws == [] || (BytesIn(q, o + 8 * (|ws| - 1), WordBytes(ws[0] % WORD_LIMIT)) && WordsAt(q, o, ws[1..]))
  }

  /** `WordsAt` word by word. */
  lemma {:induction false} WordsAtIndex(q: Page, o: int, ws: seq<nat>)
    requires WordsAt(q, o, ws)
    ensures forall j :: 0 <= j < |ws| ==> BytesIn(q, o + 8 * j, WordBytes(ws[|ws| - 1 - j] % WORD_LIMIT))
    decreases |ws|
  {
    if ws != [] {
      var ws1 := ws[1..];
      WordsAtIndex(q, o, ws1);
      forall j | 0 <= j < |ws1|
        ensures BytesIn(q, o + 8 * j, WordBytes(ws[|ws| - 1 - j] % WORD_LIMIT))
      {
        assert ws1[|ws1| - 1 - j] == ws[|ws| - 1 - j];
      }
    }
  }

  /** Pushing inside one page leaves the pushed words in place, first one highest. */
  lemma {:induction false} PushWordsAt(p: Page, sp: nat, ws: seq<nat>, base: nat)
    requires base % PAGE_SIZE == 0 && sp <= base + PAGE_SIZE && base + 8 * |ws| <= sp
    requires PushNums(p, sp, ws).Some?
    ensures var r := PushNums(p, sp, ws).value;
      WordsAt(r.0, r.1 - base, ws)
    decreases |ws|
  {
    if ws != [] {
      var ws1, sp1: nat := ws[1..], sp - 8;
      var p1 := PushStep(p, sp, ws, base, sp1, ws1);
      PushKeeps(p1, sp1, ws1, base);
      PushWordsAt(p1, sp1, ws1, base);
      var r := PushNums(p1, sp1, ws1).value;
      PushWordsStep(p1, r.0, r.1 - base, sp1 - base, ws, ws1);
    }
  }

  /** The word pushed first survives the later pushes above their range. */
  lemma PushWordsStep(p1: Page, q: Page, o: int, top: int, ws: seq<nat>, ws1: seq<nat>)
    requires ws != [] && ws1 == ws[1..] && top == o + 8 * |ws1|
    requires Keeps(p1, q, o, top) && BytesIn(p1, top, WordBytes(ws[0] % WORD_LIMIT))
    requires WordsAt(q, o, ws1)
    ensures WordsAt(q, o, ws)
  {
    KeepsBytes(p1, q, o, top, top, WordBytes(ws[0] % WORD_LIMIT));
    WordsAtCons(q, o, top, ws, ws1);
  }

  lemma WordsAtCons(q: Page, o: int, top: int, ws: seq<nat>, ws1: seq<nat>)
    requires ws != [] && ws1 == ws[1..] && top == o + 8 * |ws1|
    requires BytesIn(q, top, WordBytes(ws[0] % WORD_LIMIT)) && WordsAt(q, o, ws1)
    ensures WordsAt(q, o, ws)
  {
  }

  /** Words pushed inside one page lie, as little-endian bytes, in reverse
      order of pushing from the final stack pointer up. */
  lemma PushReadBack(p: Page, sp: nat, ws: seq<nat>, base: nat, q: Page, sp2: nat)
    requires base % PAGE_SIZE == 0 && sp <= base + PAGE_SIZE && base + 8 * |ws| <= sp
    requires PushNums(p, sp, ws) == Some((q, sp2))
    ensures forall j :: 0 <= j < |ws| ==> BytesIn(q, sp2 - base + 8 * j, WordBytes(ws[|ws| - 1 - j] % WORD_LIMIT))
  {
    PushWordsAt(p, sp, ws, base);
    WordsAtIndex(q, sp2 - base, ws);
  }

  /** The auxiliary vector `init_stack` builds: a map from type to value. */
  function AuxvMap(execfn: nat, entry: nat): map<nat, nat>
  {
    map[AT_EXECFN := execfn, AT_PAGESZ := PAGE_SIZE, AT_ENTRY := entry, AT_GID := 0,
        AT_EGID := 0, AT_UID := 0, AT_EUID := 0, AT_NULL := 0]
  }

  /** The order in which the map yields its entries: ascending types. */
  function AuxvAscending(execfn: nat, entry: nat): (r: seq<(nat, nat)>)
    ensures |r| == 8
  {
    [(AT_NULL, 0), (AT_PAGESZ, PAGE_SIZE), (AT_ENTRY, entry), (AT_UID, 0),
     (AT_EUID, 0), (AT_GID, 0), (AT_EGID, 0), (AT_EXECFN, execfn)]
  }

  /** The ascending listing holds every entry of the map exactly once, in
      increasing type order. */
  lemma AuxvAscendingListsMap(execfn: nat, entry: nat)
    ensures var r := AuxvAscending(execfn, entry); var m := AuxvMap(execfn, entry);
      && |r| == |m.Keys|
      && (forall i :: 0 <= i < |r| ==> r[i].0 in m && m[r[i].0] == r[i].1)
      && (forall i, j :: 0 <= i < j < |r| ==> r[i].0 < r[j].0)
  {
    AuxvKeys(execfn, entry);
  }

  /** The map has exactly the eight entry types. */
  lemma AuxvKeys(execfn: nat, entry: nat)
    ensures AuxvMap(execfn, entry).Keys == {AT_NULL, AT_PAGESZ, AT_ENTRY, AT_UID, AT_EUID, AT_GID, AT_EGID, AT_EXECFN}
    ensures |AuxvMap(execfn, entry).Keys| == 8
  {
    var m := AuxvMap(execfn, entry);
    assert m.Keys == {AT_NULL, AT_PAGESZ, AT_ENTRY, AT_UID, AT_EUID, AT_GID, AT_EGID, AT_EXECFN};
  }

  /** `push_num(v); push_num(key)` for every entry in turn. */
  function AuxvPushes(entries: seq<(nat, nat)>): (r: seq<nat>)
    ensures |r| == 2 * |entries|
  {
    if entries == [] then [] else [entries[0].1, entries[0].0] + AuxvPushes(entries[1..])
  }

  /** Every word `init_stack` pushes, in pushing order: the auxiliary
      vector, the environment terminator, the argument terminator, the
      argument pointers last to first, and the argument count. */
  function PushList(argv: seq<nat>, entry: nat): (r: seq<nat>)
    requires argv != []
    ensures |r| == |argv| + 19
  {
    var n: nat := |argv|;
    AuxvPushes(AuxvAscending(argv[0], entry)) + [0, 0] + Reversed(argv) + [n]
  }

  /** The auxiliary vector as the ABI lists it, reading upward: type-value
      pairs ending with `AT_NULL`. */
  function AuxvVector(execfn: nat, entry: nat): (r: seq<(nat, nat)>)
    ensures r != [] && r[|r| - 1] == (AT_NULL, 0)
  {
    [(AT_EXECFN, execfn), (AT_EGID, 0), (AT_GID, 0), (AT_EUID, 0),
     (AT_UID, 0), (AT_ENTRY, entry), (AT_PAGESZ, PAGE_SIZE), (AT_NULL, 0)]
  }

  /** Every pair of the vector is an entry of the map `init_stack` builds. */
  lemma AuxvVectorFromMap(execfn: nat, entry: nat)
    ensures var r := AuxvVector(execfn, entry); var m := AuxvMap(execfn, entry);
      |r| == |m.Keys| && forall i :: 0 <= i < |r| ==> r[i].0 in m && m[r[i].0] == r[i].1
  {
    AuxvKeys(execfn, entry);
    var r, m := AuxvVector(execfn, entry), AuxvMap(execfn, entry);
    forall i | 0 <= i < |r|
      ensures r[i].0 in m && m[r[i].0] == r[i].1
    {
      if i < 4 {
        assert r[i] in [(AT_EXECFN, execfn), (AT_EGID, 0), (AT_GID, 0), (AT_EUID, 0)];
      } else {
        assert r[i] in [(AT_UID, 0), (AT_ENTRY, entry), (AT_PAGESZ, PAGE_SIZE), (AT_NULL, 0)];
      }
    }
  }

  /** The words of type-value pairs. */
  function PairWords(auxv: seq<(nat, nat)>): (r: seq<nat>)
    ensures |r| == 2 * |auxv|
  {
    if auxv == [] then [] else [auxv[0].0, auxv[0].1] + PairWords(auxv[1..])
  }

  /** The initial process stack of the ABI, read upward from the stack
      pointer: the argument count, the argument pointers, a null pointer,
      the environment pointers (none) and a null pointer, then the
      auxiliary vector. */
  function AbiImage(argv: seq<nat>, env: seq<nat>, auxv: seq<(nat, nat)>): (r: seq<nat>)
    ensures |r| == |argv| + |env| + 3 + 2 * |auxv|
  {
    [|argv|] + argv + [0] + env + [0] + PairWords(auxv)
  }

  lemma AuxvWords(execfn: nat, entry: nat)
    ensures AuxvPushes(AuxvAscending(execfn, entry)) ==
      [0, AT_NULL, PAGE_SIZE, AT_PAGESZ, entry, AT_ENTRY, 0, AT_UID,
       0, AT_EUID, 0, AT_GID, 0, AT_EGID, execfn, AT_EXECFN]
  {
    var asc := AuxvAscending(execfn, entry);
    assert AuxvPushes(asc[7..]) == [execfn, AT_EXECFN];
    assert AuxvPushes(asc[6..]) == [0, AT_EGID] + AuxvPushes(asc[7..]);
    assert AuxvPushes(asc[5..]) == [0, AT_GID] + AuxvPushes(asc[6..]);
    assert AuxvPushes(asc[4..]) == [0, AT_EUID] + AuxvPushes(asc[5..]);
    assert AuxvPushes(asc[3..]) == [0, AT_UID] + AuxvPushes(asc[4..]);
    assert AuxvPushes(asc[2..]) == [entry, AT_ENTRY] + AuxvPushes(asc[3..]);
    assert AuxvPushes(asc[1..]) == [PAGE_SIZE, AT_PAGESZ] + AuxvPushes(asc[2..]);
    assert AuxvPushes(asc) == [0, AT_NULL] + AuxvPushes(asc[1..]);
  }

  lemma VectorWords(execfn: nat, entry: nat)
    ensures PairWords(AuxvVector(execfn, entry)) ==
      [AT_EXECFN, execfn, AT_EGID, 0, AT_GID, 0, AT_EUID, 0,
       AT_UID, 0, AT_ENTRY, entry, AT_PAGESZ, PAGE_SIZE, AT_NULL, 0]
  {
    var vec := AuxvVector(execfn, entry);
    assert PairWords(vec[7..]) == [AT_NULL, 0];
    assert PairWords(vec[6..]) == [AT_PAGESZ, PAGE_SIZE] + PairWords(vec[7..]);
    assert PairWords(vec[5..]) == [AT_ENTRY, entry] + PairWords(vec[6..]);
    assert PairWords(vec[4..]) == [AT_UID, 0] + PairWords(vec[5..]);
    assert PairWords(vec[3..]) == [AT_EUID, 0] + PairWords(vec[4..]);
    assert PairWords(vec[2..]) == [AT_GID, 0] + PairWords(vec[3..]);
    assert PairWords(vec[1..]) == [AT_EGID, 0] + PairWords(vec[2..]);
    assert PairWords(vec) == [AT_EXECFN, execfn] + PairWords(vec[1..]);
  }

  /** Pushing `PushList` one word at a time leaves the ABI image from the
      final stack pointer up: the last word pushed is the first read. */
  lemma PushesBuildImage(argv: seq<nat>, entry: nat)
    requires argv != []
    ensures AbiImage(argv, [], AuxvVector(argv[0], entry)) == Reversed(PushList(argv, entry))
  {
    var n: nat := |argv|;
    var down := AuxvPushes(AuxvAscending(argv[0], entry));
    var up := PairWords(AuxvVector(argv[0], entry));
    AuxvReversed(argv[0], entry);
    ReversedFrame(down, up, argv, n);
    assert PushList(argv, entry) == down + [0, 0] + Reversed(argv) + [n];
    assert AbiImage(argv, [], AuxvVector(argv[0], entry)) == [n] + argv + [0, 0] + up;
  }

  /** The auxiliary vector pushed in ascending type order reads back in
      descending order. */
  lemma AuxvReversed(execfn: nat, entry: nat)
    ensures Reversed(AuxvPushes(AuxvAscending(execfn, entry))) == PairWords(AuxvVector(execfn, entry))
  {
    AuxvWords(execfn, entry);
    VectorWords(execfn, entry);
    ReversedIndex(AuxvPushes(AuxvAscending(execfn, entry)));
  }

  /** The reversal of a whole push list from the reversals of its parts. */
  lemma ReversedFrame(down: seq<nat>, up: seq<nat>, argv: seq<nat>, n: nat)
    requires Reversed(down) == up
    ensures Reversed(down + [0, 0] + Reversed(argv) + [n]) == [n] + argv + [0, 0] + up
  {
    var front := down + [0, 0];
    assert Reversed(front) == [0, 0] + up by {
      ReversedAppend(down, 0);
      ReversedAppend(down + [0], 0);
      assert front == down + [0] + [0];
    }
    var body := front + Reversed(argv);
    assert Reversed(body) == argv + ([0, 0] + up) by {
      ReversedConcat(front, Reversed(argv));
      ReversedTwice(argv);
    }
    ReversedAppend(body, n);
    assert [n] + (argv + ([0, 0] + up)) == [n] + argv + [0, 0] + up;
  }

  /** The top stack page: the strings from `top` down, then every word of
      `PushList`; no argument is a panic (`args_ptr[0]`). The result is the
      page, the final stack pointer and the string addresses. */
  function StackPage(p: Page, top: nat, args: seq<seq<Byte>>, entry: Word, t: Terminator): (r: Option<(Page, nat, seq<nat>)>)
    ensures args == [] ==> r.None?
    ensures r.Some? ==> |r.value.2| == |args|
  {
    match PlaceArgs(p, top, args, t)
    case None => None
    case Some((p1, sp1, argv)) =>
      if args == [] then None
      else
        match PushNums(p1, sp1, PushList(argv, entry))
        case None => None
        case Some((p2, sp2)) => Some((p2, sp2, argv))
  }

  /** When the strings and the words fit in the page below `top`, the
      placement succeeds with the stack pointer word-aligned, room left for
      every word below it and every string above it, and the stack page is
      the words pushed on the placed strings. */
  lemma StackPageSteps(p: Page, top: nat, args: seq<seq<Byte>>, entry: Word, t: Terminator, base: nat)
      returns (p1: Page, sp1: nat, argv: seq<nat>, p2: Page, sp2: nat)
    requires !t.NulAfter? && args != []
    requires base % PAGE_SIZE == 0 && top <= base + PAGE_SIZE
    requires base + Room(args, t) + 8 * (|args| + 19) <= top
    ensures PlaceArgs(p, top, args, t) == Some((p1, sp1, argv))
    ensures sp1 % 8 == 0 && sp1 <= top && base + 8 * (|args| + 19) <= sp1 && |argv| == |args|
    ensures forall i :: 0 <= i < |args| ==> sp1 <= argv[i]
    ensures forall i :: 0 <= i < |args| ==> argv[i] + Reserve(|args[i]|, t) <= top
    ensures PushNums(p1, sp1, PushList(argv, entry)) == Some((p2, sp2))
    ensures StackPage(p, top, args, entry, t) == Some((p2, sp2, argv))
  {
    PlaceArgsFits(p, top, args, t, base);
    var r := PlaceArgs(p, top, args, t).value;
    p1, sp1, argv := r.0, r.1, r.2;
    assert sp1 % 8 == 0 by {
      ModUnique(sp1, 8, sp1 / 16 * 2, 0);
    }
    assert argv[0] <= top;
    var q := PushNums(p1, sp1, PushList(argv, entry)).value;
    p2, sp2 := q.0, q.1;
  }

  /** Every word of the image is below `bound` when the addresses, the
      entry point and the count are. */
  lemma ImageBound(argv: seq<nat>, entry: nat, bound: nat)
    requires argv != [] && |argv| < bound && entry < bound && PAGE_SIZE < bound
    requires forall i :: 0 <= i < |argv| ==> argv[i] < bound
    ensures var img := AbiImage(argv, [], AuxvVector(argv[0], entry));
      forall j :: 0 <= j < |img| ==> img[j] < bound
  {
    VectorWords(argv[0], entry);
    var img := AbiImage(argv, [], AuxvVector(argv[0], entry));
    var up := PairWords(AuxvVector(argv[0], entry));
    assert img == [|argv|] + argv + [0, 0] + up;
  }

  /** When the strings and the words fit in the page below `top`, the page
      holds the ABI image from the final stack pointer up, and the strings
      lie above the image and below `top`. */
  lemma StackPageLayout(p: Page, top: nat, args: seq<seq<Byte>>, entry: Word, t: Terminator, base: nat,
                        p2: Page, sp: nat, argv: seq<nat>)
    requires !t.NulAfter? && args != []
    requires base % PAGE_SIZE == 0 && top <= base + PAGE_SIZE && top < WORD_LIMIT
    requires base + Room(args, t) + 8 * (|args| + 19) <= top
    requires StackPage(p, top, args, entry, t) == Some((p2, sp, argv))
    ensures |argv| == |args|
    ensures var img := AbiImage(argv, [], AuxvVector(argv[0], entry));
      && |img| == |args| + 19 && base <= sp && sp + 8 * |img| <= top
      && forall j :: 0 <= j < |img| ==> ReadUsize(p2, sp + 8 * j) == Some(img[j])
    ensures forall i :: 0 <= i < |args| ==> sp + 8 * (|args| + 19) <= argv[i]
    ensures forall i :: 0 <= i < |args| ==> argv[i] + Reserve(|args[i]|, t) <= top
  {
    var p1, sp1, argv1, q2, sq := StackPageSteps(p, top, args, entry, t, base);
    PushedImage(p1, sp1, argv, entry, base, p2, sp);
  }

  /** The words of `PushList` pushed inside the page from `base` read back
      as the ABI image from the final stack pointer up. */
  lemma PushedImage(p1: Page, sp1: nat, argv: seq<nat>, entry: Word, base: nat, p2: Page, sp: nat)
    requires argv != [] && base % PAGE_SIZE == 0 && sp1 <= base + PAGE_SIZE && sp1 < WORD_LIMIT
    requires base + 8 * (|argv| + 19) <= sp1
    requires forall i :: 0 <= i < |argv| ==> argv[i] < WORD_LIMIT
    requires PushNums(p1, sp1, PushList(argv, entry)) == Some((p2, sp))
    ensures var img := AbiImage(argv, [], AuxvVector(argv[0], entry));
      && |img| == |argv| + 19 && sp + 8 * |img| == sp1
      && forall j :: 0 <= j < |img| ==> ReadUsize(p2, sp + 8 * j) == Some(img[j])
  {
    ImageWords(argv, entry);
    PushedWords(p1, sp1, PushList(argv, entry), AbiImage(argv, [], AuxvVector(argv[0], entry)), base, p2, sp);
  }

  /** Words pushed inside the page from `base` read back from the final
      stack pointer up as `img`, when `img` is the pushed words last to
      first, each a machine word. */
  lemma PushedWords(p1: Page, sp1: nat, ws: seq<nat>, img: seq<nat>, base: nat, p2: Page, sp: nat)
    requires base % PAGE_SIZE == 0 && sp1 <= base + PAGE_SIZE && base + 8 * |ws| <= sp1
    requires PushNums(p1, sp1, ws) == Some((p2, sp)) && |img| == |ws|
    requires forall j :: 0 <= j < |img| ==> img[j] < WORD_LIMIT && img[j] == ws[|ws| - 1 - j] % WORD_LIMIT
    ensures forall j :: 0 <= j < |img| ==> ReadUsize(p2, sp + 8 * j) == Some(img[j])
  {
    PushReadBack(p1, sp1, ws, base, p2, sp);
    forall j | 0 <= j < |img|
      ensures ReadUsize(p2, sp + 8 * j) == Some(img[j])
    {
      var w: Word := img[j];
      var a: nat := sp + 8 * j;
      assert BytesIn(p2, a - base, WordBytes(w));
      ReadWordBytes(p2, a, w, base);
    }
  }

  /** The image is the pushed words read from the top of the pushes down,
      and each of them is a machine word. */
  lemma ImageWords(argv: seq<nat>, entry: Word)
    requires argv != [] && |argv| < WORD_LIMIT
    requires forall i :: 0 <= i < |argv| ==> argv[i] < WORD_LIMIT
    ensures var ws := PushList(argv, entry);
      var img := AbiImage(argv, [], AuxvVector(argv[0], entry));
      && |img| == |ws|
      && forall j :: 0 <= j < |img| ==> img[j] < WORD_LIMIT && img[j] == ws[|ws| - 1 - j] % WORD_LIMIT
  {
    var ws := PushList(argv, entry);
    PushesBuildImage(argv, entry);
    ReversedIndex(ws);
    ImageBound(argv, entry, WORD_LIMIT);
  }

  /** Strings placed without the NUL-after-string write are still on the
      stack page after the words are pushed: each at its address, followed
      by its NUL when the NUL was reserved. */
  lemma StackPageStrings(p: Page, top: nat, args: seq<seq<Byte>>, entry: Word, t: Terminator, base: nat,
                          p2: Page, sp: nat, argv: seq<nat>)
    requires !t.NulAfter? && args != []
    requires base % PAGE_SIZE == 0 && top <= base + PAGE_SIZE
    requires base + Room(args, t) + 8 * (|args| + 19) <= top
    requires StackPage(p, top, args, entry, t) == Some((p2, sp, argv))
    ensures forall i :: 0 <= i < |args| ==> BytesIn(p2, argv[i] - base, Laid(args[i], t))
  {
    var p1, sp1, argv1, q2, sq := StackPageSteps(p, top, args, entry, t, base);
    PlaceArgsReadBack(p, top, args, t, base, p1, sp1, argv);
    PushKeepsStrings(p1, sp1, PushList(argv, entry), argv, args, t, base, p2, sp);
  }

  /** Words pushed below the strings leave the strings intact. */
  lemma PushKeepsStrings(p1: Page, sp1: nat, ws: seq<nat>, argv: seq<nat>, args: seq<seq<Byte>>, t: Terminator, base: nat,
                          p2: Page, sp: nat)
    requires base % PAGE_SIZE == 0 && sp1 <= base + PAGE_SIZE && base + 8 * |ws| <= sp1
    requires PushNums(p1, sp1, ws) == Some((p2, sp)) && |argv| == |args|
    requires forall i :: 0 <= i < |args| ==> sp1 <= argv[i]
    requires forall i :: 0 <= i < |args| ==> BytesIn(p1, argv[i] - base, Laid(args[i], t))
    ensures forall i :: 0 <= i < |args| ==> BytesIn(p2, argv[i] - base, Laid(args[i], t))
  {
    PushKeeps(p1, sp1, ws, base);
    forall i | 0 <= i < |args|
      ensures BytesIn(p2, argv[i] - base, Laid(args[i], t))
    {
      KeepsBytes(p1, p2, sp - base, sp1 - base, argv[i] - base, Laid(args[i], t));
    }
  }

  /** The stack pointer's page when it lies below `top`. */
  lemma KeyBelow(top: nat, a: nat)
    requires top % PAGE_SIZE == 0 && top >= PAGE_SIZE && top - PAGE_SIZE <= a < top
    ensures Key(a) == top - PAGE_SIZE && a % PAGE_SIZE == a - (top - PAGE_SIZE)
  {
    ModUnique(a, PAGE_SIZE, top / PAGE_SIZE - 1, a - (top - PAGE_SIZE));
  }

  /** The stack built into the page keyed `pageKey`, from
      `USPACE_STACK_TOP` down. A missing page is the panic of the page
      lookup. The result is the page map, the final stack pointer and the
      argument string addresses. */
  function BuildStack(pm: PageMap, pageKey: nat, args: seq<seq<Byte>>, entry: Word, t: Terminator): (r: Option<(PageMap, nat, seq<nat>)>)
    ensures r.Some? <==> pageKey in pm && StackPage(pm[pageKey], USPACE_STACK_TOP, args, entry, t).Some?
    ensures r.Some? ==> r.value.0.Keys == pm.Keys && forall k :: k in pm && k != pageKey ==> r.value.0[k] == pm[k]
    ensures r.Some? ==> var s := StackPage(pm[pageKey], USPACE_STACK_TOP, args, entry, t).value;
      r.value.0[pageKey] == s.0 && r.value.1 == s.1 && r.value.2 == s.2
  {
    if pageKey !in pm then None
    else
      match StackPage(pm[pageKey], USPACE_STACK_TOP, args, entry, t)
      case None => None
      case Some((p, sp, argv)) => Some((pm[pageKey := p], sp, argv))
  }

  /** `init_stack` as written: the page looked up is the one keyed
      `USPACE_STACK_TOP` itself, and each string is placed at
      `align_down(sp - len, 16)` with a NUL written right after it. */
  function InitStack(pm: PageMap, args: seq<seq<Byte>>, entry: Word): (r: Option<(PageMap, nat, seq<nat>)>)
    ensures USPACE_STACK_TOP !in pm || args == [] ==> r.None?
    ensures r.Some? ==> r.value.0.Keys == pm.Keys && |r.value.2| == |args|
  {
    BuildStack(pm, USPACE_STACK_TOP, args, entry, NulAfter)
  }

  /** `init_stack` as intended: the stack grows down from
      `USPACE_STACK_TOP`, so its top page is the one keyed
      `USPACE_STACK_TOP - PAGE_SIZE`, and a byte is reserved for each
      string's NUL. */
  function InitStackFixed(pm: PageMap, args: seq<seq<Byte>>, entry: Word): (r: Option<(PageMap, nat, seq<nat>)>)
    ensures USPACE_STACK_TOP - PAGE_SIZE !in pm || args == [] ==> r.None?
    ensures r.Some? ==> r.value.0.Keys == pm.Keys && |r.value.2| == |args|
  {
    BuildStack(pm, USPACE_STACK_TOP - PAGE_SIZE, args, entry, NulReserved)
  }

  /** What a task finds reading its initial stack: the ABI image (argument
      count, argument pointers, empty environment, auxiliary vector) from
      `sp` up, and the bytes of every argument at its address in `argv`,
      each followed by a zero byte when `nul` holds. */
  predicate StackReads(pm: PageMap, sp: nat, argv: seq<nat>, args: seq<seq<Byte>>, entry: Word, nul: bool)
  {
    && argv != [] && |argv| == |args|
    && (var img := AbiImage(argv, [], AuxvVector(argv[0], entry));
        forall j :: 0 <= j < |img| ==> WordAt(pm, sp + 8 * j) == Some(img[j]))
    && (forall i, k :: 0 <= i < |args| && 0 <= k < |args[i]| ==> ByteAt(pm, argv[i] + k) == Some(args[i][k]))
    && (nul ==> forall i :: 0 <= i < |args| ==> ByteAt(pm, argv[i] + |args[i]|) == Some(0))
  }

  /** A task reading its stack after the corrected `init_stack` finds the
      ABI image from the stack pointer up and every argument as a
      NUL-terminated string at the address in its argument vector, provided
      the whole stack fits in the top page. */
  lemma InitStackFixedLayout(pm: PageMap, args: seq<seq<Byte>>, entry: Word)
    requires USPACE_STACK_TOP - PAGE_SIZE in pm && args != []
    requires Room(args, NulReserved) + 8 * (|args| + 19) <= PAGE_SIZE
    ensures InitStackFixed(pm, args, entry).Some?
    ensures var (pm2, sp, argv) := InitStackFixed(pm, args, entry).value;
      StackReads(pm2, sp, argv, args, entry, true)
  {
    var base: nat := USPACE_STACK_TOP - PAGE_SIZE;
    var p: Page := pm[base];
    var p2, sp, argv := StackPageFits(p, USPACE_STACK_TOP, args, entry, NulReserved, base);
    var pm2 := pm[base := p2];
    assert InitStackFixed(pm, args, entry) == Some((pm2, sp, argv));
    StackPageReads(pm2, p, USPACE_STACK_TOP, args, entry, NulReserved, base, p2, sp, argv);
  }

  /** A stack that fits above `base` is built. */
  lemma StackPageFits(p: Page, top: nat, args: seq<seq<Byte>>, entry: Word, t: Terminator, base: nat)
      returns (p2: Page, sp: nat, argv: seq<nat>)
    requires !t.NulAfter? && args != []
    requires base % PAGE_SIZE == 0 && top <= base + PAGE_SIZE && top < WORD_LIMIT
    requires base + Room(args, t) + 8 * (|args| + 19) <= top
    ensures StackPage(p, top, args, entry, t) == Some((p2, sp, argv))
  {
    var p1, sp1;
    p1, sp1, argv, p2, sp := StackPageSteps(p, top, args, entry, t, base);
  }

  /** The stack page built above `base`, installed at `base` in a page
      map, reads as the stack. */
  lemma StackPageReads(pm: PageMap, p: Page, top: nat, args: seq<seq<Byte>>, entry: Word, t: Terminator, base: nat,
                       p2: Page, sp: nat, argv: seq<nat>)
    requires !t.NulAfter? && args != []
    requires base % PAGE_SIZE == 0 && top <= base + PAGE_SIZE && top < WORD_LIMIT
    requires base + Room(args, t) + 8 * (|args| + 19) <= top
    requires StackPage(p, top, args, entry, t) == Some((p2, sp, argv))
    requires base in pm && pm[base] == p2
    ensures StackReads(pm, sp, argv, args, entry, t.NulReserved?)
  {
    StackPageLayout(p, top, args, entry, t, base, p2, sp, argv);
    StackPageStrings(p, top, args, entry, t, base, p2, sp, argv);
    PageReads(pm, base, p2, sp, argv, args, entry, t);
  }

  /** The words and strings of a stack page, seen through the page map. */
  lemma PageReads(pm: PageMap, base: nat, p: Page, sp: nat, argv: seq<nat>, args: seq<seq<Byte>>, entry: Word, t: Terminator)
    requires base % PAGE_SIZE == 0 && base in pm && pm[base] == p
    requires argv != [] && |argv| == |args|
    requires var img := AbiImage(argv, [], AuxvVector(argv[0], entry));
      && base <= sp && sp + 8 * |img| <= base + PAGE_SIZE
      && forall j :: 0 <= j < |img| ==> ReadUsize(p, sp + 8 * j) == Some(img[j])
    requires forall i :: 0 <= i < |args| ==> base <= argv[i]
    requires forall i :: 0 <= i < |args| ==> BytesIn(p, argv[i] - base, Laid(args[i], t))
    ensures StackReads(pm, sp, argv, args, entry, t.NulReserved?)
  {
    PageWords(pm, base, p, sp, AbiImage(argv, [], AuxvVector(argv[0], entry)));
    PageStrings(pm, base, p, argv, args, t);
  }

  /** Words read from one page at `base` are the words at their user
      addresses. */
  lemma PageWords(pm: PageMap, base: nat, p: Page, sp: nat, img: seq<nat>)
    requires base % PAGE_SIZE == 0 && base in pm && pm[base] == p
    requires base <= sp && sp + 8 * |img| <= base + PAGE_SIZE
    requires forall j :: 0 <= j < |img| ==> ReadUsize(p, sp + 8 * j) == Some(img[j])
    ensures forall j :: 0 <= j < |img| ==> WordAt(pm, sp + 8 * j) == Some(img[j])
  {
    forall j | 0 <= j < |img|
      ensures WordAt(pm, sp + 8 * j) == Some(img[j])
    {
      var a: nat := sp + 8 * j;
      KeyBelow(base + PAGE_SIZE, a);
      assert ReadUsize(p, a) == Some(img[j]);
    }
  }

  /** Strings lying in one page at `base` are the bytes at their user
      addresses, followed by a zero byte when the NUL was reserved. */
  lemma PageStrings(pm: PageMap, base: nat, p: Page, argv: seq<nat>, args: seq<seq<Byte>>, t: Terminator)
    requires base % PAGE_SIZE == 0 && base in pm && pm[base] == p && |argv| == |args|
    requires forall i :: 0 <= i < |args| ==> base <= argv[i]
    requires forall i :: 0 <= i < |args| ==> BytesIn(p, argv[i] - base, Laid(args[i], t))
    ensures forall i, k :: 0 <= i < |args| && 0 <= k < |args[i]| ==> ByteAt(pm, argv[i] + k) == Some(args[i][k])
    ensures t.NulReserved? ==> forall i :: 0 <= i < |args| ==> ByteAt(pm, argv[i] + |args[i]|) == Some(0)
  {
    forall i, k | 0 <= i < |args| && 0 <= k < |Laid(args[i], t)|
      ensures ByteAt(pm, argv[i] + k) == Some(Laid(args[i], t)[k])
    {
      var a: nat := argv[i] + k;
      assert BytesIn(p, argv[i] - base, Laid(args[i], t));
      KeyBelow(base + PAGE_SIZE, a);
    }
    forall i, k | 0 <= i < |args| && 0 <= k < |args[i]|
      ensures ByteAt(pm, argv[i] + k) == Some(args[i][k])
    {
      assert Laid(args[i], t)[k] == args[i][k];
    }
    if t.NulReserved? {
      forall i | 0 <= i < |args|
        ensures ByteAt(pm, argv[i] + |args[i]|) == Some(0)
      {
        assert Laid(args[i], t)[|args[i]|] == 0;
      }
    }
  }

  /** The as-written `init_stack` fails on the stack `map_region` sets up
      for it (the pages below `USPACE_STACK_TOP`), where the corrected one
      succeeds. */
  lemma InitStackMissesStackPage()
    ensures var pm := MapRegion(map[], USPACE_STACK_TOP - USPACE_STACK_SIZE, USPACE_STACK_TOP).value;
      && InitStack(pm, [[98]], 0).None?
      && InitStackFixed(pm, [[98]], 0).Some?
  {
    var pm := MapRegion(map[], USPACE_STACK_TOP - USPACE_STACK_SIZE, USPACE_STACK_TOP).value;
    assert USPACE_STACK_TOP !in pm;
    assert USPACE_STACK_TOP - PAGE_SIZE in pm;
    var args: seq<seq<Byte>> := [[98]];
    assert Room(args, NulReserved) == 17 by {
      assert args[1..] == [];
    }
    InitStackFixedLayout(pm, args, 0);
  }

  /** With the as-written placement, two 16-byte arguments collide: the NUL
      after the second string lands on the first byte of the first. */
  lemma ArgStringsOverwriteFirst()
    ensures var a: seq<Byte> := seq(16, _ => 97);
      var r := PlaceArgs(ZeroPage(), USPACE_STACK_TOP, [a, a], NulAfter);
      && r.Some? && r.value.2 == [USPACE_STACK_TOP - 16, USPACE_STACK_TOP - 32]
      && r.value.0[(USPACE_STACK_TOP - 16) % PAGE_SIZE] == 0 != a[0]
  {
    var a: seq<Byte> := seq(16, _ => 97);
    TwoSixteenByteArgs(ZeroPage(), USPACE_STACK_TOP, a);
  }

  /** Two 16-byte strings placed from a 16-aligned `top` with the NUL
      written after each: the second string's NUL is written at the first
      string's address. */
  lemma TwoSixteenByteArgs(p: Page, top: nat, a: seq<Byte>)
    requires |a| == 16 && top % PAGE_SIZE == 0 && top >= PAGE_SIZE
    ensures var r := PlaceArgs(p, top, [a, a], NulAfter);
      && r.Some? && r.value.2 == [top - 16, top - 32]
      && r.value.0[(top - 16) % PAGE_SIZE] == 0
  {
    var args := [a, a];
    var x: nat, y: nat := top - 16, top - 32;
    var addrs := [x, y];
    TwoSixteenByteAddrs(top, a, x, y);
    TwoSixteenByteWrites(p, top, a, x, y);
    var q2 := WriteStrings(p, addrs, args, NulAfter).value;
    assert PlaceArgs(p, top, args, NulAfter) == Some((q2, y, addrs));
  }

  /** Two 16-byte strings with a NUL written after each take 16 bytes apiece. */
  lemma TwoSixteenByteAddrs(top: nat, a: seq<Byte>, x: nat, y: nat)
    requires |a| == 16 && top % PAGE_SIZE == 0 && top >= PAGE_SIZE && x == top - 16 && y == top - 32
    ensures StringAddrs(top, [a, a], NulAfter) == Some([x, y])
  {
    ModUnique(x, STACK_ALIGN_SIZE, top / STACK_ALIGN_SIZE - 1, 0);
    ModUnique(y, STACK_ALIGN_SIZE, top / STACK_ALIGN_SIZE - 2, 0);
    assert StringAddr(top, |a|, NulAfter) == Some(x);
    assert StringAddr(x, |a|, NulAfter) == Some(y);
    StringAddrsCons(x, a, [], NulAfter, y);
    assert StringAddrs(y, [], NulAfter) == Some([]);
    assert [a] + [] == [a] && [a] + [a] == [a, a];
    assert [top - 32] + [] == [top - 32] && [top - 16] + [top - 32] == [top - 16, top - 32];
    assert StringAddrs(top - 16, [a], NulAfter) == Some([top - 32]);
    StringAddrsCons(top, a, [a], NulAfter, top - 16);
  }

  /** Writing the second string puts its NUL on the first string's first byte. */
  lemma TwoSixteenByteWrites(p: Page, top: nat, a: seq<Byte>, x: nat, y: nat)
    requires |a| == 16 && top % PAGE_SIZE == 0 && top >= PAGE_SIZE && x == top - 16 && y == top - 32
    ensures var r := WriteStrings(p, [x, y], [a, a], NulAfter);
      r.Some? && r.value[x % PAGE_SIZE] == 0
  {
    KeyBelow(top, x);
    KeyBelow(top, y);
    NulOnNext(p, x, y, a);
  }

  /** The second string ends where the first begins, so its NUL lands on
      the first string's first byte. */
  lemma NulOnNext(p: Page, x: nat, y: nat, a: seq<Byte>)
    requires x % PAGE_SIZE + |a| <= PAGE_SIZE && y % PAGE_SIZE + |a| <= PAGE_SIZE && y + |a| == x
    ensures var r := WriteStrings(p, [x, y], [a, a], NulAfter);
      r.Some? && r.value[x % PAGE_SIZE] == 0
  {
    var p1 := WriteString(p, x, a, NulAfter).value;
    var q1 := Overwrite(p1, y % PAGE_SIZE, a);
    var q2 := WriteU8(q1, x, 0);
    assert WriteString(p1, y, a, NulAfter) == Some(q2);
    WriteStringsTwo(p, x, y, a, a, NulAfter, p1, q2);
  }

  /** Two strings written one after the other. */
  lemma WriteStringsTwo(p: Page, x: nat, y: nat, a: seq<Byte>, b: seq<Byte>, t: Terminator, p1: Page, q2: Page)
    requires WriteString(p, x, a, t) == Some(p1) && WriteString(p1, y, b, t) == Some(q2)
    ensures WriteStrings(p, [x, y], [a, b], t) == Some(q2)
  {
    assert [x, y][1..] == [y] && [a, b][1..] == [b];
    assert [y][1..] == [] && [b][1..] == [];
    assert WriteStrings(p1, [y], [b], t) == Some(q2);
  }

  /** The older `map_stack(entry, start, end, args)`: both ends must be
      page-aligned (`None` is the failed assertion); a zeroed frame is
      mapped at every page from `start` below `end`, and the top one,
      `end - PAGE_SIZE`, receives the strings (no terminator is written)
      and the words. The result is the page map and the final stack
      pointer, which is `end` when the range is empty. */
  function MapStack(pm: PageMap, entry: Word, start: nat, end: nat, args: seq<seq<Byte>>): (r: Option<(PageMap, nat)>)
    ensures r.Some? ==> start % PAGE_SIZE == 0 && end % PAGE_SIZE == 0
    ensures start >= end && start % PAGE_SIZE == 0 && end % PAGE_SIZE == 0 ==> r == Some((pm, end))
    ensures start < end && r.Some? ==>
      && start + PAGE_SIZE <= end
      && (forall k: nat :: k in r.value.0 <==> k in pm || (k % PAGE_SIZE == 0 && start <= k < end))
      && (forall k: nat :: k in r.value.0 && k != end - PAGE_SIZE ==>
            r.value.0[k] == if k % PAGE_SIZE == 0 && start <= k < end then ZeroPage() else pm[k])
      && StackPage(ZeroPage(), end, args, entry, Unterminated).Some?
      && end - PAGE_SIZE in r.value.0
      && r.value.0[end - PAGE_SIZE] == StackPage(ZeroPage(), end, args, entry, Unterminated).value.0
      && r.value.1 == StackPage(ZeroPage(), end, args, entry, Unterminated).value.1
  {
    if start % PAGE_SIZE != 0 || end % PAGE_SIZE != 0 then None
    else if start >= end then Some((pm, end))
    else
      var s := StackPage(ZeroPage(), end, args, entry, Unterminated);
      if s.None? then None
      else
        AlignedGap(start, end);
        Some((StackFrames(pm, start, end - PAGE_SIZE, s.value.0), s.value.1))
  }

  /** The frames `map_stack` maps up to the page at `top`, which holds the
      stack page `p`. */
  function StackFrames(pm: PageMap, start: nat, top: nat, p: Page): (r: PageMap)
    requires start % PAGE_SIZE == 0
    ensures top in r && r[top] == p
  {
    ZeroFrames(pm, start, top + PAGE_SIZE)[top := p]
  }

  /** The zeroed frames `map_stack` maps at every page from `start` below `end`. */
  function ZeroFrames(pm: PageMap, start: nat, end: nat): (r: PageMap)
    requires start % PAGE_SIZE == 0
    ensures forall k: nat :: k in r <==> k in pm || (k % PAGE_SIZE == 0 && start <= k < end)
    ensures forall k: nat :: k in r ==> r[k] == if k % PAGE_SIZE == 0 && start <= k < end then ZeroPage() else pm[k]
  {
    var r := MapSteps(pm, start, end);
    assert forall k: nat :: InSteps(k, start, end) <==> k % PAGE_SIZE == 0 && start <= k < end by {
      assert Key(start) == start;
    }
    r
  }

  /** Two distinct page boundaries are at least a page apart. */
  lemma AlignedGap(a: nat, b: nat)
    requires a % PAGE_SIZE == 0 && b % PAGE_SIZE == 0 && a < b
    ensures a + PAGE_SIZE <= b && (b - PAGE_SIZE) % PAGE_SIZE == 0
  {
    ModUnique(b - a, PAGE_SIZE, b / PAGE_SIZE - a / PAGE_SIZE, 0);
    ModUnique(b - PAGE_SIZE, PAGE_SIZE, b / PAGE_SIZE - 1, 0);
  }

  /** Reading the stack `map_stack` built finds the ABI image from the
      stack pointer up and every argument's bytes at the address in its
      argument vector (their termination rests on the zeroed frame and is
      not claimed here), provided the whole stack fits in the top page. */
  lemma MapStackLayout(pm: PageMap, entry: Word, start: nat, end: nat, args: seq<seq<Byte>>)
    requires start % PAGE_SIZE == 0 && end % PAGE_SIZE == 0 && start < end && end < WORD_LIMIT
    requires args != [] && Room(args, Unterminated) + 8 * (|args| + 19) <= PAGE_SIZE
    ensures MapStack(pm, entry, start, end, args).Some?
    ensures var (pm2, sp) := MapStack(pm, entry, start, end, args).value;
      StackReads(pm2, sp, StackPage(ZeroPage(), end, args, entry, Unterminated).value.2, args, entry, false)
  {
    AlignedGap(start, end);
    var base: nat := end - PAGE_SIZE;
    MapStackLayoutAt(pm, entry, start, base, end, args);
  }

  /** `MapStackLayout` with the top page named: `end` is `base + PAGE_SIZE`. */
  lemma MapStackLayoutAt(pm: PageMap, entry: Word, start: nat, base: nat, end: nat, args: seq<seq<Byte>>)
    requires start % PAGE_SIZE == 0 && base % PAGE_SIZE == 0 && start <= base && end == base + PAGE_SIZE && end < WORD_LIMIT
    requires args != [] && Room(args, Unterminated) + 8 * (|args| + 19) <= PAGE_SIZE
    ensures MapStack(pm, entry, start, end, args).Some?
    ensures var (pm2, sp) := MapStack(pm, entry, start, end, args).value;
      StackReads(pm2, sp, StackPage(ZeroPage(), end, args, entry, Unterminated).value.2, args, entry, false)
  {
    var p2, sp, argv := StackPageFits(ZeroPage(), end, args, entry, Unterminated, base);
    var pm2 := StackFrames(pm, start, base, p2);
    StackPageReads(pm2, ZeroPage(), end, args, entry, Unterminated, base, p2, sp, argv);
    MapStackIs(pm, entry, start, base, args, p2, sp, argv);
  }

  /** `map_stack` over frames up to the page at `base` installs the built
      stack page there. */
  lemma MapStackIs(pm: PageMap, entry: Word, start: nat, base: nat, args: seq<seq<Byte>>, p2: Page, sp: nat, argv: seq<nat>)
    requires start % PAGE_SIZE == 0 && base % PAGE_SIZE == 0 && start <= base
    requires StackPage(ZeroPage(), base + PAGE_SIZE, args, entry, Unterminated) == Some((p2, sp, argv))
    ensures MapStack(pm, entry, start, base + PAGE_SIZE, args) == Some((StackFrames(pm, start, base, p2), sp))
  {
    ModUnique(base + PAGE_SIZE, PAGE_SIZE, base / PAGE_SIZE + 1, 0);
  }
}

=== FILE: uspace.dfy ===
/** User-space constants and the C socket-address conversion
    (`LibcSocketAddr`), plus the default `clone` arguments. */
module Uspace {
  import opened Base

  const USPACE_HEAP_BASE: nat := 0x1_0000_0000
  const USPACE_HEAP_SIZE: nat := 0x10_0000
  /** The highest address of the user stack. */
  const USPACE_STACK_TOP: nat := 0x2_0000_0000
  const USPACE_STACK_SIZE: nat := 0x1_0000
  /** The lowest user-space address; the older `find_free_area` starts no lower. */
  const USPACE_BASE: nat := 0x1000

  /** `AF_INET`, the only family the conversion writes. */
  const AF_INET: nat := 2

  datatype IpAddr = V4(octets4: seq<Byte>) | V6(octets16: seq<Byte>)

  predicate ValidIp(ip: IpAddr)
  {
    match ip
    case V4(o) => |o| == 4
    case V6(o) => |o| == 16
  }

  datatype SocketAddr = SocketAddr(ip: IpAddr, port: nat)

  predicate ValidSocketAddr(a: SocketAddr)
  {
    ValidIp(a.ip) && a.port < 0x1_0000
  }

  /** `struct sockaddr`: a 16-bit family and 14 bytes of data. */
  datatype LibcSocketAddr = LibcSocketAddr(family: nat, data: seq<Byte>)

  /** `From<SocketAddr>`: the family is always `AF_INET`; the port goes
      big-endian into bytes 0 and 1; the address octets follow from byte 2
      (only the first 12 octets of an IPv6 address fit); the rest stays 0. */
  function FromSocketAddr(a: SocketAddr): (s: LibcSocketAddr)
    requires ValidSocketAddr(a)
    ensures s.family == AF_INET && |s.data| == 14
    ensures (s.data[0] as int) * 256 + s.data[1] as int == a.port
    ensures a.ip.V4? ==> s.data[2..6] == a.ip.octets4 && forall i :: 6 <= i < 14 ==> s.data[i] == 0
    ensures a.ip.V6? ==> s.data[2..14] == a.ip.octets16[..12]
  {
    var ip := match a.ip
      case V4(o) => o + seq(8, _ => 0)
      case V6(o) => o[..12];
    LibcSocketAddr(AF_INET, [a.port / 256, a.port % 256] + ip)
  }

  /** `Into<SocketAddr>`: always an IPv4 address from bytes 2..6, the port
      big-endian from bytes 0 and 1; the family is not looked at. */
  function IntoSocketAddr(s: LibcSocketAddr): (a: SocketAddr)
    requires |s.data| == 14
    ensures ValidSocketAddr(a) && a.ip.V4?
  {
    SocketAddr(V4(s.data[2..6]), (s.data[0] as int) * 256 + s.data[1] as int)
  }

  /** IPv4 addresses survive the round trip through `struct sockaddr`. */
  lemma Ipv4RoundTrip(a: SocketAddr)
    requires ValidSocketAddr(a) && a.ip.V4?
    ensures IntoSocketAddr(FromSocketAddr(a)) == a
  {
  }

  /** An IPv6 address comes back as the IPv4 address of its first four octets. */
  lemma Ipv6ComesBackAsIpv4(a: SocketAddr)
    requires ValidSocketAddr(a) && a.ip.V6?
    ensures IntoSocketAddr(FromSocketAddr(a)) == SocketAddr(V4(a.ip.octets16[..4]), a.port)
  {
    var s := FromSocketAddr(a);
    assert s.data[2..6] == s.data[2..14][..4];
  }

  /** `CloneArgs`; pointers are addresses, null being 0. */
  datatype CloneArgs = CloneArgs(stack: nat, flags: int, parentTid: nat, childTid: nat,
                                 tls: nat, initFn: nat, initArgv: nat)

  /** `CloneArgs::default`: every pointer null and no flags. */
  function DefaultCloneArgs(): (c: CloneArgs)
    ensures c.stack == 0 && c.flags == 0 && c.parentTid == 0 && c.childTid == 0
    ensures c.tls == 0 && c.initFn == 0 && c.initArgv == 0
  {
    CloneArgs(0, 0, 0, 0, 0, 0, 0)
  }
}

=== FILE: virt_mem.dfy ===
/** The per-process memory manager of the OS kit (`MemoryManager`): the
    argument checks of page allocation, the virtual-to-physical region
    maps and their lookups, and IPC-buffer frame numbers.

    Untyped retypes and page-table mapping are capability operations; their
    outcome enters as parameters. */
module VirtMem {
  import opened Base
  import opened Allocators

  /** `LARGE_PAGE_SIZE`: 2 MiB. */
  const LARGE_PAGE_SIZE: nat := 0x20_0000

  /** `AddrRange`: the half-open range `start..end`. */
  datatype AddrRange = AddrRange(start: nat, end: nat)

  datatype MemoryManager = MemoryManager(v2p: map<nat, AddrRange>, p2v: map<nat, AddrRange>,
                                         frames: VirtFrameAllocator)

  /** `MemoryManager::new`: empty maps and a frame allocator over the given window. */
  function NewManager(frameStart: nat, frameSize: nat): (m: MemoryManager)
    ensures m.v2p == map[] && m.p2v == map[] && m.frames.Valid()
    ensures m.frames == NewVirtFrameAllocator(frameStart, frameSize)
  {
    MemoryManager(map[], map[], NewVirtFrameAllocator(frameStart, frameSize))
  }

  /** `add_region`: record the region in both directions, replacing any
      earlier entry with the same start. */
  function AddRegion(m: MemoryManager, vaddr: nat, paddr: nat, size: nat): (m2: MemoryManager)
    ensures m2.v2p == m.v2p[vaddr := AddrRange(paddr, paddr + size)]
    ensures m2.p2v == m.p2v[paddr := AddrRange(vaddr, vaddr + size)]
    ensures m2.frames == m.frames
  {
    m.(v2p := m.v2p[vaddr := AddrRange(paddr, paddr + size)],
       p2v := m.p2v[paddr := AddrRange(vaddr, vaddr + size)])
  }

  /** A successful allocation: the physical address of the first frame
      and the virtual address each frame was mapped at. */
  datatype Mapped = Mapped(paddr: nat, pages: seq<nat>)

  /** `map_alloc` with `granule` `PAGE_SIZE`, `large_page_map_alloc` with
      `LARGE_PAGE_SIZE`. `frames` is the allocator's answer (the first
      frame's physical address, or its error) and `mapping` the outcome of
      mapping the frames. */
  function MapAlloc(m: MemoryManager, start: nat, size: nat, granule: nat,
                    frames: Result<nat, Sel4Error>, mapping: Result<(), Sel4Error>): (res: (MemoryManager, Result<Mapped, Sel4Error>))
    requires granule > 0
    ensures start % granule != 0 || size == 0 || size % granule != 0 ==>
      res == (m, Err(AlignmentError))
    ensures res.1.Ok? <==>
      start % granule == 0 && size != 0 && size % granule == 0 && frames.Ok? && mapping.Ok?
    ensures res.1.Ok? ==>
      && res.1.value.paddr == frames.value
      && |res.1.value.pages| == size / granule
      && (forall i :: 0 <= i < size / granule ==> res.1.value.pages[i] == start + i * granule)
      && res.0 == AddRegion(m, start, frames.value, size)
    ensures res.1.Err? ==> res.0 == m
  {
    if start % granule != 0 then (m, Err(AlignmentError))
    else if size % granule != 0 || size == 0 then (m, Err(AlignmentError))
    else match frames
      case Err(e) => (m, Err(e))
      case Ok(paddr) =>
        match mapping
        case Err(e) => (m, Err(e))
        case Ok(_) =>
          (AddRegion(m, start, paddr, size),
           Ok(Mapped(paddr, seq(size / granule, i => start + i * granule))))
  }

  /** The aligned-down lookup keys of an address. */
  function LargeKey(a: nat): nat { (a / LARGE_PAGE_SIZE) * LARGE_PAGE_SIZE }
  function SmallKey(a: nat): nat { (a / PAGE_SIZE) * PAGE_SIZE }

  /** A region lookup: the entry at `key`, offset by `delta`, if still
      inside the entry's range. */
  function Translate(r: AddrRange, delta: nat): Result<nat, Sel4Error>
  {
    if r.start + delta < r.end then Ok(r.start + delta) else Err(FailedLookup)
  }

  /** `virt_to_phys` as written: the large-page key is tried first and,
      when present, decides alone. The small-page key is tried only when
      no large-page entry exists, and its offset is still measured from
      the large-page key. */
  function VirtToPhys(m: MemoryManager, vaddr: nat): (res: Result<nat, Sel4Error>)
    ensures LargeKey(vaddr) in m.v2p ==> res == Translate(m.v2p[LargeKey(vaddr)], vaddr - LargeKey(vaddr))
    ensures LargeKey(vaddr) !in m.v2p && SmallKey(vaddr) in m.v2p ==>
      res == Translate(m.v2p[SmallKey(vaddr)], vaddr - LargeKey(vaddr))
    ensures LargeKey(vaddr) !in m.v2p && SmallKey(vaddr) !in m.v2p ==> res == Err(FailedLookup)
  {
    var lp := LargeKey(vaddr);
    var sp := SmallKey(vaddr);
    if lp in m.v2p then Translate(m.v2p[lp], vaddr - lp)
    else if sp in m.v2p then Translate(m.v2p[sp], vaddr - lp)
    else Err(FailedLookup)
  }

  /** `virt_to_phys` with the small-page offset measured from the
      small-page key, as `phys_to_virt` does. */
  function VirtToPhysFixed(m: MemoryManager, vaddr: nat): (res: Result<nat, Sel4Error>)
    ensures LargeKey(vaddr) in m.v2p ==> res == VirtToPhys(m, vaddr)
    ensures LargeKey(vaddr) !in m.v2p && SmallKey(vaddr) in m.v2p ==>
      res == Translate(m.v2p[SmallKey(vaddr)], vaddr - SmallKey(vaddr))
    ensures LargeKey(vaddr) !in m.v2p && SmallKey(vaddr) !in m.v2p ==> res == Err(FailedLookup)
  {
    var lp := LargeKey(vaddr);
    var sp := SmallKey(vaddr);
    if lp in m.v2p then Translate(m.v2p[lp], vaddr - lp)
    else if sp in m.v2p then Translate(m.v2p[sp], vaddr - sp)
    else Err(FailedLookup)
  }

  /** `phys_to_virt`: the mirror image, with the small-page offset measured
      from the small-page key. */
  function PhysToVirt(m: MemoryManager, paddr: nat): (res: Result<nat, Sel4Error>)
    ensures LargeKey(paddr) in m.p2v ==> res == Translate(m.p2v[LargeKey(paddr)], paddr - LargeKey(paddr))
    ensures LargeKey(paddr) !in m.p2v && SmallKey(paddr) in m.p2v ==>
      res == Translate(m.p2v[SmallKey(paddr)], paddr - SmallKey(paddr))
    ensures LargeKey(paddr) !in m.p2v && SmallKey(paddr) !in m.p2v ==> res == Err(FailedLookup)
  {
    var lp := LargeKey(paddr);
    var sp := SmallKey(paddr);
    if lp in m.p2v then Translate(m.p2v[lp], paddr - lp)
    else if sp in m.p2v then Translate(m.p2v[sp], paddr - sp)
    else Err(FailedLookup)
  }

  lemma KeysOfAligned(a: nat, off: nat, g: nat)
    requires g > 0 && a % g == 0 && off < g
    ensures ((a + off) / g) * g == a
  {
    ModUnique(a + off, g, a / g, off);
  }

  /** A page mapped alone at page-aligned (but not large-page-aligned)
      addresses: the corrected lookup maps each byte of the page to its
      physical counterpart, and `phys_to_virt` maps it back. */
  lemma SmallPageRoundTrip(v: nat, p: nat, off: nat)
    requires v % PAGE_SIZE == 0 && p % PAGE_SIZE == 0 && off < PAGE_SIZE
    requires v % LARGE_PAGE_SIZE != 0 && p % LARGE_PAGE_SIZE != 0
    ensures var m := AddRegion(NewManager(0, 0), v, p, PAGE_SIZE);
      VirtToPhysFixed(m, v + off) == Ok(p + off) && PhysToVirt(m, p + off) == Ok(v + off)
  {
    KeysOfAligned(v, off, PAGE_SIZE);
    KeysOfAligned(p, off, PAGE_SIZE);
    LargeKeyDiffers(v, off);
    LargeKeyDiffers(p, off);
  }

  /** Inside a page that is not large-page-aligned, the large-page key is
      not the page itself. */
  lemma LargeKeyDiffers(a: nat, off: nat)
    requires a % PAGE_SIZE == 0 && off < PAGE_SIZE && a % LARGE_PAGE_SIZE != 0
    ensures LargeKey(a + off) != a
  {
    var k := LargeKey(a + off);
    assert k % LARGE_PAGE_SIZE == 0 by {
      ModUnique(k, LARGE_PAGE_SIZE, (a + off) / LARGE_PAGE_SIZE, 0);
    }
  }

  /** The same page through the lookup as written fails: the offset from
      the large-page key lands past the end of the one-page region. */
  lemma VirtToPhysMissesSmallPage()
    ensures var m := AddRegion(NewManager(0, 0), 0x1000, 0x8_1000, PAGE_SIZE);
      VirtToPhys(m, 0x1010) == Err(FailedLookup) && VirtToPhysFixed(m, 0x1010) == Ok(0x8_1010)
  {
    SmallPageRoundTrip(0x1000, 0x8_1000, 0x10);
    assert LargeKey(0x1010) == 0;
    assert SmallKey(0x1010) == 0x1000;
  }

  /** A large-page-aligned region answers for every address inside it,
      both ways, in either version of the lookup. */
  lemma LargeRegionRoundTrip(v: nat, p: nat, size: nat, off: nat)
    requires v % LARGE_PAGE_SIZE == 0 && p % LARGE_PAGE_SIZE == 0
    requires off < size <= LARGE_PAGE_SIZE
    ensures var m := AddRegion(NewManager(0, 0), v, p, size);
      VirtToPhys(m, v + off) == Ok(p + off) && PhysToVirt(m, p + off) == Ok(v + off)
  {
    KeysOfAligned(v, off, LARGE_PAGE_SIZE);
    KeysOfAligned(p, off, LARGE_PAGE_SIZE);
  }

  /** `alloc_ipc_buffer`: the next virtual frame, at `vpn * PAGE_SIZE`;
      `NotEnoughMemory` when the frame allocator is exhausted. `mapping`
      is the outcome of allocating the page capability and mapping it
      (`alloc_page()?` and `map_page(..)?`); when it fails, its error is
      returned and the frame number stays taken. */
  function AllocIpcBuffer(m: MemoryManager, mapping: Result<(), Sel4Error>): (res: (MemoryManager, Result<nat, Sel4Error>))
    requires m.frames.Valid()
    ensures res.0.frames.Valid()
    ensures res.0 == m.(frames := VirtAlloc(m.frames).0)
    ensures VirtAlloc(m.frames).1.None? ==> res.1 == Err(NotEnoughMemory)
    ensures VirtAlloc(m.frames).1.Some? && mapping.Err? ==> res.1 == Err(mapping.error)
    ensures res.1.Err? ==> res.1.error == NotEnoughMemory || mapping == Err(res.1.error)
    ensures res.1.Ok? <==> VirtAlloc(m.frames).1.Some? && mapping.Ok?
    ensures res.1.Ok? ==> res.1.value == VirtAlloc(m.frames).1.value * PAGE_SIZE && res.1.value % PAGE_SIZE == 0
  {
    var (f2, vpn) := VirtAlloc(m.frames);
    match vpn
    case None => (m.(frames := f2), Err(NotEnoughMemory))
    case Some(n) =>
      match mapping
      case Err(e) => (m.(frames := f2), Err(e))
      case Ok(_) =>
        ModUnique(n * PAGE_SIZE, PAGE_SIZE, n, 0);
        (m.(frames := f2), Ok(n * PAGE_SIZE))
  }

  /** A fresh manager over a page-aligned window of at least one page
      hands out the window's first page as its first IPC buffer. */
  lemma FirstIpcBuffer(frameStart: nat, frameSize: nat)
    requires frameStart % PAGE_SIZE == 0 && frameSize >= PAGE_SIZE
    ensures AllocIpcBuffer(NewManager(frameStart, frameSize), Ok(())).1 == Ok(frameStart)
  {
    var q := frameStart / PAGE_SIZE;
    ModUnique(frameStart + PAGE_SIZE, PAGE_SIZE, q + 1, 0);
    DivMonotone(frameStart + PAGE_SIZE, frameStart + frameSize, PAGE_SIZE);
    assert q * PAGE_SIZE == frameStart;
  }

  /** `dealloc_ipc_buffer`: give the frame number back. */
  function DeallocIpcBuffer(m: MemoryManager, vaddr: nat): (m2: MemoryManager)
    requires m.frames.Valid()
    ensures m2.frames.Valid() && m2.v2p == m.v2p && m2.p2v == m.p2v
    ensures m2.frames == VirtDealloc(m.frames, vaddr / PAGE_SIZE)
    ensures var vpn := vaddr / PAGE_SIZE;
      vpn < m.frames.current && vpn !in m.frames.recycled ==> m2.frames.recycled == m.frames.recycled + [vpn]
    ensures var vpn := vaddr / PAGE_SIZE;
      !(vpn < m.frames.current && vpn !in m.frames.recycled) ==> m2 == m
  {
    m.(frames := VirtDealloc(m.frames, vaddr / PAGE_SIZE))
  }

  /** Once fresh frames are used up, a freed IPC buffer address is the
      next one handed out. */
  lemma IpcBufferReuse(m: MemoryManager)
    requires m.frames.Valid() && m.frames.current == m.frames.end
    requires AllocIpcBuffer(m, Ok(())).1.Ok?
    ensures var (m1, addr) := AllocIpcBuffer(m, Ok(()));
      AllocIpcBuffer(DeallocIpcBuffer(m1, addr.value), Ok(())).1 == addr
  {
    var (m1, addr) := AllocIpcBuffer(m, Ok(()));
    var vpn := VirtAlloc(m.frames).1.value;
    ModUnique(vpn * PAGE_SIZE, PAGE_SIZE, vpn, 0);
    var r := m.frames.recycled;
    assert vpn == r[|r| - 1];
    assert vpn !in m1.frames.recycled;
    VirtDeallocThenAlloc(m1.frames, vpn);
  }
}
